=== FILE: README.md ===
# Sectorama backend core in Dafny

This project models the backend of Sectorama, a disk-health and benchmark dashboard, and proves properties about that model. The backend covers five areas:

- **Discovery.** It discovers drives with `smartctl --scan` and `smartctl -i` and records them in a SQLite `drives` table.
- **SMART polling.** It polls SMART data into a per-drive `smart_cache` row and derives a health verdict from it.
- **Benchmarks.** It benchmarks drives with `fio`: a read-speed curve across the disk, then three fixed profiles. Measurements go to InfluxDB, and benchmark runs go to a `benchmark_runs` table with a pending → running → completed/failed lifecycle.
- **Schedules.** It runs benchmarks on cron schedules.
- **Notifications and live feed.** It evaluates alert transitions and sends them to webhook and Slack channels, and it broadcasts progress over a WebSocket live feed.

Everything is pure functions over immutable values:

- **Database.** A database table is a sequence of rows in rowid order. `findFirst` is the first matching row.
- **InfluxDB.** InfluxDB holds sequences of curve and profile records.
- **Live feed.** The live feed is a sequence of events.
- **Outside calls.** What the code asks of the outside world is a function-typed parameter of the operation that uses it:
  - the outcome of each `fio` process;
  - what `smartctl` prints and how it exits;
  - the sysfs sector count;
  - `JSON.parse`;
  - `fetch`, including how InfluxDB answers a delete;
  - whether each InfluxDB write flush settles or rejects;
  - `Date.parse` of a `_time` text;
  - base64;
  - `cron.validate`;
  - the text form of timestamps;
  - whether a socket is open or its write throws.
- **Effects.** An operation's effects are returned as its result: the new tables, the events sent, and the success or error of the call.

The modules follow the source files:

| module | source |
|---|---|
| `BenchmarkEngine` | sample offsets, the device path, the curve and profile loops of `executeBenchmark` |
| `BenchmarkLifecycle` | `executeBenchmark` as a whole: status transitions, writes and events |
| `BenchmarkRuns` | `createRun`, `deleteRun`, `purgeAllRuns` |
| `BenchmarkQueries` | writing measurements to InfluxDB and grouping query rows back by time and by profile |
| `BenchmarkReads` | `getRunDetail` and `getDriveSeries` |
| `BenchmarkProfiles` | the profile catalogue and the mock results' shape |
| `FioRunner` | `buildFioArgs`, `parseFioOutput`, `runFioJob` |
| `Health` | `deriveHealth` and its pending-sector threshold |
| `Smartctl`, `SmartService` | running `smartctl -x`, normalising its output, polling one drive and every drive |
| `DiskDiscovery` | `detectType`, `scanDisks`, `registerDrives`, `getDriveSummaries` |
| `AlertEvaluator` | `evaluateAlerts` |
| `NotificationService`, `Channels` | subscriber lookup, dispatch, and the webhook and Slack channels |
| `Scheduler`, `ScheduleRoutes` | the cron registry and the schedule routes that keep it in step with the table |
| `Stats` | the dashboard counters |
| `Cache` | the LRU cache helpers |
| `LiveFeed` | the WebSocket hub |

The supporting modules model JavaScript behaviour the core relies on:

- `Wrappers`: option and result types.
- `Text`: number rendering and `parseInt`, string order, `startsWith`, `indexOf`.
- `Json`: JavaScript values and property access.
- `Sorting`: `Array.prototype.sort` as a stable insertion sort.
- `OrderedMap`: a `Map` filled from query rows, in first-insertion order.
- `Shared`: the shared types.
- `Store`: database rows and InfluxDB records.

Behaviour of the code worth knowing:

- The live feed keeps no history. A client that connects during a benchmark sees only later events, and nothing is replayed.
- A `temperature_recovery` alert reaches only subscriptions to `temperature_recovery`. The subscription query matches the alert type exactly.
- On a disk no larger than one 128 MiB sample, every curve offset is 0.
- `executeBenchmark` does not check the run's current status. A finished run handed to it runs again.
- `evaluateAndNotify` must run before the SMART cache is updated, but `pollSmartForDrive` does not call it. The model shows that, called after the update, it never fires.
- A `PUT` that sets an invalid cron expression stores it. The schedule's previous timer keeps running.
- A `PUT` with none of `enabled`, `cronExpression` or `numPoints` is refused by the ORM (`No values to set`) and answered 500. Nothing changes.

Both curve read paths take the order of the time slots as a parameter. `ByText` compares the `_time` texts, as the code does. `ByInstant` orders by the instant each text denotes. The read-back round trips are proved for `ByInstant`; "## Findings" shows how `ByText` fails them.

## Model

| member | source | states |
|---|---|---|
| BenchmarkEngine.MaxOffset | packages/backend/src/services/benchmarkEngine.ts:43 | The largest sample offset is 0 exactly when the disk is no larger than one 128 MiB sample, and otherwise leaves exactly one sample before the end. |
| BenchmarkEngine.AlignDown | packages/backend/src/services/benchmarkEngine.ts:46 | The aligned offset is a multiple of 4096, at most the raw offset and less than 4096 below it. |
| BenchmarkEngine.ComputeOffsets | packages/backend/src/services/benchmarkEngine.ts:39-50 | One offset per requested point (none for a non-positive count), point i at fraction i/(n-1) of the largest offset, rounded down to the sector. |
| BenchmarkEngine.OffsetsAlignedAndBounded | packages/backend/src/services/benchmarkEngine.ts:39-50 | Every offset is sector-aligned, a full sample read from it stays on the disk, and a disk no larger than one sample is read only at 0. |
| BenchmarkEngine.OffsetsOrdered | packages/backend/src/services/benchmarkEngine.ts:41-47 | Offsets never decrease along the disk, the first is 0, and a single point is the offset list [0]. |
| BenchmarkEngine.FioDevicePath | packages/backend/src/services/benchmarkEngine.ts:27-30 | An NVMe controller path (`/dev/nvme` plus digits only) gets namespace `n1` appended; every other path is left alone. |
| BenchmarkEngine.FioDevicePathIdempotent | packages/backend/src/services/benchmarkEngine.ts:27-30 | Resolving a resolved path changes nothing: a namespace path is never extended twice. |
| BenchmarkEngine.CurveSuccesses | packages/backend/src/services/benchmarkEngine.ts:266-268 | The curve loop gets exactly as far as the first failing measurement: all before it succeed, and it fails or is the end. |
| BenchmarkEngine.ProfileSuccesses | packages/backend/src/services/benchmarkEngine.ts:285-309 | The profile loop gets exactly as far as the first failing profile job in catalogue order. |
| BenchmarkEngine.ExecuteBenchmark | packages/backend/src/services/benchmarkEngine.ts:218-224 | A missing run or a missing drive rejects with its message and touches nothing: no status change, no event. |
| BenchmarkEngine.CurveTraceShape | packages/backend/src/services/benchmarkEngine.ts:266-277 | Curve point k starts its fio job and then broadcasts a progress event with index k, the offset count and the measured speed, in point order. |
| BenchmarkEngine.ProfileTraceShape | packages/backend/src/services/benchmarkEngine.ts:285-309 | Profile k first broadcasts its progress event and then starts its catalogue job, in catalogue order. |
| BenchmarkLifecycle.BodyCurveFailure | packages/backend/src/services/benchmarkEngine.ts:266-280 | A failing curve measurement, or a rejected flush of the curve points, fails the run before anything is stored; a rejected flush fails it with the flush's error. |
| BenchmarkLifecycle.BodyProfileFailure | packages/backend/src/services/benchmarkEngine.ts:280-333 | A failing profile job, or a rejected flush of the profile results, fails the run after the whole curve was stored and before any profile result is; a rejected flush fails it with the flush's error. |
| BenchmarkLifecycle.BodySuccess | packages/backend/src/services/benchmarkEngine.ts:280-333 | When every job and both flushes succeed, the curve points and then the profile results are stored, the profiles stamped after the curve. |
| BenchmarkLifecycle.RunBodyFacts | packages/backend/src/services/benchmarkEngine.ts:241-333 | The work succeeds exactly when every measurement, every profile job and both flushes do; it only broadcasts progress and never touches a run row; the curve is stored exactly when every measurement and its flush succeed, one record per offset in order, and the profile results exactly when the whole work succeeds. |
| BenchmarkLifecycle.BodySuccessNeedsJobs | packages/backend/src/services/benchmarkEngine.ts:266-329 | Work that succeeds ran every curve measurement and every profile job successfully. |
| BenchmarkLifecycle.ProcessRunNeedsJson | packages/backend/src/services/fioRunner.ts:129-162 | With real fio processes, a run that succeeds had every one of its processes start and close with a `{` in its output; a spawn failure or output without JSON fails the run. |
| BenchmarkLifecycle.CurveStampsAscend | packages/backend/src/services/benchmarkEngine.ts:99-107 | The curve points of a run are stamped in strictly increasing order. |
| BenchmarkLifecycle.ExecuteRun | packages/backend/src/services/benchmarkEngine.ts:218-350 | A found run is marked running, announced, and finally marked completed or failed with the error; only its row changes, the measurements get exactly the work's writes, and the feed gets start, progress and the closing event. |
| BenchmarkRuns.NextRunId | packages/backend/src/services/benchmarkEngine.ts:201-208 | An inserted run gets an id above every existing row and above every id ever handed out. |
| BenchmarkRuns.CreateRun | packages/backend/src/services/benchmarkEngine.ts:195-209 | Creating a run appends one pending row stamped now and returns its fresh id; an unknown drive is rejected by the foreign key and changes nothing. |
| BenchmarkRuns.CreateKeepsCounted | packages/backend/src/services/benchmarkEngine.ts:195-209 | Creating a run keeps run ids unique and at or below the autoincrement counter. |
| BenchmarkRuns.TaggedRunIsRun | packages/backend/src/services/benchmarkEngine.ts:510-511 | The `run_id` tag selects a record exactly when it carries that run's id: distinct ids render as distinct texts. |
| BenchmarkRuns.DeleteInfluxData | packages/backend/src/db/influx.ts:44-66 | The delete settles exactly when InfluxDB answers with a 2xx status; any other status rejects with that status and the response body, and an unreachable server with the fetch error. |
| BenchmarkRuns.BothDeletes | packages/backend/src/services/benchmarkEngine.ts:509-512 | The two deletes of a call succeed together or the call fails, with the first delete's error when that one failed. |
| BenchmarkRuns.DeleteRunPoints | packages/backend/src/services/benchmarkEngine.ts:509-512 | Deleting a run's measurements removes exactly the curve and profile records of that run. |
| BenchmarkRuns.DeleteRun | packages/backend/src/services/benchmarkEngine.ts:499-514 | An unknown run is a no-op; a pending or running one is refused unchanged; otherwise each measurement loses the run's records when its own delete succeeds, and the row goes only when both succeed, the call failing with the delete error otherwise; the drives and the id counter never change. |
| BenchmarkRuns.DeleteAbsentIsNoop | packages/backend/src/services/benchmarkEngine.ts:501-502 | Deleting an id that no row carries succeeds and changes nothing. |
| BenchmarkRuns.FailedDeleteKeepsRun | packages/backend/src/services/benchmarkEngine.ts:509-513 | A delete that fails leaves the run's row in place. |
| BenchmarkRuns.DeleteRunTwice | packages/backend/src/services/benchmarkEngine.ts:499-514 | After a delete that succeeded, deleting the run again succeeds and changes nothing, however InfluxDB answers. |
| BenchmarkRuns.DeletedIdNotReused | packages/backend/src/services/benchmarkEngine.ts:499-514 | A run created after a deletion never gets the deleted id back. |
| BenchmarkRuns.ActiveRun | packages/backend/src/services/benchmarkEngine.ts:522-527 | Finds a pending or running run of the drive exactly when one exists. |
| BenchmarkRuns.PurgeAllRuns | packages/backend/src/services/benchmarkEngine.ts:517-536 | An unknown drive is a no-op; a drive with an active run is refused unchanged; otherwise each measurement loses the drive's records when its own delete succeeds, and the drive's run rows go only when both succeed, the call failing with the delete error otherwise; no other drive's rows change. |
| BenchmarkRuns.PurgeThenDeleteIsNoop | packages/backend/src/services/benchmarkEngine.ts:517-536 | After a purge that succeeded, deleting any former run of that drive finds nothing to do. |
| BenchmarkProfiles.Rank | packages/backend/src/services/benchmarkEngine.ts:182-189 | The sort key of a profile: its catalogue position, or -1 exactly when the name is not in the catalogue. |
| BenchmarkProfiles.RankOfEntry | packages/backend/src/services/benchmarkProfiles.ts:16-57 | Each catalogue entry ranks at its own position: the profile names are pairwise distinct. |
| BenchmarkProfiles.CatalogueShape | packages/backend/src/services/benchmarkProfiles.ts:16-57 | All three profiles run 30 s after a 5 s ramp at queue depth 1 over the whole device; the sequential-read profile is exactly the one with 1 MiB blocks and only the 4K random one runs 8 jobs. |
| BenchmarkProfiles.MockProfileResults | packages/backend/src/services/benchmarkProfiles.ts:62-169 | The stand-in results have one entry per catalogue profile, in catalogue order. |
| BenchmarkProfiles.MockFallsBackToHdd | packages/backend/src/services/benchmarkProfiles.ts:136-168 | Any drive type other than NVMe and SSD gets the HDD figures. |
| BenchmarkQueries.CurveSlotsOrdered | packages/backend/src/services/benchmarkEngine.ts:456-469 | The curve slots are one per distinct time text, sorted by the read's order: by comparing the texts as written (`ByText`), or by the instant each text denotes as corrected (`ByInstant`). |
| BenchmarkQueries.SlotIsLastWrite | packages/backend/src/services/benchmarkEngine.ts:462-464 | Within one time slot, the last `position` row and the last `speed_bps` row are the ones that count. |
| BenchmarkQueries.StoredSlots | packages/backend/src/services/benchmarkEngine.ts:456-466 | The rows written for a run group back into one full slot per point, in write order, whenever no two points share a time text. |
| BenchmarkQueries.CurveRoundTrip | packages/backend/src/services/benchmarkEngine.ts:91-110 | Ordered by instant, the corrected order of "## Findings", the curve read back from the rows `writeCurvePoints` stored is exactly the written points in order, for points stamped in increasing order whose time texts read back as their stamps. |
| BenchmarkQueries.TextOrderRoundTrip | packages/backend/src/services/benchmarkEngine.ts:456-477 | Ordered by text as written, the curve reads back correctly only when the time texts happen to sort like the times. |
| BenchmarkQueries.TextOrderSwapsPair | packages/backend/src/services/benchmarkEngine.ts:456-477 | Ordered by text as written, two points whose second time text sorts first are read back swapped. |
| BenchmarkQueries.TextOrderScramblesCurve | packages/backend/src/services/benchmarkEngine.ts:456-477 | Ordered by text as written, points stored 120 and 121 ms past a second come back in reverse order, on every date. |
| BenchmarkQueries.InstantOrderKeepsCurve | packages/backend/src/services/benchmarkEngine.ts:456-477 | Ordered by instant, the same two points come back in the order they were written. |
| BenchmarkQueries.RunProfilesFacts | packages/backend/src/services/benchmarkEngine.ts:156-189 | The results are exactly the collected profiles that have bandwidth and IOPS, sorted by catalogue rank. |
| BenchmarkQueries.ProfileEntryValue | packages/backend/src/services/benchmarkEngine.ts:164-177 | Each collected profile holds, per field, the value its last row of that field set. |
| BenchmarkQueries.ResultRowsFill | packages/backend/src/services/benchmarkEngine.ts:128-134 | The seven field rows written for a result fill in every field of it. |
| BenchmarkQueries.StoredEntries | packages/backend/src/services/benchmarkEngine.ts:156-179 | Grouping the rows written for distinct results gives one complete entry per result, in write order. |
| BenchmarkQueries.ProfilesRoundTrip | packages/backend/src/services/benchmarkEngine.ts:113-190 | Results with distinct names written in catalogue order are read back complete and in the same order. |
| BenchmarkQueries.RunProfilesOf | packages/backend/src/services/benchmarkEngine.ts:181-189 | Profiles that are all complete and already in catalogue order pass the filter and the sort unchanged. |
| BenchmarkReads.GetRunDetail | packages/backend/src/services/benchmarkEngine.ts:431-496 | Null exactly for an unknown run; a run whose drive has no serial comes back with no points and no profiles. The curve's slot order is a parameter: `ByText` is the code as written, `ByInstant` the correction of "## Findings". |
| BenchmarkReads.RunDetailReadsBack | packages/backend/src/services/benchmarkEngine.ts:431-496 | With slots ordered by instant, the corrected order of "## Findings": for a run whose queries return what the engine wrote, with points stamped in increasing order and time texts that read back as their stamps, the detail holds exactly the written points and every profile result, complete and in catalogue order. |
| BenchmarkReads.RunDetailTextReadsBack | packages/backend/src/services/benchmarkEngine.ts:456-477 | As written, with slots ordered by text, the detail holds the written points in order when their time texts sort like their times. |
| BenchmarkReads.DetailScramblesCurve | packages/backend/src/services/benchmarkEngine.ts:456-477 | As written, the detail of a run with points 120 and 121 ms past a second holds them swapped, on every date; ordered by instant it holds them as written. |
| BenchmarkReads.CompletedRuns | packages/backend/src/services/benchmarkEngine.ts:364-366 | The drive's completed runs are exactly its rows with status completed. |
| BenchmarkReads.MetaOf | packages/backend/src/services/benchmarkEngine.ts:370-393 | A run-id text finds a completed run exactly when one renders to it, and then that run. |
| BenchmarkReads.DriveSeries | packages/backend/src/services/benchmarkEngine.ts:358-428 | No series for an unknown drive or one without completed runs; the series come newest first. Each curve's slot order is a parameter: `ByText` is the code as written, `ByInstant` the correction of "## Findings". |
| BenchmarkReads.RunMapIsByTime | packages/backend/src/services/benchmarkEngine.ts:396-404 | The time map built for one run in the drive view is the one the run detail builds from the same rows. |
| BenchmarkReads.DriveSeriesSound | packages/backend/src/services/benchmarkEngine.ts:387-424 | Every series describes a completed run of the drive: its id, start time, its profile results, and the curve of that run's rows under the drive's serial in the read's slot order. With `ByText`, as written, that curve is text-ordered and can be scrambled ("## Findings"). |
| BenchmarkReads.DriveSeriesComplete | packages/backend/src/services/benchmarkEngine.ts:390-424 | A completed run has a series exactly when some curve row under the drive's serial carries its id. |
| BenchmarkReads.DriveSeriesNewestFirst | packages/backend/src/services/benchmarkEngine.ts:408-427 | One series per run, strictly newest first. |
| FioRunner.BuildFioArgs | packages/backend/src/services/fioRunner.ts:70-101 | Eleven fixed arguments in fixed places, followed by exactly one argument per present optional setting (two for a positive runtime). |
| FioRunner.DecodeBuildFioArgs | packages/backend/src/services/fioRunner.ts:70-101 | Every setting that reaches the command line can be read back from it; only non-positive durations, which fio is never given, are lost. |
| FioRunner.TimeBasedIffPositiveRuntime | packages/backend/src/services/fioRunner.ts:87-89 | `--time_based` is passed exactly when the runtime is positive. |
| FioRunner.ParseFioOutput | packages/backend/src/services/fioRunner.ts:104-126 | Fails exactly when there is no job array, it is empty, the first job is `null`, or its read block is missing or `null`, each with the text of the error thrown: the no-jobs message, or the TypeError of reading `read` from `null` or `clat_ns` from `null` or `undefined`; otherwise bandwidth is KiB/s times 1024, missing metrics are 0, the mean falls back from completion to total latency, the four percentiles are the `50`, `95`, `99` and `99.9` entries of `clat_ns.percentile` (each 0 when missing), and no such block means zero percentiles. |
| FioRunner.OnlyFirstJobRead | packages/backend/src/services/fioRunner.ts:111-112 | Jobs after the first never change the result. |
| FioRunner.TotalLatencyPercentilesIgnored | packages/backend/src/services/fioRunner.ts:113-124 | Percentiles are read only from completion latency; the total-latency block contributes at most its mean. |
| FioRunner.EmptyReadIsZero | packages/backend/src/services/fioRunner.ts:117-125 | An empty read block gives all-zero metrics. |
| FioRunner.RunFioJob | packages/backend/src/services/fioRunner.ts:140-160 | Output without `{` rejects with the exit code and both streams cut to 200 characters; success needs a closed process whose output holds `{`. |
| FioRunner.JsonDecides | packages/backend/src/services/fioRunner.ts:143-157 | Once the output holds `{`, the job succeeds exactly when the text from the first `{` parses into a report with a first job, and yields that result. |
| FioRunner.PrefixBeforeJsonIgnored | packages/backend/src/services/fioRunner.ts:141-152 | Text before the first `{` changes neither whether the job succeeds nor its result. |
| Health.DeriveHealth | packages/backend/src/utils/health.ts:5-21 | Failed exactly when the pass flag is false; otherwise warning exactly when some counter is truthy and over its bound; otherwise ok for a true flag and unknown for a missing one. |
| Health.PendingAtThresholdIsNotWarning | packages/backend/src/utils/health.ts:3-14 | Five pending sectors alone are not a warning; six are, unless the drive already failed. |
| Health.WarningIsMonotone | packages/backend/src/utils/health.ts:12-18 | With the pass flag fixed, raising any counter never turns a warning back into ok or unknown. |
| Smartctl.RunSmartctl | packages/backend/src/services/smartService.ts:51-66 | A zero exit parses stdout; after a non-zero exit a non-empty stdout that parses wins; otherwise the exit error is thrown. |
| SmartService.ParseAtaAttributes | packages/backend/src/services/smartService.ts:68-78 | One attribute per table row in table order, with its id, name, values and raw value; failing exactly when `when_failed` is neither empty nor `-`. |
| SmartService.ParseNvmeAttributes | packages/backend/src/services/smartService.ts:80-92 | Exactly the present fields among the six health-log fields, in increasing id order, with value, worst and raw equal, threshold 0 and never failing. |
| SmartService.FirstRaw | packages/backend/src/services/smartService.ts:161-163 | None exactly when no attribute has the id; otherwise the raw value of the first attribute with it. |
| SmartService.AttributeSource | packages/backend/src/services/smartService.ts:156-168 | An ATA table, even an empty one, wins and gives the counters of ids 5, 197 and 198; otherwise the NVMe log gives media errors and error-log entries and no pending count; with neither, nothing. |
| SmartService.Normalise | packages/backend/src/services/smartService.ts:142-181 | Each field of the reading is absent exactly when its object or the field is absent: nothing is defaulted to 0. |
| SmartService.AtaTakesPrecedence | packages/backend/src/services/smartService.ts:159-168 | With an ATA table present, whatever the NVMe log says is ignored. |
| SmartService.NvmeCounters | packages/backend/src/services/smartService.ts:164-168 | An NVMe-only drive never reports pending sectors, and its reallocated and uncorrectable counts are the log's media errors and error-log entries. |
| SmartService.AtaCounterIsFirstMatch | packages/backend/src/services/smartService.ts:159-163 | Each ATA counter is the raw value of the first attribute with its id, and absent when no attribute has it. |
| SmartService.LocalDeriveHealth | packages/backend/src/services/smartService.ts:94-106 | The service's own copy of the health rule classifies every input as the shared one does. |
| SmartService.UpsertCache | packages/backend/src/services/smartService.ts:222-246 | After the upsert the drive's cache row is the new one and every other drive's row is unchanged. |
| SmartService.ReadDrive | packages/backend/src/services/smartService.ts:137-182 | The reading is the normalised smartctl output stamped now, or the smartctl error. |
| SmartService.PollSmartForDrive | packages/backend/src/services/smartService.ts:129-258 | An unknown drive gives null and touches nothing; a failed poll throws and touches nothing; a successful one replaces the drive's cache row and broadcasts one update with the derived health. |
| SmartService.Connected | packages/backend/src/services/smartService.ts:263-265 | The drives polled are exactly the connected ones. |
| SmartService.PollEachEvents | packages/backend/src/services/smartService.ts:266-272 | Polling every drive broadcasts exactly the updates of the drives whose own poll succeeds, in order; one failure costs only its own update. |
| SmartService.PollEachKeepsOthers | packages/backend/src/services/smartService.ts:266-272 | A drive whose poll throws, or that is not polled, keeps its cache row. |
| DiskDiscovery.DetectType | packages/backend/src/services/diskDiscovery.ts:102-109 | NVMe exactly when the protocol (any case) or the scan type is nvme; otherwise SSD for a rotation rate of 0, null or missing, HDD for a positive number, and Unknown otherwise. |
| DiskDiscovery.UpperCaseProtocolIsNvme | packages/backend/src/services/diskDiscovery.ts:103-104 | A protocol spelled `NVMe` marks the drive NVMe whatever its rotation rate. |
| DiskDiscovery.Rpm | packages/backend/src/services/diskDiscovery.ts:174 | The rpm is stored exactly when the rotation rate is a positive number. |
| DiskDiscovery.Capacity | packages/backend/src/services/diskDiscovery.ts:152-164 | smartctl's capacity when present and non-zero; otherwise a positive sysfs sector count times 512; otherwise 0. |
| DiskDiscovery.Discover | packages/backend/src/services/diskDiscovery.ts:137-185 | A device is skipped exactly when its info query throws or it has no serial; otherwise it yields the drive with each field taken from its source or default. |
| DiskDiscovery.DiscoverAll | packages/backend/src/services/diskDiscovery.ts:136-188 | The drives found are exactly those of the devices that are not skipped, one skipped device dropping only itself. |
| DiskDiscovery.ScanDisks | packages/backend/src/services/diskDiscovery.ts:128-189 | The scan fails exactly when the scan query throws; otherwise every device is queried on its own. |
| DiskDiscovery.UpsertDrive | packages/backend/src/services/diskDiscovery.ts:198-237 | Every row with the serial is refreshed, keeping its id and first sighting, or one new row is appended; no other row changes. |
| DiskDiscovery.UpsertAll | packages/backend/src/services/diskDiscovery.ts:197-238 | After the upserts every discovered serial has a connected row seen now; rows of unfound serials are untouched and new rows are only appended. |
| DiskDiscovery.MarkMissing | packages/backend/src/services/diskDiscovery.ts:240-248 | A connected row whose serial the scan missed is marked disconnected and nothing else about it changes; every other row stays as it was. |
| DiskDiscovery.MarkMissingKeepsSerials | packages/backend/src/services/diskDiscovery.ts:240-248 | Marking rows disconnected never loses a serial. |
| DiskDiscovery.RegisterDrives | packages/backend/src/services/diskDiscovery.ts:192-249 | A row is connected exactly when the scan found its serial; found rows are seen now, missed rows only lose their connection, and no row is deleted. |
| DiskDiscovery.UpsertAllCarries | packages/backend/src/services/diskDiscovery.ts:198-237 | With distinct serials in the scan, each discovered drive's row holds exactly what the scan reported for it. |
| DiskDiscovery.RegisteredDriveCarries | packages/backend/src/services/diskDiscovery.ts:192-249 | After registration with distinct serials, each discovered drive's row carries its scanned fields, connected and seen now. |
| DiskDiscovery.UpsertAllKeepsIdsDistinct | packages/backend/src/services/diskDiscovery.ts:221-236 | Drive ids stay unique across upserts. |
| DiskDiscovery.SummaryHealth | packages/backend/src/services/diskDiscovery.ts:268-270 | The summary health is failed or ok exactly as the cached pass flag says, unknown otherwise, and never warning. |
| DiskDiscovery.GetDriveSummaries | packages/backend/src/services/diskDiscovery.ts:252-276 | One summary per drive row, in table order, carrying the row's id, serial, device path, vendor, model, capacity, type and connection flag, the health its cache row gives, and that row's temperature and poll time when it has one; no last benchmark run is ever set. |
| AlertEvaluator.EvaluateAlerts | packages/backend/src/services/notifications/alertEvaluator.ts:15-78 | Each alert type is raised exactly when its transition condition holds, at most two alerts, in evaluation order, each carrying the drive and time; smart_error has the fixed message and no value, the temperature and recovery alerts carry the reading's temperature, the threshold and the message rendered from both. |
| AlertEvaluator.TypesOfAlerts | packages/backend/src/services/notifications/alertEvaluator.ts:24-75 | The alert types raised are the three firing conditions read in order. |
| AlertEvaluator.TemperatureAlertsExclusive | packages/backend/src/services/notifications/alertEvaluator.ts:40-63 | A temperature alert and a recovery never fire together. |
| AlertEvaluator.NoRecoveryWithoutCache | packages/backend/src/services/notifications/alertEvaluator.ts:58-64 | No recovery fires without a cached previous reading. |
| AlertEvaluator.SteadyStateIsSilent | packages/backend/src/services/notifications/alertEvaluator.ts:24-75 | A reading equal in health and temperature to the cached one raises nothing. |
| AlertEvaluator.AlertTrace | packages/backend/src/services/notifications/alertEvaluator.ts:15-78 | A series of readings, each evaluated against the cache the previous one left, gives one list of alert types per reading. |
| AlertEvaluator.CoolingTail | packages/backend/src/services/notifications/alertEvaluator.ts:40-75 | A hot reading after a hot one is silent; a cool one after it recovers. |
| AlertEvaluator.WarmingTail | packages/backend/src/services/notifications/alertEvaluator.ts:40-75 | From a cool reading, the first hot one alerts, the next is silent, the cool one after recovers. |
| AlertEvaluator.CrossingTrace | packages/backend/src/services/notifications/alertEvaluator.ts:40-75 | A temperature that rises above the threshold for two readings and falls back raises one alert going up and one recovery coming down. |
| NotificationService.ChannelsOf | packages/backend/src/services/notifications/notificationService.ts:43-53 | A subscription joins exactly the channels with its channel id. |
| NotificationService.SubscribersAreTheJoin | packages/backend/src/services/notifications/notificationService.ts:43-53 | The join rows found for an alert are exactly the pairs of a subscription to its type and the channel it names. |
| NotificationService.AlertTypeNameInjective | packages/backend/src/services/notifications/notificationService.ts:53 | Distinct alert types have distinct tags, so a recovery never reaches a `temperature` subscription. |
| NotificationService.Threshold | packages/backend/src/services/notifications/notificationService.ts:26-29 | The drive's own threshold when it has an override row, else the default. |
| NotificationService.Planned | packages/backend/src/services/notifications/notificationService.ts:42-67 | The dispatcher visits every enabled join row of every alert exactly once, alert by alert and in join order. |
| NotificationService.DispatchAlert | packages/backend/src/services/notifications/notificationService.ts:55-66 | One alert is sent to each enabled join row of its type in join order; disabled channels are skipped. |
| NotificationService.Dispatch | packages/backend/src/services/notifications/notificationService.ts:42-67 | Each planned send is made once, in plan order, and its outcome is its own delivery's, whatever the others did. |
| NotificationService.EvaluateAndNotify | packages/backend/src/services/notifications/notificationService.ts:15-68 | An unknown drive does nothing; otherwise the alerts are evaluated against the cache as it was and the drive's threshold, each alert queries its subscribers and every planned send is attempted. |
| NotificationService.SilentAfterCacheUpdate | packages/backend/src/services/notifications/notificationService.ts:13-39 | Evaluated against the cache row of the same reading, nothing ever fires: the dispatcher must run before the cache update. |
| NotificationService.SendsMatchExactly | packages/backend/src/services/notifications/notificationService.ts:53-58 | Every send goes to an enabled channel subscribed to the alert's exact type. |
| NotificationService.SentOnce | packages/backend/src/services/notifications/notificationService.ts:42-67 | No planned send repeats: each pair of an alert and a join row is sent at most once. |
| NotificationService.SlackValueFieldForTemperatureAlerts | packages/backend/src/services/notifications/channels/SlackChannel.ts:23-25 | Temperature and recovery alerts reach Slack with a Value field; smart_error alerts never do. |
| Channels.CreateChannel | packages/backend/src/services/notifications/channelFactory.ts:6-12 | `webhook` and `slack` build their channel with the configuration unchanged; any other tag throws naming it. |
| Channels.WebhookHeaders | packages/backend/src/services/notifications/channels/WebhookChannel.ts:8-15 | JSON content type first, then an Authorization header only for basic or bearer auth; a missing auth object throws. |
| Channels.WebhookRequest | packages/backend/src/services/notifications/channels/WebhookChannel.ts:8-21 | The alert itself is POSTed to the configured URL with those headers. |
| Channels.Post | packages/backend/src/services/notifications/channels/WebhookChannel.ts:17-25 | A send succeeds exactly when fetch resolves with a 2xx status; a non-2xx status throws with status and text. |
| Channels.SlackTitle | packages/backend/src/services/notifications/channels/SlackChannel.ts:8-9 | Temperature alerts get the thermometer and "Temperature Alert", every other type, recoveries included, the warning sign and "SMART Health Error". |
| Channels.SlackFields | packages/backend/src/services/notifications/channels/SlackChannel.ts:19-26 | Drive, serial and message fields, then a Value field exactly when the alert has a value. |
| Channels.SlackBlocks | packages/backend/src/services/notifications/channels/SlackChannel.ts:11-33 | Header, section and context blocks, the context carrying the timestamp. |
| Channels.SlackRequest | packages/backend/src/services/notifications/channels/SlackChannel.ts:35-39 | The payload is POSTed to the configured webhook URL with the JSON content type. |
| Channels.Send | packages/backend/src/services/notifications/channels/WebhookChannel.ts:7-26 | A send succeeds exactly when the request can be built and fetch answers 2xx. |
| Channels.NoAuthHeaderOtherwise | packages/backend/src/services/notifications/channels/WebhookChannel.ts:10-15 | An auth type other than basic or bearer adds no Authorization header. |
| Channels.ContentTypeFirst | packages/backend/src/services/notifications/channels/WebhookChannel.ts:8 | Every request of either channel carries the JSON content type first. |
| Scheduler.RegisterSchedule | packages/backend/src/services/scheduler.ts:36-53 | An invalid expression is refused and changes nothing; a valid one stops the id's previous task and installs the new one, no other id changing. |
| Scheduler.UnregisterSchedule | packages/backend/src/services/scheduler.ts:56-63 | The id's task, if any, is stopped and removed; nothing else changes. |
| Scheduler.ReRegisterReplaces | packages/backend/src/services/scheduler.ts:41-50 | Registering an id twice leaves only the second task, the first one stopped. |
| Scheduler.UnregisterUndoesRegister | packages/backend/src/services/scheduler.ts:36-63 | Unregistering a freshly registered id restores the registry. |
| Scheduler.InitScheduler | packages/backend/src/services/scheduler.ts:66-74 | After start-up exactly the enabled rows with a valid expression have a task, besides those already running. |
| Scheduler.InitRegistersEnabledOnly | packages/backend/src/services/scheduler.ts:68-72 | A disabled schedule gets no task at start-up. |
| Scheduler.ConnectedIds | packages/backend/src/services/scheduler.ts:17 | The ids selected are exactly those of the connected drives. |
| Scheduler.Targets | packages/backend/src/services/scheduler.ts:15-17 | A truthy drive id targets only that drive; a null or 0 one targets every connected drive. |
| Scheduler.ZeroMeansAll | packages/backend/src/services/scheduler.ts:15-17 | A schedule for drive 0 benchmarks every connected drive, not drive 0. |
| Scheduler.SetLastRun | packages/backend/src/services/scheduler.ts:30-32 | Only the schedule's own row gets `lastRun` set. |
| Scheduler.RunSchedule | packages/backend/src/services/scheduler.ts:11-33 | One run is attempted per target in order, a failing insert skipping only its drive; new rows are pending scheduled runs stamped now; `lastRun` is stamped whatever happened. |
| Scheduler.PollCron | packages/backend/src/services/scheduler.ts:80-82 | From an hour up the expression is `0 */h * * *` whose step field reads back as the whole number of hours; below an hour it is `*/n * * * *` whose step field reads back as the minutes. |
| Scheduler.PollCronHours | packages/backend/src/services/scheduler.ts:80-81 | From an hour up, intervals with the same whole number of hours give the same expression. |
| Scheduler.PollCronMinutes | packages/backend/src/services/scheduler.ts:80-82 | Below an hour, each interval gets its own expression. |
| Scheduler.PollCronForms | packages/backend/src/services/scheduler.ts:80-82 | The hourly and the minute forms never coincide. |
| ScheduleRoutes.NextScheduleId | packages/backend/src/routes/schedules/index.ts:36-44 | A new schedule gets an id above every row and every id handed out. |
| ScheduleRoutes.Post | packages/backend/src/routes/schedules/index.ts:31-49 | Stores an enabled row with the body's fields and 11 points by default, then registers it only when the expression is valid. |
| ScheduleRoutes.Patch | packages/backend/src/routes/schedules/index.ts:59-64 | Only the fields present in the body change; id, drive, timestamps and last run stay. |
| ScheduleRoutes.EmptyPatch | packages/backend/src/routes/schedules/index.ts:59-62 | A body with no field would write nothing over the row; the route rejects such a body before that (`ScheduleRoutes.EmptyPutRejected`). |
| ScheduleRoutes.EmptyPutRejected | packages/backend/src/routes/schedules/index.ts:59-64 | A PUT body with none of the three fields makes the update throw the ORM's `No values to set`, so the route answers 500 and neither the table nor the registry changes, even for an enabled row. |
| ScheduleRoutes.UpdateRows | packages/backend/src/routes/schedules/index.ts:64 | The update patches exactly the rows with the id. |
| ScheduleRoutes.FindAfterUpdate | packages/backend/src/routes/schedules/index.ts:64-66 | The row read back after the update is the patched original. |
| ScheduleRoutes.Reconcile | packages/backend/src/routes/schedules/index.ts:68-73 | An enabled row is re-registered when its expression is valid and kept as it was otherwise; a disabled row loses its task; other ids keep theirs. |
| ScheduleRoutes.PutSchedule | packages/backend/src/routes/schedules/index.ts:52-76 | An unknown id is 404 and changes nothing; a body with no known field is rejected with nothing changed; otherwise the present fields are written and the registry reconciled with the updated row. |
| ScheduleRoutes.InvalidCronKeepsOldTimer | packages/backend/src/routes/schedules/index.ts:59-73 | An update to an invalid expression is stored while the previous task keeps running. |
| ScheduleRoutes.InvalidCronStillStored | packages/backend/src/routes/schedules/index.ts:36-45 | A POST with an invalid expression still stores an enabled row, with no task behind it. |
| ScheduleRoutes.DeleteSchedule | packages/backend/src/routes/schedules/index.ts:79-86 | Deleting unregisters the id and removes its rows; every other task and row stays. |
| ScheduleRoutes.DeleteIdempotent | packages/backend/src/routes/schedules/index.ts:79-86 | Deleting twice is deleting once. |
| Stats.LeftJoin | packages/backend/src/routes/public/stats.ts:13-24 | One row per drive, carrying its cache row's health columns or nulls. |
| Stats.CountConnected | packages/backend/src/routes/public/stats.ts:50 | The connected count is at most the drive count and 0 exactly when no drive is connected. |
| Stats.HealthPartition | packages/backend/src/routes/public/stats.ts:27-38 | The four health counts add up to the connected count: every connected drive falls in exactly one class. |
| Stats.BucketsBounded | packages/backend/src/routes/public/stats.ts:26-38 | Healthy, warning and failed together never exceed the connected drives: unknown is not counted. |
| Stats.DisconnectedNotCounted | packages/backend/src/routes/public/stats.ts:28 | A disconnected drive is never counted, whatever its cache says. |
| Stats.CountBuckets | packages/backend/src/routes/public/stats.ts:26-38 | The loop counts, among connected drives, exactly those whose derived health is ok, warning and failed. |
| Stats.MaxFromIsMax | packages/backend/src/routes/public/stats.ts:46 | The fold yields its start or one of the strings, and nothing is above it. |
| Stats.LastScanTimeIsLatest | packages/backend/src/routes/public/stats.ts:43-55 | Null exactly when every last-seen is empty; otherwise the last-seen of some drive that no drive's exceeds, disconnected ones included. |
| Stats.ComputeStats | packages/backend/src/routes/public/stats.ts:9-59 | The counters are the drive count, the connected count, the three health buckets, the run count and the latest sighting, with buckets within connected within total. |
| Cache.Lookup | packages/backend/src/services/cache.ts:38 | A key gives its value exactly when the cache holds it. |
| Cache.Put | packages/backend/src/services/cache.ts:41 | After storing, the key reads back the value (an undefined value removes it) and no other key changes. |
| Cache.GetOrCompute | packages/backend/src/services/cache.ts:33-43 | A hit returns the cached value without calling the function; a miss calls it once and stores what it resolves to; a rejection propagates and stores nothing. |
| Cache.SecondCallHits | packages/backend/src/services/cache.ts:33-43 | After a miss that produced a value, the next call is a hit for the same value. |
| Cache.UndefinedIsNotCached | packages/backend/src/services/cache.ts:38-41 | An undefined result is not remembered: the next call computes again. |
| Cache.InvalidatePrefix | packages/backend/src/services/cache.ts:53-57 | Exactly the keys with the prefix go; the others keep their values. |
| Cache.DeleteMatching | packages/backend/src/services/cache.ts:54-56 | The key walk deletes exactly the keys with the prefix, whatever order it takes. |
| Cache.InvalidatePrefixIdempotent | packages/backend/src/services/cache.ts:53-57 | Invalidating a prefix twice is invalidating it once. |
| Cache.EmptyPrefixClears | packages/backend/src/services/cache.ts:53-57 | The empty prefix clears the cache. |
| Cache.InvalidatedKeyRecomputes | packages/backend/src/services/cache.ts:33-57 | After invalidating a prefix, any key with it misses and computes. |
| Cache.InvalidateAll | packages/backend/src/services/cache.ts:46-50 | Only the short cache is cleared; the long and image caches are untouched. |
| Cache.InvalidateAllKeepsLong | packages/backend/src/services/cache.ts:46-50 | After invalidating all, short-cache keys recompute while the long cache still answers from what it held. |
| LiveFeed.Add | packages/backend/src/ws/liveFeed.ts:11 | The socket joins the set; one already present is not added twice. |
| LiveFeed.Remove | packages/backend/src/ws/liveFeed.ts:13-19 | Exactly the given socket leaves the set. |
| LiveFeed.Connect | packages/backend/src/ws/liveFeed.ts:10-23 | A new socket joins and is sent `connected` with the set size, itself included. |
| LiveFeed.Disconnect | packages/backend/src/ws/liveFeed.ts:13-19 | A closing or failing socket leaves the set and no other does. |
| LiveFeed.DisconnectUndoesConnect | packages/backend/src/ws/liveFeed.ts:11-19 | A socket that connects and closes leaves the set as it was. |
| LiveFeed.BroadcastOver | packages/backend/src/ws/liveFeed.ts:29-37 | Every open socket whose write does not throw receives the event once, in set order; a throwing write drops exactly that socket; closed sockets are skipped and kept. |
| LiveFeed.Broadcast | packages/backend/src/ws/liveFeed.ts:27-38 | The same event goes to every open socket; a socket leaves only when writing to it throws. |
| LiveFeed.MembersCount | packages/backend/src/ws/liveFeed.ts:40-42 | With each socket held once, the count is the number of distinct sockets. |
| LiveFeed.ClientCount | packages/backend/src/ws/liveFeed.ts:40-42 | The client count is the size of the set. |
| LiveFeed.LateJoinerMissesEvent | packages/backend/src/ws/liveFeed.ts:6-38 | Nothing is replayed: a socket that joins after an event never receives it and is sent only its `connected` frame. |
| LiveFeed.ClosedSocketsKept | packages/backend/src/ws/liveFeed.ts:31 | Sockets that are not open receive nothing and are never dropped. |
| Sorting.SortBySorted | packages/backend/src/services/benchmarkEngine.ts:181-189 | Under any total preorder the sorted sequence is in order. |
| Sorting.SortBySameElements | packages/backend/src/services/benchmarkEngine.ts:181-189 | Sorting keeps exactly the elements it was given. |
| Sorting.SortByOfSorted | packages/backend/src/services/benchmarkEngine.ts:181-189 | A sequence already in order comes back unchanged. |
| OrderedMap.FoldValue | packages/backend/src/services/benchmarkEngine.ts:156-179 | Each Map entry holds what the rows with its key make of its blank value, in row order. |
| Text.ParseIntToString | packages/backend/src/services/benchmarkEngine.ts:417 | Parsing a rendered run id gives the run id back. |
| Text.IntToStringInjective | packages/backend/src/services/benchmarkEngine.ts:393 | Distinct run ids render as distinct tag texts. |
| Text.IndexOf | packages/backend/src/services/fioRunner.ts:143 | The first position of the character, or -1 exactly when it does not occur. |
| Json.Get | packages/backend/src/services/notifications/channels/WebhookChannel.ts:10 | Reading a property throws exactly on undefined and null, with V8's message naming the property and which of the two it was, and gives the property of an object that has it. |

## Left out

- BenchmarkEngine.ComputeOffsets: the offsets use exact integer floor division where the source divides JavaScript doubles. The source rounds `i / (n - 1)` first, so when `i * maxOffset / (n - 1)` is an exact multiple of 4096 its offset can come out one 4096-byte step lower: for a capacity of 4000787030016 bytes and 100 points, at i = 27 and i = 54. The model does not reproduce that rounding.
- Json: numbers are integers, so a fractional value such as a `rotation_rate` or temperature in smartctl's JSON is not represented.
- BenchmarkQueries.CurveRoundTrip: it requires that `instant` reads each stored time text back as the point's timestamp. RFC 3339 rendering and `Date.parse` are parameters, not modelled character by character.
- BenchmarkReads.RunDetailReadsBack: it is proved for the instant order, the correction of "## Findings", not for the text order the code uses, and it requires the same reading of time texts. For the code as written, BenchmarkReads.RunDetailTextReadsBack gives the round trip only for time texts that sort like their times, and BenchmarkReads.DetailScramblesCurve shows two points coming back swapped otherwise.
- BenchmarkReads.DriveSeriesSound: for the code as written (`ByText`), "the curve" of a series is the text-ordered one, not the written order of the points.
- ScheduleRoutes.PutSchedule: the refusal of an empty update comes from the ORM, which is not part of this model. Its message is taken to be `No values to set`.
- AlertEvaluator.AlertTrace: it states only the trace's length. `AlertEvaluator.CoolingTail`, `AlertEvaluator.WarmingTail` and `AlertEvaluator.CrossingTrace` state its content for temperatures that cross the threshold and come back.
- InfluxDB is two sequences of records; each query is a parameter returning rows. The Flux text, the range filter, pivoting and the SMART history writes and queries (`getSmartHistory`, the `smart_readings` and `smart_attributes` points) are not modelled. A failed flush of the SMART writes appears only as an error of the poll.
- A rejected benchmark flush is modelled as storing none of its points. The write client's retry buffer, which may still deliver them later or with another flush, is not modelled.
- BenchmarkRuns.DeleteRun: when both InfluxDB deletes fail, the call fails with the points delete's error. The source rejects with whichever fails first in time, which the model does not track. The same holds for BenchmarkRuns.PurgeAllRuns.
- A delete request whose response body cannot be read is left out: the body is part of the answer.
- Mock mode (`config.disk.mock`) is left out everywhere except the shape of `mockProfileResults`. Its random jitter is a parameter.
- LRU eviction, time-to-live, the cache sizes (500, 1000, 200) and `allowStale` are left out: an expired or evicted key is simply absent.
- `registerLiveFeed`'s HTTP upgrade, the JSON framing of events and a throwing `connected` acknowledgement are left out. Sockets are integer handles.
- The stats left join assumes at most one cache row per drive, which the primary key guarantees. `Number(cnt ?? 0)` is the length of the runs table.
- `JSON.stringify` of alerts and Slack payloads is abstract: a body is the value it would encode. The emoji are their code points.
- `toLowerCase` is modelled for ASCII letters only; protocol names are ASCII.
- `parseInt` is exact on the decimal texts the code produces (`Text.ParseIntToString`). The route's `parseInt(id)` on arbitrary text, and its `NaN` case, are left out: route ids are integers.
- `GET /api/v1/schedules` and its row mapping are read-only listings and are left out.
- node-cron itself is left out. `cron.validate` is a parameter, and a registered task is a record of what it would run, not a timer.
- Time is a single `now` per operation, and timestamps are the texts the code stores.
- `executeBenchmark` is started without being awaited. Concurrent runs and the interleaving of their writes are not modelled: each call is one atomic step.
- Console logging is left out everywhere.
- SQLite AUTOINCREMENT is a counter above every id ever handed out for runs and schedules. Drives are never deleted, so a drive id is one more than the largest.
- The `numPoints ?? config.benchmark.numPoints` fallback is left out: the column is never null, so the model uses the run's own count.
- The SMART poller's start-up (`initSmartPoller`) is modelled only as the cron expression it builds from the interval.

## Findings

| source | as written | input that shows it | evidently intended | confidence | as-written member | corrected member |
|---|---|---|---|---|---|---|
| packages/backend/src/services/benchmarkEngine.ts:468-469 | the curve's time slots are sorted by comparing their `_time` texts | two points stamped 120 and 121 ms past a second come back as `….12Z` and `….121Z`, and `….12Z` sorts after `….121Z` because `Z` comes after `1`; likewise a whole second `…:00Z` sorts after `…:00.001Z` | sort the slots by the instant each text denotes, so the curve comes back in write order | likely, not executed | BenchmarkReads.DetailScramblesCurve | BenchmarkReads.RunDetailReadsBack |

=== FILE: alert_evaluator.dfy ===
/** `evaluateAlerts` of
    packages/backend/src/services/notifications/alertEvaluator.ts: which
    alerts a new SMART reading raises against the cached previous one. Each
    alert fires on a transition only: once when its condition starts, then
    not again until it has cleared. */
module AlertEvaluator {
  import opened Wrappers
  import opened Text
  import opened Shared
  import opened Store

  datatype DriveInfo = DriveInfo(driveId: int, serial: string, model: string)

  const SmartErrorMessage := "SMART self-assessment test reported FAILURE. Drive health check failed."

  /** The previous pass flag, null or absent read as passing. */
  predicate WasPassing(prev: Option<SmartCacheRow>) {
    prev.None? || prev.value.healthPassed != Some(false)
  }

  /** The previous temperature, null or absent read as 0. */
  function OldTemperature(prev: Option<SmartCacheRow>): int {
    if prev.Some? && prev.value.temperature.Some? then prev.value.temperature.value else 0
  }

  /** smart_error: the drive fails now and did not fail before. */
  predicate FiresSmartError(reading: SmartReading, prev: Option<SmartCacheRow>) {
    reading.healthPassed == Some(false) && WasPassing(prev)
  }

  /** temperature: the reading is above the threshold and the previous one (0
      when missing) was not. */
  predicate FiresTemperature(reading: SmartReading, prev: Option<SmartCacheRow>, threshold: int) {
    reading.temperature.Some? && reading.temperature.value > threshold && OldTemperature(prev) <= threshold
  }

  /** temperature_recovery: the reading is at or below the threshold and a
      cached temperature above it exists. */
  predicate FiresRecovery(reading: SmartReading, prev: Option<SmartCacheRow>, threshold: int) {
    && reading.temperature.Some? && reading.temperature.value <= threshold
    && prev.Some? && prev.value.temperature.Some? && prev.value.temperature.value > threshold
  }

  /** The position of an alert type in the evaluation order. */
  function Order(t: AlertType): nat {
    match t
    case SmartError => 0
    case Temperature => 1
    case TemperatureRecovery => 2
  }

  predicate HasType(alerts: seq<Alert>, t: AlertType) {
    exists i :: 0 <= i < |alerts| && alerts[i].alertType == t
  }

  function TemperatureMessage(t: int, threshold: int): string {
    "Drive temperature " + IntToString(t) + "°C exceeds threshold of " + IntToString(threshold) + "°C."
  }

  function RecoveryMessage(t: int, threshold: int): string {
    "Drive temperature " + IntToString(t) + "°C is back at or below threshold of " + IntToString(threshold) + "°C."
  }

  /** An alert of `info` stamped `now`: smart_error alerts carry the fixed
      message and no value, the temperature alerts the reading's temperature
      and the threshold, with their message rendered from both. */
  predicate Carries(a: Alert, info: DriveInfo, reading: SmartReading, threshold: int, now: string) {
    && a.driveId == info.driveId && a.driveSerial == info.serial
    && a.driveModel == info.model && a.timestamp == now
    && (if a.alertType == SmartError
        then a.value.None? && a.threshold.None? && a.message == SmartErrorMessage
        else
          && reading.temperature.Some? && a.value == reading.temperature && a.threshold == Some(threshold)
          && a.message == (if a.alertType == Temperature then TemperatureMessage(reading.temperature.value, threshold)
                           else RecoveryMessage(reading.temperature.value, threshold)))
  }

  /** `[a]` when `fires`, else nothing. */
  function When(fires: bool, a: Alert): seq<Alert> {
    if fires then [a] else []
  }

  /** `evaluateAlerts`, stamped `now`. */
  function EvaluateAlerts(info: DriveInfo, reading: SmartReading, prev: Option<SmartCacheRow>, threshold: int, now: string): (r: seq<Alert>)
    ensures HasType(r, SmartError) <==> FiresSmartError(reading, prev)
    ensures HasType(r, Temperature) <==> FiresTemperature(reading, prev, threshold)
    ensures HasType(r, TemperatureRecovery) <==> FiresRecovery(reading, prev, threshold)
    ensures |r| <= 2
    ensures forall i, j :: 0 <= i < j < |r| ==> Order(r[i].alertType) < Order(r[j].alertType)
    ensures forall i :: 0 <= i < |r| ==> Carries(r[i], info, reading, threshold, now)
  {
    var t := if reading.temperature.Some? then reading.temperature.value else 0;
    var smart := Alert(SmartError, info.driveId, info.serial, info.model, SmartErrorMessage, None, None, now);
    var hot := Alert(Temperature, info.driveId, info.serial, info.model,
      TemperatureMessage(t, threshold), reading.temperature, Some(threshold), now);
    var cool := Alert(TemperatureRecovery, info.driveId, info.serial, info.model,
      RecoveryMessage(t, threshold), reading.temperature, Some(threshold), now);
    var fs, fh, fc := FiresSmartError(reading, prev), FiresTemperature(reading, prev, threshold), FiresRecovery(reading, prev, threshold);
    Assemble(smart, hot, cool, fs, fh, fc);
    When(fs, smart) + When(fh, hot) + When(fc, cool)
  }

  /** The three optional alerts, concatenated in evaluation order. */
  lemma Assemble(x: Alert, y: Alert, z: Alert, fx: bool, fy: bool, fz: bool)
    requires x.alertType == SmartError && y.alertType == Temperature && z.alertType == TemperatureRecovery
    requires !(fy && fz)
    ensures var r := When(fx, x) + When(fy, y) + When(fz, z);
      && (HasType(r, SmartError) <==> fx)
      && (HasType(r, Temperature) <==> fy)
      && (HasType(r, TemperatureRecovery) <==> fz)
      && |r| <= 2
      && (forall i, j :: 0 <= i < j < |r| ==> Order(r[i].alertType) < Order(r[j].alertType))
      && (forall i :: 0 <= i < |r| ==> (fx && r[i] == x) || (fy && r[i] == y) || (fz && r[i] == z))
  {
    var a, b, c := When(fx, x), When(fy, y), When(fz, z);
    if fx { HasTypeSingle(x); }
    if fy { HasTypeSingle(y); }
    if fz { HasTypeSingle(z); }
    HasTypeConcat(a + b, c);
    HasTypeConcat(a, b);
    var r := a + b + c;
    assert forall i :: 0 <= i < |r| ==> r[i] in a || r[i] in b || r[i] in c;
  }

  lemma HasTypeSingle(x: Alert)
    ensures forall t :: HasType([x], t) <==> x.alertType == t
  {
    assert [x][0] == x;
  }

  lemma HasTypeConcat(a: seq<Alert>, b: seq<Alert>)
    ensures forall t :: HasType(a + b, t) <==> HasType(a, t) || HasType(b, t)
  {
    forall t | HasType(a + b, t) ensures HasType(a, t) || HasType(b, t) {
      var i :| 0 <= i < |a + b| && (a + b)[i].alertType == t;
      if i >= |a| { assert b[i - |a|].alertType == t; }
    }
    forall t | HasType(b, t) ensures HasType(a + b, t) {
      var i :| 0 <= i < |b| && b[i].alertType == t;
      assert (a + b)[i + |a|].alertType == t;
    }
    forall t | HasType(a, t) ensures HasType(a + b, t) {
      var i :| 0 <= i < |a| && a[i].alertType == t;
      assert (a + b)[i].alertType == t;
    }
  }

  /** The types of `alerts`, in order. */
  function Types(alerts: seq<Alert>): (ts: seq<AlertType>)
    ensures |ts| == |alerts|
    ensures forall i :: 0 <= i < |alerts| ==> ts[i] == alerts[i].alertType
  {
    seq(|alerts|, i requires 0 <= i < |alerts| => alerts[i].alertType)
  }

  /** The alert types raised, read off the three firing conditions in
      evaluation order. */
  lemma TypesOfAlerts(info: DriveInfo, reading: SmartReading, prev: Option<SmartCacheRow>, threshold: int, now: string)
    ensures Types(EvaluateAlerts(info, reading, prev, threshold, now)) ==
      (if FiresSmartError(reading, prev) then [SmartError] else [])
      + (if FiresTemperature(reading, prev, threshold) then [Temperature] else [])
      + (if FiresRecovery(reading, prev, threshold) then [TemperatureRecovery] else [])
  {
    var r := EvaluateAlerts(info, reading, prev, threshold, now);
    var expected := (if FiresSmartError(reading, prev) then [SmartError] else [])
      + (if FiresTemperature(reading, prev, threshold) then [Temperature] else [])
      + (if FiresRecovery(reading, prev, threshold) then [TemperatureRecovery] else []);
    assert |expected| <= 2;
    if |r| == 0 {
    } else if |r| == 1 {
      assert HasType(r, r[0].alertType);
    } else {
      assert HasType(r, r[0].alertType) && HasType(r, r[1].alertType);
    }
  }

  /** The two temperature alerts exclude each other. */
  lemma TemperatureAlertsExclusive(info: DriveInfo, reading: SmartReading, prev: Option<SmartCacheRow>, threshold: int, now: string)
    ensures var r := EvaluateAlerts(info, reading, prev, threshold, now);
      !(HasType(r, Temperature) && HasType(r, TemperatureRecovery))
  {
  }

  /** Recovery never fires without a cached previous reading. */
  lemma NoRecoveryWithoutCache(info: DriveInfo, reading: SmartReading, threshold: int, now: string)
    ensures !HasType(EvaluateAlerts(info, reading, None, threshold, now), TemperatureRecovery)
  {
  }

  /** A reading equal in health and temperature to the cached one raises
      nothing: alerts fire on transitions only. */
  lemma SteadyStateIsSilent(info: DriveInfo, reading: SmartReading, prev: SmartCacheRow, threshold: int, now: string)
    requires prev.healthPassed == reading.healthPassed && prev.temperature == reading.temperature
    ensures EvaluateAlerts(info, reading, Some(prev), threshold, now) == []
  {
  }

  /** Evaluating a series of readings, each against the cache the previous
      one left: the alert types raised at each step. */
  function AlertTrace(info: DriveInfo, readings: seq<SmartReading>, prev: Option<SmartCacheRow>, threshold: int, now: string): (r: seq<seq<AlertType>>)
    ensures |r| == |readings|
    decreases |readings|
  {
    if |readings| == 0 then []
    else
      [Types(EvaluateAlerts(info, readings[0], prev, threshold, now))]
        + AlertTrace(info, readings[1..], Some(CacheRowOf(readings[0], now)), threshold, now)
  }

  lemma TraceCons(info: DriveInfo, r: SmartReading, rest: seq<SmartReading>, prev: Option<SmartCacheRow>, threshold: int, now: string)
    ensures AlertTrace(info, [r] + rest, prev, threshold, now)
      == [Types(EvaluateAlerts(info, r, prev, threshold, now))] + AlertTrace(info, rest, Some(CacheRowOf(r, now)), threshold, now)
  {
    assert ([r] + rest)[0] == r && ([r] + rest)[1..] == rest;
  }

  function Reading(t: int): SmartReading {
    SmartReading(1, "", Some(t), None, None, None, None, None, Some(true), [])
  }

  /** The cache a reading of temperature `prev` leaves, if there was one. */
  function CacheAt(prev: Option<int>, now: string): Option<SmartCacheRow> {
    if prev.Some? then Some(CacheRowOf(Reading(prev.value), now)) else None
  }

  /** The types a passing reading of temperature `t` raises after one of
      temperature `prev`. */
  function StepTypes(prev: Option<int>, t: int, threshold: int): seq<AlertType> {
    if t > threshold && (if prev.Some? then prev.value else 0) <= threshold then [Temperature]
    else if t <= threshold && prev.Some? && prev.value > threshold then [TemperatureRecovery]
    else []
  }

  /** One step of a trace of passing readings. */
  lemma {:induction false} TraceStep(info: DriveInfo, prev: Option<int>, t: int, rest: seq<SmartReading>, threshold: int, now: string)
    ensures AlertTrace(info, [Reading(t)] + rest, CacheAt(prev, now), threshold, now)
      == [StepTypes(prev, t, threshold)] + AlertTrace(info, rest, CacheAt(Some(t), now), threshold, now)
  {
    var cache := CacheAt(prev, now);
    TypesOfAlerts(info, Reading(t), cache, threshold, now);
    assert !FiresSmartError(Reading(t), cache);
    assert FiresTemperature(Reading(t), cache, threshold) <==> t > threshold && (if prev.Some? then prev.value else 0) <= threshold;
    assert FiresRecovery(Reading(t), cache, threshold) <==> t <= threshold && prev.Some? && prev.value > threshold;
    assert Types(EvaluateAlerts(info, Reading(t), cache, threshold, now)) == StepTypes(prev, t, threshold);
    TraceCons(info, Reading(t), rest, cache, threshold, now);
  }

  // Short literal sequences as a head and a tail.
  lemma SplitDisplay1<T>(x: T)
    ensures [x] == [x] + []
  {
  }

  lemma SplitDisplay2<T>(x: T, y: T)
    ensures [x, y] == [x] + [y]
  {
  }

  lemma SplitDisplay3<T>(x: T, y: T, z: T)
    ensures [x, y, z] == [x] + [y, z]
  {
  }

  lemma SplitDisplay4<T>(w: T, x: T, y: T, z: T)
    ensures [w, x, y, z] == [w] + [x, y, z]
  {
  }

  /** A hot reading after a hot one, then a cool one: silence, then recovery. */
  lemma CoolingTail(info: DriveInfo, threshold: int, b: int, c: int, d: int, now: string)
    requires threshold < b && threshold < c && d <= threshold
    ensures AlertTrace(info, [Reading(c), Reading(d)], CacheAt(Some(b), now), threshold, now)
      == [[], [TemperatureRecovery]]
  {
    TraceStep(info, Some(c), d, [], threshold, now);
    SplitDisplay1(Reading(d));
    TraceStep(info, Some(b), c, [Reading(d)], threshold, now);
    SplitDisplay2(Reading(c), Reading(d));
  }

  /** A cool reading, two hot ones and a cool one: an alert on the way up,
      then silence, then recovery. */
  lemma WarmingTail(info: DriveInfo, threshold: int, a: int, b: int, c: int, d: int, now: string)
    requires a <= threshold < b && threshold < c && d <= threshold
    ensures AlertTrace(info, [Reading(b), Reading(c), Reading(d)], CacheAt(Some(a), now), threshold, now)
      == [[Temperature], [], [TemperatureRecovery]]
  {
    CoolingTail(info, threshold, b, c, d, now);
    TraceStep(info, Some(a), b, [Reading(c), Reading(d)], threshold, now);
    SplitDisplay3(Reading(b), Reading(c), Reading(d));
  }

  /** A temperature that starts at or below the threshold, rises above it
      for two readings and falls back: one temperature alert on the way up,
      none while it stays hot, one recovery on the way down. */
  lemma CrossingTrace(info: DriveInfo, threshold: int, a: int, b: int, c: int, d: int, now: string)
    requires a <= threshold < b && threshold < c && d <= threshold
    ensures AlertTrace(info, [Reading(a), Reading(b), Reading(c), Reading(d)], None, threshold, now)
      == [[], [Temperature], [], [TemperatureRecovery]]
  {
    var hot := [Reading(b), Reading(c), Reading(d)];
    WarmingTail(info, threshold, a, b, c, d, now);
    TraceStep(info, None, a, hot, threshold, now);
    SplitDisplay4(Reading(a), Reading(b), Reading(c), Reading(d));
    SplitDisplay4<seq<AlertType>>([], [Temperature], [], [TemperatureRecovery]);
  }
}

=== FILE: benchmark_engine.dfy ===
/** The benchmark engine (packages/backend/src/services/benchmarkEngine.ts):
    where on the disk the position curve is sampled, which device fio reads,
    the life of a run from pending to completed or failed, and the guards on
    deleting runs. A run's execution is a trace of effects on the two stores
    and the live feed; fio and the clock are parameters. */
module BenchmarkEngine {
  import opened Wrappers
  import opened Text
  import opened Shared
  import opened Store
  import opened FioRunner
  import opened BenchmarkProfiles

  /** Bytes read at each position of the curve (128 MiB). */
  const CurveSampleBytes: int := 134217728

  /** Offsets are multiples of this, as direct I/O requires. */
  const SectorAlign: int := 4096

  // ---------------------------------------------------------------------------
  // Offset planning
  // ---------------------------------------------------------------------------

  /** The last offset from which a whole sample still fits on the disk. */
  function MaxOffset(capacity: int): (m: nat)
    ensures m == 0 <==> capacity <= CurveSampleBytes
    ensures m > 0 ==> m + CurveSampleBytes == capacity
  {
    if capacity - CurveSampleBytes > 0 then capacity - CurveSampleBytes else 0
  }

  /** Rounds down to a sector boundary. */
  function AlignDown(x: nat): (a: nat)
    ensures a % SectorAlign == 0 && a <= x && x - a < SectorAlign
  {
    (x / SectorAlign) * SectorAlign
  }

  lemma MulLe(a: nat, b: nat, c: nat)
    requires a <= b
    ensures a * c <= b * c
  {
    var d := b - a;
    assert b * c == a * c + d * c;
  }

  lemma DivLe(a: nat, b: nat, d: nat)
    requires a <= b && d > 0
    ensures a / d <= b / d
  {
    if a / d > b / d {
      MulLe(b / d + 1, a / d, d);
    }
  }

  lemma AlignDownMonotone(x: nat, y: nat)
    requires x <= y
    ensures AlignDown(x) <= AlignDown(y)
  {
    DivLe(x, y, SectorAlign);
    MulLe(x / SectorAlign, y / SectorAlign, SectorAlign);
  }

  /** The i-th of n offsets: i/(n-1) of the way to the last offset, rounded
      down to a sector. The source computes the fraction in floating point;
      this is the exact value it approximates. */
  function OffsetAt(capacity: int, n: int, i: nat): nat {
    if n == 1 then 0 else AlignDown(if n > 1 then (i * MaxOffset(capacity)) / (n - 1) else 0)
  }

  /** `computeOffsets`. */
  function ComputeOffsets(capacity: int, numPoints: int): (offsets: seq<int>)
    ensures |offsets| == if numPoints > 0 then numPoints else 0
    ensures forall i :: 0 <= i < |offsets| ==> offsets[i] == OffsetAt(capacity, numPoints, i)
  {
    if numPoints <= 0 then []
    else seq(numPoints, i requires 0 <= i < numPoints => OffsetAt(capacity, numPoints, i) as int)
  }

  /** i/(n-1) of the way never passes the end. */
  lemma FractionBounded(i: nat, n: int, m: nat)
    requires 1 < n && i < n
    ensures (i * m) / (n - 1) <= m
  {
    MulLe(i, n - 1, m);
    DivLe(i * m, (n - 1) * m, n - 1);
    assert (n - 1) * m == m * (n - 1);
  }

  /** Every offset is sector-aligned, and a whole sample read from it stays
      on the disk (all offsets are 0 when the disk is no larger than one
      sample). */
  lemma OffsetsAlignedAndBounded(capacity: int, numPoints: int)
    ensures var offsets := ComputeOffsets(capacity, numPoints);
      forall i :: 0 <= i < |offsets| ==>
        && offsets[i] % SectorAlign == 0
        && 0 <= offsets[i] <= MaxOffset(capacity)
        && (capacity <= CurveSampleBytes ==> offsets[i] == 0)
  {
    var offsets := ComputeOffsets(capacity, numPoints);
    forall i | 0 <= i < |offsets|
      ensures offsets[i] % SectorAlign == 0 && 0 <= offsets[i] <= MaxOffset(capacity)
    {
      if numPoints > 1 {
        FractionBounded(i, numPoints, MaxOffset(capacity));
      }
    }
  }

  /** Offsets never decrease, the first is 0 and a single point is [0]. */
  lemma {:induction false} OffsetsOrdered(capacity: int, numPoints: int)
    ensures var offsets := ComputeOffsets(capacity, numPoints);
      && (forall i, j :: 0 <= i <= j < |offsets| ==> offsets[i] <= offsets[j])
      && (|offsets| > 0 ==> offsets[0] == 0)
      && (numPoints == 1 ==> offsets == [0])
  {
    var offsets := ComputeOffsets(capacity, numPoints);
    forall i, j | 0 <= i <= j < |offsets| ensures offsets[i] <= offsets[j] {
      if numPoints > 1 {
        var m := MaxOffset(capacity);
        MulLe(i, j, m);
        DivLe(i * m, j * m, numPoints - 1);
        AlignDownMonotone((i * m) / (numPoints - 1), (j * m) / (numPoints - 1));
      }
    }
  }

  // ---------------------------------------------------------------------------
  // Device path
  // ---------------------------------------------------------------------------

  const NvmePrefix := "/dev/nvme"

  /** An NVMe controller device: `/dev/nvme` followed by one or more digits
      and nothing else. */
  predicate IsNvmeController(p: string) {
    StartsWith(p, NvmePrefix) && |p| > |NvmePrefix| && AllDigits(p[|NvmePrefix|..])
  }

  /** `fioDevicePath`: a controller is replaced by its first namespace. */
  function FioDevicePath(p: string): (r: string)
    ensures IsNvmeController(p) ==> r == p + "n1"
    ensures !IsNvmeController(p) ==> r == p
  {
    if IsNvmeController(p) then p + "n1" else p
  }

  /** A rewritten path is a namespace device, which is left alone. */
  lemma FioDevicePathIdempotent(p: string)
    ensures FioDevicePath(FioDevicePath(p)) == FioDevicePath(p)
  {
    if IsNvmeController(p) {
      var q := p + "n1";
      assert q[|q| - 2] == 'n';
      assert q[|NvmePrefix|..][|q| - 2 - |NvmePrefix|] == 'n';
      assert !IsDigit('n');
    }
  }

  // ---------------------------------------------------------------------------
  // Running a benchmark
  // ---------------------------------------------------------------------------

  /** The engine sees `runFioJob` and the InfluxDB write client only through
      how they settle: `fio(k, job)` is the result of the k-th fio job of a
      run, and `curveFlush` and `profileFlush` are how the flushes of the
      curve points and of the profile results settle. */
  datatype Tools = Tools(
    fio: (nat, JobParams) -> Result<FioResult, string>,
    curveFlush: Result<Unit, string>,
    profileFlush: Result<Unit, string>)

  /** The tools of a real run: each job's result is `runFioJob` applied to
      how its process ended, with `parse` for `JSON.parse`. */
  function ProcessTools(
    process: (nat, JobParams) -> ProcessOutcome, parse: string -> Result<FioOutput, string>,
    curveFlush: Result<Unit, string>, profileFlush: Result<Unit, string>): Tools
  {
    Tools((k: nat, job: JobParams) => RunFioJob(process(k, job), parse), curveFlush, profileFlush)
  }

  /** The settled result of the k-th fio job of a run. */
  function FioCall(t: Tools, k: nat, job: JobParams): Result<FioResult, string> {
    t.fio(k, job)
  }

  /** `measurePosition`: one sample-sized sequential read from `offset`. */
  function MeasureJob(device: string, offset: int): JobParams {
    JobParams(device, JobSpec(Read, MiB, 1, 1, 0, 0, Some(offset), Some(CurveSampleBytes)))
  }

  function ProfileJob(device: string, j: nat): JobParams
    requires j < |Catalogue|
  {
    JobParams(device, Catalogue[j].job)
  }

  datatype RunUpdate =
    | MarkRunning
    | MarkCompleted(completedAt: string)
    | MarkFailed(message: string, failedAt: string)

  /** What a run does to the world, in order. */
  datatype Effect =
    | UpdateRun(runId: int, update: RunUpdate)
    | Emit(event: LiveFeedEvent)
    | StartFio(job: JobParams)
    | WriteCurve(curve: seq<CurveRecord>)
    | WriteProfiles(profiles: seq<ProfileRecord>)

  function CurveProgress(runId: int, i: int, total: int, speed: real): LiveFeedEvent {
    BenchmarkProgress(runId, i, total, speed, Some(CurvePhase), None)
  }

  function ProfileProgress(runId: int, j: nat): LiveFeedEvent
    requires j < |Catalogue|
  {
    BenchmarkProgress(runId, j, |Catalogue|, 0.0, Some(ProfilesPhase), Some(Catalogue[j].caption))
  }

  /** The k-th curve measurement. */
  function Measured(t: Tools, device: string, offsets: seq<int>, k: nat): Result<FioResult, string>
    requires k < |offsets|
  {
    FioCall(t, k, MeasureJob(device, offsets[k]))
  }

  /** How many curve measurements from the i-th on succeed before the first
      failure (all of them when none fails). */
  function CurveSuccesses(t: Tools, device: string, offsets: seq<int>, i: nat): (f: nat)
    requires i <= |offsets|
    ensures i <= f <= |offsets|
    ensures forall k :: i <= k < f ==> Measured(t, device, offsets, k).Success?
    ensures f < |offsets| ==> Measured(t, device, offsets, f).Failure?
    decreases |offsets| - i
  {
    if i == |offsets| || Measured(t, device, offsets, i).Failure? then i
    else CurveSuccesses(t, device, offsets, i + 1)
  }

  /** The points of the first f measurements. */
  function CurvePoints(t: Tools, device: string, offsets: seq<int>, f: nat): seq<BenchmarkPoint>
    requires f <= |offsets| && forall k :: 0 <= k < f ==> Measured(t, device, offsets, k).Success?
  {
    seq(f, k requires 0 <= k < f => BenchmarkPoint(offsets[k], Measured(t, device, offsets, k).value.bwBps))
  }

  /** The effects of the first f measurements: each is started, then
      reported with its index and speed. */
  function CurveTrace(t: Tools, device: string, offsets: seq<int>, runId: int, f: nat): seq<Effect>
    requires f <= |offsets| && forall k :: 0 <= k < f ==> Measured(t, device, offsets, k).Success?
    decreases f
  {
    if f == 0 then []
    else
      var prev := CurveTrace(t, device, offsets, runId, f - 1);
      prev + [StartFio(MeasureJob(device, offsets[f - 1])),
        Emit(CurveProgress(runId, f - 1, |offsets|, Measured(t, device, offsets, f - 1).value.bwBps))]
  }

  /** The j-th profile job of a run whose curve took `n` jobs. */
  function ProfileCall(t: Tools, device: string, n: nat, j: nat): Result<FioResult, string>
    requires j < |Catalogue|
  {
    FioCall(t, n + j, ProfileJob(device, j))
  }

  /** How many profile jobs from the j-th on succeed before the first failure. */
  function ProfileSuccesses(t: Tools, device: string, n: nat, j: nat): (g: nat)
    requires j <= |Catalogue|
    ensures j <= g <= |Catalogue|
    ensures forall k :: j <= k < g ==> ProfileCall(t, device, n, k).Success?
    ensures g < |Catalogue| ==> ProfileCall(t, device, n, g).Failure?
    decreases |Catalogue| - j
  {
    if j == |Catalogue| || ProfileCall(t, device, n, j).Failure? then j
    else ProfileSuccesses(t, device, n, j + 1)
  }

  function ToProfileResult(profile: string, r: FioResult): ProfileResult {
    ProfileResult(profile, r.bwBps, r.iops, r.latMeanNs, r.latP50Ns, r.latP95Ns, r.latP99Ns, r.latP999Ns)
  }

  /** The results of the first g profile jobs, each tagged with its entry. */
  function ProfileResults(t: Tools, device: string, n: nat, g: nat): seq<ProfileResult>
    requires g <= |Catalogue| && forall k :: 0 <= k < g ==> ProfileCall(t, device, n, k).Success?
  {
    seq(g, k requires 0 <= k < g => ToProfileResult(Catalogue[k].profile, ProfileCall(t, device, n, k).value))
  }

  /** The effects of the first g profile jobs: each is announced, then
      started. */
  function ProfileTrace(device: string, runId: int, g: nat): seq<Effect>
    requires g <= |Catalogue|
    decreases g
  {
    if g == 0 then []
    else ProfileTrace(device, runId, g - 1) + [Emit(ProfileProgress(runId, g - 1)), StartFio(ProfileJob(device, g - 1))]
  }

  /** `writeCurvePoints`: point i is stamped `startTs + i`. */
  function CurveRecords(points: seq<BenchmarkPoint>, serial: string, runId: int, driveType: string, startTs: int): seq<CurveRecord>
  {
    seq(|points|, i requires 0 <= i < |points| =>
      CurveRecord(serial, runId, driveType, points[i].position, points[i].speedBps, startTs + i))
  }

  /** `writeProfileResults`: result i is stamped `startTs + i`. */
  function ProfileRecords(results: seq<ProfileResult>, serial: string, runId: int, driveType: string, startTs: int): seq<ProfileRecord>
  {
    seq(|results|, i requires 0 <= i < |results| => ProfileRecord(serial, runId, driveType, results[i], startTs + i))
  }

  /** The stamp of the first profile result: a thousand past the curve. */
  function ProfileStartTs(startTs: int, curveLength: nat): int {
    startTs + curveLength + 1000
  }

  /** Effects in order, and how they end. */
  datatype Execution = Execution(trace: seq<Effect>, outcome: Result<Unit, string>)

  function RunNotFound(runId: int): string {
    "BenchmarkRun " + IntToString(runId) + " not found"
  }

  function DriveNotFound(driveId: int): string {
    "Drive " + IntToString(driveId) + " not found"
  }

  /** The work of a found run between its opening and its closing: the curve
      measurements; when all succeed, the curve write and the profile jobs;
      when those succeed too, the profile write. A failed job or a rejected
      flush ends the work with its error; a rejected flush writes nothing. */
  function RunBody(
    t: Tools, device: string, offsets: seq<int>, runId: int, serial: string, driveType: string, startTs: int): Execution
  {
    var f := CurveSuccesses(t, device, offsets, 0);
    var curve := CurveTrace(t, device, offsets, runId, f);
    if f < |offsets| then
      Execution(curve + [StartFio(MeasureJob(device, offsets[f]))], Failure(Measured(t, device, offsets, f).error))
    else if t.curveFlush.Failure? then
      Execution(curve, Failure(t.curveFlush.error))
    else
      var points := CurvePoints(t, device, offsets, f);
      var written := curve + [WriteCurve(CurveRecords(points, serial, runId, driveType, startTs))];
      var n := |offsets|;
      var g := ProfileSuccesses(t, device, n, 0);
      var profiles := ProfileTrace(device, runId, g);
      if g < |Catalogue| then
        Execution(written + profiles + [Emit(ProfileProgress(runId, g)), StartFio(ProfileJob(device, g))],
          Failure(ProfileCall(t, device, n, g).error))
      else if t.profileFlush.Failure? then
        Execution(written + profiles, Failure(t.profileFlush.error))
      else
        var results := ProfileResults(t, device, n, g);
        Execution(written + profiles
          + [WriteProfiles(ProfileRecords(results, serial, runId, driveType, ProfileStartTs(startTs, n)))],
          Success(Unit))
  }

  /** How a run ends up in its row. */
  function FinalUpdate(outcome: Result<Unit, string>, now: string): RunUpdate {
    if outcome.Success? then MarkCompleted(now) else MarkFailed(outcome.error, now)
  }

  /** The event that ends a run. */
  function FinalEvent(runId: int, driveId: int, outcome: Result<Unit, string>): LiveFeedEvent {
    if outcome.Success? then BenchmarkCompleted(runId, driveId) else BenchmarkFailed(runId, outcome.error)
  }

  /** `executeBenchmark`: a missing run or drive rejects before anything
      happens; otherwise the row is marked running and the run announced,
      the work runs, and the row and the feed are told how it ended. */
  function ExecuteBenchmark(
    runs: seq<RunRow>, drives: seq<DriveRow>, runId: int, t: Tools, parseTime: string -> int, now: string): (x: Execution)
    ensures FindRun(runs, runId).None? ==> x == Execution([], Failure(RunNotFound(runId)))
    ensures FindRun(runs, runId).Some? && FindDrive(drives, FindRun(runs, runId).value.driveId).None? ==>
      x == Execution([], Failure(DriveNotFound(FindRun(runs, runId).value.driveId)))
  {
    match FindRun(runs, runId)
    case None => Execution([], Failure(RunNotFound(runId)))
    case Some(run) =>
      match FindDrive(drives, run.driveId)
      case None => Execution([], Failure(DriveNotFound(run.driveId)))
      case Some(drive) =>
        var body := RunBody(t, FioDevicePath(drive.devicePath), ComputeOffsets(drive.capacity, run.numPoints), runId,
          drive.serialNumber, drive.driveType, parseTime(run.startedAt));
        Execution(
          [UpdateRun(runId, MarkRunning), Emit(BenchmarkStarted(runId, run.driveId, run.numPoints))]
            + body.trace
            + [UpdateRun(runId, FinalUpdate(body.outcome, now)), Emit(FinalEvent(runId, run.driveId, body.outcome))],
          body.outcome)
  }

  // ---------------------------------------------------------------------------
  // The effects on the stores
  // ---------------------------------------------------------------------------

  /** The run table, the benchmark measurements and the live feed. */
  datatype World = World(runs: seq<RunRow>, influx: Influx, feed: seq<LiveFeedEvent>)

  function UpdateRow(row: RunRow, u: RunUpdate): RunRow {
    match u
    case MarkRunning => row.(status := Running)
    case MarkCompleted(at) => row.(status := Completed, completedAt := Some(at))
    case MarkFailed(msg, at) => row.(status := Failed, errorMessage := Some(msg), completedAt := Some(at))
  }

  /** `UPDATE benchmark_runs SET … WHERE run_id = runId`: the rows of that id
      change, no other row does, and none moves. */
  function UpdateRows(runs: seq<RunRow>, runId: int, u: RunUpdate): (r: seq<RunRow>)
    ensures |r| == |runs|
    ensures forall i :: 0 <= i < |runs| ==> r[i] == if runs[i].runId == runId then UpdateRow(runs[i], u) else runs[i]
  {
    seq(|runs|, i requires 0 <= i < |runs| => if runs[i].runId == runId then UpdateRow(runs[i], u) else runs[i])
  }

  function Apply(w: World, e: Effect): World {
    match e
    case UpdateRun(id, u) => w.(runs := UpdateRows(w.runs, id, u))
    case Emit(ev) => w.(feed := w.feed + [ev])
    case StartFio(_) => w
    case WriteCurve(recs) => w.(influx := w.influx.(curve := w.influx.curve + recs))
    case WriteProfiles(recs) => w.(influx := w.influx.(profiles := w.influx.profiles + recs))
  }

  function ApplyAll(w: World, trace: seq<Effect>): World
    decreases |trace|
  {
    if |trace| == 0 then w else ApplyAll(Apply(w, trace[0]), trace[1..])
  }

  lemma {:induction false} ApplyAllConcat(w: World, a: seq<Effect>, b: seq<Effect>)
    ensures ApplyAll(w, a + b) == ApplyAll(ApplyAll(w, a), b)
    decreases |a|
  {
    if |a| == 0 {
      assert a + b == b;
    } else {
      assert (a + b)[1..] == a[1..] + b;
      ApplyAllConcat(Apply(w, a[0]), a[1..], b);
    }
  }

  lemma ApplyOne(w: World, e: Effect)
    ensures ApplyAll(w, [e]) == Apply(w, e)
  {
    assert [e][1..] == [];
  }

  lemma ApplyTwo(w: World, a: Effect, b: Effect)
    ensures ApplyAll(w, [a, b]) == Apply(Apply(w, a), b)
  {
    assert [a, b] == [a] + [b];
    ApplyAllConcat(w, [a], [b]);
    ApplyOne(w, a);
    ApplyOne(Apply(w, a), b);
  }

  /** What each effect of a trace contributes to one part of the world, in
      order. */
  function Collect<T>(trace: seq<Effect>, pick: Effect -> seq<T>): seq<T>
    decreases |trace|
  {
    if |trace| == 0 then [] else pick(trace[0]) + Collect(trace[1..], pick)
  }

  lemma {:induction false} CollectConcat<T>(a: seq<Effect>, b: seq<Effect>, pick: Effect -> seq<T>)
    ensures Collect(a + b, pick) == Collect(a, pick) + Collect(b, pick)
    decreases |a|
  {
    if |a| == 0 {
      assert a + b == b;
    } else {
      assert (a + b)[0] == a[0];
      assert (a + b)[1..] == a[1..] + b;
      CollectConcat(a[1..], b, pick);
    }
  }

  lemma CollectOne<T>(e: Effect, pick: Effect -> seq<T>)
    ensures Collect([e], pick) == pick(e)
  {
    assert [e][1..] == [];
  }

  function Broadcast(e: Effect): seq<LiveFeedEvent> {
    if e.Emit? then [e.event] else []
  }

  function CurveWrite(e: Effect): seq<CurveRecord> {
    if e.WriteCurve? then e.curve else []
  }

  function ProfileWrite(e: Effect): seq<ProfileRecord> {
    if e.WriteProfiles? then e.profiles else []
  }

  /** The events a trace broadcasts, in order. */
  function Events(trace: seq<Effect>): seq<LiveFeedEvent> {
    Collect(trace, Broadcast)
  }

  /** The curve points a trace writes, in order. */
  function CurveWrites(trace: seq<Effect>): seq<CurveRecord> {
    Collect(trace, CurveWrite)
  }

  /** The profile results a trace writes, in order. */
  function ProfileWrites(trace: seq<Effect>): seq<ProfileRecord> {
    Collect(trace, ProfileWrite)
  }

  /** No effect of the trace touches the run table. */
  predicate NoUpdates(trace: seq<Effect>) {
    forall k :: 0 <= k < |trace| ==> !trace[k].UpdateRun?
  }

  /** The feed receives exactly the events the trace broadcasts, in order,
      after what it already held. */
  lemma {:induction false} FeedIsEvents(w: World, trace: seq<Effect>)
    ensures ApplyAll(w, trace).feed == w.feed + Events(trace)
    decreases |trace|
  {
    if |trace| > 0 {
      FeedIsEvents(Apply(w, trace[0]), trace[1..]);
    }
  }

  /** A trace that touches no row appends its writes to the measurements and
      its broadcasts to the feed, and changes nothing else. */
  lemma {:induction false} ApplyWithoutUpdates(w: World, trace: seq<Effect>)
    requires NoUpdates(trace)
    ensures ApplyAll(w, trace)
      == World(w.runs, Influx(w.influx.curve + CurveWrites(trace), w.influx.profiles + ProfileWrites(trace)),
           w.feed + Events(trace))
    decreases |trace|
  {
    if |trace| > 0 {
      assert NoUpdates(trace[1..]) by {
        forall k | 0 <= k < |trace| - 1 ensures !trace[1..][k].UpdateRun? {
          assert trace[1..][k] == trace[k + 1];
        }
      }
      var w1 := Apply(w, trace[0]);
      ApplyWithoutUpdates(w1, trace[1..]);
      assert !trace[0].UpdateRun?;
      assert w1 == World(w.runs, Influx(w.influx.curve + CurveWrite(trace[0]), w.influx.profiles + ProfileWrite(trace[0])),
        w.feed + Broadcast(trace[0]));
    }
  }

  /** A found run: its row marked running and the run announced, work that
      touches no row, then the row's final update and the closing event. */
  lemma {:induction false} RunEffects(
    w: World, runId: int, started: LiveFeedEvent, body: seq<Effect>, u: RunUpdate, last: LiveFeedEvent)
    requires NoUpdates(body)
    ensures ApplyAll(w, [UpdateRun(runId, MarkRunning), Emit(started)] + body + [UpdateRun(runId, u), Emit(last)])
      == World(UpdateRows(UpdateRows(w.runs, runId, MarkRunning), runId, u),
           Influx(w.influx.curve + CurveWrites(body), w.influx.profiles + ProfileWrites(body)),
           w.feed + [started] + Events(body) + [last])
  {
    var head := [UpdateRun(runId, MarkRunning), Emit(started)];
    var end := [UpdateRun(runId, u), Emit(last)];
    ApplyAllConcat(w, head + body, end);
    ApplyAllConcat(w, head, body);
    ApplyTwo(w, head[0], head[1]);
    var w1 := ApplyAll(w, head);
    ApplyWithoutUpdates(w1, body);
    ApplyTwo(ApplyAll(w1, body), end[0], end[1]);
  }

  /** Every event is a progress report. */
  predicate ProgressOnly(events: seq<LiveFeedEvent>) {
    forall i :: 0 <= i < |events| ==> events[i].BenchmarkProgress?
  }

  /** Starts a fio job or reports progress. */
  predicate QuietStep(e: Effect) {
    e.StartFio? || (e.Emit? && e.event.BenchmarkProgress?)
  }

  /** Only starts fio jobs and reports progress. */
  predicate Quiet(trace: seq<Effect>) {
    forall k :: 0 <= k < |trace| ==> QuietStep(trace[k])
  }

  lemma QuietConcat(a: seq<Effect>, b: seq<Effect>)
    requires Quiet(a) && Quiet(b)
    ensures Quiet(a + b)
  {
    forall k | 0 <= k < |a + b| ensures QuietStep((a + b)[k]) {
      if k < |a| { assert (a + b)[k] == a[k]; } else { assert (a + b)[k] == b[k - |a|]; }
    }
  }

  /** A quiet trace touches no row, writes nothing and broadcasts only
      progress. */
  lemma {:induction false} QuietCollects(trace: seq<Effect>)
    requires Quiet(trace)
    ensures NoUpdates(trace) && CurveWrites(trace) == [] && ProfileWrites(trace) == []
    ensures ProgressOnly(Events(trace))
    decreases |trace|
  {
    if |trace| > 0 {
      assert Quiet(trace[1..]) by {
        forall k | 0 <= k < |trace| - 1 ensures QuietStep(trace[1..][k]) {
          assert trace[1..][k] == trace[k + 1];
        }
      }
      assert QuietStep(trace[0]);
      QuietCollects(trace[1..]);
    }
  }

  /** Measurement k is started at 2k and reported, with its index and speed,
      at 2k + 1. */
  lemma {:induction false} CurveTraceShape(t: Tools, device: string, offsets: seq<int>, runId: int, f: nat)
    requires f <= |offsets| && forall k :: 0 <= k < f ==> Measured(t, device, offsets, k).Success?
    ensures var r := CurveTrace(t, device, offsets, runId, f);
      && |r| == 2 * f
      && forall k :: 0 <= k < f ==>
        && r[2 * k] == StartFio(MeasureJob(device, offsets[k]))
        && r[2 * k + 1] == Emit(CurveProgress(runId, k, |offsets|, Measured(t, device, offsets, k).value.bwBps))
    decreases f
  {
    if f > 0 {
      CurveTraceShape(t, device, offsets, runId, f - 1);
    }
  }

  lemma {:induction false} CurveTraceQuiet(t: Tools, device: string, offsets: seq<int>, runId: int, f: nat)
    requires f <= |offsets| && forall k :: 0 <= k < f ==> Measured(t, device, offsets, k).Success?
    ensures Quiet(CurveTrace(t, device, offsets, runId, f))
    decreases f
  {
    if f > 0 {
      CurveTraceQuiet(t, device, offsets, runId, f - 1);
      var step := [StartFio(MeasureJob(device, offsets[f - 1])),
        Emit(CurveProgress(runId, f - 1, |offsets|, Measured(t, device, offsets, f - 1).value.bwBps))];
      assert Quiet(step);
      QuietConcat(CurveTrace(t, device, offsets, runId, f - 1), step);
    }
  }

  /** Profile job k is announced at 2k and started at 2k + 1. */
  lemma {:induction false} ProfileTraceShape(device: string, runId: int, g: nat)
    requires g <= |Catalogue|
    ensures var r := ProfileTrace(device, runId, g);
      && |r| == 2 * g
      && forall k :: 0 <= k < g ==>
        r[2 * k] == Emit(ProfileProgress(runId, k)) && r[2 * k + 1] == StartFio(ProfileJob(device, k))
    decreases g
  {
    if g > 0 {
      ProfileTraceShape(device, runId, g - 1);
    }
  }

  lemma {:induction false} ProfileTraceQuiet(device: string, runId: int, g: nat)
    requires g <= |Catalogue|
    ensures Quiet(ProfileTrace(device, runId, g))
    decreases g
  {
    if g > 0 {
      ProfileTraceQuiet(device, runId, g - 1);
      var step := [Emit(ProfileProgress(runId, g - 1)), StartFio(ProfileJob(device, g - 1))];
      assert Quiet(step);
      QuietConcat(ProfileTrace(device, runId, g - 1), step);
    }
  }

  /** Every curve measurement succeeds. */
  predicate CurveOk(t: Tools, device: string, offsets: seq<int>) {
    forall k :: 0 <= k < |offsets| ==> Measured(t, device, offsets, k).Success?
  }

  /** Every profile job succeeds. */
  predicate ProfilesOk(t: Tools, device: string, n: nat) {
    forall j :: 0 <= j < |Catalogue| ==> ProfileCall(t, device, n, j).Success?
  }

  /** Every curve measurement succeeds and the points are flushed. */
  predicate CurveStored(t: Tools, device: string, offsets: seq<int>) {
    CurveOk(t, device, offsets) && t.curveFlush.Success?
  }

  /** Every profile job succeeds and the results are flushed. */
  predicate ProfilesStored(t: Tools, device: string, n: nat) {
    ProfilesOk(t, device, n) && t.profileFlush.Success?
  }
}

=== FILE: benchmark_lifecycle.dfy ===
/** What one benchmark run does to the run table, the benchmark
    measurements and the live feed, and when it succeeds
    (packages/backend/src/services/benchmarkEngine.ts). */
module BenchmarkLifecycle {
  import opened Wrappers
  import opened Shared
  import opened Store
  import opened FioRunner
  import opened BenchmarkProfiles
  import opened BenchmarkEngine
  import opened BenchmarkQueries

  /** A write of curve points or profile results. */
  predicate IsWrite(e: Effect) {
    e.WriteCurve? || e.WriteProfiles?
  }

  /** One write between two quiet stretches. */
  lemma {:induction false} WriteBetween(before: seq<Effect>, e: Effect, after: seq<Effect>)
    requires Quiet(before) && Quiet(after) && IsWrite(e)
    ensures var s := before + [e] + after;
      && NoUpdates(s)
      && CurveWrites(s) == CurveWrite(e)
      && ProfileWrites(s) == ProfileWrite(e)
      && ProgressOnly(Events(s))
  {
    var s := before + [e] + after;
    QuietCollects(before);
    QuietCollects(after);
    CollectConcat(before + [e], after, CurveWrite);
    CollectConcat(before, [e], CurveWrite);
    CollectOne(e, CurveWrite);
    CollectConcat(before + [e], after, ProfileWrite);
    CollectConcat(before, [e], ProfileWrite);
    CollectOne(e, ProfileWrite);
    CollectConcat(before + [e], after, Broadcast);
    CollectConcat(before, [e], Broadcast);
    CollectOne(e, Broadcast);
    WriteBetweenNoUpdates(before, e, after);
  }

  lemma WriteBetweenNoUpdates(before: seq<Effect>, e: Effect, after: seq<Effect>)
    requires Quiet(before) && Quiet(after) && IsWrite(e)
    ensures NoUpdates(before + [e] + after)
  {
    var s := before + [e] + after;
    forall k | 0 <= k < |s| ensures !s[k].UpdateRun? {
      if k < |before| {
        assert s[k] == before[k];
      } else if k > |before| {
        assert s[k] == after[k - |before| - 1];
      }
    }
  }

  /** One more write at the end of a trace that touches no row. */
  lemma {:induction false} WriteAfter(s: seq<Effect>, e: Effect)
    requires NoUpdates(s) && IsWrite(e)
    ensures NoUpdates(s + [e])
    ensures CurveWrites(s + [e]) == CurveWrites(s) + CurveWrite(e)
    ensures ProfileWrites(s + [e]) == ProfileWrites(s) + ProfileWrite(e)
    ensures Events(s + [e]) == Events(s)
  {
    CollectConcat(s, [e], CurveWrite);
    CollectOne(e, CurveWrite);
    CollectConcat(s, [e], ProfileWrite);
    CollectOne(e, ProfileWrite);
    CollectConcat(s, [e], Broadcast);
    CollectOne(e, Broadcast);
    forall k | 0 <= k < |s + [e]| ensures !(s + [e])[k].UpdateRun? {
      if k < |s| { assert (s + [e])[k] == s[k]; }
    }
  }

  /** A failed curve measurement or a rejected curve flush ends the work:
      nothing is written, and a rejected flush fails it with its error. */
  lemma {:induction false} BodyCurveFailure(
    t: Tools, device: string, offsets: seq<int>, runId: int, serial: string, driveType: string, startTs: int)
    requires !CurveStored(t, device, offsets)
    ensures var b := RunBody(t, device, offsets, runId, serial, driveType, startTs);
      && b.outcome.Failure?
      && Quiet(b.trace)
      && (CurveOk(t, device, offsets) ==> b.outcome == Failure(t.curveFlush.error))
  {
    var f := CurveSuccesses(t, device, offsets, 0);
    CurveTraceQuiet(t, device, offsets, runId, f);
    if f < |offsets| {
      assert Quiet([StartFio(MeasureJob(device, offsets[f]))]);
      QuietConcat(CurveTrace(t, device, offsets, runId, f), [StartFio(MeasureJob(device, offsets[f]))]);
    } else {
      assert t.curveFlush.Failure?;
    }
  }

  /** A failed profile job or a rejected profile flush ends the work after
      the whole curve is written; a rejected flush fails it with its error. */
  lemma {:induction false} BodyProfileFailure(
    t: Tools, device: string, offsets: seq<int>, runId: int, serial: string, driveType: string, startTs: int)
    requires CurveStored(t, device, offsets) && !ProfilesStored(t, device, |offsets|)
    ensures var b := RunBody(t, device, offsets, runId, serial, driveType, startTs);
      && b.outcome.Failure?
      && (ProfilesOk(t, device, |offsets|) ==> b.outcome == Failure(t.profileFlush.error))
      && NoUpdates(b.trace)
      && CurveWrites(b.trace) == CurveRecords(CurvePoints(t, device, offsets, |offsets|), serial, runId, driveType, startTs)
      && ProfileWrites(b.trace) == []
      && ProgressOnly(Events(b.trace))
  {
    var f := CurveSuccesses(t, device, offsets, 0);
    var curve := CurveTrace(t, device, offsets, runId, f);
    CurveTraceQuiet(t, device, offsets, runId, f);
    assert f == |offsets|;
    var n := |offsets|;
    var g := ProfileSuccesses(t, device, n, 0);
    ProfileTraceQuiet(device, runId, g);
    var e := WriteCurve(CurveRecords(CurvePoints(t, device, offsets, f), serial, runId, driveType, startTs));
    if g < |Catalogue| {
      var rest := ProfileTrace(device, runId, g) + [Emit(ProfileProgress(runId, g)), StartFio(ProfileJob(device, g))];
      assert Quiet([Emit(ProfileProgress(runId, g)), StartFio(ProfileJob(device, g))]);
      QuietConcat(ProfileTrace(device, runId, g), [Emit(ProfileProgress(runId, g)), StartFio(ProfileJob(device, g))]);
      assert RunBody(t, device, offsets, runId, serial, driveType, startTs).trace == curve + [e] + rest;
      WriteBetween(curve, e, rest);
    } else {
      assert t.profileFlush.Failure?;
      assert RunBody(t, device, offsets, runId, serial, driveType, startTs).trace == curve + [e] + ProfileTrace(device, runId, g);
      WriteBetween(curve, e, ProfileTrace(device, runId, g));
    }
  }

  /** When every job succeeds and both flushes do, the curve and then the
      profile results are written. */
  lemma {:induction false} BodySuccess(
    t: Tools, device: string, offsets: seq<int>, runId: int, serial: string, driveType: string, startTs: int)
    requires CurveStored(t, device, offsets) && ProfilesStored(t, device, |offsets|)
    ensures var b := RunBody(t, device, offsets, runId, serial, driveType, startTs);
      && b.outcome.Success?
      && NoUpdates(b.trace)
      && CurveWrites(b.trace) == CurveRecords(CurvePoints(t, device, offsets, |offsets|), serial, runId, driveType, startTs)
      && ProfileWrites(b.trace)
         == ProfileRecords(ProfileResults(t, device, |offsets|, |Catalogue|), serial, runId, driveType,
              ProfileStartTs(startTs, |offsets|))
      && ProgressOnly(Events(b.trace))
  {
    var f := CurveSuccesses(t, device, offsets, 0);
    var curve := CurveTrace(t, device, offsets, runId, f);
    CurveTraceQuiet(t, device, offsets, runId, f);
    assert f == |offsets|;
    var n := |offsets|;
    var g := ProfileSuccesses(t, device, n, 0);
    var profiles := ProfileTrace(device, runId, g);
    ProfileTraceQuiet(device, runId, g);
    assert g == |Catalogue|;
    var e := WriteCurve(CurveRecords(CurvePoints(t, device, offsets, f), serial, runId, driveType, startTs));
    var e' := WriteProfiles(ProfileRecords(ProfileResults(t, device, n, g), serial, runId, driveType, ProfileStartTs(startTs, n)));
    WriteBetween(curve, e, profiles);
    WriteAfter(curve + [e] + profiles, e');
  }

  /** The work of a found run touches no row and broadcasts only progress.
      It succeeds exactly when every curve measurement, every profile job and
      both flushes do; the curve is stored exactly when every measurement and
      its flush succeed, one point per offset in order, and the profile
      results exactly when the whole work succeeds. */
  lemma {:induction false} RunBodyFacts(
    t: Tools, device: string, offsets: seq<int>, runId: int, serial: string, driveType: string, startTs: int)
    ensures var b := RunBody(t, device, offsets, runId, serial, driveType, startTs);
      && (b.outcome.Success? <==> CurveStored(t, device, offsets) && ProfilesStored(t, device, |offsets|))
      && NoUpdates(b.trace)
      && ProgressOnly(Events(b.trace))
      && CurveWrites(b.trace)
         == (if CurveStored(t, device, offsets)
             then CurveRecords(CurvePoints(t, device, offsets, |offsets|), serial, runId, driveType, startTs)
             else [])
      && ProfileWrites(b.trace)
         == (if b.outcome.Success?
             then ProfileRecords(ProfileResults(t, device, |offsets|, |Catalogue|), serial, runId, driveType,
                    ProfileStartTs(startTs, |offsets|))
             else [])
  {
    if !CurveStored(t, device, offsets) {
      BodyCurveFailure(t, device, offsets, runId, serial, driveType, startTs);
      QuietCollects(RunBody(t, device, offsets, runId, serial, driveType, startTs).trace);
    } else if !ProfilesStored(t, device, |offsets|) {
      BodyProfileFailure(t, device, offsets, runId, serial, driveType, startTs);
    } else {
      BodySuccess(t, device, offsets, runId, serial, driveType, startTs);
    }
  }

  /** Work that succeeds ran every curve measurement and every profile job
      successfully. */
  lemma BodySuccessNeedsJobs(
    t: Tools, device: string, offsets: seq<int>, runId: int, serial: string, driveType: string, startTs: int)
    requires RunBody(t, device, offsets, runId, serial, driveType, startTs).outcome.Success?
    ensures CurveOk(t, device, offsets) && ProfilesOk(t, device, |offsets|)
  {
    var f := CurveSuccesses(t, device, offsets, 0);
    assert f == |offsets|;
    var g := ProfileSuccesses(t, device, |offsets|, 0);
    assert g == |Catalogue|;
  }

  /** A job of real tools that succeeds came from a process that closed with
      a '{' in its output. */
  lemma ProcessJobNeedsJson(
    process: (nat, JobParams) -> ProcessOutcome, parse: string -> Result<FioOutput, string>,
    curveFlush: Result<Unit, string>, profileFlush: Result<Unit, string>, k: nat, job: JobParams)
    requires FioCall(ProcessTools(process, parse, curveFlush, profileFlush), k, job).Success?
    ensures process(k, job).Closed? && '{' in process(k, job).stdout
  {
    assert FioCall(ProcessTools(process, parse, curveFlush, profileFlush), k, job) == RunFioJob(process(k, job), parse);
  }

  /** With real processes, a run that succeeds had every one of its fio
      processes close with a JSON object in its output: a job that could not
      be started or printed no '{' fails the run. */
  lemma {:induction false} ProcessRunNeedsJson(
    process: (nat, JobParams) -> ProcessOutcome, parse: string -> Result<FioOutput, string>,
    curveFlush: Result<Unit, string>, profileFlush: Result<Unit, string>,
    device: string, offsets: seq<int>, runId: int, serial: string, driveType: string, startTs: int)
    requires RunBody(ProcessTools(process, parse, curveFlush, profileFlush), device, offsets, runId, serial, driveType, startTs)
      .outcome.Success?
    ensures forall k :: 0 <= k < |offsets| ==>
      process(k, MeasureJob(device, offsets[k])).Closed? && '{' in process(k, MeasureJob(device, offsets[k])).stdout
    ensures forall j :: 0 <= j < |Catalogue| ==>
      process(|offsets| + j, ProfileJob(device, j)).Closed? && '{' in process(|offsets| + j, ProfileJob(device, j)).stdout
  {
    var t := ProcessTools(process, parse, curveFlush, profileFlush);
    BodySuccessNeedsJobs(t, device, offsets, runId, serial, driveType, startTs);
    forall k | 0 <= k < |offsets|
      ensures process(k, MeasureJob(device, offsets[k])).Closed? && '{' in process(k, MeasureJob(device, offsets[k])).stdout
    {
      assert Measured(t, device, offsets, k).Success?;
      ProcessJobNeedsJson(process, parse, curveFlush, profileFlush, k, MeasureJob(device, offsets[k]));
    }
    forall j | 0 <= j < |Catalogue|
      ensures process(|offsets| + j, ProfileJob(device, j)).Closed? && '{' in process(|offsets| + j, ProfileJob(device, j)).stdout
    {
      assert ProfileCall(t, device, |offsets|, j).Success?;
      ProcessJobNeedsJson(process, parse, curveFlush, profileFlush, |offsets| + j, ProfileJob(device, j));
    }
  }

  /** The work of a found run, on its drive's device and offsets. */
  function BodyOf(t: Tools, runId: int, run: RunRow, drive: DriveRow, parseTime: string -> int): Execution {
    RunBody(t, FioDevicePath(drive.devicePath), ComputeOffsets(drive.capacity, run.numPoints), runId,
      drive.serialNumber, drive.driveType, parseTime(run.startedAt))
  }

  /** A found run ends as its work does. Its row is marked running and then
      completed or failed with the work's error, and no other row changes;
      the measurements receive exactly the work's writes; the feed receives
      the announcement, the work's progress reports and the closing event. */
  lemma {:induction false} ExecuteRun(
    w: World, drives: seq<DriveRow>, runId: int, t: Tools, parseTime: string -> int, now: string,
    run: RunRow, drive: DriveRow)
    requires FindRun(w.runs, runId) == Some(run) && FindDrive(drives, run.driveId) == Some(drive)
    ensures
      var x := ExecuteBenchmark(w.runs, drives, runId, t, parseTime, now);
      var b := BodyOf(t, runId, run, drive, parseTime);
      && x.outcome == b.outcome
      && ApplyAll(w, x.trace)
         == World(UpdateRows(UpdateRows(w.runs, runId, MarkRunning), runId, FinalUpdate(x.outcome, now)),
              Influx(w.influx.curve + CurveWrites(b.trace), w.influx.profiles + ProfileWrites(b.trace)),
              w.feed + [BenchmarkStarted(runId, run.driveId, run.numPoints)] + Events(b.trace)
                + [FinalEvent(runId, run.driveId, x.outcome)])
  {
    var b := BodyOf(t, runId, run, drive, parseTime);
    RunBodyFacts(t, FioDevicePath(drive.devicePath), ComputeOffsets(drive.capacity, run.numPoints), runId,
      drive.serialNumber, drive.driveType, parseTime(run.startedAt));
    RunEffects(w, runId, BenchmarkStarted(runId, run.driveId, run.numPoints), b.trace, FinalUpdate(b.outcome, now),
      FinalEvent(runId, run.driveId, b.outcome));
  }

  /** The curve points of a run are stamped in increasing order, as the
      read-back of its curve needs. */
  lemma CurveStampsAscend(points: seq<BenchmarkPoint>, serial: string, runId: int, driveType: string, startTs: int)
    ensures StampsAscend(CurveRecords(points, serial, runId, driveType, startTs))
  {
  }
}

=== FILE: benchmark_profiles.dfy ===
/** The ordered catalogue of fio profiles run in a benchmark's second phase,
    and the shape of the stand-in results used without real disks
    (packages/backend/src/services/benchmarkProfiles.ts). */
module BenchmarkProfiles {
  import opened Wrappers
  import opened Shared
  import opened FioRunner

  /** A catalogue entry: the job a profile runs, without its device. */
  datatype ProfileConfig = ProfileConfig(profile: string, caption: string, description: string, job: JobSpec)

  const MiB: int := 1024 * 1024

  const SeqRead := ProfileConfig(
    "seq_read", "Sequential Read", "Sustained sequential throughput — 1 MiB blocks, 1 job, 30 s",
    JobSpec(Read, MiB, 1, 1, 30, 5, None, None))

  const RandRead4k := ProfileConfig(
    "rand_read_4k", "4K Random Read", "Random IOPS — 4 KiB blocks, 8 parallel jobs, 30 s",
    JobSpec(RandRead, 4096, 1, 8, 30, 5, None, None))

  const Latency := ProfileConfig(
    "latency", "Idle Latency", "True device latency — 4 KiB blocks, single job, QD 1, 30 s",
    JobSpec(RandRead, 4096, 1, 1, 30, 5, None, None))

  /** `BENCHMARK_PROFILES`, in the order the engine runs them. */
  const Catalogue: seq<ProfileConfig> := [SeqRead, RandRead4k, Latency]

  /** `ORDER.indexOf(name)`: the catalogue position of a profile, -1 when it
      is not in the catalogue. */
  function Rank(name: string): (r: int)
    ensures -1 <= r < |Catalogue|
    ensures r == -1 <==> forall i :: 0 <= i < |Catalogue| ==> Catalogue[i].profile != name
    ensures r >= 0 ==> Catalogue[r].profile == name
  {
    if name == "seq_read" then
      assert Catalogue[0].profile == name;
      0
    else if name == "rand_read_4k" then
      assert Catalogue[1].profile == name;
      1
    else if name == "latency" then
      assert Catalogue[2].profile == name;
      2
    else -1
  }

  /** Every entry's rank is its position: the names are pairwise distinct. */
  lemma RankOfEntry(i: nat)
    requires i < |Catalogue|
    ensures Rank(Catalogue[i].profile) == i
  {
  }

  /** The properties every entry shares and those that tell them apart. */
  lemma CatalogueShape()
    ensures forall c :: c in Catalogue ==>
      c.job.iodepth == 1 && c.job.runtimeSecs == 30 && c.job.rampTimeSecs == 5
      && c.job.offsetBytes.None? && c.job.sizeBytes.None?
    ensures forall c :: c in Catalogue ==> (c.job.rwMode == Read <==> c.job.blockSizeBytes == MiB)
    ensures forall c :: c in Catalogue ==> (c.job.numjobs == 8 <==> c.profile == "rand_read_4k")
    ensures forall i, j :: 0 <= i < j < |Catalogue| ==> Catalogue[i].caption != Catalogue[j].caption
  {
  }

  /** The base figures of one stand-in result, in the field order bandwidth,
      IOPS, mean latency, then the four percentiles. */
  datatype Base = Base(bw: real, iops: real, mean: real, p50: real, p95: real, p99: real, p999: real)

  /** The three base rows of a drive type; anything other than "NVMe" and
      "SSD" gets the HDD figures. */
  function MockBases(driveType: string): seq<Base> {
    if driveType == "NVMe" then
      [ Base(3500000000.0, 3500.0, 280000.0, 270000.0, 350000.0, 500000.0, 1000000.0),
        Base(2800000000.0, 700000.0, 45000.0, 42000.0, 60000.0, 90000.0, 200000.0),
        Base(20000000.0, 5000.0, 18000.0, 17000.0, 25000.0, 40000.0, 80000.0) ]
    else if driveType == "SSD" then
      [ Base(550000000.0, 550.0, 1200000.0, 1100000.0, 1500000.0, 2000000.0, 5000000.0),
        Base(370000000.0, 90000.0, 350000.0, 330000.0, 450000.0, 700000.0, 2000000.0),
        Base(20000000.0, 5000.0, 180000.0, 170000.0, 250000.0, 400000.0, 1000000.0) ]
    else
      [ Base(160000000.0, 160.0, 8000000.0, 7500000.0, 12000000.0, 20000000.0, 50000000.0),
        Base(600000.0, 150.0, 7000000.0, 6500000.0, 10000000.0, 15000000.0, 30000000.0),
        Base(600000.0, 150.0, 6500000.0, 6000000.0, 9000000.0, 14000000.0, 25000000.0) ]
  }

  /** One stand-in result: each figure scaled by its own jitter draw. Draws
      are numbered in the order the source makes them, seven per result. */
  function Jittered(profile: string, b: Base, jitter: nat -> real, first: nat): ProfileResult {
    ProfileResult(profile,
      b.bw * jitter(first), b.iops * jitter(first + 1), b.mean * jitter(first + 2),
      b.p50 * jitter(first + 3), b.p95 * jitter(first + 4), b.p99 * jitter(first + 5),
      b.p999 * jitter(first + 6))
  }

  /** `mockProfileResults`; `jitter(k)` is the k-th factor drawn. */
  function MockProfileResults(driveType: string, jitter: nat -> real): (r: seq<ProfileResult>)
    ensures |r| == |Catalogue|
    ensures forall i :: 0 <= i < |r| ==> r[i].profile == Catalogue[i].profile
  {
    var b := MockBases(driveType);
    [ Jittered("seq_read", b[0], jitter, 0),
      Jittered("rand_read_4k", b[1], jitter, 7),
      Jittered("latency", b[2], jitter, 14) ]
  }

  /** Without jitter, the figures are the base rows of the drive type, and
      every type other than NVMe and SSD is given the HDD figures. */
  lemma MockFallsBackToHdd(driveType: string)
    requires driveType != "NVMe" && driveType != "SSD"
    ensures MockProfileResults(driveType, _ => 1.0) == MockProfileResults("HDD", _ => 1.0)
    ensures MockProfileResults(driveType, _ => 1.0)[0].bwBps == 160000000.0
  {
  }
}

=== FILE: benchmark_queries.dfy ===
/** Reading benchmark results back out of InfluxDB: `fetchRunProfiles`,
    `getRunDetail` and `getDriveSeries` of
    packages/backend/src/services/benchmarkEngine.ts. A query answer is the
    sequence of rows the client hands to the row callback; one row carries
    one field of one point. */
module BenchmarkQueries {
  import opened Wrappers
  import opened Text
  import opened Shared
  import opened Store
  import opened Sorting
  import opened OrderedMap
  import opened BenchmarkProfiles

  // ---------------------------------------------------------------------------
  // Position curve
  // ---------------------------------------------------------------------------

  /** The field of a `benchmark_points` row, with its value. */
  datatype CurveField = PositionField(position: int) | SpeedField(speed: real) | OtherField(name: string)

  /** One `benchmark_points` row: its `run_id` tag ("" when missing), the
      text of its `_time` and its field. */
  datatype CurveRow = CurveRow(runId: string, time: string, field: CurveField)

  /** What one time slot has collected so far. */
  datatype Slot = Slot(position: Option<int>, speed: Option<real>)

  function RowTime(r: CurveRow): string {
    r.time
  }

  /** `{}`: a slot seen for the first time. */
  function NoSlot(time: string): Slot {
    Slot(None, None)
  }

  /** The row callback on one slot: `position` and `speed_bps` rows set
      their value, any other field leaves the slot as it is. */
  function SetSlot(s: Slot, r: CurveRow): Slot {
    match r.field
    case PositionField(p) => s.(position := Some(p))
    case SpeedField(v) => s.(speed := Some(v))
    case OtherField(_) => s
  }

  /** `byTime`: time text to slot, in order of first appearance. */
  function ByTime(rows: seq<CurveRow>): seq<(string, Slot)> {
    FoldRows(rows, RowTime, NoSlot, SetSlot)
  }

  /** The comparator `(a < b ? -1 : a > b ? 1 : 0)` on the time texts, as
      "`a` may come first". */
  predicate TimeLe(a: (string, Slot), b: (string, Slot)) {
    LexLe(a.0, b.0)
  }

  lemma TimeLeIsPreorder()
    ensures TotalPreorder(TimeLe)
  {
    forall x: (string, Slot), y: (string, Slot) ensures TimeLe(x, y) || TimeLe(y, x) {
      LexLeTotal(x.0, y.0);
    }
    forall x: (string, Slot), y: (string, Slot), z: (string, Slot) | TimeLe(x, y) && TimeLe(y, z)
      ensures TimeLe(x, z)
    {
      LexLeTransitive(x.0, y.0, z.0);
    }
  }

  /** The point a slot gives: a missing position reads 0. */
  function SlotPoint(s: Slot): BenchmarkPoint
    requires s.speed.Some?
  {
    BenchmarkPoint(s.position.GetOr(0), s.speed.value)
  }

  /** The slots with a speed, as points, in slot order. */
  function SlotPoints(slots: seq<(string, Slot)>): (ps: seq<BenchmarkPoint>)
    ensures |ps| <= |slots|
    ensures (forall i :: 0 <= i < |slots| ==> slots[i].1.speed.None?) ==> ps == []
    ensures (forall i :: 0 <= i < |slots| ==> slots[i].1.speed.Some?) ==>
      |ps| == |slots| && forall i :: 0 <= i < |slots| ==> ps[i] == SlotPoint(slots[i].1)
    ensures forall p :: p in ps ==> exists i :: 0 <= i < |slots| && slots[i].1.speed.Some? && p == SlotPoint(slots[i].1)
    decreases |slots|
  {
    if |slots| == 0 then []
    else
      var rest := SlotPoints(slots[1..]);
      var s := slots[0].1;
      assert forall i :: 0 <= i < |slots| - 1 ==> slots[1..][i] == slots[i + 1];
      if s.speed.Some? then
        var ps := [SlotPoint(s)] + rest;
        assert forall i :: 1 <= i < |ps| ==> ps[i] == rest[i - 1];
        ps
      else rest
  }

  /** The order the slots are meant to come in: by the instant each time
      text denotes, `instant` reading a text as milliseconds (`Date.parse`). */
  function InstantLe(instant: string -> int): ((string, Slot), (string, Slot)) -> bool {
    (a: (string, Slot), b: (string, Slot)) => instant(a.0) <= instant(b.0)
  }

  lemma InstantLeIsPreorder(instant: string -> int)
    ensures TotalPreorder(InstantLe(instant))
  {
  }

  /** How a read path orders a curve's time slots. `ByText` is the
      source's comparator on the `_time` texts; `ByInstant` orders by the
      instant each text denotes, the correction of the text order. */
  datatype SlotOrder = ByText | ByInstant(instant: string -> int)

  /** The comparator of an order, as "`a` may come first". */
  function SlotLe(order: SlotOrder): ((string, Slot), (string, Slot)) -> bool {
    match order
    case ByText => TimeLe
    case ByInstant(instant) => InstantLe(instant)
  }

  lemma SlotLeIsPreorder(order: SlotOrder)
    ensures TotalPreorder(SlotLe(order))
  {
    if order.ByText? {
      TimeLeIsPreorder();
    }
  }

  /** The points of a set of slots, in the order `order` gives them. */
  function CurveOfSlots(slots: seq<(string, Slot)>, order: SlotOrder): seq<BenchmarkPoint> {
    SlotPoints(SortBy(slots, SlotLe(order)))
  }

  /** The points a read path returns for the rows of a run's curve. */
  function CurveOf(rows: seq<CurveRow>, order: SlotOrder): seq<BenchmarkPoint> {
    CurveOfSlots(ByTime(rows), order)
  }

  /** The slots are read in the order's sequence, one per distinct time
      text. */
  lemma CurveSlotsOrdered(rows: seq<CurveRow>, order: SlotOrder)
    ensures var s := SortBy(ByTime(rows), SlotLe(order));
      && SortedBy(s, SlotLe(order))
      && multiset(s) == multiset(ByTime(rows))
      && DistinctKeys(ByTime(rows))
      && forall t :: HasKey(ByTime(rows), t) <==> Keyed(rows, RowTime, t)
  {
    SlotLeIsPreorder(order);
    SortBySorted(ByTime(rows), SlotLe(order));
  }

  /** The last position written in `rows`, if any. */
  function LastPosition(rows: seq<CurveRow>): Option<int>
    decreases |rows|
  {
    if |rows| == 0 then None
    else if rows[|rows| - 1].field.PositionField? then Some(rows[|rows| - 1].field.position)
    else LastPosition(rows[..|rows| - 1])
  }

  /** The last speed written in `rows`, if any. */
  function LastSpeed(rows: seq<CurveRow>): Option<real>
    decreases |rows|
  {
    if |rows| == 0 then None
    else if rows[|rows| - 1].field.SpeedField? then Some(rows[|rows| - 1].field.speed)
    else LastSpeed(rows[..|rows| - 1])
  }

  lemma {:induction false} AccumulateSlot(rows: seq<CurveRow>, t: string)
    ensures Accumulate(NoSlot(t), rows, SetSlot) == Slot(LastPosition(rows), LastSpeed(rows))
    decreases |rows|
  {
    if |rows| > 0 {
      var init := rows[..|rows| - 1];
      AccumulateSlot(init, t);
      assert Accumulate(NoSlot(t), rows, SetSlot) == SetSlot(Accumulate(NoSlot(t), init, SetSlot), rows[|rows| - 1]);
    }
  }

  /** Within one time slot the last row of each field wins. */
  lemma SlotIsLastWrite(rows: seq<CurveRow>, i: nat)
    requires i < |ByTime(rows)|
    ensures var e := ByTime(rows)[i];
      var mine := WithKey(rows, RowTime, e.0);
      e.1 == Slot(LastPosition(mine), LastSpeed(mine))
  {
    var e := ByTime(rows)[i];
    FoldValue(rows, RowTime, NoSlot, SetSlot, i);
    AccumulateSlot(WithKey(rows, RowTime, e.0), e.0);
  }

  // ---------------------------------------------------------------------------
  // Reading back what was written
  // ---------------------------------------------------------------------------

  /** The rows of a run's curve query: Influx answers one table per field,
      `position` before `speed_bps`, each in time order. `timeText` renders
      a millisecond timestamp as the `_time` text. */
  function StoredCurveRows(records: seq<CurveRecord>, timeText: int -> string): seq<CurveRow> {
    PositionRows(records, timeText) + SpeedRows(records, timeText)
  }

  function PositionRows(records: seq<CurveRecord>, timeText: int -> string): (rows: seq<CurveRow>)
    ensures |rows| == |records|
  {
    seq(|records|, i requires 0 <= i < |records| =>
      CurveRow(IntToString(records[i].runId), timeText(records[i].timestamp), PositionField(records[i].position)))
  }

  function SpeedRows(records: seq<CurveRecord>, timeText: int -> string): (rows: seq<CurveRow>)
    ensures |rows| == |records|
  {
    seq(|records|, i requires 0 <= i < |records| =>
      CurveRow(IntToString(records[i].runId), timeText(records[i].timestamp), SpeedField(records[i].speedBps)))
  }

  /** The points the records were written from. */
  function RecordPoints(records: seq<CurveRecord>): (ps: seq<BenchmarkPoint>)
    ensures |ps| == |records|
  {
    seq(|records|, i requires 0 <= i < |records| => BenchmarkPoint(records[i].position, records[i].speedBps))
  }

  /** No two records share a time text. */
  predicate TextsDistinct(records: seq<CurveRecord>, timeText: int -> string) {
    forall i, j :: 0 <= i < j < |records| ==> timeText(records[i].timestamp) != timeText(records[j].timestamp)
  }

  /** Time texts that sort like the times they render. */
  predicate TimesAscend(records: seq<CurveRecord>, timeText: int -> string) {
    forall i, j :: 0 <= i < j < |records| ==> LexLess(timeText(records[i].timestamp), timeText(records[j].timestamp))
  }

  /** The records were stamped in increasing order. */
  predicate StampsAscend(records: seq<CurveRecord>) {
    forall i, j :: 0 <= i < j < |records| ==> records[i].timestamp < records[j].timestamp
  }

  /** Reading each record's time text gives back its timestamp. */
  predicate InstantsRead(records: seq<CurveRecord>, timeText: int -> string, instant: string -> int) {
    forall i :: 0 <= i < |records| ==> instant(timeText(records[i].timestamp)) == records[i].timestamp
  }

  lemma AscendingTextsDistinct(records: seq<CurveRecord>, timeText: int -> string)
    requires TimesAscend(records, timeText)
    ensures TextsDistinct(records, timeText)
  {
    forall i, j | 0 <= i < j < |records| ensures timeText(records[i].timestamp) != timeText(records[j].timestamp) {
      LexLessIrreflexive(timeText(records[i].timestamp));
    }
  }

  /** The slots after the first `k` speed rows: every time has its
      position, and the first `k` have their speed. */
  function SlotsAfter(records: seq<CurveRecord>, timeText: int -> string, k: nat): (m: seq<(string, Slot)>)
    ensures |m| == |records|
  {
    seq(|records|, i requires 0 <= i < |records| =>
      (timeText(records[i].timestamp),
       Slot(Some(records[i].position), if i < k then Some(records[i].speedBps) else None)))
  }

  lemma DistinctTimes(records: seq<CurveRecord>, timeText: int -> string, k: nat)
    requires TextsDistinct(records, timeText)
    ensures DistinctKeys(SlotsAfter(records, timeText, k))
  {
  }

  /** One position row adds the slot of its time. */
  lemma PositionStep(records: seq<CurveRecord>, timeText: int -> string, k: nat)
    requires TextsDistinct(records, timeText) && k < |records|
    ensures var x := PositionRows(records, timeText)[k];
      Upsert(SlotsAfter(records, timeText, 0)[..k], x.time, NoSlot(x.time), (v: Slot) => SetSlot(v, x))
        == SlotsAfter(records, timeText, 0)[..k + 1]
  {
    var x := PositionRows(records, timeText)[k];
    var want := SlotsAfter(records, timeText, 0);
    var m := want[..k];
    assert !HasKey(m, x.time) by {
      forall i | 0 <= i < |m| ensures m[i].0 != x.time {
        assert m[i] == want[i];
      }
    }
    UpsertNew(m, x.time, NoSlot(x.time), (v: Slot) => SetSlot(v, x));
    assert want[..k + 1] == m + [want[k]];
  }

  /** The position table builds one slot per time, in order. */
  lemma {:induction false} PositionPass(records: seq<CurveRecord>, timeText: int -> string, k: nat)
    requires TextsDistinct(records, timeText) && k <= |records|
    ensures ByTime(PositionRows(records, timeText)[..k]) == SlotsAfter(records, timeText, 0)[..k]
    decreases k
  {
    var rows := PositionRows(records, timeText);
    if k > 0 {
      PositionPass(records, timeText, k - 1);
      var x := rows[k - 1];
      PrefixSnoc(rows, k);
      FoldSnoc(rows[..k - 1], x, RowTime, NoSlot, SetSlot);
      PositionStep(records, timeText, k - 1);
    }
  }

  /** One speed row fills the slot of its time. */
  lemma SpeedStep(records: seq<CurveRecord>, timeText: int -> string, k: nat)
    requires TextsDistinct(records, timeText) && k < |records|
    ensures var x := SpeedRows(records, timeText)[k];
      Upsert(SlotsAfter(records, timeText, k), x.time, NoSlot(x.time), (v: Slot) => SetSlot(v, x))
        == SlotsAfter(records, timeText, k + 1)
  {
    var x := SpeedRows(records, timeText)[k];
    var m := SlotsAfter(records, timeText, k);
    DistinctTimes(records, timeText, k);
    UpsertAt(m, k, x.time, NoSlot(x.time), (v: Slot) => SetSlot(v, x));
    assert m[k := (x.time, SetSlot(m[k].1, x))] == SlotsAfter(records, timeText, k + 1);
  }

  /** The speed table then fills the slots it finds, in order. */
  lemma {:induction false} SpeedPass(records: seq<CurveRecord>, timeText: int -> string, k: nat)
    requires TextsDistinct(records, timeText) && k <= |records|
    ensures FoldFrom(SlotsAfter(records, timeText, 0), SpeedRows(records, timeText)[..k], RowTime, NoSlot, SetSlot)
         == SlotsAfter(records, timeText, k)
    decreases k
  {
    if k > 0 {
      var ss := SpeedRows(records, timeText);
      SpeedPass(records, timeText, k - 1);
      assert ss[..k][..k - 1] == ss[..k - 1];
      SpeedStep(records, timeText, k - 1);
    }
  }

  /** The stored rows of a run group into one full slot per point, in
      record order, whenever no two records share a time text. */
  lemma StoredSlots(records: seq<CurveRecord>, timeText: int -> string)
    requires TextsDistinct(records, timeText)
    ensures ByTime(StoredCurveRows(records, timeText)) == SlotsAfter(records, timeText, |records|)
  {
    var n := |records|;
    var ps, ss := PositionRows(records, timeText), SpeedRows(records, timeText);
    PositionPass(records, timeText, n);
    assert ps[..n] == ps;
    assert SlotsAfter(records, timeText, 0)[..n] == SlotsAfter(records, timeText, 0);
    FoldRowsAppend(ps, ss, RowTime, NoSlot, SetSlot);
    SpeedPass(records, timeText, n);
    assert ss[..n] == ss;
  }

  lemma SlotsSorted(records: seq<CurveRecord>, timeText: int -> string, k: nat)
    requires TimesAscend(records, timeText)
    ensures SortedBy(SlotsAfter(records, timeText, k), TimeLe)
  {
    var m := SlotsAfter(records, timeText, k);
    forall i, j | 0 <= i < j < |m| ensures TimeLe(m[i], m[j]) {
      var a, b := m[i].0, m[j].0;
      if LexLess(b, a) {
        LexLessTransitive(a, b, a);
        LexLessIrreflexive(a);
      }
    }
  }

  /** Reading back a run's points gives the points written, in order: the
      records were stamped in increasing order and their time texts read
      back as their stamps. */
  lemma CurveRoundTrip(records: seq<CurveRecord>, timeText: int -> string, instant: string -> int)
    requires StampsAscend(records) && InstantsRead(records, timeText, instant)
    ensures CurveOf(StoredCurveRows(records, timeText), ByInstant(instant)) == RecordPoints(records)
  {
    var m := SlotsAfter(records, timeText, |records|);
    assert TextsDistinct(records, timeText) by {
      forall i, j | 0 <= i < j < |records| ensures timeText(records[i].timestamp) != timeText(records[j].timestamp) {
        assert instant(timeText(records[i].timestamp)) < instant(timeText(records[j].timestamp));
      }
    }
    StoredSlots(records, timeText);
    assert SortedBy(m, SlotLe(ByInstant(instant))) by {
      forall i, j | 0 <= i < j < |m| ensures SlotLe(ByInstant(instant))(m[i], m[j]) {
        assert instant(m[i].0) == records[i].timestamp && instant(m[j].0) == records[j].timestamp;
      }
    }
    SortByOfSorted(m, SlotLe(ByInstant(instant)));
    FullSlotPoints(records, timeText);
  }

  /** The source's text order gives the points back only when the time texts
      happen to sort like the times. */
  lemma TextOrderRoundTrip(records: seq<CurveRecord>, timeText: int -> string)
    requires TimesAscend(records, timeText)
    ensures CurveOf(StoredCurveRows(records, timeText), ByText) == RecordPoints(records)
  {
    var m := SlotsAfter(records, timeText, |records|);
    AscendingTextsDistinct(records, timeText);
    StoredSlots(records, timeText);
    SlotsSorted(records, timeText, |records|);
    SortByOfSorted(m, SlotLe(ByText));
    FullSlotPoints(records, timeText);
  }

  /** Full slots read back as the recorded points. */
  lemma FullSlotPoints(records: seq<CurveRecord>, timeText: int -> string)
    ensures SlotPoints(SlotsAfter(records, timeText, |records|)) == RecordPoints(records)
  {
    var m := SlotsAfter(records, timeText, |records|);
    assert forall i :: 0 <= i < |m| ==> m[i].1.speed.Some?;
  }

  // ---------------------------------------------------------------------------
  // The `_time` texts InfluxDB answers with
  // ---------------------------------------------------------------------------

  /** The fraction of a second InfluxDB prints for `ms` milliseconds past
      it (RFC 3339 with nanoseconds, trailing zeros dropped): nothing for a
      whole second, otherwise a dot and up to three digits. */
  function FractionText(ms: int): string
    requires 0 <= ms < 1000
  {
    var d1, d2, d3 := ms / 100, ms / 10 % 10, ms % 10;
    if d3 != 0 then "." + [DigitChar(d1), DigitChar(d2), DigitChar(d3)]
    else if d2 != 0 then "." + [DigitChar(d1), DigitChar(d2)]
    else if d1 != 0 then "." + [DigitChar(d1)]
    else ""
  }

  /** The `_time` text of a millisecond timestamp: `secondText` renders the
      date and time to the whole second, then the trimmed fraction and `Z`. */
  function TimeText(secondText: int -> string, t: int): string {
    secondText(t / 1000) + FractionText(t % 1000) + "Z"
  }

  /** Two points of a run written at 120 and 121 ms past a whole second. */
  function ScrambledRecords(): seq<CurveRecord> {
    [CurveRecord("S1", 1, "ssd", 0, 100.0, 120), CurveRecord("S1", 1, "ssd", 4096, 200.0, 121)]
  }

  lemma ScrambledFractions()
    ensures FractionText(120) == ".12" && FractionText(121) == ".121"
  {
    assert DigitChar(1) == '1' && DigitChar(2) == '2';
  }

  lemma ScrambledSuffixes()
    ensures LexLess(".121Z", ".12Z")
  {
    assert LexLess("1Z", "Z");
    assert "21Z"[1..] == "1Z" && "2Z"[1..] == "Z";
    assert LexLess("21Z", "2Z");
    assert "121Z"[1..] == "21Z" && "12Z"[1..] == "2Z";
    assert LexLess("121Z", "12Z");
    assert ".121Z"[1..] == "121Z" && ".12Z"[1..] == "12Z";
  }

  /** The texts of 120 and 121 ms past a second: the later one sorts first. */
  lemma ScrambledTexts(secondText: int -> string)
    ensures TimeText(secondText, 120) != TimeText(secondText, 121)
    ensures LexLess(TimeText(secondText, 121), TimeText(secondText, 120))
  {
    var day := secondText(0);
    ScrambledFractions();
    assert TimeText(secondText, 120) == day + ".12Z" && TimeText(secondText, 121) == day + ".121Z";
    ScrambledSuffixes();
    LexLessAfterPrefix(day, ".121Z", ".12Z");
  }

  /** Two full slots give their two points, in slot order. */
  lemma SlotPointsTwo(x: (string, Slot), y: (string, Slot))
    requires x.1.speed.Some? && y.1.speed.Some?
    ensures SlotPoints([x, y]) == [SlotPoint(x.1), SlotPoint(y.1)]
  {
    var s := [x, y];
    assert forall i :: 0 <= i < |s| ==> s[i].1.speed.Some?;
  }

  /** The slots of two points with different time texts, in write order. */
  lemma PairSlots(records: seq<CurveRecord>, timeText: int -> string)
    requires |records| == 2
    requires timeText(records[0].timestamp) != timeText(records[1].timestamp)
    ensures ByTime(StoredCurveRows(records, timeText))
      == [(timeText(records[0].timestamp), Slot(Some(records[0].position), Some(records[0].speedBps))),
          (timeText(records[1].timestamp), Slot(Some(records[1].position), Some(records[1].speedBps)))]
  {
    assert TextsDistinct(records, timeText);
    StoredSlots(records, timeText);
    var m := SlotsAfter(records, timeText, 2);
    assert m == [m[0], m[1]];
  }

  /** Two points whose second time text sorts first are read back
      swapped. */
  lemma TextOrderSwapsPair(records: seq<CurveRecord>, timeText: int -> string)
    requires |records| == 2
    requires LexLess(timeText(records[1].timestamp), timeText(records[0].timestamp))
    ensures CurveOf(StoredCurveRows(records, timeText), ByText)
      == [BenchmarkPoint(records[1].position, records[1].speedBps), BenchmarkPoint(records[0].position, records[0].speedBps)]
  {
    var a, b := timeText(records[0].timestamp), timeText(records[1].timestamp);
    LexLessIrreflexive(a);
    PairSlots(records, timeText);
    var x := (a, Slot(Some(records[0].position), Some(records[0].speedBps)));
    var y := (b, Slot(Some(records[1].position), Some(records[1].speedBps)));
    assert !SlotLe(ByText)(x, y);
    SortTwo(x, y, SlotLe(ByText));
    SlotPointsTwo(y, x);
  }

  /** The source reads these two points back in the wrong order, whatever
      the date: `….12Z` sorts after `….121Z`, since `Z` comes after `1`. */
  lemma TextOrderScramblesCurve(secondText: int -> string)
    ensures var records := ScrambledRecords();
      var timeText := (t: int) => TimeText(secondText, t);
      && CurveOf(StoredCurveRows(records, timeText), ByText) == [BenchmarkPoint(4096, 200.0), BenchmarkPoint(0, 100.0)]
      && CurveOf(StoredCurveRows(records, timeText), ByText) != RecordPoints(records)
  {
    var records := ScrambledRecords();
    var timeText := (t: int) => TimeText(secondText, t);
    ScrambledTexts(secondText);
    TextOrderSwapsPair(records, timeText);
    assert RecordPoints(records)[0] == BenchmarkPoint(0, 100.0);
  }

  /** Ordered by the instants the texts denote, the same rows give the
      points back in the order they were written. */
  lemma InstantOrderKeepsCurve(secondText: int -> string, instant: string -> int)
    requires forall t: int :: instant(TimeText(secondText, t)) == t
    ensures var records := ScrambledRecords();
      CurveOf(StoredCurveRows(records, (t: int) => TimeText(secondText, t)), ByInstant(instant)) == RecordPoints(records)
  {
    CurveRoundTrip(ScrambledRecords(), (t: int) => TimeText(secondText, t), instant);
  }

  // ---------------------------------------------------------------------------
  // Profile results
  // ---------------------------------------------------------------------------

  /** The `_field` of a `benchmark_profiles` row: one of the seven names
      the writer uses (`bw_bps`, `iops`, `lat_mean_ns`, `lat_p50_ns`,
      `lat_p95_ns`, `lat_p99_ns`, `lat_p999_ns`) or another name. */
  datatype ProfileField = BwBps | Iops | LatMean | LatP50 | LatP95 | LatP99 | LatP999 | OtherName(name: string)

  /** One `benchmark_profiles` row: its `profile` tag ("" when missing), its
      field and value. */
  datatype ProfileRow = ProfileRow(profile: string, field: ProfileField, value: real)

  /** `Partial<ProfileResult>`: the fields seen so far. */
  datatype PartialProfile = PartialProfile(
    profile: string,
    bwBps: Option<real>,
    iops: Option<real>,
    latMeanNs: Option<real>,
    latP50Ns: Option<real>,
    latP95Ns: Option<real>,
    latP99Ns: Option<real>,
    latP999Ns: Option<real>)

  function RowProfile(r: ProfileRow): string {
    r.profile
  }

  /** `{ profile }`: a profile seen for the first time. */
  function NoFields(name: string): PartialProfile {
    PartialProfile(name, None, None, None, None, None, None, None)
  }

  /** The `switch` on the field name; unknown fields are ignored. */
  function SetField(p: PartialProfile, r: ProfileRow): PartialProfile {
    var v := Some(r.value);
    match r.field
    case BwBps => p.(bwBps := v)
    case Iops => p.(iops := v)
    case LatMean => p.(latMeanNs := v)
    case LatP50 => p.(latP50Ns := v)
    case LatP95 => p.(latP95Ns := v)
    case LatP99 => p.(latP99Ns := v)
    case LatP999 => p.(latP999Ns := v)
    case OtherName(_) => p
  }

  /** `byProfile`: profile name to collected fields, in order of first
      appearance. */
  function ByProfile(rows: seq<ProfileRow>): seq<(string, PartialProfile)> {
    FoldRows(rows, RowProfile, NoFields, SetField)
  }

  /** The filter of `fetchRunProfiles`: bandwidth and IOPS are present. */
  predicate Complete(p: PartialProfile) {
    p.bwBps.Some? && p.iops.Some?
  }

  /** `ORDER.indexOf(a.profile) - ORDER.indexOf(b.profile)` as "`a` may
      come first"; names outside the catalogue rank -1 and come first. */
  predicate RankLe(a: PartialProfile, b: PartialProfile) {
    Rank(a.profile) <= Rank(b.profile)
  }

  function Values<K, V>(m: seq<(K, V)>): (vs: seq<V>)
    ensures |vs| == |m| && forall i :: 0 <= i < |m| ==> vs[i] == m[i].1
  {
    seq(|m|, i requires 0 <= i < |m| => m[i].1)
  }

  /** `fetchRunProfiles` on the rows of its query. */
  function RunProfiles(rows: seq<ProfileRow>): seq<PartialProfile> {
    SortBy(Filter(Values(ByProfile(rows)), Complete), RankLe)
  }

  lemma RankLeIsPreorder()
    ensures TotalPreorder(RankLe)
  {
  }

  /** The results are the complete profiles the rows built, in catalogue
      order. */
  lemma RunProfilesFacts(rows: seq<ProfileRow>)
    ensures var r := RunProfiles(rows);
      && SortedBy(r, RankLe)
      && forall p :: p in r <==> p in Values(ByProfile(rows)) && Complete(p)
  {
    var kept := Filter(Values(ByProfile(rows)), Complete);
    var sorted := SortBy(kept, RankLe);
    RankLeIsPreorder();
    SortBySorted(kept, RankLe);
    forall p ensures p in sorted <==> p in kept {
      assert p in sorted <==> p in multiset(sorted);
      assert p in kept <==> p in multiset(kept);
    }
  }

  /** Each profile the rows built holds its fields as the rows of that
      profile last set them, in row order. */
  lemma ProfileEntryValue(rows: seq<ProfileRow>, i: nat)
    requires i < |ByProfile(rows)|
    ensures var e := ByProfile(rows)[i];
      e.1 == Accumulate(NoFields(e.0), WithKey(rows, RowProfile, e.0), SetField)
  {
    FoldValue(rows, RowProfile, NoFields, SetField, i);
  }

  /** A stored result with every field present. */
  function Full(r: ProfileResult): PartialProfile {
    PartialProfile(r.profile, Some(r.bwBps), Some(r.iops), Some(r.latMeanNs), Some(r.latP50Ns),
      Some(r.latP95Ns), Some(r.latP99Ns), Some(r.latP999Ns))
  }

  /** The seven rows of one stored result, in the order they were written. */
  function ResultRows(r: ProfileResult): seq<ProfileRow> {
    [ ProfileRow(r.profile, BwBps, r.bwBps), ProfileRow(r.profile, Iops, r.iops),
      ProfileRow(r.profile, LatMean, r.latMeanNs), ProfileRow(r.profile, LatP50, r.latP50Ns),
      ProfileRow(r.profile, LatP95, r.latP95Ns), ProfileRow(r.profile, LatP99, r.latP99Ns),
      ProfileRow(r.profile, LatP999, r.latP999Ns) ]
  }

  /** The rows of a run's profile query, one result after the other. */
  function StoredProfileRows(results: seq<ProfileResult>): seq<ProfileRow>
    decreases |results|
  {
    if |results| == 0 then [] else StoredProfileRows(results[..|results| - 1]) + ResultRows(results[|results| - 1])
  }

  /** Read in order, the seven rows of a result fill in every field. */
  lemma ResultRowsFill(r: ProfileResult)
    ensures Accumulate(NoFields(r.profile), ResultRows(r), SetField) == Full(r)
  {
    var rows := ResultRows(r);
    var p := NoFields(r.profile);
    assert rows[..0] == [];
    AccumulateStep(p, rows, 0, SetField);
    AccumulateStep(p, rows, 1, SetField);
    AccumulateStep(p, rows, 2, SetField);
    AccumulateStep(p, rows, 3, SetField);
    AccumulateStep(p, rows, 4, SetField);
    AccumulateStep(p, rows, 5, SetField);
    AccumulateStep(p, rows, 6, SetField);
    assert rows[..7] == rows;
  }

  /** The seven rows of a result not seen before add it, complete. */
  lemma ResultBlock(m: seq<(string, PartialProfile)>, r: ProfileResult)
    requires DistinctKeys(m) && !HasKey(m, r.profile)
    ensures FoldFrom(m, ResultRows(r), RowProfile, NoFields, SetField) == m + [(r.profile, Full(r))]
  {
    FoldFromBlock(m, ResultRows(r), r.profile, RowProfile, NoFields, SetField);
    ResultRowsFill(r);
  }

  /** The results come in catalogue order, as the engine runs them. */
  predicate InCatalogueOrder(results: seq<ProfileResult>) {
    forall i, j :: 0 <= i < j < |results| ==> Rank(results[i].profile) <= Rank(results[j].profile)
  }

  /** The results of one run carry distinct profile names. */
  predicate DistinctProfiles(results: seq<ProfileResult>) {
    forall i, j :: 0 <= i < j < |results| ==> results[i].profile != results[j].profile
  }

  /** One complete entry per result, in the order they were stored. */
  function Entries(results: seq<ProfileResult>): (m: seq<(string, PartialProfile)>)
    ensures |m| == |results|
    ensures forall i :: 0 <= i < |results| ==> m[i] == (results[i].profile, Full(results[i]))
  {
    seq(|results|, i requires 0 <= i < |results| => (results[i].profile, Full(results[i])))
  }

  /** A name none of the results carry is not a key of their entries. */
  lemma NewProfile(results: seq<ProfileResult>, name: string)
    requires forall i :: 0 <= i < |results| ==> results[i].profile != name
    ensures !HasKey(Entries(results), name)
  {
  }

  /** Dropping the last result keeps the names distinct, and the last name
      is new to the others' entries; their entries plus the last one are all
      the entries. */
  lemma EntriesSnoc(results: seq<ProfileResult>)
    requires DistinctProfiles(results) && |results| > 0
    ensures var init := results[..|results| - 1];
      var last := results[|results| - 1];
      && DistinctProfiles(init)
      && !HasKey(Entries(init), last.profile)
      && Entries(init) + [(last.profile, Full(last))] == Entries(results)
  {
    var init := results[..|results| - 1];
    var last := results[|results| - 1];
    forall i, j | 0 <= i < j < |init| ensures init[i].profile != init[j].profile {
      assert init[i] == results[i] && init[j] == results[j];
    }
    forall i | 0 <= i < |init| ensures init[i].profile != last.profile {
      assert init[i] == results[i];
    }
    NewProfile(init, last.profile);
    assert Entries(init) + [(last.profile, Full(last))] == Entries(results);
  }

  /** Grouping the stored rows by profile gives back one complete entry per
      result. */
  lemma {:induction false} StoredEntries(results: seq<ProfileResult>)
    requires DistinctProfiles(results)
    ensures ByProfile(StoredProfileRows(results)) == Entries(results)
    decreases |results|
  {
    if |results| > 0 {
      var init := results[..|results| - 1];
      var last := results[|results| - 1];
      EntriesSnoc(results);
      StoredEntries(init);
      var a, b := StoredProfileRows(init), ResultRows(last);
      assert StoredProfileRows(results) == a + b;
      FoldRowsAppend(a, b, RowProfile, NoFields, SetField);
      ResultBlock(Entries(init), last);
    }
  }

  /** Every result, complete. */
  function Fulls(results: seq<ProfileResult>): (ps: seq<PartialProfile>)
    ensures |ps| == |results| && forall i :: 0 <= i < |results| ==> ps[i] == Full(results[i])
  {
    seq(|results|, i requires 0 <= i < |results| => Full(results[i]))
  }

  /** What the benchmark engine writes, `fetchRunProfiles` reads back: for
      results with distinct names stored in catalogue order, every result
      comes back with all of its fields, in the same order. */
  lemma ProfilesRoundTrip(results: seq<ProfileResult>)
    requires DistinctProfiles(results) && InCatalogueOrder(results)
    ensures RunProfiles(StoredProfileRows(results)) == Fulls(results)
  {
    var rows := StoredProfileRows(results);
    var fulls := Fulls(results);
    StoredEntries(results);
    ValuesOfEntries(results);
    FullsKept(results);
    RunProfilesOf(rows, fulls);
  }

  /** Profiles that are all complete and already in catalogue order come
      back as they are. */
  lemma RunProfilesOf(rows: seq<ProfileRow>, ps: seq<PartialProfile>)
    requires Values(ByProfile(rows)) == ps
    requires Filter(ps, Complete) == ps && SortedBy(ps, RankLe)
    ensures RunProfiles(rows) == ps
  {
    SortByOfSorted(ps, RankLe);
  }

  lemma ValuesOfEntries(results: seq<ProfileResult>)
    ensures Values(Entries(results)) == Fulls(results)
  {
  }

  /** Complete results all pass the filter, and results in catalogue order
      are already sorted. */
  lemma FullsKept(results: seq<ProfileResult>)
    requires InCatalogueOrder(results)
    ensures Filter(Fulls(results), Complete) == Fulls(results)
    ensures SortedBy(Fulls(results), RankLe)
  {
    FilterAll(Fulls(results), Complete);
  }
}

=== FILE: benchmark_reads.dfy ===
/** The two read paths of packages/backend/src/services/benchmarkEngine.ts
    built on the query reassembly: `getRunDetail` (one run) and
    `getDriveSeries` (every completed run of a drive). A query is a
    parameter from the text it filters on to the rows InfluxDB answers. */
module BenchmarkReads {
  import opened Wrappers
  import opened Text
  import opened Shared
  import opened Store
  import opened Sorting
  import opened OrderedMap
  import opened BenchmarkQueries

  // ---------------------------------------------------------------------------
  // getRunDetail
  // ---------------------------------------------------------------------------

  /** `BenchmarkRunDetail`: the run row with its curve and profile results. */
  datatype RunDetail = RunDetail(run: RunRow, points: seq<BenchmarkPoint>, profileResults: seq<PartialProfile>)

  /** `drive?.serialNumber` is truthy: the run's drive exists and has a
      non-empty serial. */
  predicate HasSerial(drives: seq<DriveRow>, run: RunRow) {
    FindDrive(drives, run.driveId).Some? && FindDrive(drives, run.driveId).value.serialNumber != ""
  }

  /** `getRunDetail`: null for an unknown run; the run with no points and no
      profiles when its drive has no serial; otherwise the run with the
      curve and profiles its two queries (both filtered on the run id text)
      give back, the curve's time slots in `order`. The source compares the
      `_time` texts: `order` is `ByText`. */
  function GetRunDetail(runs: seq<RunRow>, drives: seq<DriveRow>, runId: int,
                        curveQuery: string -> seq<CurveRow>, profileQuery: string -> seq<ProfileRow>, order: SlotOrder): (d: Option<RunDetail>)
    ensures d.None? <==> FindRun(runs, runId).None?
    ensures d.Some? ==> d.value.run == FindRun(runs, runId).value && d.value.run.runId == runId
    ensures d.Some? && !HasSerial(drives, d.value.run) ==> d.value.points == [] && d.value.profileResults == []
  {
    match FindRun(runs, runId)
    case None => None
    case Some(run) =>
      if HasSerial(drives, run) then
        var key := IntToString(runId);
        Some(RunDetail(run, CurveOf(curveQuery(key), order), RunProfiles(profileQuery(key))))
      else Some(RunDetail(run, [], []))
  }

  /** With its slots ordered by instant, `getRunDetail` gives back what a
      completed run stored: when the two queries answer with the rows of the
      curve records and profile results the engine wrote for the run, the
      detail holds exactly those points and every result, complete and in
      catalogue order. */
  lemma RunDetailReadsBack(runs: seq<RunRow>, drives: seq<DriveRow>, runId: int,
                           curveQuery: string -> seq<CurveRow>, profileQuery: string -> seq<ProfileRow>, instant: string -> int,
                           records: seq<CurveRecord>, results: seq<ProfileResult>, timeText: int -> string)
    requires FindRun(runs, runId).Some? && HasSerial(drives, FindRun(runs, runId).value)
    requires curveQuery(IntToString(runId)) == StoredCurveRows(records, timeText)
    requires StampsAscend(records) && InstantsRead(records, timeText, instant)
    requires profileQuery(IntToString(runId)) == StoredProfileRows(results)
    requires DistinctProfiles(results) && InCatalogueOrder(results)
    ensures var d := GetRunDetail(runs, drives, runId, curveQuery, profileQuery, ByInstant(instant));
      d.Some? && d.value.points == RecordPoints(records) && d.value.profileResults == Fulls(results)
  {
    CurveRoundTrip(records, timeText, instant);
    ProfilesRoundTrip(results);
  }

  /** As written, `getRunDetail` gives the points back in the order they
      were written only when their time texts sort like their times. */
  lemma RunDetailTextReadsBack(runs: seq<RunRow>, drives: seq<DriveRow>, runId: int,
                               curveQuery: string -> seq<CurveRow>, profileQuery: string -> seq<ProfileRow>,
                               records: seq<CurveRecord>, timeText: int -> string)
    requires FindRun(runs, runId).Some? && HasSerial(drives, FindRun(runs, runId).value)
    requires curveQuery(IntToString(runId)) == StoredCurveRows(records, timeText)
    requires TimesAscend(records, timeText)
    ensures var d := GetRunDetail(runs, drives, runId, curveQuery, profileQuery, ByText);
      d.Some? && d.value.points == RecordPoints(records)
  {
    TextOrderRoundTrip(records, timeText);
  }

  /** As written, `getRunDetail` returns the points of 120 and 121 ms past
      a second swapped, whatever the date; ordered by instant it returns
      them as written. */
  lemma DetailScramblesCurve(runs: seq<RunRow>, drives: seq<DriveRow>, runId: int,
                             profileQuery: string -> seq<ProfileRow>, secondText: int -> string, instant: string -> int)
    requires FindRun(runs, runId).Some? && HasSerial(drives, FindRun(runs, runId).value)
    requires forall t: int :: instant(TimeText(secondText, t)) == t
    ensures var rows := StoredCurveRows(ScrambledRecords(), (t: int) => TimeText(secondText, t));
      var curveQuery := (key: string) => rows;
      var asWritten := GetRunDetail(runs, drives, runId, curveQuery, profileQuery, ByText);
      var corrected := GetRunDetail(runs, drives, runId, curveQuery, profileQuery, ByInstant(instant));
      && asWritten.Some? && asWritten.value.points == [BenchmarkPoint(4096, 200.0), BenchmarkPoint(0, 100.0)]
      && asWritten.value.points != RecordPoints(ScrambledRecords())
      && corrected.Some? && corrected.value.points == RecordPoints(ScrambledRecords())
  {
    TextOrderScramblesCurve(secondText);
    InstantOrderKeepsCurve(secondText, instant);
  }

  // ---------------------------------------------------------------------------
  // getDriveSeries
  // ---------------------------------------------------------------------------

  /** `SpeedPoint`: a curve point under the chart's field names. */
  datatype SpeedPoint = SpeedPoint(spot: int, speed: real)

  /** `BenchmarkSeries`: one completed run as the chart draws it. */
  datatype Series = Series(runId: int, startedAt: string, points: seq<SpeedPoint>, profileResults: seq<PartialProfile>)

  function Spot(p: BenchmarkPoint): SpeedPoint {
    SpeedPoint(p.position, p.speedBps)
  }

  /** The points of a run, under the chart's field names. */
  function Spots(ps: seq<BenchmarkPoint>): (r: seq<SpeedPoint>)
    ensures |r| == |ps| && forall i :: 0 <= i < |ps| ==> r[i] == Spot(ps[i])
  {
    seq(|ps|, i requires 0 <= i < |ps| => Spot(ps[i]))
  }

  /** The completed runs of a drive, in row order. */
  function CompletedRuns(runs: seq<RunRow>, driveId: int): (r: seq<RunRow>)
    ensures forall x :: x in r <==> x in runs && x.driveId == driveId && x.status == Completed
  {
    Filter(runs, (x: RunRow) => x.driveId == driveId && x.status == Completed)
  }

  /** `runMeta.get(key)`: the completed run whose id text is `key`. */
  function MetaOf(completed: seq<RunRow>, key: string): (r: Option<RunRow>)
    ensures r.None? <==> forall i :: 0 <= i < |completed| ==> IntToString(completed[i].runId) != key
    ensures r.Some? ==> r.value in completed && IntToString(r.value.runId) == key
  {
    FindFirst(completed, (x: RunRow) => IntToString(x.runId) == key)
  }

  function CurveRunId(r: CurveRow): string {
    r.runId
  }

  /** `new Map()`: a run seen for the first time has no slots. */
  function NoSlots(key: string): seq<(string, Slot)> {
    []
  }

  /** The row callback of `getDriveSeries` on one run's time map: the same
      update `getRunDetail` makes on its single map. */
  function AddToRun(m: seq<(string, Slot)>, r: CurveRow): seq<(string, Slot)> {
    Upsert(m, RowTime(r), NoSlot(RowTime(r)), (s: Slot) => SetSlot(s, r))
  }

  /** The rows the callback keeps: a non-empty run id naming a completed
      run of the drive. */
  function KeptRows(rows: seq<CurveRow>, completed: seq<RunRow>): seq<CurveRow> {
    Filter(rows, (r: CurveRow) => r.runId != "" && MetaOf(completed, r.runId).Some?)
  }

  /** `byRun`: run id text to its time map, in order of first appearance. */
  function ByRun(rows: seq<CurveRow>, completed: seq<RunRow>): seq<(string, seq<(string, Slot)>)> {
    FoldRows(KeptRows(rows, completed), CurveRunId, NoSlots, AddToRun)
  }

  /** The series of one `byRun` entry. The run is looked up again by its id
      text; the entry's key always names one, so the fallback is never
      taken. */
  function MakeSeries(completed: seq<RunRow>, key: string, slots: seq<(string, Slot)>,
                      profileQuery: string -> seq<ProfileRow>, order: SlotOrder): Series
  {
    var startedAt := match MetaOf(completed, key) case Some(run) => run.startedAt case None => "";
    Series(ParseInt(key).GetOr(0), startedAt, Spots(CurveOfSlots(slots, order)), RunProfiles(profileQuery(key)))
  }

  /** The series of the `byRun` entries, in entry order. */
  function SeriesOf(completed: seq<RunRow>, m: seq<(string, seq<(string, Slot)>)>,
                    profileQuery: string -> seq<ProfileRow>, order: SlotOrder): (r: seq<Series>)
    ensures |r| == |m| && forall i :: 0 <= i < |m| ==> r[i] == MakeSeries(completed, m[i].0, m[i].1, profileQuery, order)
  {
    seq(|m|, i requires 0 <= i < |m| => MakeSeries(completed, m[i].0, m[i].1, profileQuery, order))
  }

  /** `(a, b) => b.runId - a.runId` as "`a` may come first": newest first. */
  predicate NewerFirst(a: Series, b: Series) {
    b.runId - a.runId <= 0
  }

  lemma NewerFirstIsPreorder()
    ensures TotalPreorder(NewerFirst)
  {
  }

  /** `getDriveSeries`: nothing for an unknown drive or one without
      completed runs; otherwise one series per completed run that has curve
      rows under the drive's serial, newest first, each curve's time slots
      in `order`. The source compares the `_time` texts: `order` is
      `ByText`. */
  function DriveSeries(drives: seq<DriveRow>, runs: seq<RunRow>, driveId: int,
                       curveQuery: string -> seq<CurveRow>, profileQuery: string -> seq<ProfileRow>, order: SlotOrder): (r: seq<Series>)
    ensures FindDrive(drives, driveId).None? ==> r == []
    ensures (forall i :: 0 <= i < |runs| ==> !(runs[i].driveId == driveId && runs[i].status == Completed)) ==> r == []
    ensures SortedBy(r, NewerFirst)
  {
    match FindDrive(drives, driveId)
    case None => []
    case Some(drive) =>
      var completed := CompletedRuns(runs, driveId);
      if |completed| == 0 then []
      else
        var m := ByRun(curveQuery(drive.serialNumber), completed);
        NewerFirstIsPreorder();
        SortBySorted(SeriesOf(completed, m, profileQuery, order), NewerFirst);
        SortBy(SeriesOf(completed, m, profileQuery, order), NewerFirst)
  }

  /** The time map `getDriveSeries` builds for one run is the map
      `getRunDetail` builds from the same rows. */
  lemma {:induction false} RunMapIsByTime(rows: seq<CurveRow>)
    ensures Accumulate(NoSlots(""), rows, AddToRun) == ByTime(rows)
    decreases |rows|
  {
    if |rows| > 0 {
      var init := rows[..|rows| - 1];
      RunMapIsByTime(init);
      InitLast(rows);
      FoldSnoc(init, rows[|rows| - 1], RowTime, NoSlot, SetSlot);
    }
  }

  /** Among the kept rows, those of a run with a completed-run id text are
      all of that run's rows. */
  lemma KeptRunRows(rows: seq<CurveRow>, completed: seq<RunRow>, key: string)
    requires MetaOf(completed, key).Some?
    ensures WithKey(KeptRows(rows, completed), CurveRunId, key) == WithKey(rows, CurveRunId, key)
  {
    var p := (r: CurveRow) => r.runId != "" && MetaOf(completed, r.runId).Some?;
    var run := MetaOf(completed, key).value;
    assert |key| >= 1 by {
      assert key == IntToString(run.runId);
    }
    forall x | CurveRunId(x) == key ensures p(x) {
      assert x.runId == key;
    }
    WithKeyNarrow(rows, p, CurveRunId, key);
  }

  /** Every `byRun` key names a completed run, and its time map holds the
      slots of exactly that run's rows. */
  lemma RunEntry(rows: seq<CurveRow>, completed: seq<RunRow>, i: nat)
    requires i < |ByRun(rows, completed)|
    ensures var e := ByRun(rows, completed)[i];
      MetaOf(completed, e.0).Some? && e.1 == ByTime(WithKey(rows, CurveRunId, e.0))
  {
    var kept := KeptRows(rows, completed);
    var e := ByRun(rows, completed)[i];
    assert HasKey(ByRun(rows, completed), e.0);
    var j :| 0 <= j < |kept| && CurveRunId(kept[j]) == e.0;
    assert kept[j] in kept;
    FoldValue(kept, CurveRunId, NoSlots, AddToRun, i);
    KeptRunRows(rows, completed, e.0);
    RunMapIsByTime(WithKey(rows, CurveRunId, e.0));
  }

  /** `s` is the series of completed run `run`, read from the curve rows
      under the drive's serial, with its slots in `order`, and the run's
      profile query. */
  predicate Describes(s: Series, run: RunRow, rows: seq<CurveRow>, profileQuery: string -> seq<ProfileRow>, order: SlotOrder) {
    var key := IntToString(run.runId);
    && s.runId == run.runId && s.startedAt == run.startedAt
    && s.points == Spots(CurveOf(WithKey(rows, CurveRunId, key), order))
    && s.profileResults == RunProfiles(profileQuery(key))
  }

  /** The series of a `byRun` entry describes the run its key names. */
  lemma EntrySeries(rows: seq<CurveRow>, completed: seq<RunRow>, i: nat, profileQuery: string -> seq<ProfileRow>, order: SlotOrder)
    requires i < |ByRun(rows, completed)|
    ensures var e := ByRun(rows, completed)[i];
      MetaOf(completed, e.0).Some?
      && Describes(MakeSeries(completed, e.0, e.1, profileQuery, order), MetaOf(completed, e.0).value, rows, profileQuery, order)
  {
    var e := ByRun(rows, completed)[i];
    RunEntry(rows, completed, i);
    ParseIntToString(MetaOf(completed, e.0).value.runId);
  }

  /** The curve rows `getDriveSeries` reads: those under the drive's serial. */
  function SerialRows(drives: seq<DriveRow>, driveId: int, curveQuery: string -> seq<CurveRow>): seq<CurveRow>
    requires FindDrive(drives, driveId).Some?
  {
    curveQuery(FindDrive(drives, driveId).value.serialNumber)
  }

  /** A completed run of the drive. */
  predicate CompletedOf(run: RunRow, runs: seq<RunRow>, driveId: int) {
    run in runs && run.driveId == driveId && run.status == Completed
  }

  /** Every series in the entry order comes from a `byRun` entry and
      describes a completed run of the drive. */
  lemma UnsortedSound(runs: seq<RunRow>, driveId: int, rows: seq<CurveRow>, profileQuery: string -> seq<ProfileRow>, order: SlotOrder, i: nat)
    requires i < |ByRun(rows, CompletedRuns(runs, driveId))|
    ensures var completed := CompletedRuns(runs, driveId);
      var e := ByRun(rows, completed)[i];
      MetaOf(completed, e.0).Some?
      && var run := MetaOf(completed, e.0).value;
      CompletedOf(run, runs, driveId) && e.0 == IntToString(run.runId)
      && Describes(SeriesOf(completed, ByRun(rows, completed), profileQuery, order)[i], run, rows, profileQuery, order)
  {
    EntrySeries(rows, CompletedRuns(runs, driveId), i, profileQuery, order);
  }

  /** The same for every series of the entry order. */
  lemma UnsortedAllSound(runs: seq<RunRow>, driveId: int, rows: seq<CurveRow>, profileQuery: string -> seq<ProfileRow>, order: SlotOrder)
    ensures var completed := CompletedRuns(runs, driveId);
      forall s :: s in SeriesOf(completed, ByRun(rows, completed), profileQuery, order) ==>
        exists run :: CompletedOf(run, runs, driveId) && Describes(s, run, rows, profileQuery, order)
  {
    var completed := CompletedRuns(runs, driveId);
    var u := SeriesOf(completed, ByRun(rows, completed), profileQuery, order);
    forall s | s in u ensures exists run :: CompletedOf(run, runs, driveId) && Describes(s, run, rows, profileQuery, order) {
      var i :| 0 <= i < |u| && u[i] == s;
      UnsortedSound(runs, driveId, rows, profileQuery, order, i);
    }
  }

  /** Every series `getDriveSeries` returns describes a completed run of the
      drive: its id and start time, the curve of that run's rows under the
      drive's serial in the order the read uses, and the run's profile
      results. */
  lemma DriveSeriesSound(drives: seq<DriveRow>, runs: seq<RunRow>, driveId: int,
                         curveQuery: string -> seq<CurveRow>, profileQuery: string -> seq<ProfileRow>, order: SlotOrder)
    requires FindDrive(drives, driveId).Some?
    ensures var rows := SerialRows(drives, driveId, curveQuery);
      forall s :: s in DriveSeries(drives, runs, driveId, curveQuery, profileQuery, order) ==>
        exists run :: CompletedOf(run, runs, driveId) && Describes(s, run, rows, profileQuery, order)
  {
    var rows := SerialRows(drives, driveId, curveQuery);
    var completed := CompletedRuns(runs, driveId);
    if |completed| > 0 {
      var u := SeriesOf(completed, ByRun(rows, completed), profileQuery, order);
      assert DriveSeries(drives, runs, driveId, curveQuery, profileQuery, order) == SortBy(u, NewerFirst);
      SortBySameElements(u, NewerFirst);
      UnsortedAllSound(runs, driveId, rows, profileQuery, order);
    }
  }

  /** A completed run's id text finds that run again. */
  lemma MetaOfCompleted(completed: seq<RunRow>, run: RunRow)
    requires run in completed
    ensures MetaOf(completed, IntToString(run.runId)).Some?
    ensures MetaOf(completed, IntToString(run.runId)).value.runId == run.runId
  {
    var key := IntToString(run.runId);
    var i :| 0 <= i < |completed| && completed[i] == run;
    assert IntToString(completed[i].runId) == key;
    IntToStringInjective(MetaOf(completed, key).value.runId, run.runId);
  }

  /** A completed run has an entry in `byRun` exactly when some row under
      the serial carries its id text. */
  lemma RunHasEntry(runs: seq<RunRow>, driveId: int, rows: seq<CurveRow>, run: RunRow)
    requires CompletedOf(run, runs, driveId)
    ensures HasKey(ByRun(rows, CompletedRuns(runs, driveId)), IntToString(run.runId))
        <==> Keyed(rows, CurveRunId, IntToString(run.runId))
  {
    var completed := CompletedRuns(runs, driveId);
    var key := IntToString(run.runId);
    var kept := KeptRows(rows, completed);
    MetaOfCompleted(completed, run);
    KeptRunRows(rows, completed, key);
    KeyedWithKey(kept, CurveRunId, key);
    KeyedWithKey(rows, CurveRunId, key);
  }

  /** The series at entry `i` carries the id of the run its key names. */
  lemma EntryRunId(runs: seq<RunRow>, driveId: int, rows: seq<CurveRow>, profileQuery: string -> seq<ProfileRow>, order: SlotOrder, i: nat)
    requires i < |ByRun(rows, CompletedRuns(runs, driveId))|
    ensures var completed := CompletedRuns(runs, driveId);
      var key := ByRun(rows, completed)[i].0;
      MetaOf(completed, key).Some?
      && SeriesOf(completed, ByRun(rows, completed), profileQuery, order)[i].runId == MetaOf(completed, key).value.runId
  {
    UnsortedSound(runs, driveId, rows, profileQuery, order, i);
  }

  /** A completed run with an entry in `byRun` has a series in the entry
      order. */
  lemma EntryGivesSeries(runs: seq<RunRow>, driveId: int, rows: seq<CurveRow>, profileQuery: string -> seq<ProfileRow>, order: SlotOrder, run: RunRow, i: nat)
    requires CompletedOf(run, runs, driveId)
    requires i < |ByRun(rows, CompletedRuns(runs, driveId))|
    requires ByRun(rows, CompletedRuns(runs, driveId))[i].0 == IntToString(run.runId)
    ensures SeriesOf(CompletedRuns(runs, driveId), ByRun(rows, CompletedRuns(runs, driveId)), profileQuery, order)[i].runId == run.runId
  {
    EntryRunId(runs, driveId, rows, profileQuery, order, i);
    MetaOfCompleted(CompletedRuns(runs, driveId), run);
  }

  /** A series in the entry order comes from the entry of its run. */
  lemma SeriesHasEntry(runs: seq<RunRow>, driveId: int, rows: seq<CurveRow>, profileQuery: string -> seq<ProfileRow>, order: SlotOrder, run: RunRow, i: nat)
    requires CompletedOf(run, runs, driveId)
    requires i < |ByRun(rows, CompletedRuns(runs, driveId))|
    requires SeriesOf(CompletedRuns(runs, driveId), ByRun(rows, CompletedRuns(runs, driveId)), profileQuery, order)[i].runId == run.runId
    ensures ByRun(rows, CompletedRuns(runs, driveId))[i].0 == IntToString(run.runId)
  {
    var completed := CompletedRuns(runs, driveId);
    EntryRunId(runs, driveId, rows, profileQuery, order, i);
    var other := MetaOf(completed, ByRun(rows, completed)[i].0).value;
    assert other.runId == run.runId;
  }

  /** Series and entries line up index by index, so a series with the id
      exists exactly when an entry with the key does. */
  lemma SeriesMatchEntries(u: seq<Series>, m: seq<(string, seq<(string, Slot)>)>, id: int, key: string)
    requires |u| == |m|
    requires forall i :: 0 <= i < |u| ==> (u[i].runId == id <==> m[i].0 == key)
    ensures (exists s :: s in u && s.runId == id) <==> HasKey(m, key)
  {
    if HasKey(m, key) {
      var i :| 0 <= i < |m| && m[i].0 == key;
      assert u[i] in u;
    }
    if exists s :: s in u && s.runId == id {
      var s :| s in u && s.runId == id;
      var i :| 0 <= i < |u| && u[i] == s;
      assert m[i].0 == key;
    }
  }

  /** In the entry order, a completed run has a series exactly when it has
      an entry in `byRun`. */
  lemma UnsortedComplete(runs: seq<RunRow>, driveId: int, rows: seq<CurveRow>, profileQuery: string -> seq<ProfileRow>, order: SlotOrder, run: RunRow)
    requires CompletedOf(run, runs, driveId)
    ensures var completed := CompletedRuns(runs, driveId);
      var m := ByRun(rows, completed);
      (exists s :: s in SeriesOf(completed, m, profileQuery, order) && s.runId == run.runId) <==> HasKey(m, IntToString(run.runId))
  {
    var completed := CompletedRuns(runs, driveId);
    var m := ByRun(rows, completed);
    var u := SeriesOf(completed, m, profileQuery, order);
    var key := IntToString(run.runId);
    forall i | 0 <= i < |u| ensures u[i].runId == run.runId <==> m[i].0 == key {
      if m[i].0 == key {
        EntryGivesSeries(runs, driveId, rows, profileQuery, order, run, i);
      }
      if u[i].runId == run.runId {
        SeriesHasEntry(runs, driveId, rows, profileQuery, order, run, i);
      }
    }
    SeriesMatchEntries(u, m, run.runId, key);
  }

  /** A completed run of the drive has a series exactly when some curve row
      under the drive's serial carries its id text. */
  lemma DriveSeriesComplete(drives: seq<DriveRow>, runs: seq<RunRow>, driveId: int,
                            curveQuery: string -> seq<CurveRow>, profileQuery: string -> seq<ProfileRow>, order: SlotOrder, run: RunRow)
    requires FindDrive(drives, driveId).Some? && CompletedOf(run, runs, driveId)
    ensures (exists s :: s in DriveSeries(drives, runs, driveId, curveQuery, profileQuery, order) && s.runId == run.runId)
        <==> Keyed(SerialRows(drives, driveId, curveQuery), CurveRunId, IntToString(run.runId))
  {
    var rows := SerialRows(drives, driveId, curveQuery);
    var completed := CompletedRuns(runs, driveId);
    assert run in completed;
    var u := SeriesOf(completed, ByRun(rows, completed), profileQuery, order);
    assert DriveSeries(drives, runs, driveId, curveQuery, profileQuery, order) == SortBy(u, NewerFirst);
    SortBySameElements(u, NewerFirst);
    UnsortedComplete(runs, driveId, rows, profileQuery, order, run);
    RunHasEntry(runs, driveId, rows, run);
  }

  /** The run id of a series. */
  function SeriesId(s: Series): int {
    s.runId
  }

  /** Distinct `byRun` keys give distinct run ids. */
  lemma UnsortedDistinct(runs: seq<RunRow>, driveId: int, rows: seq<CurveRow>, profileQuery: string -> seq<ProfileRow>, order: SlotOrder)
    ensures var completed := CompletedRuns(runs, driveId);
      var u := SeriesOf(completed, ByRun(rows, completed), profileQuery, order);
      forall i, j :: 0 <= i < j < |u| ==> SeriesId(u[i]) != SeriesId(u[j])
  {
    var completed := CompletedRuns(runs, driveId);
    var m := ByRun(rows, completed);
    var u := SeriesOf(completed, m, profileQuery, order);
    forall i, j | 0 <= i < j < |u| ensures SeriesId(u[i]) != SeriesId(u[j]) {
      EntryRunId(runs, driveId, rows, profileQuery, order, i);
      EntryRunId(runs, driveId, rows, profileQuery, order, j);
      assert m[i].0 != m[j].0;
    }
  }

  /** One series per run, strictly newest first. */
  lemma DriveSeriesNewestFirst(drives: seq<DriveRow>, runs: seq<RunRow>, driveId: int,
                               curveQuery: string -> seq<CurveRow>, profileQuery: string -> seq<ProfileRow>, order: SlotOrder)
    ensures var r := DriveSeries(drives, runs, driveId, curveQuery, profileQuery, order);
      forall i, j :: 0 <= i < j < |r| ==> r[i].runId > r[j].runId
  {
    var r := DriveSeries(drives, runs, driveId, curveQuery, profileQuery, order);
    var completed := CompletedRuns(runs, driveId);
    if FindDrive(drives, driveId).Some? && |completed| > 0 {
      var rows := SerialRows(drives, driveId, curveQuery);
      var u := SeriesOf(completed, ByRun(rows, completed), profileQuery, order);
      assert r == SortBy(u, NewerFirst);
      UnsortedDistinct(runs, driveId, rows, profileQuery, order);
      PermutationKeepsDistinct(u, r, SeriesId);
      forall i, j | 0 <= i < j < |r| ensures r[i].runId > r[j].runId {
        assert NewerFirst(r[i], r[j]);
        assert SeriesId(r[i]) != SeriesId(r[j]);
      }
    }
  }
}

=== FILE: benchmark_runs.dfy ===
/** Creating and deleting benchmark runs: `createRun`, `deleteRun` and
    `purgeAllRuns` of packages/backend/src/services/benchmarkEngine.ts, over
    the drives table, the runs table and the two Influx measurements. */
module BenchmarkRuns {
  import opened Wrappers
  import opened Text
  import opened Shared
  import opened Store

  /** The runs table with its AUTOINCREMENT counter (`sqlite_sequence`):
      the largest id ever handed out, so deleted ids are never reused. */
  datatype RunTable = RunTable(rows: seq<RunRow>, lastId: int)

  datatype Tables = Tables(drives: seq<DriveRow>, runs: RunTable, influx: Influx)

  /** The tables after an operation, and what it returned or threw. */
  datatype Step<T> = Step(tables: Tables, result: Result<T, string>)

  /** No row carries an id above the counter, and ids are unique (the
      primary key). */
  predicate Counted(t: RunTable) {
    && (forall i :: 0 <= i < |t.rows| ==> t.rows[i].runId <= t.lastId)
    && (forall i, j :: 0 <= i < j < |t.rows| ==> t.rows[i].runId != t.rows[j].runId)
  }

  /** Text of the error SQLite raises when `drive_id` names no drive
      (foreign keys are switched on). */
  const ForeignKeyFailed := "FOREIGN KEY constraint failed"

  /** The id an AUTOINCREMENT insert assigns. */
  function NextRunId(t: RunTable): (id: int)
    ensures id > t.lastId
    ensures forall i :: 0 <= i < |t.rows| ==> t.rows[i].runId < id
  {
    var m := MaxId(RunIds(t.rows));
    (if t.lastId > m then t.lastId else m) + 1
  }

  /** `createRun`: inserts a pending row stamped `now` and returns its id. */
  function CreateRun(tb: Tables, driveId: int, numPoints: int, trigger: TriggerType, now: string): (s: Step<int>)
    ensures s.result.Failure? <==> FindDrive(tb.drives, driveId).None?
    ensures s.result.Failure? ==> s.tables == tb
    ensures s.result.Success? ==>
      && s.tables.drives == tb.drives && s.tables.influx == tb.influx
      && s.tables.runs.rows == tb.runs.rows + [RunRow(s.result.value, driveId, now, None, Pending, trigger, numPoints, None)]
      && s.tables.runs.lastId == s.result.value
      && FindRun(tb.runs.rows, s.result.value).None?
  {
    if FindDrive(tb.drives, driveId).None? then Step(tb, Failure(ForeignKeyFailed))
    else
      var id := NextRunId(tb.runs);
      var row := RunRow(id, driveId, now, None, Pending, trigger, numPoints, None);
      Step(tb.(runs := RunTable(tb.runs.rows + [row], id)), Success(id))
  }

  /** Creating a run keeps the ids unique and at or below the counter. */
  lemma CreateKeepsCounted(tb: Tables, driveId: int, numPoints: int, trigger: TriggerType, now: string)
    requires Counted(tb.runs)
    ensures Counted(CreateRun(tb, driveId, numPoints, trigger, now).tables.runs)
  {
    var s := CreateRun(tb, driveId, numPoints, trigger, now);
    if s.result.Success? {
      var rows := s.tables.runs.rows;
      forall i | 0 <= i < |rows| ensures rows[i].runId <= s.tables.runs.lastId {
        if i < |tb.runs.rows| {
          assert rows[i] == tb.runs.rows[i];
        }
      }
      forall i, j | 0 <= i < j < |rows| ensures rows[i].runId != rows[j].runId {
        assert rows[i] == tb.runs.rows[i];
        if j < |tb.runs.rows| {
          assert rows[j] == tb.runs.rows[j];
        }
      }
    }
  }

  const DeleteActiveMessage := "Cannot delete a benchmark that is currently running"
  const PurgeActiveMessage := "Cannot purge while a benchmark is running"

  /** The `run_id` tag of a point names the run: the tag is the decimal text
      of the id, and the delete predicate compares texts. */
  predicate TaggedRun(recordRunId: int, runId: int) {
    IntToString(recordRunId) == IntToString(runId)
  }

  lemma TaggedRunIsRun(recordRunId: int, runId: int)
    ensures TaggedRun(recordRunId, runId) <==> recordRunId == runId
  {
    if TaggedRun(recordRunId, runId) {
      IntToStringInjective(recordRunId, runId);
    }
  }

  /** How the InfluxDB delete endpoint answered a request: with an HTTP
      status and body, or not at all (the fetch rejected with `message`). */
  datatype DeleteResponse = Answered(status: int, body: string) | Unreachable(message: string)

  /** `deleteInfluxData`: an answer with a 2xx status settles it; any other
      status rejects with the status and the response body. */
  function DeleteInfluxData(response: DeleteResponse): (r: Result<Unit, string>)
    ensures r.Success? <==> response.Answered? && 200 <= response.status <= 299
    ensures response.Answered? && r.Failure? ==>
      r.error == "InfluxDB delete failed (HTTP " + IntToString(response.status) + "): " + response.body
    ensures response.Unreachable? ==> r == Failure(response.message)
  {
    match response
    case Unreachable(msg) => Failure(msg)
    case Answered(status, body) =>
      if 200 <= status <= 299 then Success(Unit)
      else Failure("InfluxDB delete failed (HTTP " + IntToString(status) + "): " + body)
  }

  /** The delete predicates `deleteRun` and `purgeAllRuns` send. */
  function RunPointsPredicate(runId: int): string {
    "_measurement=\"benchmark_points\"   AND run_id=\"" + IntToString(runId) + "\""
  }

  function RunProfilesPredicate(runId: int): string {
    "_measurement=\"benchmark_profiles\" AND run_id=\"" + IntToString(runId) + "\""
  }

  function SerialPointsPredicate(serial: string): string {
    "_measurement=\"benchmark_points\"   AND serial=\"" + serial + "\""
  }

  function SerialProfilesPredicate(serial: string): string {
    "_measurement=\"benchmark_profiles\" AND serial=\"" + serial + "\""
  }

  /** The two deletes of one call, issued together (`Promise.all`): each
      takes effect when its own request succeeds, and the call fails with
      the first failure. */
  function BothDeletes(points: Result<Unit, string>, profiles: Result<Unit, string>): (r: Result<Unit, string>)
    ensures r.Success? <==> points.Success? && profiles.Success?
    ensures points.Failure? ==> r == points
    ensures points.Success? ==> r == profiles
  {
    if points.Failure? then points else profiles
  }

  /** The curve points not tagged with the run. */
  function DropRunCurve(curve: seq<CurveRecord>, runId: int): (r: seq<CurveRecord>)
    ensures forall x :: x in r <==> x in curve && x.runId != runId
  {
    forall x: CurveRecord ensures TaggedRun(x.runId, runId) <==> x.runId == runId {
      TaggedRunIsRun(x.runId, runId);
    }
    Filter(curve, (x: CurveRecord) => !TaggedRun(x.runId, runId))
  }

  /** The profile results not tagged with the run. */
  function DropRunProfiles(profiles: seq<ProfileRecord>, runId: int): (r: seq<ProfileRecord>)
    ensures forall x :: x in r <==> x in profiles && x.runId != runId
  {
    forall x: ProfileRecord ensures TaggedRun(x.runId, runId) <==> x.runId == runId {
      TaggedRunIsRun(x.runId, runId);
    }
    Filter(profiles, (x: ProfileRecord) => !TaggedRun(x.runId, runId))
  }

  /** The two Influx deletions of `deleteRun`: every point tagged with the run. */
  function DeleteRunPoints(influx: Influx, runId: int): (r: Influx)
    ensures forall x :: x in r.curve <==> x in influx.curve && x.runId != runId
    ensures forall x :: x in r.profiles <==> x in influx.profiles && x.runId != runId
  {
    Influx(DropRunCurve(influx.curve, runId), DropRunProfiles(influx.profiles, runId))
  }

  /** `deleteRun`, with `respond` for how InfluxDB answers each delete
      predicate: nothing for an unknown id, an error for a pending or running
      run; otherwise the run's points are deleted, each measurement when its
      own delete succeeds, and the row is removed only when both do. */
  function DeleteRun(tb: Tables, runId: int, respond: string -> DeleteResponse): (s: Step<Unit>)
    ensures FindRun(tb.runs.rows, runId).None? ==> s == Step(tb, Success(Unit))
    ensures FindRun(tb.runs.rows, runId).Some? && FindRun(tb.runs.rows, runId).value.status.IsActive() ==>
      s == Step(tb, Failure(DeleteActiveMessage))
    ensures FindRun(tb.runs.rows, runId).Some? && !FindRun(tb.runs.rows, runId).value.status.IsActive() ==>
      var points := DeleteInfluxData(respond(RunPointsPredicate(runId)));
      var profiles := DeleteInfluxData(respond(RunProfilesPredicate(runId)));
      && s.result == BothDeletes(points, profiles)
      && s.tables.drives == tb.drives && s.tables.runs.lastId == tb.runs.lastId
      && (points.Success? ==> forall x :: x in s.tables.influx.curve <==> x in tb.influx.curve && x.runId != runId)
      && (points.Failure? ==> s.tables.influx.curve == tb.influx.curve)
      && (profiles.Success? ==> forall x :: x in s.tables.influx.profiles <==> x in tb.influx.profiles && x.runId != runId)
      && (profiles.Failure? ==> s.tables.influx.profiles == tb.influx.profiles)
      && (s.result.Success? ==> forall x :: x in s.tables.runs.rows <==> x in tb.runs.rows && x.runId != runId)
      && (s.result.Failure? ==> s.tables.runs == tb.runs)
  {
    match FindRun(tb.runs.rows, runId)
    case None => Step(tb, Success(Unit))
    case Some(run) =>
      if run.status.IsActive() then Step(tb, Failure(DeleteActiveMessage))
      else
        var points := DeleteInfluxData(respond(RunPointsPredicate(runId)));
        var profiles := DeleteInfluxData(respond(RunProfilesPredicate(runId)));
        var influx := Influx(
          if points.Success? then DropRunCurve(tb.influx.curve, runId) else tb.influx.curve,
          if profiles.Success? then DropRunProfiles(tb.influx.profiles, runId) else tb.influx.profiles);
        var result := BothDeletes(points, profiles);
        if result.Failure? then Step(tb.(influx := influx), result)
        else
          var rows := Filter(tb.runs.rows, (r: RunRow) => r.runId != runId);
          Step(Tables(tb.drives, RunTable(rows, tb.runs.lastId), influx), Success(Unit))
  }

  /** Deleting is idempotent: after a delete that succeeded, a second delete
      of the same id changes nothing, however InfluxDB answers. */
  lemma DeleteRunTwice(tb: Tables, runId: int, respond: string -> DeleteResponse, respond': string -> DeleteResponse)
    requires DeleteRun(tb, runId, respond).result.Success?
    ensures var s := DeleteRun(tb, runId, respond); DeleteRun(s.tables, runId, respond') == Step(s.tables, Success(Unit))
  {
    var s := DeleteRun(tb, runId, respond);
    if FindRun(tb.runs.rows, runId).Some? {
      var rows := s.tables.runs.rows;
      forall i | 0 <= i < |rows| ensures rows[i].runId != runId {
        assert rows[i] in rows;
      }
    }
  }

  /** A run created after a delete never takes the deleted run's id. */
  lemma DeletedIdNotReused(
    tb: Tables, runId: int, respond: string -> DeleteResponse, driveId: int, numPoints: int, trigger: TriggerType, now: string)
    requires Counted(tb.runs) && FindRun(tb.runs.rows, runId).Some?
    ensures var c := CreateRun(DeleteRun(tb, runId, respond).tables, driveId, numPoints, trigger, now);
      c.result.Success? ==> c.result.value != runId
  {
    var run := FindRun(tb.runs.rows, runId).value;
    var i :| 0 <= i < |tb.runs.rows| && tb.runs.rows[i] == run;
    assert runId <= tb.runs.lastId;
  }

  /** The active run of a drive, if any: the first pending or running row. */
  function ActiveRun(rows: seq<RunRow>, driveId: int): (r: Option<RunRow>)
    ensures r.None? <==> forall i :: 0 <= i < |rows| ==> !(rows[i].driveId == driveId && rows[i].status.IsActive())
  {
    FindFirst(rows, (r: RunRow) => r.driveId == driveId && r.status.IsActive())
  }

  /** `purgeAllRuns`, with `respond` for how InfluxDB answers each delete
      predicate: nothing for an unknown drive, an error while one of its runs
      is pending or running; otherwise the points with the drive's serial are
      deleted, each measurement when its own delete succeeds, and the drive's
      run rows are removed only when both do. */
  function PurgeAllRuns(tb: Tables, driveId: int, respond: string -> DeleteResponse): (s: Step<Unit>)
    ensures FindDrive(tb.drives, driveId).None? ==> s == Step(tb, Success(Unit))
    ensures FindDrive(tb.drives, driveId).Some? && ActiveRun(tb.runs.rows, driveId).Some? ==>
      s == Step(tb, Failure(PurgeActiveMessage))
    ensures FindDrive(tb.drives, driveId).Some? && ActiveRun(tb.runs.rows, driveId).None? ==>
      var serial := FindDrive(tb.drives, driveId).value.serialNumber;
      var points := DeleteInfluxData(respond(SerialPointsPredicate(serial)));
      var profiles := DeleteInfluxData(respond(SerialProfilesPredicate(serial)));
      && s.result == BothDeletes(points, profiles)
      && s.tables.drives == tb.drives && s.tables.runs.lastId == tb.runs.lastId
      && (points.Success? ==> forall x :: x in s.tables.influx.curve <==> x in tb.influx.curve && x.serial != serial)
      && (points.Failure? ==> s.tables.influx.curve == tb.influx.curve)
      && (profiles.Success? ==> forall x :: x in s.tables.influx.profiles <==> x in tb.influx.profiles && x.serial != serial)
      && (profiles.Failure? ==> s.tables.influx.profiles == tb.influx.profiles)
      && (s.result.Success? ==> forall x :: x in s.tables.runs.rows <==> x in tb.runs.rows && x.driveId != driveId)
      && (s.result.Failure? ==> s.tables.runs == tb.runs)
  {
    match FindDrive(tb.drives, driveId)
    case None => Step(tb, Success(Unit))
    case Some(drive) =>
      if ActiveRun(tb.runs.rows, driveId).Some? then Step(tb, Failure(PurgeActiveMessage))
      else
        var serial := drive.serialNumber;
        var points := DeleteInfluxData(respond(SerialPointsPredicate(serial)));
        var profiles := DeleteInfluxData(respond(SerialProfilesPredicate(serial)));
        var influx := Influx(
          if points.Success? then Filter(tb.influx.curve, (x: CurveRecord) => x.serial != serial) else tb.influx.curve,
          if profiles.Success? then Filter(tb.influx.profiles, (x: ProfileRecord) => x.serial != serial)
          else tb.influx.profiles);
        var result := BothDeletes(points, profiles);
        if result.Failure? then Step(tb.(influx := influx), result)
        else
          var rows := Filter(tb.runs.rows, (r: RunRow) => r.driveId != driveId);
          Step(Tables(tb.drives, RunTable(rows, tb.runs.lastId), influx), Success(Unit))
  }

  /** After a purge that succeeded, no run of the drive is left to delete:
      deleting any of the drive's former runs is a no-op, however InfluxDB
      answers. */
  lemma PurgeThenDeleteIsNoop(tb: Tables, driveId: int, runId: int, respond: string -> DeleteResponse, respond': string -> DeleteResponse)
    requires Counted(tb.runs)
    requires PurgeAllRuns(tb, driveId, respond).result.Success?
    requires FindDrive(tb.drives, driveId).Some?
    requires FindRun(tb.runs.rows, runId).Some? && FindRun(tb.runs.rows, runId).value.driveId == driveId
    ensures var s := PurgeAllRuns(tb, driveId, respond); DeleteRun(s.tables, runId, respond') == Step(s.tables, Success(Unit))
  {
    var s := PurgeAllRuns(tb, driveId, respond);
    var rows, rows' := tb.runs.rows, s.tables.runs.rows;
    var first := FindRun(rows, runId).value;
    var j :| 0 <= j < |rows| && rows[j] == first;
    forall i | 0 <= i < |rows'| ensures rows'[i].runId != runId {
      var x := rows'[i];
      assert x in rows' && x in rows && x.driveId != driveId;
      var k :| 0 <= k < |rows| && rows[k] == x;
      assert k != j;
    }
    DeleteAbsentIsNoop(s.tables, runId, respond');
  }

  /** Deleting an id no row carries changes nothing. */
  lemma DeleteAbsentIsNoop(tb: Tables, runId: int, respond: string -> DeleteResponse)
    requires forall i :: 0 <= i < |tb.runs.rows| ==> tb.runs.rows[i].runId != runId
    ensures DeleteRun(tb, runId, respond) == Step(tb, Success(Unit))
  {
  }

  /** A delete that fails leaves the run's row in place, so the run can be
      deleted again once InfluxDB answers. */
  lemma FailedDeleteKeepsRun(tb: Tables, runId: int, respond: string -> DeleteResponse)
    requires DeleteRun(tb, runId, respond).result.Failure?
    ensures FindRun(DeleteRun(tb, runId, respond).tables.runs.rows, runId) == FindRun(tb.runs.rows, runId)
    ensures FindRun(tb.runs.rows, runId).Some?
  {
  }
}

=== FILE: cache.dfy ===
/** The key/value cache helpers of packages/backend/src/services/cache.ts.
    Each cache is a map from key to value; a key the cache has expired or
    evicted is simply absent. JavaScript `undefined` is `None`: storing it
    is the same as deleting the key, so a cache never holds it. */
module Cache {
  import opened Wrappers
  import opened Text

  type Entries<V> = map<string, V>

  /** `cache.get(key)`: undefined for an absent key. */
  function Lookup<V>(c: Entries<V>, key: string): (r: Option<V>)
    ensures r.Some? <==> key in c
    ensures r.Some? ==> r.value == c[key]
  {
    if key in c then Some(c[key]) else None
  }

  /** `cache.set(key, value)`; an undefined value removes the key. */
  function Put<V>(c: Entries<V>, key: string, value: Option<V>): (r: Entries<V>)
    ensures Lookup(r, key) == value
    ensures forall k :: k != key ==> Lookup(r, k) == Lookup(c, k)
  {
    if value.Some? then c[key := value.value] else c - {key}
  }

  /** What `cached` produces: the cache afterwards, the value (or the
      rejection of `fn`), and how many times `fn` ran. */
  datatype Cached<V> = Cached(cache: Entries<V>, value: Result<Option<V>, string>, calls: nat)

  /** `cached(cache, key, fn)`: a hit is returned without running `fn`; a
      miss runs `fn` once and stores what it resolves to. A rejection of
      `fn` propagates and stores nothing. */
  function GetOrCompute<V>(c: Entries<V>, key: string, fn: () -> Result<Option<V>, string>): (r: Cached<V>)
    ensures key in c ==> r == Cached(c, Success(Some(c[key])), 0)
    ensures key !in c ==> r.calls == 1 && r.value == fn()
    ensures key !in c && fn().Success? ==> r.cache == Put(c, key, fn().value)
    ensures key !in c && fn().Failure? ==> r.cache == c
  {
    match Lookup(c, key)
    case Some(hit) => Cached(c, Success(Some(hit)), 0)
    case None =>
      match fn()
      case Failure(e) => Cached(c, Failure(e), 1)
      case Success(value) => Cached(Put(c, key, value), Success(value), 1)
  }

  /** After a miss that produced a value, asking again is a hit for the same
      value and does not run `fn`, whatever `fn` would now return. */
  lemma SecondCallHits<V>(c: Entries<V>, key: string, fn: () -> Result<Option<V>, string>, fn2: () -> Result<Option<V>, string>)
    requires fn().Success? && fn().value.Some?
    ensures var first := GetOrCompute(c, key, fn);
      var second := GetOrCompute(first.cache, key, fn2);
      second.calls == 0 && second.value == first.value && second.cache == first.cache
  {
  }

  /** An undefined result is not remembered: the next call runs `fn` again. */
  lemma UndefinedIsNotCached<V>(c: Entries<V>, key: string, fn: () -> Result<Option<V>, string>)
    requires key !in c && fn() == Success(None)
    ensures GetOrCompute(GetOrCompute(c, key, fn).cache, key, fn).calls == 1
  {
  }

  /** `invalidatePrefix(cache, prefix)`: deletes every key starting with
      `prefix`. */
  function InvalidatePrefix<V>(c: Entries<V>, prefix: string): (r: Entries<V>)
    ensures forall k :: k in r <==> k in c && !StartsWith(k, prefix)
    ensures forall k :: k in r ==> r[k] == c[k]
  {
    map k | k in c && !StartsWith(k, prefix) :: c[k]
  }

  /** The loop of `invalidatePrefix`: walks the keys, deleting each one that
      starts with `prefix`; the walk's order does not matter. */
  method DeleteMatching<V>(c: Entries<V>, prefix: string) returns (r: Entries<V>)
    ensures r == InvalidatePrefix(c, prefix)
  {
    r := c;
    var todo := c.Keys;
    while todo != {}
      invariant todo <= c.Keys
      invariant forall k :: k in r <==> k in c && (k in todo || !StartsWith(k, prefix))
      invariant forall k :: k in r ==> r[k] == c[k]
      decreases todo
    {
      var key :| key in todo;
      if StartsWith(key, prefix) {
        r := r - {key};
      }
      todo := todo - {key};
    }
  }

  /** Invalidating a prefix twice is invalidating it once. */
  lemma InvalidatePrefixIdempotent<V>(c: Entries<V>, prefix: string)
    ensures InvalidatePrefix(InvalidatePrefix(c, prefix), prefix) == InvalidatePrefix(c, prefix)
  {
  }

  /** Every key starts with the empty prefix, so it clears the cache. */
  lemma EmptyPrefixClears<V>(c: Entries<V>)
    ensures InvalidatePrefix(c, "") == map[]
  {
    forall k | k in c ensures StartsWith(k, "") {
      assert k[..0] == "";
    }
    assert InvalidatePrefix(c, "").Keys == {};
  }

  /** After invalidating a prefix, a key with that prefix misses and runs
      `fn`. */
  lemma InvalidatedKeyRecomputes<V>(c: Entries<V>, prefix: string, suffix: string, fn: () -> Result<Option<V>, string>)
    ensures GetOrCompute(InvalidatePrefix(c, prefix), prefix + suffix, fn).calls == 1
  {
    StartsWithConcat(prefix, suffix);
  }

  /** The three caches: five-minute aggregates, day-long benchmark data and
      the image listing. */
  datatype Caches<V> = Caches(short: Entries<V>, long: Entries<V>, image: Entries<V>)

  /** `invalidateAll`: clears the short cache only. */
  function InvalidateAll<V>(cs: Caches<V>): (r: Caches<V>)
    ensures forall k :: Lookup(r.short, k).None?
    ensures r.long == cs.long && r.image == cs.image
  {
    cs.(short := map[])
  }

  /** After `invalidateAll`, only the short cache recomputes; the long cache
      still answers from what it held. */
  lemma InvalidateAllKeepsLong<V>(cs: Caches<V>, key: string, fn: () -> Result<Option<V>, string>)
    requires key in cs.long
    ensures GetOrCompute(InvalidateAll(cs).short, key, fn).calls == 1
    ensures GetOrCompute(InvalidateAll(cs).long, key, fn) == Cached(cs.long, Success(Some(cs.long[key])), 0)
  {
  }
}

=== FILE: channels.dfy ===
/** The notification channels of
    packages/backend/src/services/notifications/: `createChannel` picks a
    channel by its tag, and each channel's `send` turns an alert into one
    HTTP POST and fails unless the response status is 2xx. The channel's
    configuration is the parsed JSON stored with it, used as is. The HTTP
    client and the base64 encoder are parameters. */
module Channels {
  import opened Wrappers
  import opened Text
  import opened Json
  import opened Shared

  datatype Header = Header(name: string, value: string)

  /** The slack payload's three blocks. */
  datatype Block =
    | HeaderBlock(text: string)
    | SectionBlock(fields: seq<string>)
    | ContextBlock(elements: seq<string>)

  /** What is serialised into the request body. */
  datatype Body = AlertBody(alert: Alert) | SlackBody(blocks: seq<Block>)

  /** A POST request; `url` is the configured value exactly as `fetch`
      receives it. */
  datatype Request = Request(url: JsValue, headers: seq<Header>, body: Body)

  datatype Response = Response(status: int, statusText: string)

  /** `fetch`: a response, or a rejection (network error, invalid URL). */
  type Fetch = Request -> Result<Response, string>

  /** `Response.ok`. */
  predicate IsOk(res: Response) {
    200 <= res.status <= 299
  }

  const JsonContentType := Header("Content-Type", "application/json")

  /** A configured channel. */
  datatype Channel = WebhookChannel(webhookCfg: JsValue) | SlackChannel(slackCfg: JsValue)

  /** `createChannel`: the channel for a tag, with the configuration passed
      on unchanged. */
  function CreateChannel(tag: string, config: JsValue): (r: Result<Channel, string>)
    ensures tag == "webhook" <==> r == Success(WebhookChannel(config))
    ensures tag == "slack" <==> r == Success(SlackChannel(config))
    ensures r.Failure? <==> tag != "webhook" && tag != "slack"
    ensures r.Failure? ==> r.error == "Unknown channel type: " + tag
  {
    if tag == "webhook" then Success(WebhookChannel(config))
    else if tag == "slack" then Success(SlackChannel(config))
    else Failure("Unknown channel type: " + tag)
  }

  /** The webhook's headers for an auth object: JSON content type, then an
      Authorization header for basic or bearer auth. `auth.type` is read
      from an `auth` that must not be null or undefined. */
  function WebhookHeaders(auth: JsValue, base64: string -> string): (r: Result<seq<Header>, string>)
    ensures r.Failure? <==> auth == Undefined || auth == Defined(JNull)
    ensures r.Success? ==> 1 <= |r.value| <= 2 && r.value[0] == JsonContentType
    ensures r.Success? && |r.value| == 2 ==> r.value[1].name == "Authorization"
    ensures r.Success? && Get(auth, "type") == Success(Defined(JStr("basic"))) ==>
      r.value == [JsonContentType, Header("Authorization", "Basic " + base64(
        ToJsString(Get(auth, "username").value) + ":" + ToJsString(Get(auth, "password").value)))]
    ensures r.Success? && Get(auth, "type") == Success(Defined(JStr("bearer"))) ==>
      r.value == [JsonContentType, Header("Authorization", "Bearer " + ToJsString(Get(auth, "token").value))]
    ensures r.Success? && |r.value| == 2 ==>
      Get(auth, "type") in {Success(Defined(JStr("basic"))), Success(Defined(JStr("bearer")))}
  {
    var authType :- Get(auth, "type");
    if IsString(authType, "basic") then
      var user := Get(auth, "username").value;
      var pass := Get(auth, "password").value;
      Success([JsonContentType, Header("Authorization", "Basic " + base64(ToJsString(user) + ":" + ToJsString(pass)))])
    else if IsString(authType, "bearer") then
      Success([JsonContentType, Header("Authorization", "Bearer " + ToJsString(Get(auth, "token").value))])
    else
      Success([JsonContentType])
  }

  /** The webhook's request: the alert itself POSTed to `cfg.url`. */
  function WebhookRequest(cfg: JsValue, alert: Alert, base64: string -> string): (r: Result<Request, string>)
    ensures r.Success? ==> Get(cfg, "url").Success? && r.value.url == Get(cfg, "url").value && r.value.body == AlertBody(alert)
    ensures r.Failure? <==> Get(cfg, "auth").Failure? || Get(cfg, "auth").value in {Undefined, Defined(JNull)}
    ensures r.Success? ==> Success(r.value.headers) == WebhookHeaders(Get(cfg, "auth").value, base64)
  {
    var auth :- Get(cfg, "auth");
    var headers :- WebhookHeaders(auth, base64);
    Success(Request(Get(cfg, "url").value, headers, AlertBody(alert)))
  }

  /** The error thrown on a non-2xx response. */
  function PostFailed(prefix: string, res: Response): string {
    prefix + " POST failed: " + IntToString(res.status) + " " + res.statusText
  }

  /** Sending a request: fails when `fetch` rejects or the status is not 2xx. */
  function Post(req: Request, fetch: Fetch, prefix: string): (r: Result<Unit, string>)
    ensures r.Success? <==> fetch(req).Success? && IsOk(fetch(req).value)
    ensures fetch(req).Failure? ==> r == Failure(fetch(req).error)
    ensures fetch(req).Success? && !IsOk(fetch(req).value) ==> r == Failure(PostFailed(prefix, fetch(req).value))
  {
    var res :- fetch(req);
    if IsOk(res) then Success(Unit) else Failure(PostFailed(prefix, res))
  }

  /** The slack header: a thermometer and "Temperature Alert" for
      `temperature` alerts, a warning sign and "SMART Health Error" for every
      other type, recoveries included. */
  function SlackTitle(t: AlertType): (title: string)
    ensures t == Temperature <==> title == "\U{1F321}\U{FE0F} Temperature Alert"
    ensures t != Temperature <==> title == "\U{26A0}\U{FE0F} SMART Health Error"
  {
    var emoji := if t == Temperature then "\U{1F321}\U{FE0F}" else "\U{26A0}\U{FE0F}";
    var caption := if t == Temperature then "Temperature Alert" else "SMART Health Error";
    emoji + " " + caption
  }

  /** The optional Value field: the value, then the threshold when set. */
  function ValueField(value: int, threshold: Option<int>): string {
    "*Value:*\n" + IntToString(value)
      + (if threshold.Some? then " (threshold: " + IntToString(threshold.value) + ")" else "")
  }

  /** The slack section's fields. */
  function SlackFields(alert: Alert): (fields: seq<string>)
    ensures |fields| == 3 || |fields| == 4
    ensures fields[..3] == ["*Drive:*\n" + alert.driveModel, "*Serial:*\n" + alert.driveSerial, "*Message:*\n" + alert.message]
    ensures |fields| == 4 <==> alert.value.Some?
    ensures |fields| == 4 ==> fields[3] == ValueField(alert.value.value, alert.threshold)
  {
    ["*Drive:*\n" + alert.driveModel, "*Serial:*\n" + alert.driveSerial, "*Message:*\n" + alert.message]
      + (if alert.value.Some? then [ValueField(alert.value.value, alert.threshold)] else [])
  }

  /** The slack payload: header, section and context blocks. */
  function SlackBlocks(alert: Alert): (blocks: seq<Block>)
    ensures |blocks| == 3
    ensures blocks[0] == HeaderBlock(SlackTitle(alert.alertType))
    ensures blocks[1] == SectionBlock(SlackFields(alert))
    ensures blocks[2] == ContextBlock(["Timestamp: " + alert.timestamp])
  {
    [HeaderBlock(SlackTitle(alert.alertType)), SectionBlock(SlackFields(alert)), ContextBlock(["Timestamp: " + alert.timestamp])]
  }

  /** The slack request: the payload POSTed to `cfg.webhookUrl` with a JSON
      content type. */
  function SlackRequest(cfg: JsValue, alert: Alert): (r: Result<Request, string>)
    ensures r.Failure? <==> cfg == Undefined || cfg == Defined(JNull)
    ensures r.Success? ==> r.value == Request(Get(cfg, "webhookUrl").value, [JsonContentType], SlackBody(SlackBlocks(alert)))
  {
    var url :- Get(cfg, "webhookUrl");
    Success(Request(url, [JsonContentType], SlackBody(SlackBlocks(alert))))
  }

  /** The request a channel sends for an alert. */
  function ChannelRequest(ch: Channel, alert: Alert, base64: string -> string): Result<Request, string> {
    match ch
    case WebhookChannel(cfg) => WebhookRequest(cfg, alert, base64)
    case SlackChannel(cfg) => SlackRequest(cfg, alert)
  }

  /** `channel.send(alert)`. */
  function Send(ch: Channel, alert: Alert, base64: string -> string, fetch: Fetch): (r: Result<Unit, string>)
    ensures r.Success? <==>
      ChannelRequest(ch, alert, base64).Success?
      && fetch(ChannelRequest(ch, alert, base64).value).Success?
      && IsOk(fetch(ChannelRequest(ch, alert, base64).value).value)
  {
    var req :- ChannelRequest(ch, alert, base64);
    Post(req, fetch, if ch.WebhookChannel? then "Webhook" else "Slack webhook")
  }

  /** A request whose auth type is neither basic nor bearer carries only the
      content type. */
  lemma NoAuthHeaderOtherwise(cfg: JsValue, alert: Alert, base64: string -> string)
    requires WebhookRequest(cfg, alert, base64).Success?
    requires Get(Get(cfg, "auth").value, "type").value !in {Defined(JStr("basic")), Defined(JStr("bearer"))}
    ensures WebhookRequest(cfg, alert, base64).value.headers == [JsonContentType]
  {
  }

  /** Every request carries the JSON content type first. */
  lemma ContentTypeFirst(ch: Channel, alert: Alert, base64: string -> string)
    requires ChannelRequest(ch, alert, base64).Success?
    ensures ChannelRequest(ch, alert, base64).value.headers[0] == JsonContentType
  {
  }
}

=== FILE: disk_discovery.dfy ===
/** Drive discovery and the drive registry of
    packages/backend/src/services/diskDiscovery.ts: the drive type a device
    reports, the mapping of one scanned device to a discovered drive, the
    reconciliation of the drives table with a scan, and the summaries read
    back from it. smartctl, `JSON.parse` and sysfs are oracles. */
module DiskDiscovery {
  import opened Wrappers
  import opened Text
  import opened Json
  import opened Shared
  import opened Store
  import opened Smartctl

  // ─── smartctl --scan / --info, as parsed ────────────────────────────────

  /** A device of `smartctl --scan`; its `type` may be missing. */
  datatype ScanDevice = ScanDevice(name: string, infoName: string, devType: Option<string>, protocol: string)

  datatype ScanResult = ScanResult(devices: Option<seq<ScanDevice>>)

  datatype InfoDevice = InfoDevice(name: string, devType: string, protocol: Option<string>)

  /** `smartctl --info --json`. `rotationRate` is any JSON value (or
      undefined); `userCapacity` is `user_capacity.bytes.n` and
      `interfaceSpeed` is `interface_speed.current.string`. */
  datatype SmartctlInfo = SmartctlInfo(
    device: Option<InfoDevice>,
    modelName: Option<string>,
    modelFamily: Option<string>,
    serialNumber: Option<string>,
    firmwareVersion: Option<string>,
    userCapacity: Option<int>,
    rotationRate: JsValue,
    interfaceSpeed: Option<string>,
    logicalBlockSize: Option<int>,
    physicalBlockSize: Option<int>)

  /** What the host answers: smartctl runs, the JSON parser, and the sector
      count read from `/sys/block/<name>/size` (None when the file cannot be
      read or does not hold a number). */
  datatype Host = Host(
    scanRun: SmartctlRun,
    parseScan: string -> Result<ScanResult, string>,
    infoRun: string -> SmartctlRun,
    parseInfo: string -> Result<SmartctlInfo, string>,
    sysfsSectors: string -> Option<int>)

  datatype DiscoveredDrive = DiscoveredDrive(
    serialNumber: string,
    devicePath: string,
    vendor: string,
    model: string,
    firmwareRevision: string,
    capacity: int,
    driveType: DriveType,
    rpm: Option<int>,
    interfaceType: Option<string>,
    logicalSectorSize: Option<int>,
    physicalSectorSize: Option<int>)

  // ─── Drive type ─────────────────────────────────────────────────────────

  /** The protocol is "nvme" in any letter case. */
  predicate NvmeProtocol(info: SmartctlInfo) {
    var proto := if info.device.Some? && info.device.value.protocol.Some? then info.device.value.protocol.value else "";
    ToLower(proto) == "nvme"
  }

  /** `detectType`: NVMe by protocol or scan type, before anything else;
      then SSD for a rotation rate of 0, null or undefined, HDD for a
      positive number, and Unknown for anything else. */
  function DetectType(info: SmartctlInfo, scanType: Option<string>): (t: DriveType)
    ensures t == NVMe <==> NvmeProtocol(info) || scanType == Some("nvme")
    ensures t == SSD <==>
      && !(NvmeProtocol(info) || scanType == Some("nvme"))
      && (info.rotationRate == Undefined || info.rotationRate == Defined(JNull) || info.rotationRate == Defined(JNum(0)))
    ensures t == HDD <==>
      && !(NvmeProtocol(info) || scanType == Some("nvme"))
      && info.rotationRate.Defined? && info.rotationRate.v.JNum? && info.rotationRate.v.n > 0
  {
    if NvmeProtocol(info) || scanType == Some("nvme") then NVMe
    else
      match info.rotationRate
      case Undefined => SSD
      case Defined(JNull) => SSD
      case Defined(JNum(n)) => if n == 0 then SSD else if n > 0 then HDD else UnknownType
      case Defined(_) => UnknownType
  }

  /** Any spelling of "nvme" in the protocol marks the drive NVMe, whatever
      its rotation rate. */
  lemma UpperCaseProtocolIsNvme(info: SmartctlInfo, scanType: Option<string>)
    requires info.device.Some? && info.device.value.protocol == Some("NVMe")
    ensures DetectType(info, scanType) == NVMe
  {
    assert ToLower("NVMe") == "nvme" by {
      var l := ToLower("NVMe");
      assert l[0] == LowerChar('N') == 'n' && l[1] == 'v' && l[2] == LowerChar('M') == 'm' && l[3] == 'e';
    }
  }

  // ─── One device ─────────────────────────────────────────────────────────

  /** The rpm stored: the rotation rate when it is a positive number. */
  function Rpm(rotation: JsValue): (r: Option<int>)
    ensures r.Some? <==> rotation.Defined? && rotation.v.JNum? && rotation.v.n > 0
    ensures r.Some? ==> rotation == Defined(JNum(r.value))
  {
    match rotation
    case Defined(JNum(n)) => if n > 0 then Some(n) else None
    case _ => None
  }

  const SysfsSectorBytes := 512

  /** The capacity stored: smartctl's, unless it is missing or 0, in which
      case a positive sysfs sector count times 512, else 0. */
  function Capacity(info: SmartctlInfo, devName: string, sysfsSectors: string -> Option<int>): (c: int)
    ensures info.userCapacity.Some? && info.userCapacity.value != 0 ==> c == info.userCapacity.value
    ensures (info.userCapacity.None? || info.userCapacity.value == 0) ==>
      var n := sysfsSectors(LastSegment(devName, '/'));
      c == if n.Some? && n.value > 0 then n.value * SysfsSectorBytes else 0
  {
    var capacity := info.userCapacity.GetOr(0);
    if capacity != 0 then capacity
    else
      match sysfsSectors(LastSegment(devName, '/'))
      case Some(n) => if n > 0 then n * SysfsSectorBytes else capacity
      case None => capacity
  }

  /** The drive a device yields, or None when it is skipped: its info query
      throws, or it reports no serial (or an empty one). */
  function Discover(dev: ScanDevice, host: Host): (r: Option<DiscoveredDrive>)
    ensures var info := RunSmartctl(host.infoRun(dev.name), host.parseInfo);
      r.None? <==> info.Failure? || info.value.serialNumber.None? || info.value.serialNumber.value == ""
    ensures r.Some? ==>
      var info := RunSmartctl(host.infoRun(dev.name), host.parseInfo).value;
      && r.value.serialNumber == info.serialNumber.value != ""
      && r.value.devicePath == dev.name
      && r.value.vendor == info.modelFamily.GetOr("")
      && r.value.model == info.modelName.GetOr("")
      && r.value.firmwareRevision == info.firmwareVersion.GetOr("")
      && r.value.capacity == Capacity(info, dev.name, host.sysfsSectors)
      && r.value.driveType == DetectType(info, dev.devType)
      && r.value.rpm == Rpm(info.rotationRate)
      && r.value.interfaceType == (if info.interfaceSpeed.Some? then info.interfaceSpeed else dev.devType)
      && r.value.logicalSectorSize == info.logicalBlockSize
      && r.value.physicalSectorSize == info.physicalBlockSize
  {
    match RunSmartctl(host.infoRun(dev.name), host.parseInfo)
    case Failure(_) => None
    case Success(info) =>
      match info.serialNumber
      case None => None
      case Some(serial) =>
        if serial == "" then None
        else
          Some(DiscoveredDrive(
            serial,
            dev.name,
            info.modelFamily.GetOr(""),
            info.modelName.GetOr(""),
            info.firmwareVersion.GetOr(""),
            Capacity(info, dev.name, host.sysfsSectors),
            DetectType(info, dev.devType),
            Rpm(info.rotationRate),
            if info.interfaceSpeed.Some? then info.interfaceSpeed else dev.devType,
            info.logicalBlockSize,
            info.physicalBlockSize))
  }

  /** The drives of `devs` that are not skipped, in scan order. */
  function DiscoverAll(devs: seq<ScanDevice>, host: Host): (r: seq<DiscoveredDrive>)
    ensures |r| <= |devs|
    ensures forall d :: d in r <==> exists i :: 0 <= i < |devs| && Discover(devs[i], host) == Some(d)
    decreases |devs|
  {
    if |devs| == 0 then []
    else
      var rest := DiscoverAll(devs[1..], host);
      assert forall i :: 0 <= i < |devs[1..]| ==> devs[1..][i] == devs[i + 1];
      match Discover(devs[0], host)
      case Some(d) => [d] + rest
      case None => rest
  }

  /** `scanDisks`: the scan itself throwing is thrown; otherwise each device
      is queried on its own and a skipped device drops only itself. */
  function ScanDisks(host: Host): (r: Result<seq<DiscoveredDrive>, string>)
    ensures r.Failure? <==> RunSmartctl(host.scanRun, host.parseScan).Failure?
    ensures r.Success? ==>
      var devs := RunSmartctl(host.scanRun, host.parseScan).value.devices.GetOr([]);
      && (forall d :: d in r.value <==> exists i :: 0 <= i < |devs| && Discover(devs[i], host) == Some(d))
      && (forall d :: d in r.value ==> d.serialNumber != "")
  {
    match RunSmartctl(host.scanRun, host.parseScan)
    case Failure(e) => Failure(e)
    case Success(scan) =>
      var devs := scan.devices.GetOr([]);
      var r := DiscoverAll(devs, host);
      assert forall d :: d in r ==> d.serialNumber != "" by {
        forall d | d in r ensures d.serialNumber != "" {
          var i :| 0 <= i < |devs| && Discover(devs[i], host) == Some(d);
        }
      }
      Success(r)
  }

  // ─── Registry reconciliation ────────────────────────────────────────────

  /** The drives table holds a row with this serial. */
  predicate HasSerial(rows: seq<DriveRow>, serial: string) {
    exists i :: 0 <= i < |rows| && rows[i].serialNumber == serial
  }

  /** Some discovered drive has this serial (`foundSerials.has`). */
  predicate Found(ds: seq<DiscoveredDrive>, serial: string) {
    exists j :: 0 <= j < |ds| && ds[j].serialNumber == serial
  }

  /** `row` holds what the scan reported for `d`, connected and seen `now`. */
  predicate Carries(row: DriveRow, d: DiscoveredDrive, now: string) {
    && row.serialNumber == d.serialNumber
    && row.devicePath == d.devicePath && row.vendor == d.vendor && row.model == d.model
    && row.firmwareRevision == d.firmwareRevision && row.capacity == d.capacity
    && row.driveType == DriveTypeName(d.driveType) && row.rpm == d.rpm
    && row.interfaceType == d.interfaceType
    && row.logicalSectorSize == d.logicalSectorSize && row.physicalSectorSize == d.physicalSectorSize
    && row.lastSeen == now && row.isConnected
  }

  /** The update of an existing row: identity and `firstSeen` kept. */
  function Refresh(row: DriveRow, d: DiscoveredDrive, now: string): DriveRow {
    row.(devicePath := d.devicePath, vendor := d.vendor, model := d.model,
      firmwareRevision := d.firmwareRevision, capacity := d.capacity,
      driveType := DriveTypeName(d.driveType), rpm := d.rpm, interfaceType := d.interfaceType,
      logicalSectorSize := d.logicalSectorSize, physicalSectorSize := d.physicalSectorSize,
      lastSeen := now, isConnected := true)
  }

  /** Rows `rows'` keep the identity (id, serial, first sighting) of the
      first `|rows|` rows of `rows` and only add rows after them. */
  predicate Keeps(rows: seq<DriveRow>, rows': seq<DriveRow>) {
    && |rows| <= |rows'|
    && forall i :: 0 <= i < |rows| ==>
         && rows'[i].driveId == rows[i].driveId
         && rows'[i].serialNumber == rows[i].serialNumber
         && rows'[i].firstSeen == rows[i].firstSeen
  }

  /** One upsert by serial: every row with the serial is refreshed, or a new
      row first and last seen `now` is appended with a fresh id. */
  function UpsertDrive(rows: seq<DriveRow>, d: DiscoveredDrive, now: string): (r: seq<DriveRow>)
    ensures Keeps(rows, r)
    ensures |r| == |rows| + (if HasSerial(rows, d.serialNumber) then 0 else 1)
    ensures forall i :: 0 <= i < |rows| && rows[i].serialNumber != d.serialNumber ==> r[i] == rows[i]
    ensures forall i :: 0 <= i < |r| && r[i].serialNumber == d.serialNumber ==> Carries(r[i], d, now)
    ensures HasSerial(r, d.serialNumber)
    ensures |r| > |rows| ==>
      && r[|rows|].firstSeen == now
      && (forall k :: 0 <= k < |rows| ==> rows[k].driveId < r[|rows|].driveId)
  {
    if HasSerial(rows, d.serialNumber) then
      var r := seq(|rows|, i requires 0 <= i < |rows| =>
        if rows[i].serialNumber == d.serialNumber then Refresh(rows[i], d, now) else rows[i]);
      var i :| 0 <= i < |rows| && rows[i].serialNumber == d.serialNumber;
      assert r[i].serialNumber == d.serialNumber;
      r
    else
      var row := DriveRow(NextId(DriveIds(rows)), d.serialNumber, d.devicePath, d.vendor, d.model,
        d.firmwareRevision, d.capacity, DriveTypeName(d.driveType), d.rpm, d.interfaceType,
        d.logicalSectorSize, d.physicalSectorSize, now, now, true);
      assert (rows + [row])[|rows|] == row;
      rows + [row]
  }

  /** The upserts of `ds` in order. */
  function UpsertAll(rows: seq<DriveRow>, ds: seq<DiscoveredDrive>, now: string): (r: seq<DriveRow>)
    ensures Keeps(rows, r)
    ensures forall i :: 0 <= i < |rows| && !Found(ds, rows[i].serialNumber) ==> r[i] == rows[i]
    ensures forall i :: 0 <= i < |r| && Found(ds, r[i].serialNumber) ==> r[i].isConnected && r[i].lastSeen == now
    ensures forall i :: |rows| <= i < |r| ==> r[i].firstSeen == now && Found(ds, r[i].serialNumber)
    ensures forall j :: 0 <= j < |ds| ==> HasSerial(r, ds[j].serialNumber)
    decreases |ds|
  {
    if |ds| == 0 then rows
    else
      var once := UpsertDrive(rows, ds[0], now);
      var r := UpsertAll(once, ds[1..], now);
      UpsertAllStep(rows, ds, now, once, r);
      r
  }

  /** The step of `UpsertAll`: the first upsert followed by the rest. */
  lemma UpsertAllStep(rows: seq<DriveRow>, ds: seq<DiscoveredDrive>, now: string, once: seq<DriveRow>, r: seq<DriveRow>)
    requires |ds| > 0 && once == UpsertDrive(rows, ds[0], now)
    requires Keeps(once, r)
    requires forall i :: 0 <= i < |once| && !Found(ds[1..], once[i].serialNumber) ==> r[i] == once[i]
    requires forall i :: 0 <= i < |r| && Found(ds[1..], r[i].serialNumber) ==> r[i].isConnected && r[i].lastSeen == now
    requires forall i :: |once| <= i < |r| ==> r[i].firstSeen == now && Found(ds[1..], r[i].serialNumber)
    requires forall j :: 0 <= j < |ds[1..]| ==> HasSerial(r, ds[1..][j].serialNumber)
    ensures Keeps(rows, r)
    ensures forall i :: 0 <= i < |rows| && !Found(ds, rows[i].serialNumber) ==> r[i] == rows[i]
    ensures forall i :: 0 <= i < |r| && Found(ds, r[i].serialNumber) ==> r[i].isConnected && r[i].lastSeen == now
    ensures forall i :: |rows| <= i < |r| ==> r[i].firstSeen == now && Found(ds, r[i].serialNumber)
    ensures forall j :: 0 <= j < |ds| ==> HasSerial(r, ds[j].serialNumber)
  {
    forall s | Found(ds[1..], s) ensures Found(ds, s) {
      var j :| 0 <= j < |ds[1..]| && ds[1..][j].serialNumber == s;
      assert ds[j + 1].serialNumber == s;
    }
    forall s | !Found(ds[1..], s) && s != ds[0].serialNumber ensures !Found(ds, s) {
      forall j | 1 <= j < |ds| ensures ds[j].serialNumber != s {
        assert ds[1..][j - 1] == ds[j];
      }
    }
    assert Found(ds, ds[0].serialNumber);
    forall i | 0 <= i < |r| && Found(ds, r[i].serialNumber) ensures r[i].isConnected && r[i].lastSeen == now {
      if !Found(ds[1..], r[i].serialNumber) {
        assert r[i].serialNumber == ds[0].serialNumber;
        if i < |once| {
          assert r[i] == once[i];
        }
      }
    }
    forall i | |rows| <= i < |r| ensures r[i].firstSeen == now && Found(ds, r[i].serialNumber) {
      if i < |once| {
        assert |once| == |rows| + 1 && i == |rows|;
        if !Found(ds[1..], once[i].serialNumber) {
          assert r[i] == once[i];
          assert once[i].serialNumber == ds[0].serialNumber;
        }
      }
    }
    forall j | 0 <= j < |ds| ensures HasSerial(r, ds[j].serialNumber) {
      if j == 0 {
        var k :| 0 <= k < |once| && once[k].serialNumber == ds[0].serialNumber;
        assert r[k].serialNumber == ds[0].serialNumber;
      } else {
        assert ds[1..][j - 1] == ds[j];
      }
    }
  }

  /** The second pass: a connected row whose serial the scan did not find is
      marked disconnected, and nothing else about it changes. */
  function MarkMissing(rows: seq<DriveRow>, ds: seq<DiscoveredDrive>): (r: seq<DriveRow>)
    ensures |r| == |rows|
    ensures forall i :: 0 <= i < |rows| ==>
      r[i] == if rows[i].isConnected && !Found(ds, rows[i].serialNumber) then rows[i].(isConnected := false) else rows[i]
  {
    seq(|rows|, i requires 0 <= i < |rows| =>
      if rows[i].isConnected && !Found(ds, rows[i].serialNumber) then rows[i].(isConnected := false) else rows[i])
  }

  /** Marking rows disconnected loses no serial. */
  lemma MarkMissingKeepsSerials(rows: seq<DriveRow>, ds: seq<DiscoveredDrive>)
    ensures forall s :: HasSerial(rows, s) ==> HasSerial(MarkMissing(rows, ds), s)
  {
    var r := MarkMissing(rows, ds);
    forall s | HasSerial(rows, s) ensures HasSerial(r, s) {
      var k :| 0 <= k < |rows| && rows[k].serialNumber == s;
      assert r[k].serialNumber == s;
    }
  }

  /** `registerDrives`: upsert every discovered drive by serial, then
      disconnect the rows the scan missed. No row is ever deleted. */
  function RegisterDrives(rows: seq<DriveRow>, ds: seq<DiscoveredDrive>, now: string): (r: seq<DriveRow>)
    ensures Keeps(rows, r)
    ensures forall j :: 0 <= j < |ds| ==> HasSerial(r, ds[j].serialNumber)
    ensures forall i :: 0 <= i < |r| ==> (r[i].isConnected <==> Found(ds, r[i].serialNumber))
    ensures forall i :: 0 <= i < |r| && Found(ds, r[i].serialNumber) ==> r[i].lastSeen == now
    ensures forall i :: |rows| <= i < |r| ==> r[i].firstSeen == now && r[i].lastSeen == now
    ensures forall i :: 0 <= i < |rows| && !Found(ds, rows[i].serialNumber) ==>
      r[i] == rows[i].(isConnected := false)
  {
    var up := UpsertAll(rows, ds, now);
    MarkMissingKeepsSerials(up, ds);
    MarkMissing(up, ds)
  }

  /** Every row with `d`'s serial holds what the scan reported for `d`. */
  predicate AllCarry(rows: seq<DriveRow>, d: DiscoveredDrive, now: string) {
    forall i :: 0 <= i < |rows| && rows[i].serialNumber == d.serialNumber ==> Carries(rows[i], d, now)
  }

  /** No two discovered drives share a serial. */
  predicate DistinctSerials(ds: seq<DiscoveredDrive>) {
    forall a, b :: 0 <= a < b < |ds| ==> ds[a].serialNumber != ds[b].serialNumber
  }

  lemma DistinctSerialsTail(ds: seq<DiscoveredDrive>)
    requires |ds| > 0 && DistinctSerials(ds)
    ensures DistinctSerials(ds[1..])
  {
    forall a, b | 0 <= a < b < |ds[1..]| ensures ds[1..][a].serialNumber != ds[1..][b].serialNumber {
      assert ds[1..][a] == ds[a + 1] && ds[1..][b] == ds[b + 1];
    }
  }

  /** With pairwise distinct serials, the first drive's serial is not
      found again among the rest. */
  lemma FirstNotFoundAgain(ds: seq<DiscoveredDrive>)
    requires |ds| > 0
    requires DistinctSerials(ds)
    ensures !Found(ds[1..], ds[0].serialNumber)
  {
    forall k | 0 <= k < |ds[1..]| ensures ds[1..][k].serialNumber != ds[0].serialNumber {
      assert ds[1..][k] == ds[k + 1];
    }
  }

  /** A row the later upserts leave alone keeps what the first upsert wrote. */
  lemma FirstUpsertSurvives(once: seq<DriveRow>, rest: seq<DiscoveredDrive>, now: string, d: DiscoveredDrive)
    requires AllCarry(once, d, now)
    requires !Found(rest, d.serialNumber)
    ensures AllCarry(UpsertAll(once, rest, now), d, now)
  {
    var r := UpsertAll(once, rest, now);
    forall i | 0 <= i < |r| && r[i].serialNumber == d.serialNumber ensures Carries(r[i], d, now) {
      if i < |once| {
        assert once[i].serialNumber == d.serialNumber;
        assert r[i] == once[i];
      }
    }
  }

  /** With pairwise distinct serials in the scan, each discovered drive's row
      holds exactly what the scan reported for it. */
  lemma {:induction false} UpsertAllCarries(rows: seq<DriveRow>, ds: seq<DiscoveredDrive>, now: string, j: int)
    requires 0 <= j < |ds|
    requires DistinctSerials(ds)
    ensures AllCarry(UpsertAll(rows, ds, now), ds[j], now)
    decreases |ds|
  {
    var once := UpsertDrive(rows, ds[0], now);
    assert UpsertAll(rows, ds, now) == UpsertAll(once, ds[1..], now);
    if j == 0 {
      FirstNotFoundAgain(ds);
      FirstUpsertSurvives(once, ds[1..], now, ds[0]);
    } else {
      assert ds[1..][j - 1] == ds[j];
      DistinctSerialsTail(ds);
      UpsertAllCarries(once, ds[1..], now, j - 1);
    }
  }

  /** The registry after a scan with distinct serials: each discovered drive's
      row carries the scanned fields, connected and seen `now`. */
  lemma RegisteredDriveCarries(rows: seq<DriveRow>, ds: seq<DiscoveredDrive>, now: string, j: int)
    requires 0 <= j < |ds|
    requires DistinctSerials(ds)
    ensures AllCarry(RegisterDrives(rows, ds, now), ds[j], now)
  {
    UpsertAllCarries(rows, ds, now, j);
    var up := UpsertAll(rows, ds, now);
    var r := MarkMissing(up, ds);
    assert RegisterDrives(rows, ds, now) == r;
    assert Found(ds, ds[j].serialNumber);
    forall i | 0 <= i < |r| && r[i].serialNumber == ds[j].serialNumber ensures Carries(r[i], ds[j], now) {
      assert r[i].serialNumber == up[i].serialNumber;
      assert r[i] == up[i];
    }
  }

  /** Drive ids stay unique: a new row's id is above every earlier one. */
  lemma {:induction false} UpsertAllKeepsIdsDistinct(rows: seq<DriveRow>, ds: seq<DiscoveredDrive>, now: string)
    requires forall a, b :: 0 <= a < b < |rows| ==> rows[a].driveId != rows[b].driveId
    ensures var r := UpsertAll(rows, ds, now);
      forall a, b :: 0 <= a < b < |r| ==> r[a].driveId != r[b].driveId
    decreases |ds|
  {
    if |ds| > 0 {
      var once := UpsertDrive(rows, ds[0], now);
      assert UpsertAll(rows, ds, now) == UpsertAll(once, ds[1..], now);
      forall a, b | 0 <= a < b < |once| ensures once[a].driveId != once[b].driveId {
        if b >= |rows| {
          assert once[a].driveId == rows[a].driveId;
        }
      }
      UpsertAllKeepsIdsDistinct(once, ds[1..], now);
    }
  }

  // ─── Summaries ──────────────────────────────────────────────────────────

  /** The summary health: the cached pass flag alone decides, so a summary
      is never a warning. */
  function SummaryHealth(sc: Option<SmartCacheRow>): (h: DriveHealth)
    ensures h != HealthWarning
    ensures h == HealthFailed <==> sc.Some? && sc.value.healthPassed == Some(false)
    ensures h == HealthOk <==> sc.Some? && sc.value.healthPassed == Some(true)
  {
    if sc.Some? && sc.value.healthPassed == Some(false) then HealthFailed
    else if sc.Some? && sc.value.healthPassed == Some(true) then HealthOk
    else HealthUnknown
  }

  /** `getDriveSummaries`: one summary per row, in table order, joined with
      the drive's SMART cache row; no last benchmark run is ever filled in. */
  function GetDriveSummaries(rows: seq<DriveRow>, cache: seq<SmartCacheRow>): (r: seq<DriveSummary>)
    ensures |r| == |rows|
    ensures forall i :: 0 <= i < |rows| ==>
      var sc := FindCache(cache, rows[i].driveId);
      && r[i].driveId == rows[i].driveId && r[i].serialNumber == rows[i].serialNumber
      && r[i].isConnected == rows[i].isConnected && r[i].driveType == rows[i].driveType
      && r[i].devicePath == rows[i].devicePath && r[i].vendor == rows[i].vendor
      && r[i].model == rows[i].model && r[i].capacity == rows[i].capacity
      && r[i].health == SummaryHealth(sc)
      && (r[i].temperature.Some? ==> sc.Some? && sc.value.temperature == r[i].temperature)
      && (sc.Some? ==> r[i].temperature == sc.value.temperature && r[i].lastSmartPoll == Some(sc.value.polledAt))
      && (sc.None? ==> r[i].lastSmartPoll.None?)
      && r[i].lastBenchmarkRun.None?
  {
    seq(|rows|, i requires 0 <= i < |rows| => Summary(rows[i], FindCache(cache, rows[i].driveId)))
  }

  function Summary(row: DriveRow, sc: Option<SmartCacheRow>): DriveSummary {
    DriveSummary(row.driveId, row.serialNumber, row.devicePath, row.vendor, row.model, row.capacity,
      row.driveType, row.isConnected, SummaryHealth(sc),
      if sc.Some? then sc.value.temperature else None,
      if sc.Some? then Some(sc.value.polledAt) else None,
      None)
  }
}

=== FILE: fio_runner.dfy ===
/** The fio wrapper (packages/backend/src/services/fioRunner.ts): the
    command line built from job parameters, the reading of fio's JSON report,
    and the location of that report in the process's standard output. The
    process itself and `JSON.parse` are parameters. */
module FioRunner {
  import opened Wrappers
  import opened Text

  datatype RwMode = Read | RandRead

  /** fio's `--rw=` spelling of the access pattern. */
  function RwModeName(m: RwMode): string {
    match m
    case Read => "read"
    case RandRead => "randread"
  }

  /** A job without its target device: what a catalogue entry fixes. */
  datatype JobSpec = JobSpec(
    rwMode: RwMode,
    blockSizeBytes: int,
    iodepth: int,
    numjobs: int,
    runtimeSecs: int,
    rampTimeSecs: int,
    offsetBytes: Option<int>,
    sizeBytes: Option<int>)

  datatype JobParams = JobParams(devicePath: string, spec: JobSpec)

  /** Aggregated metrics of one fio job, bandwidth in bytes per second. */
  datatype FioResult = FioResult(
    bwBps: real,
    iops: real,
    latMeanNs: real,
    latP50Ns: real,
    latP95Ns: real,
    latP99Ns: real,
    latP999Ns: real)

  // ---------------------------------------------------------------------------
  // Command line
  // ---------------------------------------------------------------------------

  /** The eleven arguments every invocation starts with, values rendered. */
  function FixedPart(path: string, rw: string, bs: string, iodepth: string, numjobs: string): seq<string> {
    [ "--name=sectorama",
      "--filename=" + path,
      "--rw=" + rw,
      "--bs=" + bs,
      "--iodepth=" + iodepth,
      "--numjobs=" + numjobs,
      "--direct=1",
      "--ioengine=psync",
      "--readonly",
      "--output-format=json",
      "--group_reporting" ]
  }

  /** The time limit: fio runs for the given seconds even when it reaches the
      end of the region first. */
  function Timed(runtime: Option<string>): seq<string> {
    if runtime.Some? then ["--time_based", "--runtime=" + runtime.value] else []
  }

  /** One `flag=value` argument when the value is present. */
  function Flagged(flag: string, v: Option<string>): seq<string> {
    if v.Some? then [flag + v.value] else []
  }

  /** The optional arguments, in the order time limit, ramp, offset, size. */
  function OptionalPart(runtime: Option<string>, ramp: Option<string>, offset: Option<string>, size: Option<string>): seq<string> {
    Timed(runtime) + Flagged("--ramp_time=", ramp) + Flagged("--offset=", offset) + Flagged("--size=", size)
  }

  /** The command line as text. */
  function ArgsOf(
    path: string, rw: string, bs: string, iodepth: string, numjobs: string,
    runtime: Option<string>, ramp: Option<string>, offset: Option<string>, size: Option<string>): seq<string>
  {
    FixedPart(path, rw, bs, iodepth, numjobs) + OptionalPart(runtime, ramp, offset, size)
  }

  /** `${n}` of an optional number. */
  function Rendered(n: Option<int>): (r: Option<string>)
    ensures r.Some? <==> n.Some?
  {
    if n.Some? then Some(IntToString(n.value)) else None
  }

  /** A duration is passed only when it is positive. */
  function Positive(n: int): Option<int> {
    if n > 0 then Some(n) else None
  }

  /** How many arguments follow the fixed eleven. */
  function OptionalCount(s: JobSpec): nat {
    (if s.runtimeSecs > 0 then 2 else 0)
    + (if s.rampTimeSecs > 0 then 1 else 0)
    + (if s.offsetBytes.Some? then 1 else 0)
    + (if s.sizeBytes.Some? then 1 else 0)
  }

  /** `buildFioArgs`. */
  function BuildFioArgs(p: JobParams): (args: seq<string>)
    ensures |args| == 11 + OptionalCount(p.spec)
    ensures args[0] == "--name=sectorama" && args[6] == "--direct=1" && args[7] == "--ioengine=psync"
    ensures args[8] == "--readonly" && args[9] == "--output-format=json" && args[10] == "--group_reporting"
  {
    var s := p.spec;
    ArgsOf(p.devicePath, RwModeName(s.rwMode), IntToString(s.blockSizeBytes), IntToString(s.iodepth),
      IntToString(s.numjobs), Rendered(Positive(s.runtimeSecs)), Rendered(Positive(s.rampTimeSecs)),
      Rendered(s.offsetBytes), Rendered(s.sizeBytes))
  }

  /** The first five characters of an argument: enough to tell every flag
      fio is given apart from every other. */
  function Head(a: string): string {
    if |a| >= 5 then a[..5] else a
  }

  function Heads(args: seq<string>): (h: seq<string>)
    ensures |h| == |args|
    ensures forall i :: 0 <= i < |args| ==> h[i] == Head(args[i])
    decreases |args|
  {
    if |args| == 0 then [] else [Head(args[0])] + Heads(args[1..])
  }

  lemma HeadOfConcat(flag: string, v: string)
    requires |flag| >= 5
    ensures Head(flag + v) == flag[..5]
  {
    assert (flag + v)[..5] == flag[..5];
  }

  lemma HeadsEq(args: seq<string>, hs: seq<string>)
    requires |args| == |hs|
    requires forall i :: 0 <= i < |args| ==> Head(args[i]) == hs[i]
    ensures Heads(args) == hs
  {
  }

  lemma HeadsConcat(a: seq<string>, b: seq<string>)
    ensures Heads(a + b) == Heads(a) + Heads(b)
  {
    assert |Heads(a + b)| == |Heads(a) + Heads(b)|;
    forall i | 0 <= i < |a| + |b| ensures Heads(a + b)[i] == (Heads(a) + Heads(b))[i] {
      if i < |a| { assert (a + b)[i] == a[i]; } else { assert (a + b)[i] == b[i - |a|]; }
    }
  }

  const FixedHeads: seq<string> :=
    ["--nam", "--fil", "--rw=", "--bs=", "--iod", "--num", "--dir", "--ioe", "--rea", "--out", "--gro"]

  /** The heads of the arguments that carry no value. */
  lemma ConstantHeads()
    ensures Head("--name=sectorama") == "--nam" && Head("--direct=1") == "--dir"
    ensures Head("--ioengine=psync") == "--ioe" && Head("--readonly") == "--rea"
    ensures Head("--output-format=json") == "--out" && Head("--group_reporting") == "--gro"
  {
  }

  /** The heads of the flags that carry a value. */
  lemma FlagHeads()
    ensures "--filename="[..5] == "--fil" && "--rw="[..5] == "--rw=" && "--bs="[..5] == "--bs="
    ensures "--iodepth="[..5] == "--iod" && "--numjobs="[..5] == "--num"
  {
  }

  lemma HeadsOfFixed(path: string, rw: string, bs: string, iodepth: string, numjobs: string)
    ensures Heads(FixedPart(path, rw, bs, iodepth, numjobs)) == FixedHeads
  {
    var fixed := FixedPart(path, rw, bs, iodepth, numjobs);
    ConstantHeads();
    FlagHeads();
    HeadOfConcat("--filename=", path);
    HeadOfConcat("--rw=", rw);
    HeadOfConcat("--bs=", bs);
    HeadOfConcat("--iodepth=", iodepth);
    HeadOfConcat("--numjobs=", numjobs);
    HeadsEq(fixed, FixedHeads);
  }

  /** An argument that starts with a flag has the flag's head. */
  lemma HeadMismatch(a: string, flag: string)
    requires |flag| >= 5
    ensures StartsWith(a, flag) ==> Head(a) == flag[..5]
  {
    if StartsWith(a, flag) {
      assert a[..5] == a[..|flag|][..5];
    }
  }

  /** The text after the first argument that starts with `flag`. */
  function ArgValue(args: seq<string>, flag: string): (v: Option<string>)
    ensures v.Some? ==> flag + v.value in args
    ensures v.None? <==> forall i :: 0 <= i < |args| ==> !StartsWith(args[i], flag)
    decreases |args|
  {
    if |args| == 0 then None
    else if StartsWith(args[0], flag) then
      assert args[0] == flag + args[0][|flag|..];
      Some(args[0][|flag|..])
    else ArgValue(args[1..], flag)
  }

  function ParseArg(args: seq<string>, flag: string): Option<int> {
    var text :- ArgValue(args, flag);
    ParseInt(text)
  }

  /** Reads job parameters back from a command line. */
  function DecodeFioArgs(args: seq<string>): Option<JobParams> {
    var path :- ArgValue(args, "--filename=");
    var rwText :- ArgValue(args, "--rw=");
    var rw :- if rwText == "read" then Some(Read) else if rwText == "randread" then Some(RandRead) else None;
    var bs :- ParseArg(args, "--bs=");
    var iodepth :- ParseArg(args, "--iodepth=");
    var numjobs :- ParseArg(args, "--numjobs=");
    var runtime := ParseArg(args, "--runtime=").GetOr(0);
    var ramp := ParseArg(args, "--ramp_time=").GetOr(0);
    Some(JobParams(path, JobSpec(rw, bs, iodepth, numjobs, runtime, ramp,
      ParseArg(args, "--offset="), ParseArg(args, "--size="))))
  }

  /** What a command line can say about a job: durations that are not
      positive are not passed to fio at all. */
  function Observable(p: JobParams): JobParams {
    p.(spec := p.spec.(
      runtimeSecs := if p.spec.runtimeSecs > 0 then p.spec.runtimeSecs else 0,
      rampTimeSecs := if p.spec.rampTimeSecs > 0 then p.spec.rampTimeSecs else 0))
  }

  /** The flag first occurs at `k` when no earlier argument has its head. */
  lemma {:induction false} LookupAt(args: seq<string>, flag: string, k: nat, v: string)
    requires |flag| >= 5 && k < |args| && args[k] == flag + v
    requires flag[..5] !in Heads(args)[..k]
    ensures ArgValue(args, flag) == Some(v)
    decreases k
  {
    if k == 0 {
      assert StartsWith(args[0], flag);
      assert args[0][|flag|..] == v;
    } else {
      assert Heads(args)[0] != flag[..5];
      HeadMismatch(args[0], flag);
      assert Heads(args[1..])[..k - 1] == Heads(args)[1..k];
      LookupAt(args[1..], flag, k - 1, v);
    }
  }

  lemma LookupNone(args: seq<string>, flag: string)
    requires |flag| >= 5
    requires flag[..5] !in Heads(args)
    ensures ArgValue(args, flag) == None
  {
    forall i | 0 <= i < |args| ensures !StartsWith(args[i], flag) {
      assert Heads(args)[i] != flag[..5];
      HeadMismatch(args[i], flag);
    }
  }

  /** The heads of the optional flags are none of the fixed heads. */
  lemma OptionalHeadsAbsent()
    ensures "--tim" !in FixedHeads && "--run" !in FixedHeads && "--ram" !in FixedHeads
    ensures "--off" !in FixedHeads && "--siz" !in FixedHeads
  {
  }

  /** The first six fixed heads are pairwise distinct. */
  lemma DistinctHeads(k: nat)
    requires k <= 5
    ensures forall i :: 0 <= i < k ==> FixedHeads[i] != FixedHeads[k]
  {
    var h := FixedHeads;
    assert h[0][2] == 'n' && h[1][2] == 'f' && h[2][2] == 'r' && h[3][2] == 'b' && h[4][2] == 'i';
    assert h[5][2] == 'n' && h[5][3] == 'u' && h[0][3] == 'a';
  }

  /** The fixed flag of head `fixedHeads[k]` is found at `k`. */
  lemma {:induction false} FixedFlagAt(args: seq<string>, flag: string, k: nat, v: string)
    requires 1 <= k <= 5 && 11 <= |args| && Heads(args)[..11] == FixedHeads
    requires |flag| >= 5 && flag[..5] == FixedHeads[k] && args[k] == flag + v
    ensures ArgValue(args, flag) == Some(v)
  {
    assert Heads(args)[..k] == FixedHeads[..k];
    assert FixedHeads[k] !in FixedHeads[..k] by {
      DistinctHeads(k);
    }
    LookupAt(args, flag, k, v);
  }

  /** A fixed flag keeps its place whatever optional part follows. */
  lemma {:induction false} FixedFlag(fixed: seq<string>, opt: seq<string>, flag: string, k: nat, v: string)
    requires Heads(fixed) == FixedHeads
    requires 1 <= k <= 5 && |flag| >= 5 && flag[..5] == FixedHeads[k] && fixed[k] == flag + v
    ensures ArgValue(fixed + opt, flag) == Some(v)
  {
    HeadsConcat(fixed, opt);
    assert Heads(fixed + opt)[..11] == FixedHeads;
    assert (fixed + opt)[k] == fixed[k];
    FixedFlagAt(fixed + opt, flag, k, v);
  }

  lemma {:induction false} FixedLookup(
    path: string, rw: string, bs: string, iodepth: string, numjobs: string, opt: seq<string>)
    ensures var args := FixedPart(path, rw, bs, iodepth, numjobs) + opt;
      && ArgValue(args, "--filename=") == Some(path)
      && ArgValue(args, "--rw=") == Some(rw)
      && ArgValue(args, "--bs=") == Some(bs)
      && ArgValue(args, "--iodepth=") == Some(iodepth)
      && ArgValue(args, "--numjobs=") == Some(numjobs)
  {
    var fixed := FixedPart(path, rw, bs, iodepth, numjobs);
    HeadsOfFixed(path, rw, bs, iodepth, numjobs);
    assert "--filename="[..5] == FixedHeads[1] && "--rw="[..5] == FixedHeads[2] && "--bs="[..5] == FixedHeads[3];
    assert "--iodepth="[..5] == FixedHeads[4] && "--numjobs="[..5] == FixedHeads[5];
    FixedFlag(fixed, opt, "--filename=", 1, path);
    FixedFlag(fixed, opt, "--rw=", 2, rw);
    FixedFlag(fixed, opt, "--bs=", 3, bs);
    FixedFlag(fixed, opt, "--iodepth=", 4, iodepth);
    FixedFlag(fixed, opt, "--numjobs=", 5, numjobs);
  }

  /** The first of two lookups that finds something. */
  function Or(x: Option<string>, y: Option<string>): Option<string> {
    if x.Some? then x else y
  }

  /** Looking a flag up in a concatenation looks in the first part first. */
  lemma {:induction false} ArgValueConcat(a: seq<string>, b: seq<string>, flag: string)
    ensures ArgValue(a + b, flag) == Or(ArgValue(a, flag), ArgValue(b, flag))
    decreases |a|
  {
    if |a| > 0 {
      assert (a + b)[0] == a[0];
      assert (a + b)[1..] == a[1..] + b;
      ArgValueConcat(a[1..], b, flag);
    } else {
      assert a + b == b;
    }
  }

  /** A difference at position `i` rules a prefix out. */
  lemma NotStartsWith(a: string, flag: string, i: nat)
    requires i < |a| && i < |flag| && a[i] != flag[i]
    ensures !StartsWith(a, flag)
  {
  }

  lemma StartsWithFlag(flag: string, v: string)
    ensures StartsWith(flag + v, flag) && (flag + v)[|flag|..] == v
  {
    assert (flag + v)[..|flag|] == flag;
  }

  /** A flag is found in the argument that carries it. */
  lemma FlaggedHit(flag: string, v: Option<string>)
    ensures ArgValue(Flagged(flag, v), flag) == v
  {
    if v.Some? {
      StartsWithFlag(flag, v.value);
    }
  }

  /** ... and not in one whose flag differs from it at position `i`. */
  lemma FlaggedMiss(other: string, v: Option<string>, flag: string, i: nat)
    requires i < |other| && i < |flag| && other[i] != flag[i]
    ensures ArgValue(Flagged(other, v), flag) == None
  {
    if v.Some? {
      assert (other + v.value)[i] == other[i];
      NotStartsWith(other + v.value, flag, i);
    }
  }

  /** `--runtime=` is found in the time-limit pair; `--time_based` is found
      (with nothing after it) exactly when the pair is there. */
  lemma TimedHit(runtime: Option<string>)
    ensures ArgValue(Timed(runtime), "--runtime=") == runtime
    ensures ArgValue(Timed(runtime), "--time_based") == if runtime.Some? then Some("") else None
  {
    if runtime.Some? {
      var t := Timed(runtime);
      NotStartsWith(t[0], "--runtime=", 2);
      StartsWithFlag("--runtime=", runtime.value);
      assert t[1..] == ["--runtime=" + runtime.value];
      NotStartsWith(t[1], "--time_based", 2);
      StartsWithFlag("--time_based", "");
      assert "--time_based" + "" == t[0];
    }
  }

  /** Flags that differ from both of the pair's flags are not found in it. */
  lemma TimedMiss(runtime: Option<string>, flag: string, i: nat, j: nat)
    requires i < |flag| && i < 12 && "--time_based"[i] != flag[i]
    requires j < |flag| && j < 10 && "--runtime="[j] != flag[j]
    ensures ArgValue(Timed(runtime), flag) == None
  {
    if runtime.Some? {
      var t := Timed(runtime);
      NotStartsWith(t[0], flag, i);
      assert t[1][j] == "--runtime="[j];
      NotStartsWith(t[1], flag, j);
    }
  }

  /** A lookup on the whole command line, part by part. */
  lemma {:induction false} LookupParts(
    fixed: seq<string>, runtime: Option<string>, ramp: Option<string>, offset: Option<string>, size: Option<string>,
    flag: string)
    ensures ArgValue(fixed + OptionalPart(runtime, ramp, offset, size), flag)
         == Or(ArgValue(fixed, flag), Or(ArgValue(Timed(runtime), flag), Or(ArgValue(Flagged("--ramp_time=", ramp), flag),
              Or(ArgValue(Flagged("--offset=", offset), flag), ArgValue(Flagged("--size=", size), flag)))))
  {
    var t, r, o, z := Timed(runtime), Flagged("--ramp_time=", ramp), Flagged("--offset=", offset), Flagged("--size=", size);
    ArgValueConcat(fixed, t + r + o + z, flag);
    ArgValueConcat(t + r + o, z, flag);
    ArgValueConcat(t + r, o, flag);
    ArgValueConcat(t, r, flag);
  }

  lemma {:induction false} RuntimeLookup(
    fixed: seq<string>, runtime: Option<string>, ramp: Option<string>, offset: Option<string>, size: Option<string>)
    requires Heads(fixed) == FixedHeads
    ensures ArgValue(fixed + OptionalPart(runtime, ramp, offset, size), "--runtime=") == runtime
  {
    var flag := "--runtime=";
    assert flag[..5] == "--run";
    LookupNone(fixed, flag);
    TimedHit(runtime);
    FlaggedMiss("--ramp_time=", ramp, flag, 3);
    FlaggedMiss("--offset=", offset, flag, 2);
    FlaggedMiss("--size=", size, flag, 2);
    LookupParts(fixed, runtime, ramp, offset, size, flag);
  }

  lemma {:induction false} RampLookup(
    fixed: seq<string>, runtime: Option<string>, ramp: Option<string>, offset: Option<string>, size: Option<string>)
    requires Heads(fixed) == FixedHeads
    ensures ArgValue(fixed + OptionalPart(runtime, ramp, offset, size), "--ramp_time=") == ramp
  {
    var flag := "--ramp_time=";
    assert flag[..5] == "--ram";
    LookupNone(fixed, flag);
    TimedMiss(runtime, flag, 2, 3);
    FlaggedHit(flag, ramp);
    FlaggedMiss("--offset=", offset, flag, 2);
    FlaggedMiss("--size=", size, flag, 2);
    LookupParts(fixed, runtime, ramp, offset, size, flag);
  }

  lemma {:induction false} OffsetLookup(
    fixed: seq<string>, runtime: Option<string>, ramp: Option<string>, offset: Option<string>, size: Option<string>)
    requires Heads(fixed) == FixedHeads
    ensures ArgValue(fixed + OptionalPart(runtime, ramp, offset, size), "--offset=") == offset
  {
    var flag := "--offset=";
    assert flag[..5] == "--off";
    LookupNone(fixed, flag);
    TimedMiss(runtime, flag, 2, 2);
    FlaggedMiss("--ramp_time=", ramp, flag, 2);
    FlaggedHit(flag, offset);
    FlaggedMiss("--size=", size, flag, 2);
    LookupParts(fixed, runtime, ramp, offset, size, flag);
  }

  lemma {:induction false} SizeLookup(
    fixed: seq<string>, runtime: Option<string>, ramp: Option<string>, offset: Option<string>, size: Option<string>)
    requires Heads(fixed) == FixedHeads
    ensures ArgValue(fixed + OptionalPart(runtime, ramp, offset, size), "--size=") == size
  {
    var flag := "--size=";
    assert flag[..5] == "--siz";
    LookupNone(fixed, flag);
    TimedMiss(runtime, flag, 2, 2);
    FlaggedMiss("--ramp_time=", ramp, flag, 2);
    FlaggedMiss("--offset=", offset, flag, 2);
    FlaggedHit(flag, size);
    LookupParts(fixed, runtime, ramp, offset, size, flag);
  }

  lemma {:induction false} TimeBasedLookup(
    fixed: seq<string>, runtime: Option<string>, ramp: Option<string>, offset: Option<string>, size: Option<string>)
    requires Heads(fixed) == FixedHeads
    ensures ArgValue(fixed + OptionalPart(runtime, ramp, offset, size), "--time_based").Some? <==> runtime.Some?
  {
    var flag := "--time_based";
    assert flag[..5] == "--tim";
    assert "--tim" !in FixedHeads by { OptionalHeadsAbsent(); }
    LookupNone(fixed, flag);
    TimedHit(runtime);
    FlaggedMiss("--ramp_time=", ramp, flag, 2);
    FlaggedMiss("--offset=", offset, flag, 2);
    FlaggedMiss("--size=", size, flag, 2);
    LookupParts(fixed, runtime, ramp, offset, size, flag);
  }

  lemma ParseRendered(n: Option<int>)
    ensures (if Rendered(n).Some? then ParseInt(Rendered(n).value) else None) == n
  {
    if n.Some? {
      ParseIntToString(n.value);
    }
  }

  /** Every flag of the command line is found with the text it was given. */
  lemma {:induction false} ArgsOfLookups(
    path: string, rw: string, bs: string, iodepth: string, numjobs: string,
    runtime: Option<string>, ramp: Option<string>, offset: Option<string>, size: Option<string>)
    ensures var args := ArgsOf(path, rw, bs, iodepth, numjobs, runtime, ramp, offset, size);
      && ArgValue(args, "--filename=") == Some(path)
      && ArgValue(args, "--rw=") == Some(rw)
      && ArgValue(args, "--bs=") == Some(bs)
      && ArgValue(args, "--iodepth=") == Some(iodepth)
      && ArgValue(args, "--numjobs=") == Some(numjobs)
      && ArgValue(args, "--runtime=") == runtime
      && ArgValue(args, "--ramp_time=") == ramp
      && ArgValue(args, "--offset=") == offset
      && ArgValue(args, "--size=") == size
  {
    var fixed := FixedPart(path, rw, bs, iodepth, numjobs);
    FixedLookup(path, rw, bs, iodepth, numjobs, OptionalPart(runtime, ramp, offset, size));
    HeadsOfFixed(path, rw, bs, iodepth, numjobs);
    RuntimeLookup(fixed, runtime, ramp, offset, size);
    RampLookup(fixed, runtime, ramp, offset, size);
    OffsetLookup(fixed, runtime, ramp, offset, size);
    SizeLookup(fixed, runtime, ramp, offset, size);
  }

  lemma ParseArgRendered(args: seq<string>, flag: string, n: Option<int>)
    requires ArgValue(args, flag) == Rendered(n)
    ensures ParseArg(args, flag) == n
  {
    ParseRendered(n);
  }

  /** Decoding reads each field from its flag. */
  lemma DecodeFields(
    args: seq<string>, path: string, rw: RwMode, bs: int, iodepth: int, numjobs: int,
    runtime: Option<int>, ramp: Option<int>, offset: Option<int>, size: Option<int>)
    requires ArgValue(args, "--filename=") == Some(path)
    requires ArgValue(args, "--rw=") == Some(RwModeName(rw))
    requires ParseArg(args, "--bs=") == Some(bs)
    requires ParseArg(args, "--iodepth=") == Some(iodepth)
    requires ParseArg(args, "--numjobs=") == Some(numjobs)
    requires ParseArg(args, "--runtime=") == runtime && ParseArg(args, "--ramp_time=") == ramp
    requires ParseArg(args, "--offset=") == offset && ParseArg(args, "--size=") == size
    ensures DecodeFioArgs(args)
         == Some(JobParams(path, JobSpec(rw, bs, iodepth, numjobs, runtime.GetOr(0), ramp.GetOr(0), offset, size)))
  {
  }

  /** Every parameter that reaches fio's command line can be read back from
      it: the decoding is the inverse of `BuildFioArgs` up to the
      non-positive durations, which fio is never given. */
  lemma {:induction false} DecodeBuildFioArgs(p: JobParams)
    ensures DecodeFioArgs(BuildFioArgs(p)) == Some(Observable(p))
  {
    var s := p.spec;
    var path, rw := p.devicePath, RwModeName(s.rwMode);
    var bs, iodepth, numjobs := Rendered(Some(s.blockSizeBytes)), Rendered(Some(s.iodepth)), Rendered(Some(s.numjobs));
    var runtime, ramp := Rendered(Positive(s.runtimeSecs)), Rendered(Positive(s.rampTimeSecs));
    var offset, size := Rendered(s.offsetBytes), Rendered(s.sizeBytes);
    var args := ArgsOf(path, rw, bs.value, iodepth.value, numjobs.value, runtime, ramp, offset, size);
    assert args == BuildFioArgs(p);
    ArgsOfLookups(path, rw, bs.value, iodepth.value, numjobs.value, runtime, ramp, offset, size);
    ParseArgRendered(args, "--bs=", Some(s.blockSizeBytes));
    ParseArgRendered(args, "--iodepth=", Some(s.iodepth));
    ParseArgRendered(args, "--numjobs=", Some(s.numjobs));
    ParseArgRendered(args, "--runtime=", Positive(s.runtimeSecs));
    ParseArgRendered(args, "--ramp_time=", Positive(s.rampTimeSecs));
    ParseArgRendered(args, "--offset=", s.offsetBytes);
    ParseArgRendered(args, "--size=", s.sizeBytes);
    DecodeFields(args, path, s.rwMode, s.blockSizeBytes, s.iodepth, s.numjobs,
      Positive(s.runtimeSecs), Positive(s.rampTimeSecs), s.offsetBytes, s.sizeBytes);
  }

  /** `--time_based` is passed exactly when the runtime is positive. */
  lemma TimeBasedIffPositiveRuntime(p: JobParams)
    ensures "--time_based" in BuildFioArgs(p) <==> p.spec.runtimeSecs > 0
  {
    var s := p.spec;
    var path, rw := p.devicePath, RwModeName(s.rwMode);
    var bs, iodepth, numjobs := IntToString(s.blockSizeBytes), IntToString(s.iodepth), IntToString(s.numjobs);
    var runtime, ramp := Rendered(Positive(s.runtimeSecs)), Rendered(Positive(s.rampTimeSecs));
    var offset, size := Rendered(s.offsetBytes), Rendered(s.sizeBytes);
    var fixed := FixedPart(path, rw, bs, iodepth, numjobs);
    var args := fixed + OptionalPart(runtime, ramp, offset, size);
    assert args == BuildFioArgs(p);
    HeadsOfFixed(path, rw, bs, iodepth, numjobs);
    TimeBasedLookup(fixed, runtime, ramp, offset, size);
    if "--time_based" in args {
      var i :| 0 <= i < |args| && args[i] == "--time_based";
      StartsWithFlag("--time_based", "");
      assert "--time_based" + "" == args[i];
    }
    if s.runtimeSecs > 0 {
      assert args[11] == "--time_based";
    }
  }

  // ---------------------------------------------------------------------------
  // fio's JSON report
  // ---------------------------------------------------------------------------

  /** The fields of fio's JSON report that are read; None is a missing or
      `null` field. */
  datatype Percentiles = Percentiles(p50: Option<real>, p95: Option<real>, p99: Option<real>, p999: Option<real>)
  datatype LatStats = LatStats(mean: Option<real>, percentile: Option<Percentiles>)
  datatype ReadStats = ReadStats(bw: Option<real>, iops: Option<real>, clatNs: Option<LatStats>, latNs: Option<LatStats>)
  /** The `read` block of a job: absent, `null`, or present (a number or
      string there reads like an empty block). */
  datatype ReadField = ReadMissing | ReadNull | ReadPresent(stats: ReadStats)
  /** A job entry; a number or string entry reads like one without `read`. */
  datatype FioJob = FioJob(read: ReadField)
  /** `jobs` is None when it is not an array; a None element is a `null`. */
  datatype FioOutput = FioOutput(jobs: Option<seq<Option<FioJob>>>)

  const NoJobsError := "Error: fio JSON output contained no job entries"
  /** The TypeError a `null` first entry raises when its `read` is taken. */
  const NullJobError := "TypeError: Cannot read properties of null (reading 'read')"

  /** The TypeError raised when `clat_ns`, the first field taken from the
      read block, is read from a `null` or absent block. */
  function NoReadError(read: ReadField): string {
    if read.ReadNull? then "TypeError: Cannot read properties of null (reading 'clat_ns')"
    else "TypeError: Cannot read properties of undefined (reading 'clat_ns')"
  }

  function Mean(l: Option<LatStats>): Option<real> {
    if l.Some? then l.value.mean else None
  }

  function Pct(l: Option<LatStats>): Option<Percentiles> {
    if l.Some? then l.value.percentile else None
  }

  /** `parseFioOutput`; an error is the thrown error's text. */
  function ParseFioOutput(o: FioOutput): (r: Result<FioResult, string>)
    ensures r.Failure? <==> o.jobs.None? || |o.jobs.value| == 0 || o.jobs.value[0].None? || !o.jobs.value[0].value.read.ReadPresent?
    ensures r == Failure(NoJobsError) <==> o.jobs.None? || |o.jobs.value| == 0
    ensures r == Failure(NullJobError) <==> o.jobs.Some? && |o.jobs.value| > 0 && o.jobs.value[0].None?
    ensures o.jobs.Some? && |o.jobs.value| > 0 && o.jobs.value[0].Some? && !o.jobs.value[0].value.read.ReadPresent? ==>
      r == Failure(NoReadError(o.jobs.value[0].value.read))
    ensures r.Success? ==> var rd := o.jobs.value[0].value.read.stats;
      && r.value.bwBps == rd.bw.GetOr(0.0) * 1024.0
      && r.value.iops == rd.iops.GetOr(0.0)
      && r.value.latMeanNs == (if Mean(rd.clatNs).Some? then Mean(rd.clatNs).value else Mean(rd.latNs).GetOr(0.0))
      && (Pct(rd.clatNs).None? ==> r.value.latP50Ns == r.value.latP95Ns == r.value.latP99Ns == r.value.latP999Ns == 0.0)
      && (Pct(rd.clatNs).Some? ==> var p := Pct(rd.clatNs).value;
           && r.value.latP50Ns == p.p50.GetOr(0.0) && r.value.latP95Ns == p.p95.GetOr(0.0)
           && r.value.latP99Ns == p.p99.GetOr(0.0) && r.value.latP999Ns == p.p999.GetOr(0.0))
  {
    if o.jobs.None? || |o.jobs.value| == 0 then Failure(NoJobsError)
    else if o.jobs.value[0].None? then Failure(NullJobError)
    else if !o.jobs.value[0].value.read.ReadPresent? then Failure(NoReadError(o.jobs.value[0].value.read))
    else
      var r := o.jobs.value[0].value.read.stats;
      var pct := Pct(r.clatNs);
      var mean := Mean(r.clatNs);
      Success(FioResult(
        bwBps := r.bw.GetOr(0.0) * 1024.0,
        iops := r.iops.GetOr(0.0),
        latMeanNs := if mean.Some? then mean.value else Mean(r.latNs).GetOr(0.0),
        latP50Ns := if pct.Some? then pct.value.p50.GetOr(0.0) else 0.0,
        latP95Ns := if pct.Some? then pct.value.p95.GetOr(0.0) else 0.0,
        latP99Ns := if pct.Some? then pct.value.p99.GetOr(0.0) else 0.0,
        latP999Ns := if pct.Some? then pct.value.p999.GetOr(0.0) else 0.0))
  }

  /** Only the first job entry is read: the entries after it never change
      the outcome. */
  lemma OnlyFirstJobRead(first: Option<FioJob>, rest: seq<Option<FioJob>>, rest': seq<Option<FioJob>>)
    ensures ParseFioOutput(FioOutput(Some([first] + rest))) == ParseFioOutput(FioOutput(Some([first] + rest')))
  {
  }

  /** Percentiles are read only from the completion latency: whatever the
      total latency block carries besides its mean is ignored. */
  lemma TotalLatencyPercentilesIgnored(bw: Option<real>, iops: Option<real>, clat: Option<LatStats>, lat: LatStats, pct: Option<Percentiles>)
    ensures ParseFioOutput(FioOutput(Some([Some(FioJob(ReadPresent(ReadStats(bw, iops, clat, Some(lat)))))])))
         == ParseFioOutput(FioOutput(Some([Some(FioJob(ReadPresent(ReadStats(bw, iops, clat, Some(lat.(percentile := pct))))))])))
  {
  }

  /** A read block with nothing in it gives all-zero metrics. */
  lemma EmptyReadIsZero()
    ensures ParseFioOutput(FioOutput(Some([Some(FioJob(ReadPresent(ReadStats(None, None, None, None))))])))
         == Success(FioResult(0.0, 0.0, 0.0, 0.0, 0.0, 0.0, 0.0))
  {
  }

  // ---------------------------------------------------------------------------
  // Running fio
  // ---------------------------------------------------------------------------

  /** How the fio process ended: it could not be started, or it closed with
      an exit code (None when killed by a signal) and its captured output. */
  datatype ProcessOutcome =
    | SpawnFailed(message: string)
    | Closed(code: Option<int>, stdout: string, stderr: string)

  /** `${code}` for a number-or-null exit code. */
  function CodeText(code: Option<int>): string {
    if code.Some? then IntToString(code.value) else "null"
  }

  function NoJsonMessage(code: Option<int>, stdout: string, stderr: string): string {
    "fio exited " + CodeText(code) + " with no JSON in stdout. stdout: " + Take(stdout, 200)
      + " | stderr: " + Take(stderr, 200)
  }

  function ParseFailedMessage(err: string, stdout: string): string {
    "fio output parse failed: " + err + ". stdout[0..200]: " + Take(stdout, 200)
  }

  /** The settlement of `runFioJob`, given how the process ended and
      `JSON.parse` (which fails with the text of its SyntaxError). */
  function RunFioJob(outcome: ProcessOutcome, parse: string -> Result<FioOutput, string>): (r: Result<FioResult, string>)
    ensures outcome.Closed? && '{' !in outcome.stdout ==>
      r == Failure(NoJsonMessage(outcome.code, outcome.stdout, outcome.stderr))
    ensures r.Success? ==> outcome.Closed? && '{' in outcome.stdout
  {
    match outcome
    case SpawnFailed(msg) => Failure(msg)
    case Closed(code, stdout, stderr) =>
      var start := IndexOf(stdout, '{');
      if start == -1 then Failure(NoJsonMessage(code, stdout, stderr))
      else
        match parse(stdout[start..])
        case Failure(e) => Failure(ParseFailedMessage(e, stdout))
        case Success(o) =>
          match ParseFioOutput(o)
          case Failure(e) => Failure(ParseFailedMessage(e, stdout))
          case Success(res) => Success(res)
  }

  /** Prepending text without `c` shifts the first `c` by its length. */
  lemma {:induction false} IndexOfAfterPrefix(prefix: string, s: string, c: char)
    requires c !in prefix
    ensures IndexOf(prefix + s, c) == if IndexOf(s, c) == -1 then -1 else |prefix| + IndexOf(s, c)
    decreases |prefix|
  {
    if |prefix| > 0 {
      var full := prefix + s;
      assert full[0] == prefix[0] && full[0] != c;
      assert full[1..] == prefix[1..] + s;
      IndexOfAfterPrefix(prefix[1..], s, c);
    } else {
      assert prefix + s == s;
    }
  }

  /** What the JSON text from the first '{' on settles to, errors unwrapped. */
  function JsonResult(text: string, parse: string -> Result<FioOutput, string>): Result<FioResult, string> {
    match parse(text)
    case Failure(e) => Failure(e)
    case Success(o) => ParseFioOutput(o)
  }

  /** Once the output holds a '{', the job succeeds exactly when the text
      from it on parses, and then with what that text gives. */
  lemma JsonDecides(code: Option<int>, stdout: string, stderr: string, parse: string -> Result<FioOutput, string>)
    requires '{' in stdout
    ensures var r := RunFioJob(Closed(code, stdout, stderr), parse);
      var j := JsonResult(stdout[IndexOf(stdout, '{')..], parse);
      (r.Success? <==> j.Success?) && (r.Success? ==> r == j)
  {
  }

  /** Text before the first '{' is skipped: prepending such text to the
      output changes neither whether the job succeeds nor its result. */
  lemma {:induction false} PrefixBeforeJsonIgnored(
    code: Option<int>, prefix: string, stdout: string, stderr: string,
    parse: string -> Result<FioOutput, string>)
    requires '{' !in prefix
    ensures RunFioJob(Closed(code, prefix + stdout, stderr), parse).Success?
        <==> RunFioJob(Closed(code, stdout, stderr), parse).Success?
    ensures RunFioJob(Closed(code, prefix + stdout, stderr), parse).Success? ==>
      RunFioJob(Closed(code, prefix + stdout, stderr), parse) == RunFioJob(Closed(code, stdout, stderr), parse)
  {
    var full := prefix + stdout;
    IndexOfAfterPrefix(prefix, stdout, '{');
    if '{' in stdout {
      var k := IndexOf(stdout, '{');
      assert full[|prefix| + k] == '{';
      assert IndexOf(full, '{') == |prefix| + k;
      assert full[|prefix| + k..] == stdout[k..];
      assert JsonResult(full[IndexOf(full, '{')..], parse) == JsonResult(stdout[k..], parse);
      JsonDecides(code, stdout, stderr, parse);
      JsonDecides(code, full, stderr, parse);
    } else {
      assert '{' !in full;
    }
  }
}

=== FILE: health.dfy ===
/** Drive health classification from the SMART pass flag and the three
    defect counters (packages/backend/src/utils/health.ts). */
module Health {
  import opened Wrappers
  import opened Shared

  /** More pending sectors than this is a warning. */
  const PendingSectorsWarningThreshold: int := 5

  /** The JavaScript test `(x && x > bound)` on a number-or-null: null and 0
      are falsy, so neither passes. */
  predicate Exceeds(x: Option<int>, bound: int) {
    x.Some? && x.value != 0 && x.value > bound
  }

  /** The counter is present and above `bound`, in plain terms. */
  predicate Above(x: Option<int>, bound: int) {
    x.Some? && x.value > bound
  }

  /** Some counter reports a defect. */
  predicate Defective(reallocated: Option<int>, pending: Option<int>, uncorrectable: Option<int>) {
    || Above(reallocated, 0)
    || Above(pending, PendingSectorsWarningThreshold)
    || Above(uncorrectable, 0)
  }

  /** `deriveHealth` of utils/health.ts. `passed` None stands for both null
      and undefined. */
  function DeriveHealth(
    passed: Option<bool>,
    reallocated: Option<int>,
    pending: Option<int>,
    uncorrectable: Option<int>): (h: DriveHealth)
    ensures h == HealthFailed <==> passed == Some(false)
    ensures h == HealthWarning <==> passed != Some(false) && Defective(reallocated, pending, uncorrectable)
    ensures h == HealthOk <==> passed == Some(true) && !Defective(reallocated, pending, uncorrectable)
    ensures h == HealthUnknown <==> passed.None? && !Defective(reallocated, pending, uncorrectable)
  {
    match passed
    case Some(false) => HealthFailed
    case _ =>
      if
        || Exceeds(reallocated, 0)
        || Exceeds(pending, PendingSectorsWarningThreshold)
        || Exceeds(uncorrectable, 0)
      then HealthWarning
      else if passed.Some? then HealthOk
      else HealthUnknown
  }

  /** Exactly five pending sectors, with the other counters null or zero, is
      not a warning. */
  lemma PendingAtThresholdIsNotWarning(passed: Option<bool>, reallocated: Option<int>, uncorrectable: Option<int>)
    requires reallocated == None || reallocated == Some(0)
    requires uncorrectable == None || uncorrectable == Some(0)
    ensures DeriveHealth(passed, reallocated, Some(5), uncorrectable) != HealthWarning
    ensures DeriveHealth(passed, reallocated, Some(6), uncorrectable) == HealthWarning <==> passed != Some(false)
  {
  }

  /** `b` is `a` or a larger count. */
  predicate Raised(a: Option<int>, b: Option<int>) {
    a.None? || (b.Some? && b.value >= a.value)
  }

  /** With the pass flag fixed, raising counters never turns a warning back
      into ok or unknown. */
  lemma WarningIsMonotone(
    passed: Option<bool>,
    r: Option<int>, p: Option<int>, u: Option<int>,
    r': Option<int>, p': Option<int>, u': Option<int>)
    requires Raised(r, r') && Raised(p, p') && Raised(u, u')
    requires DeriveHealth(passed, r, p, u) == HealthWarning
    ensures DeriveHealth(passed, r', p', u') == HealthWarning
  {
  }
}

=== FILE: json.dfy ===
/** Values produced by `JSON.parse` and the JavaScript operations the core
    applies to them: property access and conversion to a string (template
    literals, `fetch`'s URL argument). Numbers are integer-valued. */
module Json {
  import opened Wrappers
  import opened Text

  datatype Json =
    | JNull
    | JBool(b: bool)
    | JNum(n: int)
    | JStr(s: string)
    | JArr(items: seq<Json>)
    | JObj(fields: map<string, Json>)

  /** A JavaScript value read out of parsed JSON: a JSON value or `undefined`. */
  datatype JsValue = Undefined | Defined(v: Json)

  /** V8's message for reading property `key` of `undefined` (or of `null`). */
  function TypeErrorMessage(ofNull: bool, key: string): string {
    "TypeError: Cannot read properties of " + (if ofNull then "null" else "undefined") + " (reading '" + key + "')"
  }

  /** `v[key]`: throws on `undefined` and `null`, is `undefined` when the
      property is missing or `v` is not an object. */
  function Get(v: JsValue, key: string): (r: Result<JsValue, string>)
    ensures r.Failure? <==> v == Undefined || v == Defined(JNull)
    ensures r.Failure? ==> r.error == TypeErrorMessage(v.Defined?, key)
    ensures v.Defined? && v.v.JObj? && key in v.v.fields ==> r == Success(Defined(v.v.fields[key]))
  {
    match v
    case Undefined => Failure(TypeErrorMessage(false, key))
    case Defined(JNull) => Failure(TypeErrorMessage(true, key))
    case Defined(JObj(fields)) => Success(if key in fields then Defined(fields[key]) else Undefined)
    case Defined(_) => Success(Undefined)
  }

  /** `String(v)`, the text a template literal inserts. */
  function ToJsString(v: JsValue): string {
    match v
    case Undefined => "undefined"
    case Defined(j) => JsonToString(j)
  }

  function JsonToString(j: Json): string
    decreases j, 1
  {
    match j
    case JNull => "null"
    case JBool(b) => if b then "true" else "false"
    case JNum(n) => IntToString(n)
    case JStr(s) => s
    case JArr(items) => JoinItems(items)
    case JObj(_) => "[object Object]"
  }

  /** `Array.prototype.toString`: elements joined by commas, `null` as empty. */
  function JoinItems(items: seq<Json>): string
    decreases items, 0
  {
    if |items| == 0 then ""
    else
      var first := if items[0] == JNull then "" else JsonToString(items[0]);
      if |items| == 1 then first else first + "," + JoinItems(items[1..])
  }

  /** `v === s` for a string literal `s`. */
  predicate IsString(v: JsValue, s: string) {
    v == Defined(JStr(s))
  }
}

=== FILE: live_feed.dfy ===
/** The live-feed WebSocket hub of packages/backend/src/ws/liveFeed.ts: a
    set of connected sockets and a broadcast that writes the same event to
    every open one. Sockets are integer handles kept in insertion order, as
    a JavaScript `Set` iterates. Whether a socket is open and whether a
    write to it throws are parameters. Nothing is remembered between
    events. */
module LiveFeed {
  import opened Shared

  type Socket = int

  /** Each socket at most once. */
  predicate Distinct(s: seq<Socket>) {
    forall i, j :: 0 <= i < j < |s| ==> s[i] != s[j]
  }

  datatype Feed = Feed(clients: seq<Socket>)

  /** One frame written to one socket. */
  datatype Message = Message(to: Socket, event: LiveFeedEvent)

  /** A feed after an operation, with the frames it wrote in order. */
  datatype Step = Step(feed: Feed, sent: seq<Message>)

  /** The sockets a run of frames went to, in order. */
  function Recipients(sent: seq<Message>): (r: seq<Socket>)
    ensures |r| == |sent|
    ensures forall i :: 0 <= i < |sent| ==> r[i] == sent[i].to
  {
    seq(|sent|, i requires 0 <= i < |sent| => sent[i].to)
  }

  /** `clients.add(socket)`: a socket already present is not added again. */
  function Add(clients: seq<Socket>, s: Socket): (r: seq<Socket>)
    ensures forall x :: x in r <==> x in clients || x == s
    ensures Distinct(clients) ==> Distinct(r)
    ensures s !in clients ==> r == clients + [s]
  {
    if s in clients then clients else clients + [s]
  }

  /** `clients.delete(socket)`. */
  function Remove(clients: seq<Socket>, s: Socket): (r: seq<Socket>)
    ensures forall x :: x in r <==> x in clients && x != s
    ensures Distinct(clients) ==> Distinct(r)
    ensures |r| <= |clients|
    decreases |clients|
  {
    if |clients| == 0 then []
    else
      var rest := Remove(clients[1..], s);
      assert Distinct(clients) ==> clients[0] !in clients[1..] && Distinct(clients[1..]);
      if clients[0] == s then rest else [clients[0]] + rest
  }

  /** A new connection: the socket joins the set and is sent `connected`
      with the size of the set, itself included. */
  function Connect(f: Feed, s: Socket): (r: Step)
    ensures s in r.feed.clients
    ensures forall x :: x in r.feed.clients <==> x in f.clients || x == s
    ensures Distinct(f.clients) ==> Distinct(r.feed.clients)
    ensures r.sent == [Message(s, Connected(|r.feed.clients|))]
    ensures Distinct(f.clients) && s !in f.clients ==> r.sent[0].event.clientCount == |f.clients| + 1
  {
    var clients := Add(f.clients, s);
    Step(Feed(clients), [Message(s, Connected(|clients|))])
  }

  /** The socket's `close` or `error` handler: it leaves the set. */
  function Disconnect(f: Feed, s: Socket): (r: Feed)
    ensures s !in r.clients
    ensures forall x :: x in r.clients <==> x in f.clients && x != s
    ensures Distinct(f.clients) ==> Distinct(r.clients)
  {
    Feed(Remove(f.clients, s))
  }

  /** A socket that connects and then closes leaves the set as it was. */
  lemma {:induction false} DisconnectUndoesConnect(f: Feed, s: Socket)
    requires s !in f.clients
    ensures Disconnect(Connect(f, s).feed, s) == f
  {
    RemoveAbsent(f.clients, s);
    RemoveLast(f.clients, s);
  }

  lemma {:induction false} RemoveAbsent(clients: seq<Socket>, s: Socket)
    requires s !in clients
    ensures Remove(clients, s) == clients
    decreases |clients|
  {
    if |clients| > 0 {
      RemoveAbsent(clients[1..], s);
      assert clients == [clients[0]] + clients[1..];
    }
  }

  lemma {:induction false} RemoveLast(clients: seq<Socket>, s: Socket)
    requires s !in clients
    ensures Remove(clients + [s], s) == Remove(clients, s)
    decreases |clients|
  {
    if |clients| == 0 {
      assert Remove([s], s) == Remove([], s);
    } else {
      assert (clients + [s])[1..] == clients[1..] + [s];
      RemoveLast(clients[1..], s);
    }
  }

  lemma RecipientsCons(m: Message, sent: seq<Message>)
    ensures Recipients([m] + sent) == [m.to] + Recipients(sent)
  {
    assert forall i :: 0 < i <= |sent| ==> ([m] + sent)[i] == sent[i - 1];
  }

  /** The broadcast loop over `cs`: an open socket is written to, and is
      dropped if the write throws; a socket that is not open is skipped and
      kept. */
  function BroadcastOver(cs: seq<Socket>, event: LiveFeedEvent, isOpen: Socket -> bool, sendThrows: Socket -> bool): (r: Step)
    ensures forall x :: x in r.feed.clients <==> x in cs && !(isOpen(x) && sendThrows(x))
    ensures forall x :: x in Recipients(r.sent) <==> x in cs && isOpen(x) && !sendThrows(x)
    ensures forall i :: 0 <= i < |r.sent| ==> r.sent[i].event == event
    ensures Distinct(cs) ==> Distinct(r.feed.clients) && Distinct(Recipients(r.sent))
    ensures |r.feed.clients| <= |cs| && |r.sent| <= |cs|
    ensures (forall x :: x in cs ==> !isOpen(x)) ==> r.sent == []
    decreases |cs|
  {
    if |cs| == 0 then Step(Feed([]), [])
    else
      var c := cs[0];
      var rest := BroadcastOver(cs[1..], event, isOpen, sendThrows);
      assert forall x :: x in cs <==> x == c || x in cs[1..];
      assert Distinct(cs) ==> c !in cs[1..] && Distinct(cs[1..]);
      if !isOpen(c) then Step(Feed([c] + rest.feed.clients), rest.sent)
      else if sendThrows(c) then rest
      else
        var sent := [Message(c, event)] + rest.sent;
        RecipientsCons(Message(c, event), rest.sent);
        Step(Feed([c] + rest.feed.clients), sent)
  }

  /** `broadcast(event)`: the same event to every open socket, in set order;
      a socket leaves only when writing to it throws. */
  function Broadcast(f: Feed, event: LiveFeedEvent, isOpen: Socket -> bool, sendThrows: Socket -> bool): (r: Step)
    ensures forall x :: x in r.feed.clients ==> x in f.clients
    ensures forall x :: x in f.clients && !isOpen(x) ==> x in r.feed.clients
    ensures forall x :: x in f.clients && isOpen(x) ==> (x in r.feed.clients <==> !sendThrows(x))
    ensures forall x :: x in Recipients(r.sent) <==> x in f.clients && isOpen(x) && !sendThrows(x)
    ensures forall i :: 0 <= i < |r.sent| ==> r.sent[i].event == event
    ensures Distinct(f.clients) ==> Distinct(r.feed.clients) && Distinct(Recipients(r.sent))
    ensures (forall x :: x in f.clients ==> !isOpen(x)) ==> r.sent == []
  {
    BroadcastOver(f.clients, event, isOpen, sendThrows)
  }

  /** The set's members. */
  function Members(s: seq<Socket>): set<Socket> {
    set x | x in s
  }

  lemma {:induction false} MembersCount(s: seq<Socket>)
    requires Distinct(s)
    ensures |Members(s)| == |s|
    decreases |s|
  {
    if |s| > 0 {
      var t := s[..|s| - 1];
      assert forall i, j :: 0 <= i < j < |t| ==> t[i] == s[i] && t[j] == s[j];
      MembersCount(t);
      assert s == t + [s[|s| - 1]];
      assert s[|s| - 1] !in t;
      assert Members(s) == Members(t) + {s[|s| - 1]};
    }
  }

  /** `clientCount()`: the number of sockets in the set. */
  function ClientCount(f: Feed): (n: nat)
    ensures Distinct(f.clients) ==> n == |Members(f.clients)|
  {
    if Distinct(f.clients) then MembersCount(f.clients); |f.clients|
    else |f.clients|
  }

  /** No history: a socket that connects after an event is not sent it, and
      its only frame is its own `connected` acknowledgement. */
  lemma LateJoinerMissesEvent(f: Feed, s: Socket, event: LiveFeedEvent, isOpen: Socket -> bool, sendThrows: Socket -> bool)
    requires s !in f.clients
    ensures var b := Broadcast(f, event, isOpen, sendThrows);
      && s !in Recipients(b.sent)
      && Connect(b.feed, s).sent == [Message(s, Connected(|Connect(b.feed, s).feed.clients|))]
  {
  }

  /** Sockets that are not open are never written to, and never dropped by a
      broadcast. */
  lemma ClosedSocketsKept(f: Feed, event: LiveFeedEvent, isOpen: Socket -> bool, sendThrows: Socket -> bool)
    requires forall x :: x in f.clients ==> !isOpen(x)
    ensures var b := Broadcast(f, event, isOpen, sendThrows);
      && b.sent == []
      && forall x :: x in b.feed.clients <==> x in f.clients
  {
  }
}

=== FILE: notification_service.dfy ===
/** `evaluateAndNotify` of
    packages/backend/src/services/notifications/notificationService.ts: the
    alerts a new reading raises are sent to every enabled channel subscribed
    to their exact type. A failing channel is logged and skipped; it never
    stops the others. `JSON.parse`, the HTTP client and the base64 encoder
    are parameters. */
module NotificationService {
  import opened Wrappers
  import opened Json
  import opened Shared
  import opened Store
  import opened AlertEvaluator
  import opened Channels

  /** The tables the dispatcher reads. */
  datatype NotifyDb = NotifyDb(
    drives: seq<DriveRow>,
    cache: seq<SmartCacheRow>,
    thresholds: seq<ThresholdRow>,
    channels: seq<ChannelRow>,
    subscriptions: seq<SubscriptionRow>)

  /** The outside world a send touches. */
  datatype Env = Env(
    parse: string -> Result<Json, string>,
    base64: string -> string,
    fetch: Fetch)

  /** One row of the subscription/channel inner join. */
  datatype JoinRow = JoinRow(channelId: int, alertType: string, channelType: string, config: string, enabled: bool)

  function JoinRowOf(s: SubscriptionRow, c: ChannelRow): JoinRow {
    JoinRow(s.channelId, s.alertType, c.channelType, c.config, c.enabled)
  }

  /** A subscription row and a channel row the join pairs for `name`. */
  predicate Joined(db: NotifyDb, name: string, r: JoinRow) {
    exists s, c :: s in db.subscriptions && c in db.channels && c.id == s.channelId
      && s.alertType == name && r == JoinRowOf(s, c)
  }

  /** The channels of `cs` with id `id`, joined to subscription `s`. */
  function ChannelsOf(s: SubscriptionRow, cs: seq<ChannelRow>): (rows: seq<JoinRow>)
    ensures forall r :: r in rows <==> exists c :: c in cs && c.id == s.channelId && r == JoinRowOf(s, c)
    ensures forall i :: 0 <= i < |rows| ==> rows[i].alertType == s.alertType
    decreases |cs|
  {
    if |cs| == 0 then []
    else
      assert cs == [cs[0]] + cs[1..];
      (if cs[0].id == s.channelId then [JoinRowOf(s, cs[0])] else []) + ChannelsOf(s, cs[1..])
  }

  /** The join rows of subscriptions `subs` for the alert tag `name`, in
      subscription order. */
  function JoinFrom(subs: seq<SubscriptionRow>, channels: seq<ChannelRow>, name: string): (rows: seq<JoinRow>)
    ensures forall i :: 0 <= i < |rows| ==> rows[i].alertType == name
    decreases |subs|
  {
    if |subs| == 0 then []
    else (if subs[0].alertType == name then ChannelsOf(subs[0], channels) else []) + JoinFrom(subs[1..], channels, name)
  }

  /** The join rows found for alert type `t`: subscriptions to exactly its
      tag, each with its channel. */
  function Subscribers(db: NotifyDb, t: AlertType): (rows: seq<JoinRow>)
    ensures forall i :: 0 <= i < |rows| ==> rows[i].alertType == AlertTypeName(t)
  {
    JoinFrom(db.subscriptions, db.channels, AlertTypeName(t))
  }

  lemma {:induction false} JoinFromMembers(subs: seq<SubscriptionRow>, channels: seq<ChannelRow>, name: string, r: JoinRow)
    ensures r in JoinFrom(subs, channels, name) <==>
      exists s, c :: s in subs && c in channels && c.id == s.channelId && s.alertType == name && r == JoinRowOf(s, c)
    decreases |subs|
  {
    if |subs| > 0 {
      JoinFromMembers(subs[1..], channels, name, r);
      assert subs == [subs[0]] + subs[1..];
      if r in JoinFrom(subs, channels, name) && r !in JoinFrom(subs[1..], channels, name) {
        var c :| c in channels && c.id == subs[0].channelId && r == JoinRowOf(subs[0], c);
        assert subs[0] in subs;
      }
      if exists s, c :: s in subs && c in channels && c.id == s.channelId && s.alertType == name && r == JoinRowOf(s, c) {
        var s, c :| s in subs && c in channels && c.id == s.channelId && s.alertType == name && r == JoinRowOf(s, c);
        if s != subs[0] {
          assert s in subs[1..];
        }
      }
    }
  }

  /** The join holds exactly the pairs of a subscription to the alert's tag
      and the channel it names. */
  lemma SubscribersAreTheJoin(db: NotifyDb, t: AlertType, r: JoinRow)
    ensures r in Subscribers(db, t) <==> Joined(db, AlertTypeName(t), r)
  {
    JoinFromMembers(db.subscriptions, db.channels, AlertTypeName(t), r);
  }

  /** Distinct alert types have distinct tags, so matching by tag is
      matching by type: a recovery never reaches a `temperature`
      subscription. */
  lemma AlertTypeNameInjective(a: AlertType, b: AlertType)
    ensures AlertTypeName(a) == AlertTypeName(b) <==> a == b
  {
    if a != b {
      assert AlertTypeName(a)[|AlertTypeName(a)| - 1] != AlertTypeName(b)[|AlertTypeName(b)| - 1]
        || |AlertTypeName(a)| != |AlertTypeName(b)|;
    }
  }

  predicate Overrides(row: ThresholdRow, driveId: int, t: int) {
    row.driveId == driveId && row.temperatureThresholdCelsius == Some(t)
  }

  /** The threshold in force: the drive's override when its row has one,
      else the default. */
  function Threshold(db: NotifyDb, driveId: int, default: int): (t: int)
    ensures (forall i :: 0 <= i < |db.thresholds| ==> db.thresholds[i].driveId != driveId) ==> t == default
    ensures t == default || exists i :: 0 <= i < |db.thresholds| && Overrides(db.thresholds[i], driveId, t)
  {
    var row := FindFirst(db.thresholds, (r: ThresholdRow) => r.driveId == driveId);
    if row.Some? && row.value.temperatureThresholdCelsius.Some? then row.value.temperatureThresholdCelsius.value
    else default
  }

  /** One alert with the join rows found for its type. */
  datatype Work = Work(alert: Alert, rows: seq<JoinRow>)

  /** The dispatcher's work list: each alert with its subscribers. */
  function WorkOf(db: NotifyDb, alerts: seq<Alert>): (ws: seq<Work>)
    ensures |ws| == |alerts|
    ensures forall k :: 0 <= k < |alerts| ==> ws[k] == Work(alerts[k], Subscribers(db, alerts[k].alertType))
  {
    seq(|alerts|, k requires 0 <= k < |alerts| => Work(alerts[k], Subscribers(db, alerts[k].alertType)))
  }

  /** A send planned: alert `alert` of the work list to its `row`-th join
      row. */
  datatype Target = Target(alert: nat, row: nat)

  predicate ValidTarget(ws: seq<Work>, t: Target) {
    t.alert < |ws| && t.row < |ws[t.alert].rows|
  }

  /** The `j`-th join row of alert `k` has its channel enabled. */
  predicate RowEnabled(ws: seq<Work>, k: nat, j: nat)
    requires k < |ws| && j < |ws[k].rows|
  {
    ws[k].rows[j].enabled
  }

  /** `t` is a send to an enabled channel for one of the first `m` alerts. */
  predicate Sound(ws: seq<Work>, m: nat, t: Target) {
    ValidTarget(ws, t) && t.alert < m && RowEnabled(ws, t.alert, t.row)
  }

  /** `a` is sent before `b` by the nested loops. */
  predicate Before(a: Target, b: Target) {
    a.alert < b.alert || (a.alert == b.alert && a.row < b.row)
  }

  predicate Ordered(ts: seq<Target>) {
    forall i, j :: 0 <= i < j < |ts| ==> Before(ts[i], ts[j])
  }

  /** The sends for alert `k` to the enabled rows among its first `n`. */
  function PlannedFor(ws: seq<Work>, k: nat, n: nat): (ts: seq<Target>)
    requires k < |ws| && n <= |ws[k].rows|
    ensures forall i :: 0 <= i < |ts| ==> Sound(ws, k + 1, ts[i]) && ts[i].alert == k && ts[i].row < n
    ensures Ordered(ts)
    ensures forall j :: 0 <= j < n && RowEnabled(ws, k, j) ==> Target(k, j) in ts
  {
    if n == 0 then []
    else PlannedFor(ws, k, n - 1) + (if RowEnabled(ws, k, n - 1) then [Target(k, n - 1)] else [])
  }

  /** Every send the dispatcher makes for the first `m` alerts, in order:
      each enabled join row of each alert, once. */
  function Planned(ws: seq<Work>, m: nat): (ts: seq<Target>)
    requires m <= |ws|
    ensures forall i :: 0 <= i < |ts| ==> Sound(ws, m, ts[i])
    ensures Ordered(ts)
    ensures forall k, j :: 0 <= k < m && 0 <= j < |ws[k].rows| && RowEnabled(ws, k, j) ==> Target(k, j) in ts
  {
    if m == 0 then []
    else
      var prev := Planned(ws, m - 1);
      var last := PlannedFor(ws, m - 1, |ws[m - 1].rows|);
      OrderedConcat(prev, last, m - 1);
      CompleteConcat(ws, m - 1, prev, last);
      prev + last
  }

  /** Every enabled row of the alerts before `k`, then every enabled row
      of alert `k`, covers every enabled row of the alerts up to `k`. */
  lemma CompleteConcat(ws: seq<Work>, k: nat, prev: seq<Target>, last: seq<Target>)
    requires k < |ws|
    requires forall a, j :: 0 <= a < k && 0 <= j < |ws[a].rows| && RowEnabled(ws, a, j) ==> Target(a, j) in prev
    requires forall j :: 0 <= j < |ws[k].rows| && RowEnabled(ws, k, j) ==> Target(k, j) in last
    ensures forall a, j :: 0 <= a <= k && 0 <= j < |ws[a].rows| && RowEnabled(ws, a, j) ==> Target(a, j) in prev + last
  {
    forall a, j | 0 <= a <= k && 0 <= j < |ws[a].rows| && RowEnabled(ws, a, j)
      ensures Target(a, j) in prev + last
    {
      if a < k {
        assert Target(a, j) in prev;
      } else {
        assert Target(a, j) in last;
      }
    }
  }

  /** Sends for earlier alerts followed by sends for alert `k` stay in
      order. */
  lemma OrderedConcat(prev: seq<Target>, last: seq<Target>, k: nat)
    requires Ordered(prev) && Ordered(last)
    requires forall i :: 0 <= i < |prev| ==> prev[i].alert < k
    requires forall j :: 0 <= j < |last| ==> last[j].alert == k
    ensures Ordered(prev + last)
  {
    var ts := prev + last;
    forall i, j | 0 <= i < j < |ts| ensures Before(ts[i], ts[j]) {
      if j < |prev| {
        assert ts[i] == prev[i] && ts[j] == prev[j];
      } else if i >= |prev| {
        assert ts[i] == last[i - |prev|] && ts[j] == last[j - |prev|];
      } else {
        assert ts[i] == prev[i] && ts[j] == last[j - |prev|];
      }
    }
  }

  /** Sending one alert through one join row: parse the configuration,
      build the channel, send. */
  function Deliver(row: JoinRow, alert: Alert, env: Env): Result<Unit, string> {
    var cfg :- env.parse(row.config);
    var ch :- CreateChannel(row.channelType, Defined(cfg));
    Send(ch, alert, env.base64, env.fetch)
  }

  /** A send made and how it ended; a failure is logged, not thrown. */
  datatype Attempt = Attempt(target: Target, channelId: int, outcome: Result<Unit, string>)

  function AttemptAt(ws: seq<Work>, t: Target, env: Env): Attempt
    requires ValidTarget(ws, t)
  {
    var row := ws[t.alert].rows[t.row];
    Attempt(t, row.channelId, Deliver(row, ws[t.alert].alert, env))
  }

  predicate AllValid(ws: seq<Work>, ts: seq<Target>) {
    forall i :: 0 <= i < |ts| ==> ValidTarget(ws, ts[i])
  }

  /** The sends `ts`, each with its own delivery's outcome. */
  function AttemptsAt(ws: seq<Work>, ts: seq<Target>, env: Env): (r: seq<Attempt>)
    requires AllValid(ws, ts)
    ensures |r| == |ts|
    ensures forall i :: 0 <= i < |ts| ==> r[i] == AttemptAt(ws, ts[i], env)
  {
    seq(|ts|, i requires 0 <= i < |ts| => AttemptAt(ws, ts[i], env))
  }

  lemma AttemptsAtAppend(ws: seq<Work>, a: seq<Target>, b: seq<Target>, env: Env)
    requires AllValid(ws, a) && AllValid(ws, b)
    ensures AllValid(ws, a + b)
    ensures AttemptsAt(ws, a + b, env) == AttemptsAt(ws, a, env) + AttemptsAt(ws, b, env)
  {
  }

  /** The inner dispatch loop: alert `k` to each enabled join row of its
      type, in join order, disabled channels skipped. */
  method DispatchAlert(ws: seq<Work>, k: nat, env: Env) returns (sent: seq<Attempt>)
    requires k < |ws|
    ensures AllValid(ws, PlannedFor(ws, k, |ws[k].rows|))
    ensures sent == AttemptsAt(ws, PlannedFor(ws, k, |ws[k].rows|), env)
  {
    var rows := ws[k].rows;
    sent := [];
    for j := 0 to |rows|
      invariant AllValid(ws, PlannedFor(ws, k, j))
      invariant sent == AttemptsAt(ws, PlannedFor(ws, k, j), env)
    {
      if !rows[j].enabled {
        continue;
      }
      AttemptsAtAppend(ws, PlannedFor(ws, k, j), [Target(k, j)], env);
      sent := sent + [AttemptAt(ws, Target(k, j), env)];
    }
  }

  /** The sends for the first `k + 1` alerts: those for the first `k`, then
      alert `k`'s. */
  lemma DispatchStep(ws: seq<Work>, k: nat, env: Env)
    requires k < |ws|
    requires AllValid(ws, Planned(ws, k))
    requires AllValid(ws, PlannedFor(ws, k, |ws[k].rows|))
    ensures AllValid(ws, Planned(ws, k + 1))
    ensures AttemptsAt(ws, Planned(ws, k + 1), env)
      == AttemptsAt(ws, Planned(ws, k), env) + AttemptsAt(ws, PlannedFor(ws, k, |ws[k].rows|), env)
  {
    assert Planned(ws, k + 1) == Planned(ws, k) + PlannedFor(ws, k, |ws[k].rows|);
    AttemptsAtAppend(ws, Planned(ws, k), PlannedFor(ws, k, |ws[k].rows|), env);
  }

  /** The outer dispatch loop. Each planned send is made once, in plan
      order, and its outcome is its own delivery's, whatever the others
      did. */
  method Dispatch(ws: seq<Work>, env: Env) returns (attempts: seq<Attempt>)
    ensures AllValid(ws, Planned(ws, |ws|))
    ensures attempts == AttemptsAt(ws, Planned(ws, |ws|), env)
  {
    attempts := [];
    for k := 0 to |ws|
      invariant AllValid(ws, Planned(ws, k))
      invariant attempts == AttemptsAt(ws, Planned(ws, k), env)
    {
      var sent := DispatchAlert(ws, k, env);
      DispatchStep(ws, k, env);
      attempts := attempts + sent;
    }
  }

  /** What one call did: the alerts evaluated, the alert types whose
      subscribers were looked up, and the sends. */
  datatype Notified = Notified(alerts: seq<Alert>, queried: seq<AlertType>, attempts: seq<Attempt>)

  function InfoOf(drive: DriveRow): DriveInfo {
    DriveInfo(drive.driveId, drive.serialNumber, drive.model)
  }

  /** `evaluateAndNotify(driveId, reading)`, stamped `now`, against the
      cache as it was before the reading is stored. */
  method EvaluateAndNotify(db: NotifyDb, driveId: int, reading: SmartReading, defaultThreshold: int, now: string, env: Env)
    returns (r: Notified)
    ensures FindDrive(db.drives, driveId).None? ==> r == Notified([], [], [])
    ensures FindDrive(db.drives, driveId).Some? ==>
      r.alerts == EvaluateAlerts(InfoOf(FindDrive(db.drives, driveId).value), reading,
        FindCache(db.cache, driveId), Threshold(db, driveId, defaultThreshold), now)
    ensures r.queried == Types(r.alerts)
    ensures r.attempts == AttemptsAt(WorkOf(db, r.alerts), Planned(WorkOf(db, r.alerts), |r.alerts|), env)
  {
    var drive := FindDrive(db.drives, driveId);
    if drive.None? {
      return Notified([], [], []);
    }
    var prev := FindCache(db.cache, driveId);
    var threshold := Threshold(db, driveId, defaultThreshold);
    var alerts := EvaluateAlerts(InfoOf(drive.value), reading, prev, threshold, now);
    if |alerts| == 0 {
      return Notified(alerts, [], []);
    }
    var attempts := Dispatch(WorkOf(db, alerts), env);
    r := Notified(alerts, Types(alerts), attempts);
  }

  /** Why the dispatcher must run before the reading is cached: against
      the cache row of the reading itself, nothing ever fires. */
  lemma SilentAfterCacheUpdate(db: NotifyDb, driveId: int, reading: SmartReading, defaultThreshold: int, polledAt: string, now: string)
    requires FindDrive(db.drives, driveId).Some?
    requires FindCache(db.cache, driveId) == Some(CacheRowOf(reading, polledAt))
    ensures EvaluateAlerts(InfoOf(FindDrive(db.drives, driveId).value), reading,
      FindCache(db.cache, driveId), Threshold(db, driveId, defaultThreshold), now) == []
  {
    SteadyStateIsSilent(InfoOf(FindDrive(db.drives, driveId).value), reading, CacheRowOf(reading, polledAt),
      Threshold(db, driveId, defaultThreshold), now);
  }

  /** Every send goes to a channel that is enabled and subscribed to the
      alert's exact type. */
  lemma SendsMatchExactly(db: NotifyDb, alerts: seq<Alert>, i: nat)
    requires i < |Planned(WorkOf(db, alerts), |alerts|)|
    ensures var t := Planned(WorkOf(db, alerts), |alerts|)[i];
      var row := WorkOf(db, alerts)[t.alert].rows[t.row];
      && row.enabled && row.alertType == AlertTypeName(alerts[t.alert].alertType)
      && Joined(db, AlertTypeName(alerts[t.alert].alertType), row)
  {
    var ws := WorkOf(db, alerts);
    var t := Planned(ws, |alerts|)[i];
    SubscribersAreTheJoin(db, alerts[t.alert].alertType, ws[t.alert].rows[t.row]);
  }

  /** Each send is planned once: no target repeats. */
  lemma SentOnce(ws: seq<Work>, i: nat, j: nat)
    requires i < j < |Planned(ws, |ws|)|
    ensures Planned(ws, |ws|)[i] != Planned(ws, |ws|)[j]
  {
  }

  /** The alerts a temperature alert carries its value in reach a slack
      channel with a Value field; smart_error alerts never do. */
  lemma SlackValueFieldForTemperatureAlerts(info: DriveInfo, reading: SmartReading, prev: Option<SmartCacheRow>, threshold: int, now: string, i: nat)
    requires i < |EvaluateAlerts(info, reading, prev, threshold, now)|
    ensures var a := EvaluateAlerts(info, reading, prev, threshold, now)[i];
      |SlackFields(a)| == 4 <==> a.alertType != SmartError
  {
    var r := EvaluateAlerts(info, reading, prev, threshold, now);
    assert HasType(r, r[i].alertType);
  }
}

=== FILE: ordered_map.dfy ===
/** JavaScript `Map`s built row by row: entries in insertion order with
    distinct keys, each value folded from the rows that carry its key. The
    query code of packages/backend/src/services/benchmarkEngine.ts groups
    InfluxDB rows this way. */
module OrderedMap {
  import opened Store

  /** The keys of `m` are pairwise distinct. */
  predicate DistinctKeys<K(==), V>(m: seq<(K, V)>) {
    forall i, j :: 0 <= i < j < |m| ==> m[i].0 != m[j].0
  }

  /** `k` is a key of `m`. */
  predicate HasKey<K(==), V>(m: seq<(K, V)>, k: K) {
    exists i :: 0 <= i < |m| && m[i].0 == k
  }

  /** Some row carries key `x`. */
  predicate Keyed<R, K(==)>(rows: seq<R>, key: R -> K, x: K) {
    exists j :: 0 <= j < |rows| && key(rows[j]) == x
  }

  /** The position of `k` in `m`, -1 when absent. */
  function KeyIndex<K(==), V>(m: seq<(K, V)>, k: K): (r: int)
    ensures -1 <= r < |m|
    ensures r == -1 <==> !HasKey(m, k)
    ensures r >= 0 ==> m[r].0 == k && forall i :: 0 <= i < r ==> m[i].0 != k
    decreases |m|
  {
    if |m| == 0 then -1
    else if m[0].0 == k then 0
    else
      var r := KeyIndex(m[1..], k);
      if r == -1 then -1 else r + 1
  }

  /** `if (!m.has(k)) m.set(k, blank)` followed by an update of `m.get(k)`. */
  function Upsert<K(==,!new), V>(m: seq<(K, V)>, k: K, blank: V, f: V -> V): (r: seq<(K, V)>)
    ensures DistinctKeys(m) ==> DistinctKeys(r)
    ensures forall x :: HasKey(r, x) <==> HasKey(m, x) || x == k
  {
    var i := KeyIndex(m, k);
    if i == -1 then
      var r := m + [(k, f(blank))];
      assert forall x :: HasKey(m, x) ==> HasKey(r, x) by {
        forall x | HasKey(m, x) ensures HasKey(r, x) {
          var j :| 0 <= j < |m| && m[j].0 == x;
          assert r[j] == m[j];
        }
      }
      assert r[|m|].0 == k;
      r
    else
      var r := m[i := (k, f(m[i].1))];
      assert forall j :: 0 <= j < |r| ==> r[j].0 == m[j].0;
      r
  }

  /** A new key is appended with the update applied to its blank value. */
  lemma UpsertNew<K(!new), V>(m: seq<(K, V)>, k: K, blank: V, f: V -> V)
    requires !HasKey(m, k)
    ensures Upsert(m, k, blank, f) == m + [(k, f(blank))]
  {
  }

  /** A present key is updated in place. */
  lemma UpsertAt<K(!new), V>(m: seq<(K, V)>, i: nat, k: K, blank: V, f: V -> V)
    requires DistinctKeys(m) && i < |m| && m[i].0 == k
    ensures Upsert(m, k, blank, f) == m[i := (k, f(m[i].1))]
  {
    assert KeyIndex(m, k) == i;
  }

  /** The map the rows build: each row's key is added on first sight and its
      value is then updated by `step`. */
  function FoldRows<R(!new), K(==,!new), V>(rows: seq<R>, key: R -> K, blank: K -> V, step: (V, R) -> V): (m: seq<(K, V)>)
    ensures DistinctKeys(m)
    ensures forall x :: HasKey(m, x) <==> Keyed(rows, key, x)
    decreases |rows|
  {
    if |rows| == 0 then []
    else
      var init := rows[..|rows| - 1];
      var last := rows[|rows| - 1];
      var m := FoldRows(init, key, blank, step);
      assert forall x :: Keyed(rows, key, x) <==> Keyed(init, key, x) || x == key(last) by {
        forall x | Keyed(rows, key, x) ensures Keyed(init, key, x) || x == key(last) {
          var j :| 0 <= j < |rows| && key(rows[j]) == x;
          if j < |init| {
            assert init[j] == rows[j];
          }
        }
        forall x | Keyed(init, key, x) ensures Keyed(rows, key, x) {
          var j :| 0 <= j < |init| && key(init[j]) == x;
          assert rows[j] == init[j];
        }
        assert rows[|rows| - 1] == last;
      }
      Upsert(m, key(last), blank(key(last)), (v: V) => step(v, last))
  }

  /** One more row: the fold of the longer list upserts the new row. */
  lemma FoldSnoc<R(!new), K(!new), V>(rows: seq<R>, x: R, key: R -> K, blank: K -> V, step: (V, R) -> V)
    ensures FoldRows(rows + [x], key, blank, step)
         == Upsert(FoldRows(rows, key, blank, step), key(x), blank(key(x)), (v: V) => step(v, x))
  {
    assert (rows + [x])[..|rows|] == rows;
  }

  /** The map `rows` build when the fold starts from `m` instead of empty. */
  function FoldFrom<R, K(==,!new), V>(m: seq<(K, V)>, rows: seq<R>, key: R -> K, blank: K -> V, step: (V, R) -> V): seq<(K, V)>
    decreases |rows|
  {
    if |rows| == 0 then m
    else
      var last := rows[|rows| - 1];
      Upsert(FoldFrom(m, rows[..|rows| - 1], key, blank, step), key(last), blank(key(last)), (v: V) => step(v, last))
  }

  /** The fold of the first `i + 1` rows upserts row `i` into the fold of
      the first `i`. */
  lemma FoldFromStep<R, K(!new), V>(m: seq<(K, V)>, rows: seq<R>, i: nat, key: R -> K, blank: K -> V, step: (V, R) -> V)
    requires i < |rows|
    ensures FoldFrom(m, rows[..i + 1], key, blank, step)
         == Upsert(FoldFrom(m, rows[..i], key, blank, step), key(rows[i]), blank(key(rows[i])), (v: V) => step(v, rows[i]))
  {
    assert rows[..i + 1][..i] == rows[..i];
  }

  /** A non-empty list is its front followed by its last element. */
  lemma InitLast<T>(s: seq<T>)
    requires |s| > 0
    ensures s == s[..|s| - 1] + [s[|s| - 1]]
  {
  }

  /** A longer prefix is the shorter one and the next element. */
  lemma PrefixSnoc<T>(s: seq<T>, k: nat)
    requires 0 < k <= |s|
    ensures s[..k] == s[..k - 1] + [s[k - 1]]
  {
  }

  /** A concatenation is its first part and the second's front, then the
      second's last element. */
  lemma SplitLast<T>(a: seq<T>, b: seq<T>)
    requires |b| > 0
    ensures a + b == (a + b[..|b| - 1]) + [b[|b| - 1]]
  {
  }

  /** Folding a concatenation folds the second part from where the first
      part left off. */
  lemma {:induction false} FoldRowsAppend<R(!new), K(!new), V>(a: seq<R>, b: seq<R>, key: R -> K, blank: K -> V, step: (V, R) -> V)
    ensures FoldRows(a + b, key, blank, step) == FoldFrom(FoldRows(a, key, blank, step), b, key, blank, step)
    decreases |b|
  {
    if |b| == 0 {
      assert a + b == a;
    } else {
      var init := b[..|b| - 1];
      var x := b[|b| - 1];
      FoldRowsAppend(a, init, key, blank, step);
      SplitLast(a, b);
      FoldSnoc(a + init, x, key, blank, step);
    }
  }

  /** The reference reading of one entry: `step` applied, in order, to the
      rows with its key. */
  function Accumulate<R, V>(v: V, rows: seq<R>, step: (V, R) -> V): V
    decreases |rows|
  {
    if |rows| == 0 then v else step(Accumulate(v, rows[..|rows| - 1], step), rows[|rows| - 1])
  }

  /** Appending a key not yet present keeps the keys distinct. */
  lemma AppendNewKey<K, V>(m: seq<(K, V)>, k: K, v: V)
    requires DistinctKeys(m) && !HasKey(m, k)
    ensures DistinctKeys(m + [(k, v)])
  {
    var m' := m + [(k, v)];
    forall a, b | 0 <= a < b < |m'| ensures m'[a].0 != m'[b].0 {
      assert m'[a] == m[a];
      if b < |m| {
        assert m'[b] == m[b];
      }
    }
  }

  /** A run of rows that all carry a key not yet in `m` appends one entry,
      holding what the run makes of the key's blank value. */
  lemma {:induction false} FoldFromBlock<R, K(!new), V>(m: seq<(K, V)>, block: seq<R>, k: K, key: R -> K, blank: K -> V, step: (V, R) -> V)
    requires DistinctKeys(m) && !HasKey(m, k) && |block| > 0
    requires forall j :: 0 <= j < |block| ==> key(block[j]) == k
    ensures FoldFrom(m, block, key, blank, step) == m + [(k, Accumulate(blank(k), block, step))]
    decreases |block|
  {
    var init := block[..|block| - 1];
    var last := block[|block| - 1];
    var f := (v: V) => step(v, last);
    if |init| == 0 {
      UpsertNew(m, k, blank(k), f);
    } else {
      FoldFromBlock(m, init, k, key, blank, step);
      var a := Accumulate(blank(k), init, step);
      AppendNewKey(m, k, a);
      UpsertAt(m + [(k, a)], |m|, k, blank(k), f);
      assert (m + [(k, a)])[|m| := (k, f(a))] == m + [(k, f(a))];
    }
  }

  /** Accumulating one more row of a list applies `step` once more. */
  lemma AccumulateStep<R, V>(v: V, rows: seq<R>, i: nat, step: (V, R) -> V)
    requires i < |rows|
    ensures Accumulate(v, rows[..i + 1], step) == step(Accumulate(v, rows[..i], step), rows[i])
  {
    assert rows[..i + 1][..i] == rows[..i];
  }

  /** Appending after a non-empty list keeps its head and appends to its
      tail. */
  lemma TailSnoc<T>(s: seq<T>, x: T)
    requires |s| > 0
    ensures (s + [x])[0] == s[0] && (s + [x])[1..] == s[1..] + [x]
  {
  }

  /** Filtering distributes over appending one element. */
  lemma {:induction false} FilterSnoc<T(!new)>(s: seq<T>, x: T, keep: T -> bool)
    ensures Filter(s + [x], keep) == Filter(s, keep) + (if keep(x) then [x] else [])
    decreases |s|
  {
    if |s| == 0 {
      assert s + [x] == [x];
      assert [x][1..] == [];
    } else {
      TailSnoc(s, x);
      FilterSnoc(s[1..], x, keep);
    }
  }

  /** Nothing passes: the filter is empty. */
  lemma {:induction false} FilterNone<T(!new)>(s: seq<T>, keep: T -> bool)
    requires forall j :: 0 <= j < |s| ==> !keep(s[j])
    ensures Filter(s, keep) == []
    decreases |s|
  {
    if |s| > 0 {
      FilterNone(s[1..], keep);
    }
  }

  /** Everything passes: the filter is the identity. */
  lemma {:induction false} FilterAll<T(!new)>(s: seq<T>, keep: T -> bool)
    requires forall j :: 0 <= j < |s| ==> keep(s[j])
    ensures Filter(s, keep) == s
    decreases |s|
  {
    if |s| > 0 {
      FilterAll(s[1..], keep);
    }
  }

  /** The rows that carry key `k`, in order. */
  function WithKey<R(!new), K(==)>(rows: seq<R>, key: R -> K, k: K): seq<R> {
    Filter(rows, (r: R) => key(r) == k)
  }

  /** The rows with key `k` of a non-empty list: the head if it has the
      key, then those of the tail. */
  lemma WithKeyCons<R(!new), K>(s: seq<R>, key: R -> K, k: K)
    requires |s| > 0
    ensures WithKey(s, key, k) == (if key(s[0]) == k then [s[0]] else []) + WithKey(s[1..], key, k)
  {
  }

  /** Pre-filtering by a test every row with key `k` passes does not change
      the rows with key `k`. */
  lemma {:induction false} WithKeyNarrow<R(!new), K>(s: seq<R>, p: R -> bool, key: R -> K, k: K)
    requires forall x :: key(x) == k ==> p(x)
    ensures WithKey(Filter(s, p), key, k) == WithKey(s, key, k)
    decreases |s|
  {
    if |s| > 0 {
      WithKeyNarrow(s[1..], p, key, k);
      WithKeyCons(s, key, k);
      var t := Filter(s[1..], p);
      if p(s[0]) {
        var u := Filter(s, p);
        assert u == [s[0]] + t;
        assert u[0] == s[0] && u[1..] == t;
        WithKeyCons(u, key, k);
      } else {
        assert Filter(s, p) == t;
      }
    }
  }

  /** Some row carries key `k` exactly when the rows with key `k` are not
      none. */
  lemma KeyedWithKey<R(!new), K>(s: seq<R>, key: R -> K, k: K)
    ensures Keyed(s, key, k) <==> WithKey(s, key, k) != []
  {
    var w := WithKey(s, key, k);
    if Keyed(s, key, k) {
      var j :| 0 <= j < |s| && key(s[j]) == k;
      assert s[j] in w;
    }
    if w != [] {
      assert w[0] in s;
    }
  }

  /** Every entry holds exactly what the rows with its key make of its
      blank value, in row order. */
  lemma {:induction false} FoldValue<R(!new), K(!new), V>(rows: seq<R>, key: R -> K, blank: K -> V, step: (V, R) -> V, i: nat)
    requires i < |FoldRows(rows, key, blank, step)|
    ensures var e := FoldRows(rows, key, blank, step)[i];
      e.1 == Accumulate(blank(e.0), WithKey(rows, key, e.0), step)
    decreases |rows|
  {
    var e := FoldRows(rows, key, blank, step)[i];
    var k := e.0;
    var keep := (r: R) => key(r) == k;
    var init := rows[..|rows| - 1];
    var last := rows[|rows| - 1];
    var m := FoldRows(init, key, blank, step);
    assert rows == init + [last];
    FilterSnoc(init, last, keep);
    var ki := KeyIndex(m, key(last));
    if i < |m| {
      assert m[i].0 == k;
      FoldValue(init, key, blank, step, i);
      if key(last) == k {
        assert ki == i;
        assert Filter(rows, keep)[..|Filter(rows, keep)| - 1] == Filter(init, keep);
      } else {
        assert Filter(rows, keep) == Filter(init, keep);
      }
    } else {
      assert ki == -1 && i == |m| && k == key(last);
      assert !HasKey(m, k);
      FilterNone(init, keep);
      assert Filter(rows, keep) == [last];
      assert [last][..0] == [];
    }
  }
}

=== FILE: schedule_routes.dfy ===
/** The write routes of packages/backend/src/routes/schedules/index.ts:
    each keeps the `benchmark_schedules` table and the cron registry in
    step, as far as the code does. A row is stored even when its expression
    is refused, and a refused expression on update leaves the old timer
    running. */
module ScheduleRoutes {
  import opened Wrappers
  import opened Store
  import opened Scheduler

  /** The schedules table with its AUTOINCREMENT counter. */
  datatype ScheduleTable = ScheduleTable(rows: seq<ScheduleRow>, lastId: int)

  datatype RouteState = RouteState(table: ScheduleTable, timers: Timers)

  const DefaultNumPoints := 11

  /** A POST body; absent fields are `None`. */
  datatype PostBody = PostBody(driveId: Option<int>, cronExpression: string, numPoints: Option<int>)

  datatype Posted = Posted(state: RouteState, created: ScheduleRow)

  /** The id an AUTOINCREMENT insert assigns. */
  function NextScheduleId(t: ScheduleTable): (id: int)
    ensures id > t.lastId
    ensures forall i :: 0 <= i < |t.rows| ==> t.rows[i].id < id
  {
    var m := NextId(ScheduleIds(t.rows));
    if t.lastId >= m then t.lastId + 1 else m
  }

  /** `POST /api/v1/schedules`: stores an enabled row, then registers it. */
  function Post(s: RouteState, body: PostBody, now: string, valid: string -> bool): (r: Posted)
    ensures r.created.enabled && r.created.createdAt == now
    ensures r.created.driveId == body.driveId && r.created.cronExpression == body.cronExpression
    ensures r.created.numPoints == (if body.numPoints.Some? then body.numPoints.value else DefaultNumPoints)
    ensures r.created.lastRun.None? && r.created.nextRun.None?
    ensures r.state.table.rows == s.table.rows + [r.created]
    ensures r.created.id > s.table.lastId && r.state.table.lastId == r.created.id
    ensures forall i :: 0 <= i < |s.table.rows| ==> s.table.rows[i].id != r.created.id
    ensures valid(body.cronExpression) ==>
      r.state.timers.active == s.timers.active[r.created.id := Task(r.created.id, body.cronExpression, body.driveId, r.created.numPoints)]
    ensures !valid(body.cronExpression) ==> r.state.timers == s.timers
  {
    var id := NextScheduleId(s.table);
    var numPoints := body.numPoints.GetOr(DefaultNumPoints);
    var row := ScheduleRow(id, body.driveId, body.cronExpression, true, numPoints, None, None, now);
    var reg := RegisterSchedule(s.timers, id, body.cronExpression, body.driveId, numPoints, valid);
    assert valid(body.cronExpression) ==> reg.timers.active.Keys == s.timers.active.Keys + {id};
    Posted(RouteState(ScheduleTable(s.table.rows + [row], id), reg.timers), row)
  }

  /** A PUT body; absent fields are `None`. */
  datatype PutBody = PutBody(enabled: Option<bool>, cronExpression: Option<string>, numPoints: Option<int>)

  /** The fields present in the body, written over the row. */
  function Patch(row: ScheduleRow, body: PutBody): (r: ScheduleRow)
    ensures r.id == row.id && r.driveId == row.driveId && r.lastRun == row.lastRun
    ensures r.nextRun == row.nextRun && r.createdAt == row.createdAt
    ensures r.enabled == (if body.enabled.Some? then body.enabled.value else row.enabled)
    ensures r.cronExpression == (if body.cronExpression.Some? then body.cronExpression.value else row.cronExpression)
    ensures r.numPoints == (if body.numPoints.Some? then body.numPoints.value else row.numPoints)
  {
    row.(enabled := body.enabled.GetOr(row.enabled),
         cronExpression := body.cronExpression.GetOr(row.cronExpression),
         numPoints := body.numPoints.GetOr(row.numPoints))
  }

  /** No field in the body: `updates` stays `{}`. */
  predicate NoUpdates(body: PutBody) {
    body.enabled.None? && body.cronExpression.None? && body.numPoints.None?
  }

  /** The ORM's refusal of an update with an empty SET clause. */
  const NoValuesError := "No values to set"

  /** A body with no field would write nothing over the row; the route
      never gets that far (see `EmptyPutRejected`). */
  lemma EmptyPatch(row: ScheduleRow, body: PutBody)
    requires NoUpdates(body)
    ensures Patch(row, body) == row
  {
  }

  /** `UPDATE ... WHERE id = id`. */
  function UpdateRows(rows: seq<ScheduleRow>, id: int, body: PutBody): (r: seq<ScheduleRow>)
    ensures |r| == |rows|
    ensures forall i :: 0 <= i < |rows| ==> r[i] == (if rows[i].id == id then Patch(rows[i], body) else rows[i])
    decreases |rows|
  {
    if |rows| == 0 then []
    else [if rows[0].id == id then Patch(rows[0], body) else rows[0]] + UpdateRows(rows[1..], id, body)
  }

  /** The row re-read after the update is the patched original. */
  lemma {:induction false} FindAfterUpdate(rows: seq<ScheduleRow>, id: int, body: PutBody)
    requires FindSchedule(rows, id).Some?
    ensures FindSchedule(UpdateRows(rows, id, body), id) == Some(Patch(FindSchedule(rows, id).value, body))
    decreases |rows|
  {
    var r := UpdateRows(rows, id, body);
    if rows[0].id == id {
      assert FindSchedule(rows, id) == Some(rows[0]);
      assert FindSchedule(r, id) == Some(r[0]);
    } else {
      assert FindSchedule(rows, id) == FindSchedule(rows[1..], id);
      FindAfterUpdate(rows[1..], id, body);
      assert r[1..] == UpdateRows(rows[1..], id, body);
      assert FindSchedule(r, id) == FindSchedule(r[1..], id);
    }
  }

  /** The registry after an update: the row's timer replaced when it is
      enabled (if its expression is accepted), removed when it is not. */
  function Reconcile(t: Timers, row: ScheduleRow, valid: string -> bool): (r: Timers)
    ensures !row.enabled ==> row.id !in r.active
    ensures row.enabled && valid(row.cronExpression) ==>
      row.id in r.active && r.active[row.id] == Task(row.id, row.cronExpression, row.driveId, row.numPoints)
    ensures row.enabled && !valid(row.cronExpression) ==> r == t
    ensures forall k :: k in t.active && k != row.id ==> k in r.active && r.active[k] == t.active[k]
  {
    if row.enabled
    then RegisterSchedule(t, row.id, row.cronExpression, row.driveId, row.numPoints, valid).timers
    else UnregisterSchedule(t, row.id)
  }

  /** 404, the update's rejection (answered 500), or the updated row. */
  datatype PutResult = NotFound | Rejected(error: string) | Updated(row: ScheduleRow)

  datatype Put = Put(state: RouteState, result: PutResult)

  /** `PUT /api/v1/schedules/:id`: 404 for an unknown id; a body with none
      of the three fields makes the update throw, with nothing changed;
      otherwise the present fields are written, and the row is re-registered
      when enabled and unregistered when not. */
  function PutSchedule(s: RouteState, id: int, body: PutBody, valid: string -> bool): (r: Put)
    ensures FindSchedule(s.table.rows, id).None? <==> r.result.NotFound?
    ensures r.result.Rejected? <==> FindSchedule(s.table.rows, id).Some? && NoUpdates(body)
    ensures r.result.Rejected? ==> r.result.error == NoValuesError
    ensures !r.result.Updated? ==> r.state == s
    ensures r.result.Updated? ==> r.result.row == Patch(FindSchedule(s.table.rows, id).value, body)
    ensures r.state.table.lastId == s.table.lastId
    ensures r.result.Updated? ==> r.state.table.rows == UpdateRows(s.table.rows, id, body)
    ensures r.result.Updated? ==> r.state.timers == Reconcile(s.timers, r.result.row, valid) && r.result.row.id == id
  {
    if FindSchedule(s.table.rows, id).None? then Put(s, NotFound)
    else if NoUpdates(body) then Put(s, Rejected(NoValuesError))
    else
      var rows := UpdateRows(s.table.rows, id, body);
      FindAfterUpdate(s.table.rows, id, body);
      var updated := FindSchedule(rows, id).value;
      Put(RouteState(ScheduleTable(rows, s.table.lastId), Reconcile(s.timers, updated, valid)), Updated(updated))
  }

  /** A PUT with no field changes neither the table nor the registry, even
      for an enabled row whose timer a real update would re-install. */
  lemma EmptyPutRejected(s: RouteState, id: int, body: PutBody, valid: string -> bool)
    requires NoUpdates(body)
    ensures var r := PutSchedule(s, id, body, valid);
      && r.state == s
      && (FindSchedule(s.table.rows, id).Some? ==> r.result == Rejected(NoValuesError))
  {
  }

  /** A refused expression on update keeps the old timer: the row shows the
      new expression while the registry still runs the previous task. */
  lemma InvalidCronKeepsOldTimer(s: RouteState, id: int, cron: string, valid: string -> bool)
    requires FindSchedule(s.table.rows, id).Some? && FindSchedule(s.table.rows, id).value.enabled
    requires !valid(cron) && id in s.timers.active
    ensures var r := PutSchedule(s, id, PutBody(None, Some(cron), None), valid);
      && r.result.Updated? && r.result.row.cronExpression == cron
      && r.state.timers.active[id] == s.timers.active[id]
  {
  }

  /** A POST whose expression is refused still stores an enabled row, with
      no timer behind it. */
  lemma InvalidCronStillStored(s: RouteState, body: PostBody, now: string, valid: string -> bool)
    requires !valid(body.cronExpression)
    requires forall k :: k in s.timers.active ==> k <= s.table.lastId
    ensures var r := Post(s, body, now, valid);
      && r.created in r.state.table.rows && r.created.enabled
      && r.created.id !in r.state.timers.active
  {
  }

  /** `DELETE /api/v1/schedules/:id`: unregisters, then deletes the row. */
  function DeleteSchedule(s: RouteState, id: int): (r: RouteState)
    ensures id !in r.timers.active
    ensures forall x :: x in r.table.rows <==> x in s.table.rows && x.id != id
    ensures r.table.lastId == s.table.lastId
    ensures forall k :: k in r.timers.active ==> k in s.timers.active && r.timers.active[k] == s.timers.active[k]
    ensures s.timers.active.Keys - {id} <= r.timers.active.Keys
  {
    RouteState(
      ScheduleTable(Filter(s.table.rows, (x: ScheduleRow) => x.id != id), s.table.lastId),
      UnregisterSchedule(s.timers, id))
  }

  /** Deleting twice is deleting once. */
  lemma DeleteIdempotent(s: RouteState, id: int)
    ensures DeleteSchedule(DeleteSchedule(s, id), id).timers == DeleteSchedule(s, id).timers
    ensures forall x :: x in DeleteSchedule(DeleteSchedule(s, id), id).table.rows <==> x in DeleteSchedule(s, id).table.rows
  {
  }
}

=== FILE: scheduler.dfy ===
/** The cron registry of packages/backend/src/services/scheduler.ts: one
    timer per schedule id, what a timer does when it fires, start-up
    registration, and the SMART poll's cron expression. Cron validation is a
    parameter; timers are values, and stopping one is recorded. */
module Scheduler {
  import opened Wrappers
  import opened Text
  import opened Shared
  import opened Store
  import opened BenchmarkRuns

  /** A registered timer and the arguments it runs its schedule with. */
  datatype Task = Task(scheduleId: int, cronExpression: string, driveId: Option<int>, numPoints: int)

  /** `activeTasks`, and the tasks stopped so far, in order. */
  datatype Timers = Timers(active: map<int, Task>, stopped: seq<Task>)

  datatype Registered = Registered(timers: Timers, ok: bool)

  /** `registerSchedule`: an invalid expression is refused and changes
      nothing; a valid one stops the id's previous task and installs the new
      one. */
  function RegisterSchedule(t: Timers, id: int, cron: string, driveId: Option<int>, numPoints: int, valid: string -> bool): (r: Registered)
    ensures r.ok <==> valid(cron)
    ensures !valid(cron) ==> r.timers == t
    ensures valid(cron) ==> r.timers.active.Keys == t.active.Keys + {id}
    ensures valid(cron) ==> r.timers.active[id] == Task(id, cron, driveId, numPoints)
    ensures forall k :: k in t.active && k != id ==> k in r.timers.active && r.timers.active[k] == t.active[k]
    ensures valid(cron) && id in t.active ==> r.timers.stopped == t.stopped + [t.active[id]]
    ensures id !in t.active ==> r.timers.stopped == t.stopped
  {
    if !valid(cron) then Registered(t, false)
    else
      var stopped := if id in t.active then t.stopped + [t.active[id]] else t.stopped;
      Registered(Timers(t.active[id := Task(id, cron, driveId, numPoints)], stopped), true)
  }

  /** `unregisterSchedule`: stops and removes the id's task, if there is one. */
  function UnregisterSchedule(t: Timers, id: int): (r: Timers)
    ensures r.active.Keys == t.active.Keys - {id}
    ensures forall k :: k in r.active ==> r.active[k] == t.active[k]
    ensures id in t.active ==> r.stopped == t.stopped + [t.active[id]]
    ensures id !in t.active ==> r == t
  {
    if id in t.active then Timers(t.active - {id}, t.stopped + [t.active[id]]) else t
  }

  /** Registering twice with valid expressions leaves only the second. */
  lemma ReRegisterReplaces(t: Timers, id: int, c1: string, c2: string, d1: Option<int>, d2: Option<int>, n1: int, n2: int, valid: string -> bool)
    requires valid(c1) && valid(c2)
    ensures var once := RegisterSchedule(t, id, c1, d1, n1, valid).timers;
      var twice := RegisterSchedule(once, id, c2, d2, n2, valid).timers;
      && twice.active == t.active[id := Task(id, c2, d2, n2)]
      && twice.stopped[|twice.stopped| - 1] == Task(id, c1, d1, n1)
  {
    var once := RegisterSchedule(t, id, c1, d1, n1, valid).timers;
    var twice := RegisterSchedule(once, id, c2, d2, n2, valid).timers;
    assert twice.active.Keys == t.active.Keys + {id};
  }

  /** A registered id is removed by unregistering, and nothing else is. */
  lemma UnregisterUndoesRegister(t: Timers, id: int, cron: string, driveId: Option<int>, numPoints: int, valid: string -> bool)
    requires valid(cron) && id !in t.active
    ensures UnregisterSchedule(RegisterSchedule(t, id, cron, driveId, numPoints, valid).timers, id).active == t.active
  {
    var r := UnregisterSchedule(RegisterSchedule(t, id, cron, driveId, numPoints, valid).timers, id);
    assert r.active.Keys == t.active.Keys;
  }

  /** The registered ids `initScheduler` adds from `rows`. */
  predicate StartsTimer(rows: seq<ScheduleRow>, valid: string -> bool, k: int) {
    exists i :: 0 <= i < |rows| && rows[i].id == k && rows[i].enabled && valid(rows[i].cronExpression)
  }

  /** `initScheduler`: registers every enabled row, in table order. */
  function InitScheduler(t: Timers, rows: seq<ScheduleRow>, valid: string -> bool): (r: Timers)
    ensures forall k :: k in r.active <==> k in t.active || StartsTimer(rows, valid, k)
    ensures forall k :: k in t.active && !StartsTimer(rows, valid, k) ==> r.active[k] == t.active[k]
    decreases |rows|
  {
    if |rows| == 0 then t
    else
      var s := rows[0];
      var next := if s.enabled then RegisterSchedule(t, s.id, s.cronExpression, s.driveId, s.numPoints, valid).timers else t;
      var r := InitScheduler(next, rows[1..], valid);
      assert forall k :: StartsTimer(rows, valid, k) <==>
          (k == s.id && s.enabled && valid(s.cronExpression)) || StartsTimer(rows[1..], valid, k) by {
        forall k | StartsTimer(rows, valid, k) && !StartsTimer(rows[1..], valid, k)
          ensures k == s.id && s.enabled && valid(s.cronExpression)
        {
          var i :| 0 <= i < |rows| && rows[i].id == k && rows[i].enabled && valid(rows[i].cronExpression);
        }
        forall k | StartsTimer(rows[1..], valid, k) ensures StartsTimer(rows, valid, k) {
          var i :| 0 <= i < |rows[1..]| && rows[1..][i].id == k && rows[1..][i].enabled && valid(rows[1..][i].cronExpression);
          assert rows[i + 1] == rows[1..][i];
        }
      }
      r
  }

  /** Started from no timers, only enabled rows with a valid expression
      have one. */
  lemma InitRegistersEnabledOnly(rows: seq<ScheduleRow>, valid: string -> bool, i: nat)
    requires i < |rows| && !rows[i].enabled
    requires forall j :: 0 <= j < |rows| && j != i ==> rows[j].id != rows[i].id
    ensures rows[i].id !in InitScheduler(Timers(map[], []), rows, valid).active
  {
  }

  /** A drive id as JavaScript tests it: `null` and `0` are false. */
  predicate Truthy(driveId: Option<int>) {
    driveId.Some? && driveId.value != 0
  }

  predicate IsConnectedDrive(drives: seq<DriveRow>, id: int) {
    exists i :: 0 <= i < |drives| && drives[i].driveId == id && drives[i].isConnected
  }

  /** The ids of the connected drives, in table order. */
  function ConnectedIds(drives: seq<DriveRow>): (ids: seq<int>)
    ensures forall x :: x in ids <==> IsConnectedDrive(drives, x)
    ensures |ids| <= |drives|
    decreases |drives|
  {
    if |drives| == 0 then []
    else
      var rest := ConnectedIds(drives[1..]);
      assert forall x :: IsConnectedDrive(drives, x) <==>
          (drives[0].driveId == x && drives[0].isConnected) || IsConnectedDrive(drives[1..], x) by {
        forall x | IsConnectedDrive(drives, x) && !(drives[0].driveId == x && drives[0].isConnected)
          ensures IsConnectedDrive(drives[1..], x)
        {
          var i :| 0 <= i < |drives| && drives[i].driveId == x && drives[i].isConnected;
          assert drives[1..][i - 1] == drives[i];
        }
        forall x | IsConnectedDrive(drives[1..], x) ensures IsConnectedDrive(drives, x) {
          var i :| 0 <= i < |drives[1..]| && drives[1..][i].driveId == x && drives[1..][i].isConnected;
          assert drives[i + 1] == drives[1..][i];
        }
      }
      (if drives[0].isConnected then [drives[0].driveId] else []) + rest
  }

  /** The drives a schedule benchmarks: its own drive when set and non-zero,
      otherwise every connected drive. */
  function Targets(driveId: Option<int>, drives: seq<DriveRow>): (ts: seq<int>)
    ensures Truthy(driveId) ==> ts == [driveId.value]
    ensures !Truthy(driveId) ==> forall x :: x in ts <==> IsConnectedDrive(drives, x)
  {
    if Truthy(driveId) then [driveId.value] else ConnectedIds(drives)
  }

  /** A schedule whose drive id is 0 benchmarks every connected drive, not
      drive 0. */
  lemma ZeroMeansAll(drives: seq<DriveRow>)
    ensures Targets(Some(0), drives) == Targets(None, drives)
  {
  }

  /** The schedules table with `lastRun` of schedule `id` set to `now`. */
  function SetLastRun(rows: seq<ScheduleRow>, id: int, now: string): (r: seq<ScheduleRow>)
    ensures |r| == |rows|
    ensures forall i :: 0 <= i < |rows| && rows[i].id == id ==> r[i] == rows[i].(lastRun := Some(now))
    ensures forall i :: 0 <= i < |rows| && rows[i].id != id ==> r[i] == rows[i]
  {
    seq(|rows|, i requires 0 <= i < |rows| => if rows[i].id == id then rows[i].(lastRun := Some(now)) else rows[i])
  }

  /** A run `runSchedule` tried to create, and what `createRun` did. */
  datatype Created = Created(driveId: int, run: Result<int, string>)

  /** A fresh scheduled run of `numPoints` points. */
  predicate ScheduledRow(row: RunRow, numPoints: int, now: string) {
    row.status == Pending && row.triggerType == Scheduled && row.numPoints == numPoints
      && row.startedAt == now && row.completedAt.None? && row.errorMessage.None?
  }

  /** `runSchedule`, with every clock reading `now`. One run is created per
      target drive, in order; a drive whose insert fails is skipped without
      stopping the others; `lastRun` is stamped whatever happened. The
      benchmarks it starts are not awaited and are not part of its result. */
  method RunSchedule(tb: Tables, schedules: seq<ScheduleRow>, scheduleId: int, driveId: Option<int>, numPoints: int, now: string)
    returns (tb2: Tables, schedules2: seq<ScheduleRow>, created: seq<Created>)
    ensures var ts := Targets(driveId, tb.drives);
      && |created| == |ts|
      && (forall i :: 0 <= i < |ts| ==> created[i].driveId == ts[i])
      && (forall i :: 0 <= i < |ts| ==> (created[i].run.Success? <==> FindDrive(tb.drives, ts[i]).Some?))
    ensures tb2.drives == tb.drives && tb2.influx == tb.influx
    ensures |tb.runs.rows| <= |tb2.runs.rows| && tb2.runs.rows[..|tb.runs.rows|] == tb.runs.rows
    ensures forall k :: |tb.runs.rows| <= k < |tb2.runs.rows| ==> ScheduledRow(tb2.runs.rows[k], numPoints, now)
    ensures forall i :: 0 <= i < |created| && created[i].run.Success? ==>
      RunRow(created[i].run.value, created[i].driveId, now, None, Pending, Scheduled, numPoints, None) in tb2.runs.rows
    ensures schedules2 == SetLastRun(schedules, scheduleId, now)
  {
    var ts := Targets(driveId, tb.drives);
    tb2, created := tb, [];
    for i := 0 to |ts|
      invariant tb2.drives == tb.drives && tb2.influx == tb.influx
      invariant |created| == i
      invariant forall j :: 0 <= j < i ==> created[j].driveId == ts[j]
      invariant forall j :: 0 <= j < i ==> (created[j].run.Success? <==> FindDrive(tb.drives, ts[j]).Some?)
      invariant |tb.runs.rows| <= |tb2.runs.rows| && tb2.runs.rows[..|tb.runs.rows|] == tb.runs.rows
      invariant forall k :: |tb.runs.rows| <= k < |tb2.runs.rows| ==> ScheduledRow(tb2.runs.rows[k], numPoints, now)
      invariant forall j :: 0 <= j < i && created[j].run.Success? ==>
        RunRow(created[j].run.value, created[j].driveId, now, None, Pending, Scheduled, numPoints, None) in tb2.runs.rows
    {
      var step := CreateRun(tb2, ts[i], numPoints, Scheduled, now);
      assert step.tables.runs.rows[..|tb2.runs.rows|] == tb2.runs.rows;
      tb2 := step.tables;
      created := created + [Created(ts[i], step.result)];
    }
    schedules2 := SetLastRun(schedules, scheduleId, now);
  }

  /** The SMART poller's cron expression for an interval in minutes: every
      ⌊n/60⌋ hours from an hour up, every n minutes below. */
  function PollCron(n: int): (cron: string)
    ensures n >= 60 ==>
      && |cron| > 10 && cron[..4] == "0 */" && cron[|cron| - 6..] == " * * *"
      && ParseInt(cron[4..|cron| - 6]) == Some(n / 60)
    ensures n < 60 ==>
      && |cron| > 10 && cron[..2] == "*/" && cron[|cron| - 8..] == " * * * *"
      && ParseInt(cron[2..|cron| - 8]) == Some(n)
  {
    if n >= 60 then
      var step := IntToString(n / 60);
      var cron := "0 */" + step + " * * *";
      ParseIntToString(n / 60);
      assert cron[4..|cron| - 6] == step;
      cron
    else
      var step := IntToString(n);
      var cron := "*/" + step + " * * * *";
      ParseIntToString(n);
      assert cron[2..|cron| - 8] == step;
      cron
  }

  lemma MiddleCancel(p: string, a: string, b: string, q: string)
    requires p + a + q == p + b + q
    ensures a == b
  {
    assert |a| == |b|;
    assert a == (p + a + q)[|p|..|p| + |a|];
    assert b == (p + b + q)[|p|..|p| + |b|];
  }

  /** From an hour up, intervals in the same whole number of hours give the
      same expression: 90 minutes polls hourly. */
  lemma PollCronHours(n: int, m: int)
    requires n >= 60 && m >= 60
    ensures PollCron(n) == PollCron(m) <==> n / 60 == m / 60
  {
    if PollCron(n) == PollCron(m) {
      MiddleCancel("0 */", IntToString(n / 60), IntToString(m / 60), " * * *");
      IntToStringInjective(n / 60, m / 60);
    }
  }

  /** Below an hour, each interval has its own expression. */
  lemma PollCronMinutes(n: int, m: int)
    requires n < 60 && m < 60
    ensures PollCron(n) == PollCron(m) <==> n == m
  {
    if PollCron(n) == PollCron(m) {
      MiddleCancel("*/", IntToString(n), IntToString(m), " * * * *");
      IntToStringInjective(n, m);
    }
  }

  /** The hourly and the minute forms never coincide. */
  lemma PollCronForms(n: int, m: int)
    requires n >= 60 && m < 60
    ensures PollCron(n) != PollCron(m)
  {
    assert PollCron(n)[0] == '0' && PollCron(m)[0] == '*';
  }
}

=== FILE: shared.dfy ===
/** The records the backend and the dashboard exchange: drive types and health,
    SMART readings, benchmark results, alerts, live-feed events and the
    dashboard statistics. */
module Shared {
  import opened Wrappers

  datatype DriveType = HDD | SSD | NVMe | UnknownType

  /** The tag stored in the drives table. */
  function DriveTypeName(t: DriveType): string {
    match t
    case HDD => "HDD"
    case SSD => "SSD"
    case NVMe => "NVMe"
    case UnknownType => "Unknown"
  }

  datatype DriveHealth = HealthOk | HealthWarning | HealthFailed | HealthUnknown

  datatype BenchmarkStatus = Pending | Running | Completed | Failed {
    /** The run still occupies its drive. */
    predicate IsActive() {
      Pending? || Running?
    }
  }

  datatype TriggerType = Manual | Scheduled

  datatype SmartAttribute = SmartAttribute(
    attrId: int,
    name: string,
    value: int,
    worst: int,
    threshold: int,
    rawValue: int,
    failing: bool)

  /** One normalised SMART poll; absent fields are None, never 0. */
  datatype SmartReading = SmartReading(
    driveId: int,
    timestamp: string,
    temperature: Option<int>,
    powerOnHours: Option<int>,
    powerCycleCount: Option<int>,
    reallocatedSectors: Option<int>,
    pendingSectors: Option<int>,
    uncorrectableErrors: Option<int>,
    healthPassed: Option<bool>,
    attributes: seq<SmartAttribute>)

  /** One (disk offset, sequential-read speed) sample of the position curve. */
  datatype BenchmarkPoint = BenchmarkPoint(position: int, speedBps: real)

  /** Aggregated metrics of one fio profile. */
  datatype ProfileResult = ProfileResult(
    profile: string,
    bwBps: real,
    iops: real,
    latMeanNs: real,
    latP50Ns: real,
    latP95Ns: real,
    latP99Ns: real,
    latP999Ns: real)

  datatype AlertType = SmartError | Temperature | TemperatureRecovery

  /** The tag subscriptions are matched against. */
  function AlertTypeName(t: AlertType): string {
    match t
    case SmartError => "smart_error"
    case Temperature => "temperature"
    case TemperatureRecovery => "temperature_recovery"
  }

  datatype Alert = Alert(
    alertType: AlertType,
    driveId: int,
    driveSerial: string,
    driveModel: string,
    message: string,
    value: Option<int>,
    threshold: Option<int>,
    timestamp: string)

  datatype Phase = CurvePhase | ProfilesPhase

  datatype LiveFeedEvent =
    | DiskRemoved(removedDriveId: int)
    | SmartUpdated(smartDriveId: int, health: DriveHealth, temperature: Option<int>)
    | BenchmarkStarted(startedRunId: int, driveId: int, numPoints: int)
    | BenchmarkProgress(
        runId: int,
        pointIndex: int,
        totalPoints: int,
        speedBps: real,
        phase: Option<Phase>,
        phaseLabel: Option<string>)
    | BenchmarkCompleted(completedRunId: int, completedDriveId: int)
    | BenchmarkFailed(failedRunId: int, error: string)
    | Connected(clientCount: nat)

  datatype DriveSummary = DriveSummary(
    driveId: int,
    serialNumber: string,
    devicePath: string,
    vendor: string,
    model: string,
    capacity: int,
    driveType: string,
    isConnected: bool,
    health: DriveHealth,
    temperature: Option<int>,
    lastSmartPoll: Option<string>,
    lastBenchmarkRun: Option<string>)

  datatype SystemStats = SystemStats(
    totalDrives: nat,
    connectedDrives: nat,
    healthyDrives: nat,
    warningDrives: nat,
    failedDrives: nat,
    totalBenchmarkRuns: nat,
    lastScanTime: Option<string>)
}

=== FILE: smart_service.dfy ===
/** SMART polling of packages/backend/src/services/smartService.ts: the
    smartctl JSON shapes, attribute parsing for ATA and NVMe drives, the
    normalisation of one poll into a `SmartReading`, the cache row and
    live-feed event one poll writes, and the poll over every connected
    drive. Running smartctl and `JSON.parse` are oracles. */
module SmartService {
  import opened Wrappers
  import opened Shared
  import opened Store
  import opened Smartctl
  import Health

  // ─── smartctl --xall --json, as parsed ──────────────────────────────────

  datatype RawValue = RawValue(value: int, text: string)

  datatype AtaAttribute = AtaAttribute(
    id: int,
    name: string,
    value: int,
    worst: int,
    thresh: int,
    raw: RawValue,
    whenFailed: string)

  /** The NVMe health log; a field smartctl did not print is None. */
  datatype NvmeLog = NvmeLog(
    temperature: Option<int>,
    powerOnHours: Option<int>,
    powerCycles: Option<int>,
    mediaErrors: Option<int>,
    numErrLogEntries: Option<int>,
    availableSpare: Option<int>,
    availableSpareThreshold: Option<int>,
    percentageUsed: Option<int>,
    controllerBusyTime: Option<int>,
    unsafeShutdowns: Option<int>)

  datatype SmartStatus = SmartStatus(passed: Option<bool>)
  datatype TemperatureBlock = TemperatureBlock(current: Option<int>)
  datatype PowerOnTime = PowerOnTime(hours: Option<int>)
  datatype AtaBlock = AtaBlock(table: Option<seq<AtaAttribute>>)

  /** The parsed output; every object and field of it is optional. */
  datatype SmartctlResult = SmartctlResult(
    smartStatus: Option<SmartStatus>,
    temperature: Option<TemperatureBlock>,
    powerOnTime: Option<PowerOnTime>,
    powerCycleCount: Option<int>,
    ataSmartAttributes: Option<AtaBlock>,
    nvmeLog: Option<NvmeLog>)

  // ─── Attribute parsing ──────────────────────────────────────────────────

  /** `when_failed` is set to something other than '' or '-'. */
  predicate Flagged(whenFailed: string) {
    whenFailed != "" && whenFailed != "-"
  }

  function AtaToAttribute(a: AtaAttribute): SmartAttribute {
    SmartAttribute(a.id, a.name, a.value, a.worst, a.thresh, a.raw.value, Flagged(a.whenFailed))
  }

  /** `parseAtaAttributes`: one attribute per table row, in table order. */
  function ParseAtaAttributes(table: seq<AtaAttribute>): (r: seq<SmartAttribute>)
    ensures |r| == |table|
    ensures forall i :: 0 <= i < |table| ==>
      && r[i].attrId == table[i].id && r[i].name == table[i].name
      && r[i].value == table[i].value && r[i].worst == table[i].worst
      && r[i].threshold == table[i].thresh && r[i].rawValue == table[i].raw.value
      && (r[i].failing <==> table[i].whenFailed != "" && table[i].whenFailed != "-")
  {
    seq(|table|, i requires 0 <= i < |table| => AtaToAttribute(table[i]))
  }

  /** The NVMe log field reported under attribute id `id` (1 to 6). */
  function NvmeField(log: NvmeLog, id: int): Option<int> {
    if id == 1 then log.availableSpare
    else if id == 2 then log.percentageUsed
    else if id == 3 then log.mediaErrors
    else if id == 4 then log.numErrLogEntries
    else if id == 5 then log.unsafeShutdowns
    else if id == 6 then log.controllerBusyTime
    else None
  }

  function NvmeName(id: int): string {
    if id == 1 then "Available Spare %"
    else if id == 2 then "Percentage Used"
    else if id == 3 then "Media Errors"
    else if id == 4 then "Error Log Entries"
    else if id == 5 then "Unsafe Shutdowns"
    else "Controller Busy Time (min)"
  }

  /** The attribute built for a present NVMe field: value, worst and raw
      value all equal, threshold 0, never failing. */
  predicate IsNvmeAttribute(log: NvmeLog, a: SmartAttribute) {
    && 1 <= a.attrId <= 6
    && NvmeField(log, a.attrId) == Some(a.value)
    && a.name == NvmeName(a.attrId)
    && a.worst == a.value && a.rawValue == a.value
    && a.threshold == 0 && !a.failing
  }

  predicate IdsIncreasing(attrs: seq<SmartAttribute>) {
    forall i, j :: 0 <= i < j < |attrs| ==> attrs[i].attrId < attrs[j].attrId
  }

  /** The attributes for ids `id` to 6, in id order. */
  function NvmeFrom(log: NvmeLog, id: int): (r: seq<SmartAttribute>)
    requires 1 <= id <= 7
    ensures IdsIncreasing(r)
    ensures forall i :: 0 <= i < |r| ==> id <= r[i].attrId && IsNvmeAttribute(log, r[i])
    ensures forall k :: id <= k <= 6 ==>
      (NvmeField(log, k).Some? <==> exists i :: 0 <= i < |r| && r[i].attrId == k)
    decreases 7 - id
  {
    if id == 7 then []
    else
      var rest := NvmeFrom(log, id + 1);
      match NvmeField(log, id)
      case None => rest
      case Some(v) =>
        var a := SmartAttribute(id, NvmeName(id), v, v, 0, v, false);
        NvmePrepend(log, id, a, rest);
        [a] + rest
  }

  /** The attribute of field `id` placed before those of the later ids. */
  lemma NvmePrepend(log: NvmeLog, id: int, a: SmartAttribute, rest: seq<SmartAttribute>)
    requires 1 <= id <= 6 && a.attrId == id && IsNvmeAttribute(log, a)
    requires IdsIncreasing(rest)
    requires forall i :: 0 <= i < |rest| ==> id + 1 <= rest[i].attrId && IsNvmeAttribute(log, rest[i])
    requires forall k :: id + 1 <= k <= 6 ==>
      (NvmeField(log, k).Some? <==> exists i :: 0 <= i < |rest| && rest[i].attrId == k)
    ensures IdsIncreasing([a] + rest)
    ensures forall i :: 0 <= i < |[a] + rest| ==> id <= ([a] + rest)[i].attrId && IsNvmeAttribute(log, ([a] + rest)[i])
    ensures forall k :: id <= k <= 6 ==>
      (NvmeField(log, k).Some? <==> exists i :: 0 <= i < |[a] + rest| && ([a] + rest)[i].attrId == k)
  {
    NvmePrependOrdered(log, id, a, rest);
    NvmePrependPresent(log, id, a, rest);
  }

  lemma NvmePrependOrdered(log: NvmeLog, id: int, a: SmartAttribute, rest: seq<SmartAttribute>)
    requires 1 <= id <= 6 && a.attrId == id && IsNvmeAttribute(log, a)
    requires IdsIncreasing(rest)
    requires forall i :: 0 <= i < |rest| ==> id + 1 <= rest[i].attrId && IsNvmeAttribute(log, rest[i])
    ensures IdsIncreasing([a] + rest)
    ensures forall i :: 0 <= i < |[a] + rest| ==> id <= ([a] + rest)[i].attrId && IsNvmeAttribute(log, ([a] + rest)[i])
  {
    var r := [a] + rest;
    forall i | 0 <= i < |r| ensures id <= r[i].attrId && IsNvmeAttribute(log, r[i]) {
      if i > 0 {
        assert r[i] == rest[i - 1];
      }
    }
    forall i, j | 0 <= i < j < |r| ensures r[i].attrId < r[j].attrId {
      assert r[j] == rest[j - 1];
      if i > 0 {
        assert r[i] == rest[i - 1];
      }
    }
  }

  lemma NvmePrependPresent(log: NvmeLog, id: int, a: SmartAttribute, rest: seq<SmartAttribute>)
    requires 1 <= id <= 6 && a.attrId == id && NvmeField(log, id).Some?
    requires forall k :: id + 1 <= k <= 6 ==>
      (NvmeField(log, k).Some? <==> exists i :: 0 <= i < |rest| && rest[i].attrId == k)
    requires forall i :: 0 <= i < |rest| ==> id + 1 <= rest[i].attrId
    ensures forall k :: id <= k <= 6 ==>
      (NvmeField(log, k).Some? <==> exists i :: 0 <= i < |[a] + rest| && ([a] + rest)[i].attrId == k)
  {
    var r := [a] + rest;
    assert forall i :: 0 <= i < |rest| ==> r[i + 1] == rest[i];
    forall k | id <= k <= 6 && NvmeField(log, k).Some?
      ensures exists i :: 0 <= i < |r| && r[i].attrId == k
    {
      if k == id {
        assert r[0].attrId == k;
      } else {
        var i :| 0 <= i < |rest| && rest[i].attrId == k;
        assert r[i + 1].attrId == k;
      }
    }
  }

  /** `parseNvmeAttributes`: exactly the present fields among the six,
      in increasing id order. */
  function ParseNvmeAttributes(log: NvmeLog): (r: seq<SmartAttribute>)
    ensures IdsIncreasing(r)
    ensures forall i :: 0 <= i < |r| ==> IsNvmeAttribute(log, r[i])
    ensures forall k :: 1 <= k <= 6 ==>
      (NvmeField(log, k).Some? <==> exists i :: 0 <= i < |r| && r[i].attrId == k)
  {
    NvmeFrom(log, 1)
  }

  /** The first attribute with id `id` has raw value `raw`. */
  predicate FirstAt(attrs: seq<SmartAttribute>, id: int, raw: int) {
    exists i :: 0 <= i < |attrs| && attrs[i].attrId == id && attrs[i].rawValue == raw
      && (forall j :: 0 <= j < i ==> attrs[j].attrId != id)
  }

  /** `attributes.find(a => a.attrId === id)?.rawValue ?? null`. */
  function FirstRaw(attrs: seq<SmartAttribute>, id: int): (r: Option<int>)
    ensures r.None? <==> forall i :: 0 <= i < |attrs| ==> attrs[i].attrId != id
    ensures r.Some? ==> FirstAt(attrs, id, r.value)
    decreases |attrs|
  {
    if |attrs| == 0 then None
    else if attrs[0].attrId == id then Some(attrs[0].rawValue)
    else
      var r := FirstRaw(attrs[1..], id);
      FirstMatchShift(attrs, id, r);
      r
  }

  /** A first match in the tail, one position further on, is the first
      match of the whole sequence when its head does not match. */
  lemma FirstMatchShift(attrs: seq<SmartAttribute>, id: int, r: Option<int>)
    requires |attrs| > 0 && attrs[0].attrId != id
    requires r.Some? ==> FirstAt(attrs[1..], id, r.value)
    ensures r.Some? ==> FirstAt(attrs, id, r.value)
  {
    if r.Some? {
      var i :| 0 <= i < |attrs[1..]| && attrs[1..][i].attrId == id && attrs[1..][i].rawValue == r.value
        && forall j :: 0 <= j < i ==> attrs[1..][j].attrId != id;
      assert attrs[i + 1] == attrs[1..][i];
      forall j | 0 <= j < i + 1 ensures attrs[j].attrId != id {
        if j > 0 { assert attrs[j] == attrs[1..][j - 1]; }
      }
    }
  }

  // ─── Normalisation ──────────────────────────────────────────────────────

  /** The reallocated / pending / uncorrectable counters. */
  datatype Counters = Counters(reallocated: Option<int>, pending: Option<int>, uncorrectable: Option<int>)

  /** SMART attribute ids of the three ATA defect counters. */
  const ReallocatedSectorCount := 5
  const CurrentPendingSector := 197
  const OfflineUncorrectable := 198

  /** Attributes and counters: an ATA table (any array, even an empty one,
      is truthy) wins over the NVMe log; with neither, nothing. */
  function AttributeSource(res: SmartctlResult): (r: (seq<SmartAttribute>, Counters))
    ensures res.ataSmartAttributes.Some? && res.ataSmartAttributes.value.table.Some? ==>
      var attrs := ParseAtaAttributes(res.ataSmartAttributes.value.table.value);
      r == (attrs, Counters(FirstRaw(attrs, 5), FirstRaw(attrs, 197), FirstRaw(attrs, 198)))
    ensures (res.ataSmartAttributes.None? || res.ataSmartAttributes.value.table.None?) && res.nvmeLog.Some? ==>
      r == (ParseNvmeAttributes(res.nvmeLog.value),
            Counters(res.nvmeLog.value.mediaErrors, None, res.nvmeLog.value.numErrLogEntries))
    ensures (res.ataSmartAttributes.None? || res.ataSmartAttributes.value.table.None?) && res.nvmeLog.None? ==>
      r == ([], Counters(None, None, None))
  {
    var ataTable := if res.ataSmartAttributes.Some? then res.ataSmartAttributes.value.table else None;
    match ataTable
    case Some(table) =>
      var attrs := ParseAtaAttributes(table);
      (attrs, Counters(
        FirstRaw(attrs, ReallocatedSectorCount),
        FirstRaw(attrs, CurrentPendingSector),
        FirstRaw(attrs, OfflineUncorrectable)))
    case None =>
      match res.nvmeLog
      case Some(log) => (ParseNvmeAttributes(log), Counters(log.mediaErrors, None, log.numErrLogEntries))
      case None => ([], Counters(None, None, None))
  }

  /** The reading of one poll stamped `now`. A field is None exactly when
      its object or the field itself is absent: never defaulted to 0. */
  function Normalise(driveId: int, now: string, res: SmartctlResult): (r: SmartReading)
    ensures r.driveId == driveId && r.timestamp == now
    ensures r.temperature.None? <==> res.temperature.None? || res.temperature.value.current.None?
    ensures r.temperature.Some? ==> r.temperature == res.temperature.value.current
    ensures r.powerOnHours.None? <==> res.powerOnTime.None? || res.powerOnTime.value.hours.None?
    ensures r.powerOnHours.Some? ==> r.powerOnHours == res.powerOnTime.value.hours
    ensures r.powerCycleCount == res.powerCycleCount
    ensures r.healthPassed.None? <==> res.smartStatus.None? || res.smartStatus.value.passed.None?
    ensures r.healthPassed.Some? ==> r.healthPassed == res.smartStatus.value.passed
    ensures var (attrs, c) := AttributeSource(res);
      && r.attributes == attrs && r.reallocatedSectors == c.reallocated
      && r.pendingSectors == c.pending && r.uncorrectableErrors == c.uncorrectable
  {
    var temperature := if res.temperature.Some? then res.temperature.value.current else None;
    var powerOnHours := if res.powerOnTime.Some? then res.powerOnTime.value.hours else None;
    var healthPassed := if res.smartStatus.Some? then res.smartStatus.value.passed else None;
    var (attrs, c) := AttributeSource(res);
    SmartReading(driveId, now, temperature, powerOnHours, res.powerCycleCount,
      c.reallocated, c.pending, c.uncorrectable, healthPassed, attrs)
  }

  /** With an ATA table present, the NVMe log is ignored entirely. */
  lemma AtaTakesPrecedence(driveId: int, now: string, res: SmartctlResult, log: Option<NvmeLog>)
    requires res.ataSmartAttributes.Some? && res.ataSmartAttributes.value.table.Some?
    ensures Normalise(driveId, now, res.(nvmeLog := log)) == Normalise(driveId, now, res)
  {
  }

  /** An NVMe-only drive never reports pending sectors, and its counters are
      the log's media errors and error-log entries. */
  lemma NvmeCounters(driveId: int, now: string, res: SmartctlResult)
    requires res.ataSmartAttributes.None? || res.ataSmartAttributes.value.table.None?
    requires res.nvmeLog.Some?
    ensures var r := Normalise(driveId, now, res);
      && r.pendingSectors.None?
      && r.reallocatedSectors == res.nvmeLog.value.mediaErrors
      && r.uncorrectableErrors == res.nvmeLog.value.numErrLogEntries
  {
  }

  /** An ATA counter is the raw value of the first attribute with its id,
      and None when no attribute has that id. */
  lemma AtaCounterIsFirstMatch(driveId: int, now: string, res: SmartctlResult)
    requires res.ataSmartAttributes.Some? && res.ataSmartAttributes.value.table.Some?
    ensures var table := res.ataSmartAttributes.value.table.value;
      var r := Normalise(driveId, now, res);
      && (r.reallocatedSectors.None? <==> forall i :: 0 <= i < |table| ==> table[i].id != 5)
      && (r.pendingSectors.None? <==> forall i :: 0 <= i < |table| ==> table[i].id != 197)
      && (r.uncorrectableErrors.None? <==> forall i :: 0 <= i < |table| ==> table[i].id != 198)
      && (r.reallocatedSectors.Some? ==>
            exists i :: 0 <= i < |table| && table[i].id == 5 && table[i].raw.value == r.reallocatedSectors.value
              && (forall j :: 0 <= j < i ==> table[j].id != 5))
  {
    var table := res.ataSmartAttributes.value.table.value;
    var attrs := ParseAtaAttributes(table);
    var r := Normalise(driveId, now, res);
    assert r.reallocatedSectors == FirstRaw(attrs, 5);
    assert r.pendingSectors == FirstRaw(attrs, 197);
    assert r.uncorrectableErrors == FirstRaw(attrs, 198);
    FirstRawOfTable(table, 5);
    FirstRawOfTable(table, 197);
    FirstRawOfTable(table, 198);
  }

  lemma FirstRawOfTable(table: seq<AtaAttribute>, id: int)
    ensures var c := FirstRaw(ParseAtaAttributes(table), id);
      && (c.None? <==> forall i :: 0 <= i < |table| ==> table[i].id != id)
      && (c.Some? ==>
            exists i :: 0 <= i < |table| && table[i].id == id && table[i].raw.value == c.value
              && (forall j :: 0 <= j < i ==> table[j].id != id))
  {
    var attrs := ParseAtaAttributes(table);
    var c := FirstRaw(attrs, id);
    if c.Some? {
      var i :| 0 <= i < |attrs| && attrs[i].attrId == id && attrs[i].rawValue == c.value
        && forall j :: 0 <= j < i ==> attrs[j].attrId != id;
      assert table[i].id == id && table[i].raw.value == c.value;
    }
  }

  // ─── Health (the local copy) ────────────────────────────────────────────

  /** The `deriveHealth` copy in smartService.ts; it classifies every input
      exactly as the shared one in utils/health.ts does. */
  function LocalDeriveHealth(
    passed: Option<bool>,
    reallocated: Option<int>,
    pending: Option<int>,
    uncorrectable: Option<int>): (h: DriveHealth)
    ensures h == Health.DeriveHealth(passed, reallocated, pending, uncorrectable)
  {
    if passed == Some(false) then HealthFailed
    else if
      || (reallocated.Some? && reallocated.value != 0 && reallocated.value > 0)
      || (pending.Some? && pending.value != 0 && pending.value > 5)
      || (uncorrectable.Some? && uncorrectable.value != 0 && uncorrectable.value > 0)
    then HealthWarning
    else if passed == Some(true) then HealthOk
    else HealthUnknown
  }

  // ─── One poll ───────────────────────────────────────────────────────────

  /** What SMART polling leaves behind: the `smart_cache` table and the
      live-feed events broadcast so far. */
  datatype SmartWorld = SmartWorld(cache: seq<SmartCacheRow>, sent: seq<LiveFeedEvent>)

  /** The upsert on `drive_id`: the drive's row is replaced in place, or a
      row is appended for a drive that has none. */
  function UpsertCache(rows: seq<SmartCacheRow>, row: SmartCacheRow): (r: seq<SmartCacheRow>)
    ensures FindCache(r, row.driveId) == Some(row)
    ensures forall id :: id != row.driveId ==> FindCache(r, id) == FindCache(rows, id)
    decreases |rows|
  {
    if |rows| == 0 then [row]
    else if rows[0].driveId == row.driveId then [row] + rows[1..]
    else
      var rest := UpsertCache(rows[1..], row);
      forall id | id != row.driveId ensures FindCache([rows[0]] + rest, id) == FindCache(rows, id) {
        FindCacheCons([rows[0]] + rest, id);
        FindCacheCons(rows, id);
      }
      FindCacheCons([rows[0]] + rest, row.driveId);
      [rows[0]] + rest
  }

  lemma FindCacheCons(rows: seq<SmartCacheRow>, id: int)
    requires |rows| > 0
    ensures FindCache(rows, id) == if rows[0].driveId == id then Some(rows[0]) else FindCache(rows[1..], id)
  {
  }

  /** The `smart_updated` event of a reading. */
  function UpdateEvent(r: SmartReading): LiveFeedEvent {
    SmartUpdated(r.driveId,
      LocalDeriveHealth(r.healthPassed, r.reallocatedSectors, r.pendingSectors, r.uncorrectableErrors),
      r.temperature)
  }

  /** The outcome of polling one drive: the reading, None for an unknown
      drive, or the error thrown. */
  datatype Poll = Poll(world: SmartWorld, result: Result<Option<SmartReading>, string>)

  /** Error thrown when the history write cannot be flushed. */
  const FlushFailed := "InfluxDB flush failed"

  /** The oracles a poll consults: smartctl's outcome per device path, the
      JSON parser, and whether the history flush of a drive succeeds. */
  datatype Probe = Probe(
    smartctl: string -> SmartctlRun,
    parse: string -> Result<SmartctlResult, string>,
    flushes: int -> bool)

  /** The reading a poll of `drive` produces, or the error it throws before
      anything is stored. */
  function ReadDrive(drive: DriveRow, now: string, probe: Probe): (r: Result<SmartReading, string>)
    ensures var run := RunSmartctl(probe.smartctl(drive.devicePath), probe.parse);
      && (r.Success? <==> run.Success? && probe.flushes(drive.driveId))
      && (r.Success? ==> r.value == Normalise(drive.driveId, now, run.value))
  {
    match RunSmartctl(probe.smartctl(drive.devicePath), probe.parse)
    case Failure(e) => Failure(e)
    case Success(res) =>
      if probe.flushes(drive.driveId) then Success(Normalise(drive.driveId, now, res))
      else Failure(FlushFailed)
  }

  /** `pollSmartForDrive`: an unknown drive gives None and touches nothing; a
      failure (smartctl, parse or flush) throws before the cache and the live
      feed are touched; otherwise the drive's cache row is upserted and one
      `smart_updated` event with the derived health is broadcast. */
  function PollSmartForDrive(w: SmartWorld, drives: seq<DriveRow>, driveId: int, now: string, probe: Probe): (p: Poll)
    ensures FindDrive(drives, driveId).None? ==> p == Poll(w, Success(None))
    ensures p.result.Failure? ==> p.world == w
    ensures p.result.Success? && p.result.value.Some? ==>
      var r := p.result.value.value;
      && PollSucceeds(drives, driveId, now, probe)
      && r == ReadDrive(FindDrive(drives, driveId).value, now, probe).value
      && FindCache(p.world.cache, driveId) == Some(CacheRowOf(r, now))
      && (forall id :: id != driveId ==> FindCache(p.world.cache, id) == FindCache(w.cache, id))
      && p.world.sent == w.sent + [SmartUpdated(driveId,
           Health.DeriveHealth(r.healthPassed, r.reallocatedSectors, r.pendingSectors, r.uncorrectableErrors),
           r.temperature)]
    ensures p.result.Success? <==> FindDrive(drives, driveId).None? || PollSucceeds(drives, driveId, now, probe)
  {
    match FindDrive(drives, driveId)
    case None => Poll(w, Success(None))
    case Some(drive) =>
      match ReadDrive(drive, now, probe)
      case Failure(e) => Poll(w, Failure(e))
      case Success(reading) =>
        Poll(SmartWorld(UpsertCache(w.cache, CacheRowOf(reading, now)), w.sent + [UpdateEvent(reading)]),
          Success(Some(reading)))
  }

  /** The events a poll of `driveId` broadcasts, read off the oracles alone:
      one for a drive that is found and read, none otherwise. */
  function ExpectedEvent(drives: seq<DriveRow>, driveId: int, now: string, probe: Probe): seq<LiveFeedEvent> {
    match FindDrive(drives, driveId)
    case None => []
    case Some(drive) =>
      match ReadDrive(drive, now, probe)
      case Success(r) => [UpdateEvent(r)]
      case Failure(_) => []
  }

  /** Polling each of `ds` in turn, a thrown error caught per drive. */
  function PollEach(w: SmartWorld, drives: seq<DriveRow>, ds: seq<DriveRow>, now: string, probe: Probe): SmartWorld
    decreases |ds|
  {
    if |ds| == 0 then w
    else PollEach(PollSmartForDrive(w, drives, ds[0].driveId, now, probe).world, drives, ds[1..], now, probe)
  }

  function Connected(drives: seq<DriveRow>): (r: seq<DriveRow>)
    ensures forall d :: d in r <==> d in drives && d.isConnected
  {
    Filter(drives, (d: DriveRow) => d.isConnected)
  }

  /** `pollAllSmart`: every connected drive, in table order. */
  function PollAllSmart(w: SmartWorld, drives: seq<DriveRow>, now: string, probe: Probe): SmartWorld {
    PollEach(w, drives, Connected(drives), now, probe)
  }

  /** The events expected from polling each of `ds`, drive by drive. */
  function ExpectedEvents(drives: seq<DriveRow>, ds: seq<DriveRow>, now: string, probe: Probe): seq<LiveFeedEvent>
    decreases |ds|
  {
    if |ds| == 0 then []
    else ExpectedEvent(drives, ds[0].driveId, now, probe) + ExpectedEvents(drives, ds[1..], now, probe)
  }

  /** Polling `id` stores a reading. */
  predicate PollSucceeds(drives: seq<DriveRow>, id: int, now: string, probe: Probe) {
    FindDrive(drives, id).Some? && ReadDrive(FindDrive(drives, id).value, now, probe).Success?
  }

  /** Failure isolation: the events after polling every drive are exactly
      those of the drives whose own poll succeeds, in order; a drive that
      throws removes nothing but its own event. */
  lemma {:induction false} PollEachEvents(w: SmartWorld, drives: seq<DriveRow>, ds: seq<DriveRow>, now: string, probe: Probe)
    ensures PollEach(w, drives, ds, now, probe).sent == w.sent + ExpectedEvents(drives, ds, now, probe)
    decreases |ds|
  {
    if |ds| > 0 {
      var w' := PollSmartForDrive(w, drives, ds[0].driveId, now, probe).world;
      assert w'.sent == w.sent + ExpectedEvent(drives, ds[0].driveId, now, probe);
      PollEachEvents(w', drives, ds[1..], now, probe);
    }
  }

  /** A drive whose poll throws keeps the cache row it had, and so does any
      drive not polled at all. */
  lemma {:induction false} PollEachKeepsOthers(w: SmartWorld, drives: seq<DriveRow>, ds: seq<DriveRow>, now: string, probe: Probe, id: int)
    requires forall i :: 0 <= i < |ds| ==> ds[i].driveId != id || !PollSucceeds(drives, id, now, probe)
    ensures FindCache(PollEach(w, drives, ds, now, probe).cache, id) == FindCache(w.cache, id)
    decreases |ds|
  {
    if |ds| > 0 {
      var w' := PollSmartForDrive(w, drives, ds[0].driveId, now, probe).world;
      PollEachKeepsOthers(w', drives, ds[1..], now, probe, id);
    }
  }
}

=== FILE: smartctl.dfy ===
/** Running smartctl with `--json`: `runSmartctlXall` of
    packages/backend/src/services/smartService.ts and `runSmartctl` of
    packages/backend/src/services/diskDiscovery.ts behave alike. The process
    and `JSON.parse` are oracles. */
module Smartctl {
  import opened Wrappers

  /** How the smartctl process ended: exit 0 with its stdout, or a non-zero
      exit (smartctl's status bitmask) with whatever stdout it printed and
      the error `execFile` rejected with. */
  datatype SmartctlRun = ExitedOk(stdout: string) | ExitedWithError(output: string, error: string)

  /** The parsed stdout. After a non-zero exit the stdout is still parsed
      when there is any; the exit error is thrown only when there is none or
      it does not parse. */
  function RunSmartctl<T>(run: SmartctlRun, parse: string -> Result<T, string>): (r: Result<T, string>)
    ensures run.ExitedOk? ==> r == parse(run.stdout)
    ensures run.ExitedWithError? ==>
      (r.Success? <==> run.output != "" && parse(run.output).Success?)
    ensures run.ExitedWithError? && r.Success? ==> r == parse(run.output)
    ensures run.ExitedWithError? && r.Failure? ==> r.error == run.error
  {
    match run
    case ExitedOk(stdout) => parse(stdout)
    case ExitedWithError(output, error) =>
      if output != "" && parse(output).Success? then parse(output)
      else Failure(error)
  }
}

=== FILE: sorting.dfy ===
/** `Array.prototype.sort` with a comparator, modelled as a stable insertion
    sort over an order `le` ("`a` may come before `b`"). */
module Sorting {

  predicate SortedBy<T>(s: seq<T>, le: (T, T) -> bool) {
    forall i, j :: 0 <= i < j < |s| ==> le(s[i], s[j])
  }

  /** `le` is total and transitive: a comparator that sorts consistently. */
  ghost predicate TotalPreorder<T(!new)>(le: (T, T) -> bool) {
    && (forall x, y :: le(x, y) || le(y, x))
    && (forall x, y, z :: le(x, y) && le(y, z) ==> le(x, z))
  }

  /** Places `x` before the first element it may precede. */
  function Insert<T(==)>(x: T, r: seq<T>, le: (T, T) -> bool): (r': seq<T>)
    ensures multiset(r') == multiset(r) + multiset{x}
    ensures |r'| == |r| + 1
    decreases |r|
  {
    if |r| == 0 then [x]
    else if le(x, r[0]) then [x] + r
    else
      assert r == [r[0]] + r[1..];
      [r[0]] + Insert(x, r[1..], le)
  }

  function SortBy<T(==)>(s: seq<T>, le: (T, T) -> bool): (r: seq<T>)
    ensures multiset(r) == multiset(s)
    ensures |r| == |s|
    decreases |s|
  {
    if |s| == 0 then []
    else
      assert s == [s[0]] + s[1..];
      Insert(s[0], SortBy(s[1..], le), le)
  }

  lemma {:induction false} InsertSorted<T(!new)>(x: T, r: seq<T>, le: (T, T) -> bool)
    requires SortedBy(r, le)
    requires TotalPreorder(le)
    ensures SortedBy(Insert(x, r, le), le)
    decreases |r|
  {
    if |r| > 0 && !le(x, r[0]) {
      var tail := r[1..];
      InsertSorted(x, tail, le);
      var ins := Insert(x, tail, le);
      assert le(r[0], x);
      forall y | y in ins ensures le(r[0], y) {
        assert y in multiset(ins);
        if y != x {
          assert y in multiset(tail);
          var k :| 0 <= k < |tail| && tail[k] == y;
          assert le(r[0], r[k + 1]);
        }
      }
      var r' := [r[0]] + ins;
      forall i, j | 0 <= i < j < |r'| ensures le(r'[i], r'[j]) {
        if i == 0 {
          assert r'[j] in ins;
        } else {
          assert r'[i] == ins[i - 1] && r'[j] == ins[j - 1];
        }
      }
    }
  }

  /** The sort returns its input, rearranged into order. */
  lemma {:induction false} SortBySorted<T(!new)>(s: seq<T>, le: (T, T) -> bool)
    requires TotalPreorder(le)
    ensures SortedBy(SortBy(s, le), le)
    decreases |s|
  {
    if |s| > 0 {
      SortBySorted(s[1..], le);
      InsertSorted(s[0], SortBy(s[1..], le), le);
    }
  }

  /** Input already in order comes back unchanged. */
  lemma {:induction false} SortByOfSorted<T>(s: seq<T>, le: (T, T) -> bool)
    requires SortedBy(s, le)
    ensures SortBy(s, le) == s
    decreases |s|
  {
    if |s| > 0 {
      var tail := s[1..];
      assert SortedBy(tail, le) by {
        forall i, j | 0 <= i < j < |tail| ensures le(tail[i], tail[j]) {
          assert tail[i] == s[i + 1] && tail[j] == s[j + 1];
        }
      }
      SortByOfSorted(tail, le);
      assert s == [s[0]] + tail;
      if |tail| > 0 {
        assert le(s[0], tail[0]);
      }
    }
  }

  /** Two elements are swapped exactly when the first may not come first. */
  lemma SortTwo<T>(x: T, y: T, le: (T, T) -> bool)
    ensures SortBy([x, y], le) == if le(x, y) then [x, y] else [y, x]
  {
    assert [x, y][1..] == [y];
    assert [y][1..] == [];
  }

  /** Sorting keeps exactly the elements it was given. */
  lemma SortBySameElements<T>(s: seq<T>, le: (T, T) -> bool)
    ensures forall x :: x in SortBy(s, le) <==> x in s
  {
    var r := SortBy(s, le);
    forall x ensures x in r <==> x in s {
      assert x in r <==> x in multiset(r);
      assert x in s <==> x in multiset(s);
    }
  }

  /** Elements with pairwise distinct ids occur at most once each. */
  lemma {:induction false} DistinctOnce<T>(u: seq<T>, id: T -> int, x: T)
    requires forall i, j :: 0 <= i < j < |u| ==> id(u[i]) != id(u[j])
    ensures multiset(u)[x] <= 1
    decreases |u|
  {
    if |u| > 0 {
      var t := u[1..];
      assert u == [u[0]] + t;
      assert forall i, j :: 0 <= i < j < |t| ==> id(t[i]) != id(t[j]) by {
        forall i, j | 0 <= i < j < |t| ensures id(t[i]) != id(t[j]) {
          assert t[i] == u[i + 1] && t[j] == u[j + 1];
        }
      }
      DistinctOnce(t, id, x);
      if u[0] == x {
        assert x !in t by {
          forall k | 0 <= k < |t| ensures t[k] != x {
            assert t[k] == u[k + 1];
          }
        }
      }
    }
  }

  /** An element at two positions occurs at least twice. */
  lemma TwiceAtTwoPositions<T>(r: seq<T>, i: nat, j: nat)
    requires i < j < |r| && r[i] == r[j]
    ensures multiset(r)[r[i]] >= 2
  {
    assert r == r[..j] + [r[j]] + r[j + 1..];
    assert r[i] in r[..j];
  }

  /** A permutation of a sequence with pairwise distinct ids has pairwise
      distinct ids. */
  lemma PermutationKeepsDistinct<T>(u: seq<T>, r: seq<T>, id: T -> int)
    requires multiset(r) == multiset(u)
    requires forall i, j :: 0 <= i < j < |u| ==> id(u[i]) != id(u[j])
    ensures forall i, j :: 0 <= i < j < |r| ==> id(r[i]) != id(r[j])
  {
    forall i, j | 0 <= i < j < |r| ensures id(r[i]) != id(r[j]) {
      if r[i] == r[j] {
        TwiceAtTwoPositions(r, i, j);
        DistinctOnce(u, id, r[i]);
      } else {
        assert r[i] in multiset(u) && r[j] in multiset(u);
        var a :| 0 <= a < |u| && u[a] == r[i];
        var b :| 0 <= b < |u| && u[b] == r[j];
        assert a != b;
        if a > b {
          assert id(u[b]) != id(u[a]);
        }
      }
    }
  }
}

=== FILE: stats.dfy ===
/** `GET /api/v1/stats` (packages/backend/src/routes/public/stats.ts): the
    dashboard counters over the drive table left-joined with the SMART
    cache. Only connected drives are classified; `lastScanTime` looks at
    every drive. */
module Stats {
  import opened Wrappers
  import opened Text
  import opened Shared
  import opened Store
  import opened Health

  /** One row of `drives LEFT JOIN smart_cache`: the cache columns are null
      when the drive has never been polled. */
  datatype StatsRow = StatsRow(
    driveId: int,
    isConnected: bool,
    lastSeen: string,
    healthPassed: Option<bool>,
    reallocatedSectors: Option<int>,
    pendingSectors: Option<int>,
    uncorrectableErrors: Option<int>)

  function JoinRowOf(d: DriveRow, c: Option<SmartCacheRow>): StatsRow {
    match c
    case None => StatsRow(d.driveId, d.isConnected, d.lastSeen, None, None, None, None)
    case Some(row) => StatsRow(d.driveId, d.isConnected, d.lastSeen,
      row.healthPassed, row.reallocatedSectors, row.pendingSectors, row.uncorrectableErrors)
  }

  /** The left join, one row per drive (the cache is keyed by drive id). */
  function LeftJoin(drives: seq<DriveRow>, cache: seq<SmartCacheRow>): (rows: seq<StatsRow>)
    ensures |rows| == |drives|
    ensures forall i :: 0 <= i < |drives| ==>
      rows[i] == JoinRowOf(drives[i], FindCache(cache, drives[i].driveId))
  {
    seq(|drives|, i requires 0 <= i < |drives| => JoinRowOf(drives[i], FindCache(cache, drives[i].driveId)))
  }

  function HealthOf(row: StatsRow): DriveHealth {
    DeriveHealth(row.healthPassed, row.reallocatedSectors, row.pendingSectors, row.uncorrectableErrors)
  }

  /** The number of connected rows whose health is `h`. */
  function CountHealth(rows: seq<StatsRow>, h: DriveHealth): nat
    decreases |rows|
  {
    if |rows| == 0 then 0
    else
      var last := rows[|rows| - 1];
      CountHealth(rows[..|rows| - 1], h) + (if last.isConnected && HealthOf(last) == h then 1 else 0)
  }

  /** `filter(d => d.isConnected).length`. */
  function CountConnected(rows: seq<StatsRow>): (n: nat)
    ensures n <= |rows|
    ensures n == 0 <==> forall i :: 0 <= i < |rows| ==> !rows[i].isConnected
    decreases |rows|
  {
    if |rows| == 0 then 0
    else CountConnected(rows[..|rows| - 1]) + (if rows[|rows| - 1].isConnected then 1 else 0)
  }

  /** Every connected drive lands in exactly one of the four classes, so the
      four counts add up to the connected count. */
  lemma {:induction false} HealthPartition(rows: seq<StatsRow>)
    ensures CountHealth(rows, HealthOk) + CountHealth(rows, HealthWarning)
      + CountHealth(rows, HealthFailed) + CountHealth(rows, HealthUnknown) == CountConnected(rows)
    decreases |rows|
  {
    if |rows| > 0 {
      HealthPartition(rows[..|rows| - 1]);
    }
  }

  /** The three buckets never exceed the connected drives: `unknown` is not
      counted. */
  lemma BucketsBounded(rows: seq<StatsRow>)
    ensures CountHealth(rows, HealthOk) + CountHealth(rows, HealthWarning) + CountHealth(rows, HealthFailed)
      <= CountConnected(rows)
  {
    HealthPartition(rows);
  }

  /** A disconnected drive is never counted, whatever its cache says. */
  lemma {:induction false} DisconnectedNotCounted(rows: seq<StatsRow>, x: StatsRow, h: DriveHealth)
    requires !x.isConnected
    ensures CountHealth(rows + [x], h) == CountHealth(rows, h)
  {
    assert (rows + [x])[..|rows + [x]| - 1] == rows;
  }

  /** The bucket loop: skips disconnected rows, then counts `failed`,
      `warning` and `ok` and nothing else. */
  method CountBuckets(rows: seq<StatsRow>) returns (healthy: nat, warning: nat, failed: nat)
    ensures healthy == CountHealth(rows, HealthOk)
    ensures warning == CountHealth(rows, HealthWarning)
    ensures failed == CountHealth(rows, HealthFailed)
  {
    healthy, warning, failed := 0, 0, 0;
    var i := 0;
    while i < |rows|
      invariant 0 <= i <= |rows|
      invariant healthy == CountHealth(rows[..i], HealthOk)
      invariant warning == CountHealth(rows[..i], HealthWarning)
      invariant failed == CountHealth(rows[..i], HealthFailed)
    {
      assert rows[..i + 1][..i] == rows[..i];
      var row := rows[i];
      i := i + 1;
      if !row.isConnected {
        continue;
      }
      var health := HealthOf(row);
      if health == HealthFailed {
        failed := failed + 1;
        continue;
      }
      if health == HealthWarning {
        warning := warning + 1;
        continue;
      }
      if health == HealthOk {
        healthy := healthy + 1;
      }
    }
    assert rows[..i] == rows;
  }

  /** `reduce((max, s) => (s > max ? s : max), acc)`. */
  function MaxFrom(ss: seq<string>, acc: string): string
    decreases |ss|
  {
    if |ss| == 0 then acc
    else MaxFrom(ss[1..], if LexLess(acc, ss[0]) then ss[0] else acc)
  }

  /** The fold yields the start value or one of the strings, and nothing
      smaller than either. */
  lemma {:induction false} MaxFromIsMax(ss: seq<string>, acc: string)
    ensures MaxFrom(ss, acc) == acc || MaxFrom(ss, acc) in ss
    ensures LexLe(acc, MaxFrom(ss, acc))
    ensures forall s :: s in ss ==> LexLe(s, MaxFrom(ss, acc))
    decreases |ss|
  {
    if |ss| == 0 {
      LexLessIrreflexive(acc);
    } else {
      var next := if LexLess(acc, ss[0]) then ss[0] else acc;
      MaxFromIsMax(ss[1..], next);
      var m := MaxFrom(ss, acc);
      LexLeTotal(acc, ss[0]);
      LexLessIrreflexive(ss[0]);
      LexLessIrreflexive(acc);
      assert LexLe(acc, next) && LexLe(ss[0], next);
      LexLeTransitive(acc, next, m);
      LexLeTransitive(ss[0], next, m);
      assert ss == [ss[0]] + ss[1..];
    }
  }

  /** The drives' `lastSeen` column. */
  function LastSeens(rows: seq<StatsRow>): (ss: seq<string>)
    ensures |ss| == |rows|
    ensures forall i :: 0 <= i < |rows| ==> ss[i] == rows[i].lastSeen
  {
    seq(|rows|, i requires 0 <= i < |rows| => rows[i].lastSeen)
  }

  /** `lastScanTime`: the greatest non-empty `lastSeen` of any drive,
      disconnected ones included, or null when there is none. */
  function LastScanTime(rows: seq<StatsRow>): Option<string> {
    var m := MaxFrom(Filter(LastSeens(rows), (s: string) => s != ""), "");
    if m == "" then None else Some(m)
  }

  /** `lastScanTime` is null exactly when every `lastSeen` is empty, and
      otherwise is the `lastSeen` of some drive that no other drive's
      exceeds. */
  lemma LastScanTimeIsLatest(rows: seq<StatsRow>)
    ensures LastScanTime(rows).None? <==> forall i :: 0 <= i < |rows| ==> rows[i].lastSeen == ""
    ensures LastScanTime(rows).Some? ==>
      && LastScanTime(rows).value != ""
      && (exists i :: 0 <= i < |rows| && rows[i].lastSeen == LastScanTime(rows).value)
      && forall i :: 0 <= i < |rows| ==> LexLe(rows[i].lastSeen, LastScanTime(rows).value)
  {
    var ss := LastSeens(rows);
    var kept := Filter(ss, (s: string) => s != "");
    MaxFromIsMax(kept, "");
    var m := MaxFrom(kept, "");
    if exists i :: 0 <= i < |rows| && rows[i].lastSeen != "" {
      var i :| 0 <= i < |rows| && rows[i].lastSeen != "";
      assert ss[i] in kept;
      assert LexLess("", ss[i]) && LexLe(ss[i], m);
    }
    forall i | 0 <= i < |rows| && rows[i].lastSeen == ""
      ensures LexLe(rows[i].lastSeen, m)
    {
      assert !LexLess(m, "");
    }
    forall i | 0 <= i < |rows| && rows[i].lastSeen != ""
      ensures LexLe(rows[i].lastSeen, m)
    {
      assert ss[i] in kept;
    }
    if m != "" {
      assert m in kept;
      var j :| 0 <= j < |ss| && ss[j] == m;
    }
  }

  /** The whole response. */
  method ComputeStats(drives: seq<DriveRow>, cache: seq<SmartCacheRow>, runs: seq<RunRow>) returns (r: SystemStats)
    ensures r.totalDrives == |drives|
    ensures r.connectedDrives == CountConnected(LeftJoin(drives, cache))
    ensures r.healthyDrives == CountHealth(LeftJoin(drives, cache), HealthOk)
    ensures r.warningDrives == CountHealth(LeftJoin(drives, cache), HealthWarning)
    ensures r.failedDrives == CountHealth(LeftJoin(drives, cache), HealthFailed)
    ensures r.healthyDrives + r.warningDrives + r.failedDrives <= r.connectedDrives <= r.totalDrives
    ensures r.totalBenchmarkRuns == |runs|
    ensures r.lastScanTime == LastScanTime(LeftJoin(drives, cache))
  {
    var rows := LeftJoin(drives, cache);
    var healthy, warning, failed := CountBuckets(rows);
    BucketsBounded(rows);
    r := SystemStats(|rows|, CountConnected(rows), healthy, warning, failed, |runs|, LastScanTime(rows));
  }
}

=== FILE: store.dfy ===
/** The two stores as values: SQLite tables as sequences of rows in rowid
    order (so `findFirst` is the first match) and the InfluxDB benchmark
    measurements as sequences of points. */
module Store {
  import opened Wrappers
  import opened Shared

  datatype DriveRow = DriveRow(
    driveId: int,
    serialNumber: string,
    devicePath: string,
    vendor: string,
    model: string,
    firmwareRevision: string,
    capacity: int,
    driveType: string,
    rpm: Option<int>,
    interfaceType: Option<string>,
    logicalSectorSize: Option<int>,
    physicalSectorSize: Option<int>,
    firstSeen: string,
    lastSeen: string,
    isConnected: bool)

  datatype RunRow = RunRow(
    runId: int,
    driveId: int,
    startedAt: string,
    completedAt: Option<string>,
    status: BenchmarkStatus,
    triggerType: TriggerType,
    numPoints: int,
    errorMessage: Option<string>)

  datatype ScheduleRow = ScheduleRow(
    id: int,
    driveId: Option<int>,
    cronExpression: string,
    enabled: bool,
    numPoints: int,
    lastRun: Option<string>,
    nextRun: Option<string>,
    createdAt: string)

  /** The last SMART snapshot of a drive: the "previous state" of alerting. */
  datatype SmartCacheRow = SmartCacheRow(
    driveId: int,
    polledAt: string,
    temperature: Option<int>,
    powerOnHours: Option<int>,
    powerCycleCount: Option<int>,
    reallocatedSectors: Option<int>,
    pendingSectors: Option<int>,
    uncorrectableErrors: Option<int>,
    healthPassed: Option<bool>)

  /** The `smart_cache` row a reading is stored as, polled at `polledAt`. */
  function CacheRowOf(r: SmartReading, polledAt: string): SmartCacheRow {
    SmartCacheRow(r.driveId, polledAt, r.temperature, r.powerOnHours, r.powerCycleCount,
      r.reallocatedSectors, r.pendingSectors, r.uncorrectableErrors, r.healthPassed)
  }

  /** A notification channel: its tag and its JSON configuration text. */
  datatype ChannelRow = ChannelRow(
    id: int,
    name: string,
    channelType: string,
    config: string,
    enabled: bool)

  /** A channel's subscription to one alert type, by its tag. */
  datatype SubscriptionRow = SubscriptionRow(id: int, channelId: int, alertType: string)

  /** A drive's alert-threshold override. */
  datatype ThresholdRow = ThresholdRow(driveId: int, temperatureThresholdCelsius: Option<int>)

  /** A `benchmark_points` point. */
  datatype CurveRecord = CurveRecord(
    serial: string,
    runId: int,
    driveType: string,
    position: int,
    speedBps: real,
    timestamp: int)

  /** A `benchmark_profiles` point. */
  datatype ProfileRecord = ProfileRecord(
    serial: string,
    runId: int,
    driveType: string,
    result: ProfileResult,
    timestamp: int)

  datatype Influx = Influx(curve: seq<CurveRecord>, profiles: seq<ProfileRecord>)

  /** `findFirst`: the first row satisfying `p`. */
  function FindFirst<T>(rows: seq<T>, p: T -> bool): (r: Option<T>)
    ensures r.None? <==> forall i :: 0 <= i < |rows| ==> !p(rows[i])
    ensures r.Some? ==> r.value in rows && p(r.value)
    decreases |rows|
  {
    if |rows| == 0 then None
    else if p(rows[0]) then Some(rows[0])
    else FindFirst(rows[1..], p)
  }

  function FindDrive(drives: seq<DriveRow>, driveId: int): (r: Option<DriveRow>)
    ensures r.Some? ==> r.value in drives && r.value.driveId == driveId
    ensures r.None? <==> forall i :: 0 <= i < |drives| ==> drives[i].driveId != driveId
  {
    FindFirst(drives, (d: DriveRow) => d.driveId == driveId)
  }

  /** The `smart_cache` row of a drive, if any. */
  function FindCache(rows: seq<SmartCacheRow>, driveId: int): (r: Option<SmartCacheRow>)
    ensures r.Some? ==> r.value in rows && r.value.driveId == driveId
    ensures r.None? <==> forall i :: 0 <= i < |rows| ==> rows[i].driveId != driveId
  {
    FindFirst(rows, (c: SmartCacheRow) => c.driveId == driveId)
  }

  function FindRun(runs: seq<RunRow>, runId: int): (r: Option<RunRow>)
    ensures r.Some? ==> r.value in runs && r.value.runId == runId
    ensures r.None? <==> forall i :: 0 <= i < |runs| ==> runs[i].runId != runId
  {
    FindFirst(runs, (r: RunRow) => r.runId == runId)
  }

  function FindSchedule(rows: seq<ScheduleRow>, id: int): (r: Option<ScheduleRow>)
    ensures r.Some? ==> r.value in rows && r.value.id == id
    ensures r.None? <==> forall i :: 0 <= i < |rows| ==> rows[i].id != id
  {
    FindFirst(rows, (s: ScheduleRow) => s.id == id)
  }

  /** The largest of `ids` and 0. */
  function MaxId(ids: seq<int>): (m: int)
    ensures 0 <= m
    ensures forall i :: 0 <= i < |ids| ==> ids[i] <= m
    decreases |ids|
  {
    if |ids| == 0 then 0
    else
      var rest := MaxId(ids[1..]);
      if ids[0] > rest then ids[0] else rest
  }

  function DriveIds(drives: seq<DriveRow>): (ids: seq<int>)
    ensures |ids| == |drives|
    ensures forall i :: 0 <= i < |drives| ==> ids[i] == drives[i].driveId
  {
    seq(|drives|, i requires 0 <= i < |drives| => drives[i].driveId)
  }

  function RunIds(runs: seq<RunRow>): (ids: seq<int>)
    ensures |ids| == |runs|
    ensures forall i :: 0 <= i < |runs| ==> ids[i] == runs[i].runId
  {
    seq(|runs|, i requires 0 <= i < |runs| => runs[i].runId)
  }

  function ScheduleIds(rows: seq<ScheduleRow>): (ids: seq<int>)
    ensures |ids| == |rows|
    ensures forall i :: 0 <= i < |rows| ==> ids[i] == rows[i].id
  {
    seq(|rows|, i requires 0 <= i < |rows| => rows[i].id)
  }

  /** The id an autoincrement insert assigns (rows are never reused). */
  function NextId(ids: seq<int>): (id: int)
    ensures 1 <= id
    ensures forall i :: 0 <= i < |ids| ==> ids[i] < id
  {
    MaxId(ids) + 1
  }

  /** `rows.filter(keep)` (and a `DELETE` of the rows `keep` rejects). */
  function Filter<T(!new)>(s: seq<T>, keep: T -> bool): (r: seq<T>)
    ensures forall x :: x in r <==> x in s && keep(x)
    ensures |r| <= |s|
    decreases |s|
  {
    if |s| == 0 then []
    else
      assert s == [s[0]] + s[1..];
      (if keep(s[0]) then [s[0]] else []) + Filter(s[1..], keep)
  }
}

=== FILE: text.dfy ===
/** Strings as the source's JavaScript code handles them: decimal rendering of
    numbers (template literals), prefix tests, `indexOf`, `slice`, lower-casing
    and the `<` order on strings. Characters stand for UTF-16 code units. */
module Text {
  import opened Wrappers

  predicate IsDigit(c: char) {
    '0' <= c <= '9'
  }

  predicate AllDigits(s: string) {
    forall i :: 0 <= i < |s| ==> IsDigit(s[i])
  }

  function DigitChar(d: nat): (c: char)
    requires d < 10
    ensures IsDigit(c)
  {
    ['0', '1', '2', '3', '4', '5', '6', '7', '8', '9'][d]
  }

  function DigitValue(c: char): (d: nat)
    requires IsDigit(c)
    ensures d < 10
  {
    (c as int - '0' as int) as nat
  }

  lemma DigitRoundTrip(d: nat)
    requires d < 10
    ensures DigitValue(DigitChar(d)) == d
  {
  }

  /** Decimal rendering of a natural number, without leading zeros. */
  function NatToString(n: nat): (s: string)
    ensures 1 <= |s| && AllDigits(s)
    decreases n
  {
    if n < 10 then [DigitChar(n)] else NatToString(n / 10) + [DigitChar(n % 10)]
  }

  /** `${n}` for an integer-valued JavaScript number. */
  function IntToString(n: int): (s: string)
    ensures 1 <= |s|
  {
    if n < 0 then "-" + NatToString(-n) else NatToString(n)
  }

  /** Value of a string of decimal digits. */
  function ParseNat(s: string): nat
    requires AllDigits(s)
    decreases |s|
  {
    if |s| == 0 then 0 else 10 * ParseNat(s[..|s| - 1]) + DigitValue(s[|s| - 1])
  }

  /** Value of an optionally signed decimal integer; None when malformed. */
  function ParseInt(s: string): Option<int> {
    if 2 <= |s| && s[0] == '-' && AllDigits(s[1..]) then Some(0 - ParseNat(s[1..]) as int)
    else if 1 <= |s| && AllDigits(s) then Some(ParseNat(s))
    else None
  }

  lemma {:induction false} ParseNatToString(n: nat)
    ensures ParseNat(NatToString(n)) == n
    decreases n
  {
    if n < 10 {
      DigitRoundTrip(n);
    } else {
      var s := NatToString(n);
      assert s == NatToString(n / 10) + [DigitChar(n % 10)];
      assert s[..|s| - 1] == NatToString(n / 10);
      ParseNatToString(n / 10);
      DigitRoundTrip(n % 10);
    }
  }

  lemma ParseNegative(n: int)
    requires n < 0
    ensures ParseInt(IntToString(n)) == Some(n)
  {
    var d := NatToString(-n);
    ParseNatToString(-n);
    ParseSigned(d, -n);
    assert IntToString(n) == "-" + d;
  }

  /** A minus sign followed by the digits of `m` parses as `-m`. */
  lemma ParseSigned(d: string, m: nat)
    requires 1 <= |d| && AllDigits(d) && ParseNat(d) == m
    ensures ParseInt("-" + d) == Some(-(m as int))
  {
    var s := "-" + d;
    assert s[0] == '-' && s[1..] == d;
  }

  lemma ParseNonNegative(n: int)
    requires n >= 0
    ensures ParseInt(IntToString(n)) == Some(n)
  {
    var s := IntToString(n);
    assert s == NatToString(n);
    ParseNatToString(n);
    assert IsDigit(s[0]);
  }

  /** Rendering a number and reading it back gives the number. */
  lemma ParseIntToString(n: int)
    ensures ParseInt(IntToString(n)) == Some(n)
  {
    if n < 0 {
      ParseNegative(n);
    } else {
      ParseNonNegative(n);
    }
  }

  /** Distinct numbers render differently. */
  lemma IntToStringInjective(a: int, b: int)
    requires IntToString(a) == IntToString(b)
    ensures a == b
  {
    ParseIntToString(a);
    ParseIntToString(b);
  }

  /** `s.startsWith(p)`. */
  predicate StartsWith(s: string, p: string) {
    |p| <= |s| && s[..|p|] == p
  }

  lemma StartsWithConcat(p: string, r: string)
    ensures StartsWith(p + r, p)
  {
    assert (p + r)[..|p|] == p;
  }

  /** `s.indexOf(c)`: the first position of `c`, or -1. */
  function IndexOf(s: string, c: char): (r: int)
    ensures -1 <= r < |s|
    ensures r == -1 <==> c !in s
    ensures 0 <= r ==> s[r] == c && c !in s[..r]
    decreases |s|
  {
    if |s| == 0 then -1
    else if s[0] == c then 0
    else
      var k := IndexOf(s[1..], c);
      assert s == [s[0]] + s[1..];
      if k == -1 then -1
      else
        assert s[..k + 1] == [s[0]] + s[1..][..k];
        k + 1
  }

  /** `s.slice(0, n)` for n >= 0. */
  function Take(s: string, n: nat): (r: string)
    ensures |r| <= n && StartsWith(s, r)
  {
    if |s| <= n then s else s[..n]
  }

  /** `c.toLowerCase()` restricted to ASCII letters. */
  function LowerChar(c: char): char {
    if 'A' <= c <= 'Z' then (c as int + 32) as char else c
  }

  /** `s.toLowerCase()` restricted to ASCII letters. */
  function ToLower(s: string): (r: string)
    ensures |r| == |s|
    ensures forall i :: 0 <= i < |s| ==> r[i] == LowerChar(s[i])
    decreases |s|
  {
    if |s| == 0 then "" else [LowerChar(s[0])] + ToLower(s[1..])
  }

  /** The text after the last `sep`: `s.split(sep).pop()`. */
  function LastSegment(s: string, sep: char): (r: string)
    ensures sep !in r
    ensures |r| <= |s| && r == s[|s| - |r|..]
    decreases |s|
  {
    if |s| == 0 then ""
    else if s[|s| - 1] == sep then ""
    else LastSegment(s[..|s| - 1], sep) + [s[|s| - 1]]
  }

  /** JavaScript's `a < b` on strings: lexicographic by code unit. */
  predicate LexLess(a: string, b: string)
    decreases |a|
  {
    if |b| == 0 then false
    else if |a| == 0 then true
    else if a[0] != b[0] then a[0] < b[0]
    else LexLess(a[1..], b[1..])
  }

  /** `!(b < a)`: `a` is at most `b`. */
  predicate LexLe(a: string, b: string) {
    !LexLess(b, a)
  }

  lemma LexLessIrreflexive(a: string)
    ensures !LexLess(a, a)
    decreases |a|
  {
    if |a| > 0 {
      LexLessIrreflexive(a[1..]);
    }
  }

  lemma LexLessTransitive(a: string, b: string, c: string)
    requires LexLess(a, b) && LexLess(b, c)
    ensures LexLess(a, c)
    decreases |a|
  {
    if |a| > 0 && a[0] == b[0] && b[0] == c[0] {
      LexLessTransitive(a[1..], b[1..], c[1..]);
    }
  }

  lemma LexLessTrichotomy(a: string, b: string)
    ensures LexLess(a, b) || a == b || LexLess(b, a)
    decreases |a|
  {
    if |a| > 0 && |b| > 0 && a[0] == b[0] {
      LexLessTrichotomy(a[1..], b[1..]);
      if a[1..] == b[1..] {
        assert a == [a[0]] + a[1..] && b == [b[0]] + b[1..];
      }
    }
  }

  lemma LexLeTotal(a: string, b: string)
    ensures LexLe(a, b) || LexLe(b, a)
  {
    LexLessTrichotomy(a, b);
    if a == b {
      LexLessIrreflexive(a);
    } else if LexLess(a, b) && LexLess(b, a) {
      LexLessTransitive(a, b, a);
      LexLessIrreflexive(a);
    }
  }

  lemma LexLeTransitive(a: string, b: string, c: string)
    requires LexLe(a, b) && LexLe(b, c)
    ensures LexLe(a, c)
  {
    LexLessTrichotomy(a, b);
    LexLessTrichotomy(b, c);
    if LexLess(c, a) {
      if a == b {
      } else if b == c {
      } else {
        LexLessTransitive(c, a, b);
      }
    }
  }

  /** A common prefix keeps the order of what follows it. */
  lemma {:induction false} LexLessAfterPrefix(p: string, a: string, b: string)
    requires LexLess(a, b)
    ensures LexLess(p + a, p + b)
    decreases |p|
  {
    if |p| == 0 {
      assert p + a == a && p + b == b;
    } else {
      assert (p + a)[1..] == p[1..] + a && (p + b)[1..] == p[1..] + b;
      LexLessAfterPrefix(p[1..], a, b);
    }
  }

  lemma LexLeAntisymmetric(a: string, b: string)
    requires LexLe(a, b) && LexLe(b, a)
    ensures a == b
  {
    LexLessTrichotomy(a, b);
  }
}

=== FILE: wrappers.dfy ===
/** Failure-compatible wrappers used throughout the model: `Option` for the
    source's `null`/`undefined` and `Result` for a thrown error or rejected
    promise. */
module Wrappers {

  /** A value that may be absent (`null` or `undefined` in the source). */
  datatype Option<+T> = None | Some(value: T) {

    /** The value, or `default` when absent (the source's `??`). */
    function GetOr(default: T): T {
      match this
      case Some(v) => v
      case None => default
    }

    predicate IsFailure() {
      None?
    }

    function PropagateFailure<U>(): Option<U>
      requires None?
    {
      None
    }

    function Extract(): T
      requires Some?
    {
      value
    }
  }

  /** A computation that either returns a value or throws an error. */
  datatype Result<+R, +E> = Success(value: R) | Failure(error: E) {

    predicate IsFailure() {
      Failure?
    }

    function PropagateFailure<U>(): Result<U, E>
      requires Failure?
    {
      Failure(error)
    }

    function Extract(): R
      requires Success?
    {
      value
    }
  }

  /** The unit value, for operations that succeed without a result. */
  datatype Unit = Unit
}
